=== FILE: README.md ===
# Tutera Home, modelled in Dafny

Tutera Home is a web app for a Crestron home-automation processor. It lists
and drives lights, thermostats, media rooms, scenes, shades and locks, and it
takes spoken-style commands ("turn off the upstairs lights") through an AI
command modal. Below the pages sits a layer of plain, sequential logic, and
this project models that layer:

- the command processor's fuzzy name matching, its device selection by area,
  room and name hints, its reply sentences and its undo snapshots;
- the client stores:
  - the device cache: optimistic patches, the poll merge, the
    refresh-and-retry rule, thermostat pairing and floor-heat coupling, and
    area edits;
  - the connection and auth store;
  - the command-suggestion store;
  - the polling settings;
  - the weather store;
- the server routes, each modelled as a function from headers, body and the
  controller's reply to an answer:
  - devices, rooms, scenes, media and audio zones;
  - the allowed-users table;
  - the OpenID Connect callback;
  - network information;
  - the e-mail allowlist and session lifetime of the auth library;
- the view-model logic of three components: the AI command modal's submit
  and undo handlers, the lights page grouped by room, and the media zone card.

Store actions are pure functions from state to state. Everything the
program receives from outside becomes a parameter of the function that uses
it: replies from the controller, the OpenID provider or the database, the
clock (`now`), generated ids, and what a write did. A JavaScript value that
may be missing is an `Option`, and its truthiness is `Truthy`.
`localeCompare` and the float recency score are abstract integer ranks.
`Array.prototype.sort` is the stable `Sorting.SortByKey`.

Mostly one module per source file (or per component), plus four shared ones:

- `Common` holds options, strings, filters and number text.
- `Sorting` holds the stable sort.
- `Devices` holds the device records and their patches.
- `Routes` holds what every route shares: the auth header check, the answer
  shape, id stringification and the "array or keyed field" extraction.

The device store (src/stores/deviceStore.ts) is split in four: `DeviceStore` (the
state and the plain actions), `DeviceSync` (the poll and its merge),
`ThermostatControl` and `AreaEdits`.

## Model

| member | source | states |
|---|---|---|
| `CommandProcessor.AnyAltIn` | src/lib/ai/command-processor.ts:70 | some alternative of the list occurs in the input, exactly when the `some` test holds |
| `CommandProcessor.Normalize` | src/lib/ai/command-processor.ts:47-48 | the compared form of a name is trimmed, holds no capital letter, is no longer than the name, and normalising it again changes nothing |
| `CommandProcessor.ScanVariationsIff` | src/lib/ai/command-processor.ts:58-72 | the loop over the variation table succeeds exactly when some canonical name occurs in the target and one of its alternatives occurs in the input |
| `CommandProcessor.FuzzyMatchIff` | src/lib/ai/command-processor.ts:46-75 | after lower-casing and trimming, equal names match; a match holds exactly when either name contains the other or the alias rule fires |
| `CommandProcessor.BlankInputMatchesEverything` | src/lib/ai/command-processor.ts:54 | an input that trims to nothing matches every name, since every name contains the empty string |
| `CommandProcessor.AliasForward` | src/lib/ai/command-processor.ts:59-71 | "upstairs" matches a target named "2nd floor" through the alias table |
| `CommandProcessor.AliasOneWay` | src/lib/ai/command-processor.ts:58-74 | "2nd floor" does not match a target named "upstairs": the alias rule only looks for canonical names in the target |
| `CommandProcessor.NoCanonicalNameInUpstairs` | src/lib/ai/command-processor.ts:58-72 | no canonical place name occurs in "upstairs", so the variation loop finds no alias for that target |
| `CommandProcessor.FindNamed` | src/lib/ai/command-processor.ts:78-89 | nothing for an absent or empty hint; otherwise the first element in list order whose name fuzzy-matches, and nothing exactly when none does |
| `CommandProcessor.FindArea` | src/lib/ai/command-processor.ts:78-84 | an area is found only for a non-empty hint and fuzzy-matches it; nothing exactly when the hint is empty or no area matches |
| `CommandProcessor.FindRoom` | src/lib/ai/command-processor.ts:86-92 | a room is found only for a non-empty hint and fuzzy-matches it; nothing exactly when the hint is empty or no room matches |
| `CommandProcessor.RoomById` | src/lib/ai/command-processor.ts:108 | the room found has the given id, and nothing is found exactly when no room has it |
| `CommandProcessor.UnresolvedRoomHasNoNamedRoom` | src/lib/ai/command-processor.ts:106-111 | when the room hint resolves to no room, no device's room can fuzzy-match the hint, so the fallback filter selects nothing |
| `CommandProcessor.FindScene` | src/lib/ai/command-processor.ts:229-249 | the scene found is listed and matches the name; nothing exactly when no scene matches; when the hinted room resolves and holds a matching scene, the result is the first such scene in list order, otherwise the first scene in list order whose name matches |
| `CommandProcessor.SceneInHintedRoom` | src/lib/ai/command-processor.ts:236-245 | a scene is found in the hinted room exactly when the hint resolves to a room holding a matching scene, and then it is the first such scene in list order |
| `CommandProcessor.LightsByName` | src/lib/ai/command-processor.ts:126-131 | an order-preserving selection holding exactly the lights that pass the optional name filter |
| `CommandProcessor.LightsByPlace` | src/lib/ai/command-processor.ts:101-124 | the lights narrowed by room, or else by area, are an order-preserving selection of all lights |
| `CommandProcessor.GetMatchingLights` | src/lib/ai/command-processor.ts:94-134 | an order-preserving selection of the lights, each passing the name filter |
| `CommandProcessor.LightsOfResolvedRoom` | src/lib/ai/command-processor.ts:103-105 | a resolved room hint selects exactly that room's lights that pass the name filter |
| `CommandProcessor.LightsOfUnresolvedRoom` | src/lib/ai/command-processor.ts:106-112 | a room hint that resolves to no room selects no light |
| `CommandProcessor.LightsOfArea` | src/lib/ai/command-processor.ts:115-123 | without a room hint, a resolved area selects exactly the lights with a truthy room id listed by the area that pass the name filter |
| `CommandProcessor.LightsWithoutPlace` | src/lib/ai/command-processor.ts:115-131 | with no usable place hint only the name filter applies |
| `CommandProcessor.ThermostatsForRoom` | src/lib/ai/command-processor.ts:146-168 | the room strategies pick an order-preserving selection of the thermostats (each strategy is pinned by the lemmas below) |
| `CommandProcessor.ThermostatsForArea` | src/lib/ai/command-processor.ts:171-183 | the area strategies pick an order-preserving selection of the thermostats (each strategy is pinned by the lemmas below) |
| `CommandProcessor.GetMatchingThermostats` | src/lib/ai/command-processor.ts:139-190 | the thermostats picked are an order-preserving selection of all thermostats |
| `CommandProcessor.ThermostatsOfRoomRelated` | src/lib/ai/command-processor.ts:146-164 | every thermostat picked for a room hint is related to it by room id, by its room's name or by its own name |
| `CommandProcessor.ThermostatsOfRoomEmptyIff` | src/lib/ai/command-processor.ts:146-167 | a room hint picks nothing exactly when no thermostat is related to it by any strategy; it never falls back to all |
| `CommandProcessor.ThermostatsOfResolvedRoom` | src/lib/ai/command-processor.ts:148-152 | when the resolved room has thermostats, exactly the thermostats carrying its id are picked, in their order |
| `CommandProcessor.ThermostatsOfRoomByRoomName` | src/lib/ai/command-processor.ts:154-159 | when no thermostat carries the resolved room's id but some thermostat's own room fuzzy-matches the hint, exactly those thermostats are picked, in their order |
| `CommandProcessor.ThermostatsOfRoomByName` | src/lib/ai/command-processor.ts:160-167 | when neither the room id nor any thermostat's room name matches, exactly the thermostats whose own name fuzzy-matches the hint are picked, possibly none |
| `CommandProcessor.ThermostatsOfArea` | src/lib/ai/command-processor.ts:171-179 | without a room hint, an area with thermostats in its rooms picks exactly those, in their order |
| `CommandProcessor.ThermostatsOfAreaByName` | src/lib/ai/command-processor.ts:180-183 | without a room hint, an area whose rooms hold no thermostat picks exactly the thermostats named like the area, when there is one |
| `CommandProcessor.ThermostatsFallBackToAll` | src/lib/ai/command-processor.ts:171-189 | without a room hint, an unresolved area selects every thermostat |
| `CommandProcessor.GetMatchingMediaRooms` | src/lib/ai/command-processor.ts:193-226 | the media rooms picked are an order-preserving selection of all media rooms |
| `CommandProcessor.MediaRoomsOfResolvedRoom` | src/lib/ai/command-processor.ts:201-205 | a resolved room hint selects exactly the media rooms in that room |
| `CommandProcessor.MediaRoomsOfUnresolvedRoom` | src/lib/ai/command-processor.ts:206-209 | a room hint that resolves to no room selects no media room |
| `CommandProcessor.MediaRoomsOfArea` | src/lib/ai/command-processor.ts:213-225 | without a room hint, a resolved area selects the media rooms of its rooms, and an unresolved one selects all |
| `CommandProcessor.Plural` | src/lib/ai/command-processor.ts:333 | the noun takes "s" exactly when the count is not one |
| `CommandProcessor.LightTarget` | src/lib/ai/command-processor.ts:259-271 | a light reply names "name in room", then the name, the room, the area, or "the whole house", in that order of preference |
| `CommandProcessor.LightResponse` | src/lib/ai/command-processor.ts:254-317 | the light reply is a non-empty sentence ending in a full stop |
| `CommandProcessor.LightSwitchReply` | src/lib/ai/command-processor.ts:277-310 | when something matched and something changed, "on" says "Turned on" and "off" says "Turned off", followed by the one light's name when exactly one matched, otherwise "N of M lights in" the target |
| `CommandProcessor.LightSingleReply` | src/lib/ai/command-processor.ts:277-289 | with one light matched and changed, a brightness command names that light and its level and any other action says "Updated" and the name |
| `CommandProcessor.LightCountedReply` | src/lib/ai/command-processor.ts:311-316 | otherwise a brightness command counts the changed lights in the target with the level, and any other action says "Updated" with that count and the target |
| `CommandProcessor.ClimateResponse` | src/lib/ai/command-processor.ts:319-344 | the climate reply is a non-empty sentence ending in a full stop |
| `CommandProcessor.MediaResponse` | src/lib/ai/command-processor.ts:346-384 | the media reply is a non-empty sentence ending in a full stop |
| `CommandProcessor.PlaceTarget` | src/lib/ai/command-processor.ts:324 | a climate or media reply names the room, else the area, else "the whole house" |
| `CommandProcessor.LightAlreadyIff` | src/lib/ai/command-processor.ts:294-305 | for an on or off command that matched lights, the reply is exactly "All <matched> lights in <target> were already on/off." when none changed, and begins with "All " only then |
| `CommandProcessor.LightNotFoundIff` | src/lib/ai/command-processor.ts:291-293 | a light reply starts with the "couldn't find" sentence exactly when nothing matched |
| `CommandProcessor.ClimateNotFoundIff` | src/lib/ai/command-processor.ts:327-329 | a climate reply starts with the "couldn't find" sentence exactly when nothing matched |
| `CommandProcessor.MediaNotFoundIff` | src/lib/ai/command-processor.ts:354-356 | a media reply starts with the "couldn't find" sentence exactly when nothing matched |
| `CommandProcessor.ClimateSingularIff` | src/lib/ai/command-processor.ts:331-336 | for temperature and mode commands the noun "thermostat" is singular exactly when one thermostat changed |
| `CommandProcessor.MediaSingularIff` | src/lib/ai/command-processor.ts:358-375 | for the counted media commands the noun "media room" is singular exactly when one media room changed |
| `CommandProcessor.CaptureLightSnapshots` | src/lib/ai/command-processor.ts:528-540 | one snapshot per light, in order, with its id, the light tag and its level and on state |
| `CommandProcessor.CaptureThermostatSnapshots` | src/lib/ai/command-processor.ts:542-556 | one snapshot per thermostat, in order, with its id, the thermostat tag and its mode, both set points and fan mode |
| `CommandProcessor.CaptureMediaRoomSnapshots` | src/lib/ai/command-processor.ts:558-569 | one snapshot per media room, in order, with its id, the media tag and its power, volume, mute and current provider |
| `DeviceStore.ClearAll` | src/stores/deviceStore.ts:126-142 | every device collection is emptied, loading is off, the error and last-update time are cleared |
| `DeviceStore.UpdateLight` | src/stores/deviceStore.ts:105-110 | every light with the id gets the patch merged in; length, order, ids and all other lights and collections are unchanged |
| `DeviceStore.UpdateThermostat` | src/stores/deviceStore.ts:112-117 | every thermostat with the id gets the patch merged in; everything else is unchanged |
| `DeviceStore.UpdateDoorLock` | src/stores/deviceStore.ts:119-124 | every door lock with the id gets the patch merged in; everything else is unchanged |
| `DeviceStore.UpdateLightIdempotent` | src/stores/deviceStore.ts:105-110 | applying the same light patch twice is the same as applying it once |
| `DeviceStore.UpdateThermostatIdempotent` | src/stores/deviceStore.ts:112-117 | applying the same thermostat patch twice is the same as applying it once |
| `DeviceStore.LightRestorePatch` | src/lib/ai/command-processor.ts:533-536 | the patch that writes a light snapshot back sets exactly the level and on state it recorded |
| `DeviceStore.ThermostatRestorePatch` | src/lib/ai/command-processor.ts:547-552 | the patch that writes a thermostat snapshot back sets exactly the mode, set points and fan mode it recorded |
| `DeviceStore.RestoreLightSnapshot` | src/lib/ai/command-processor.ts:528-540 | undo round trip: whatever patch was applied to a light, writing back the snapshot taken before restores the store exactly (ids unique) |
| `DeviceStore.RestoreThermostatSnapshot` | src/lib/ai/command-processor.ts:542-556 | the same round trip for a thermostat |
| `DeviceStore.LightStatePatch` | src/stores/deviceStore.ts:470-475 | no patch when neither level nor on state is given; a level sets on exactly when it is positive; an on state alone sets the level to 65535 or 0 |
| `DeviceStore.SetLightState` | src/stores/deviceStore.ts:466-492 | the optimistic patch is applied; the result is the reply's success, and the lights are re-read exactly when it failed |
| `DeviceStore.SetLightStateConsistent` | src/stores/deviceStore.ts:470-475 | after a light command with a level or an on state, the light's on flag agrees with its level |
| `DeviceStore.SetThermostatSetPoint` | src/stores/deviceStore.ts:510-531 | only the given set points are patched; the result is the reply's success |
| `DeviceStore.SetThermostatMode` | src/stores/deviceStore.ts:533-550 | only the mode is patched; the result is the reply's success |
| `DeviceStore.SetDoorLockState` | src/stores/deviceStore.ts:799-817 | only the lock state is patched; the result is the reply's success |
| `AreaEdits.Without` | src/stores/deviceStore.ts:909 | the room ids without the given one, in order, and nothing else dropped |
| `AreaEdits.MoveInAreas` | src/stores/deviceStore.ts:906-916 | ids and names kept; the source area loses the room; otherwise the target area gains it at the end; other areas unchanged |
| `AreaEdits.MoveRoom` | src/stores/deviceStore.ts:919-929 | only the moved room changes: no area for the unassigned pseudo-area, else the target id and the target's name when it is known |
| `AreaEdits.MoveRoomToArea` | src/stores/deviceStore.ts:897-954 | the cache is edited at once; the result is the reply's success, and a full poll follows exactly when it failed |
| `AreaEdits.MoveBetweenAreas` | src/stores/deviceStore.ts:906-916 | between two different areas, the target lists the room afterwards and the source does not |
| `AreaEdits.MoveIntoSameAreaDropsRoom` | src/stores/deviceStore.ts:906-916 | moving a room into the area it is already in drops it from that area and never adds it back |
| `AreaEdits.DeleteArea` | src/stores/deviceStore.ts:980-1008 | on success the areas are those with another id, in order, and a full poll follows; on failure the old list is back |
| `DeviceSync.ArrayOrKeyed` | src/stores/deviceStore.ts:200-205 | a failed answer gives nothing; an array answer is taken as is; an object gives its keyed field, or nothing when that is missing |
| `DeviceSync.ArrayOnly` | src/stores/deviceStore.ts:207 | only a successful answer that is an array counts, and it is taken as is |
| `DeviceSync.LightsOf` | src/stores/deviceStore.ts:206 | the lights of a successful devices answer with data, else none |
| `DeviceSync.AreaNameById` | src/stores/deviceStore.ts:253-256 | the id-to-name lookup finds a name exactly when some area has the id, and the name is that of the last such area |
| `DeviceSync.EnrichRoom` | src/stores/deviceStore.ts:261-273 | id, name and area id kept; a truthy area name kept, else looked up by a truthy area id, else none |
| `DeviceSync.EnrichRooms` | src/stores/deviceStore.ts:260-275 | every fetched room enriched, in order |
| `DeviceSync.AreasFromRoomsGroups` | src/stores/deviceStore.ts:280-296 | the grouping loop builds exactly one area per area id named by a placed room, holding the ids of the rooms that name it in room order, named after the first of them |
| `DeviceSync.GroupStepSkips` | src/stores/deviceStore.ts:283 | a room without both area fields leaves the grouping unchanged and correct |
| `DeviceSync.GroupStepOpens` | src/stores/deviceStore.ts:284-291 | a room naming an area not seen yet opens that area, and the grouping stays correct |
| `DeviceSync.GroupStepFiles` | src/stores/deviceStore.ts:291 | a room naming an area already seen is appended to it, and the grouping stays correct |
| `DeviceSync.RoomIdsInWitness` | src/stores/deviceStore.ts:283-291 | an area id with rooms filed under it is named by some placed room |
| `DeviceSync.FirstAreaNameWitness` | src/stores/deviceStore.ts:285-289 | an area id with a name is named by some placed room |
| `DeviceSync.MergeRoomIds` | src/stores/deviceStore.ts:299-304 | ids and names kept; a fetched area takes the room list of the rebuilt area with its id, else keeps its own |
| `DeviceSync.ResolveAreas` | src/stores/deviceStore.ts:244-308 | fetched areas are kept when one lists rooms or no room was fetched; else rebuilt from rooms, merged into the fetched areas when there are some |
| `DeviceSync.RebuiltAreasFollowRooms` | src/stores/deviceStore.ts:278-308 | when no fetched area lists rooms, each stored area gets exactly the ids of the placed rooms that name it, or keeps its own list because no room names it |
| `DeviceSync.PollErrors` | src/stores/deviceStore.ts:354-358 | at most three error texts, none empty |
| `DeviceSync.PollErrorsListed` | src/stores/deviceStore.ts:354-358 | the error list is the candidate list of the three answers with its falsy entries filtered out: one message per failed answer that carries one, rooms first, then devices, then scenes |
| `DeviceSync.Keep` | src/stores/deviceStore.ts:317-343 | a cached collection is replaced only by a non-empty fetched one |
| `DeviceSync.JoinErrors` | src/stores/deviceStore.ts:360-361 | the joined text starts with the first part followed by "; " when there are more, and is empty only for no parts when no part is empty |
| `DeviceSync.JoinErrorsEndsWithLast` | src/stores/deviceStore.ts:360-361 | the joined text ends with the last part |
| `DeviceSync.JoinErrorsUpToThree` | src/stores/deviceStore.ts:354-361 | one, two and three failure texts join to `a`, `a; b` and `a; b; c` |
| `DeviceSync.MergePoll` | src/stores/deviceStore.ts:229-362 | loading off and last update set to now; errors joined; rooms enriched and replaced only when some were fetched; areas resolved and stored only when non-empty; each device list and the scenes replaced only by a non-empty one; merged rooms replaced by any array |
| `DeviceSync.FetchAllData` | src/stores/deviceStore.ts:178-368 | nothing happens while loading; the session is refreshed at most once, exactly when every answer is empty on a first call with no refresh in flight, never on a retry; loading ends off; a poll that throws keeps the cache and records the thrown message or "Failed to fetch data"; a poll that completes without a refresh is exactly the merge of `MergePoll` |
| `DeviceSync.SkipWhileLoading` | src/stores/deviceStore.ts:182-184 | while a load is in flight a poll leaves the cache as it is |
| `DeviceSync.RefreshFailureKeepsCache` | src/stores/deviceStore.ts:213-226 | a failed refresh sets "Session expired. Please log in again." and keeps every cached collection |
| `DeviceSync.RefreshSuccessRetriesOnce` | src/stores/deviceStore.ts:220-222 | after a successful refresh the result is that of a retry poll on the refreshed session, and the retry does not refresh again |
| `DeviceSync.EmptyAnswersKeepCache` | src/stores/deviceStore.ts:310-343 | a poll that does not refresh never empties a non-empty cached collection, and records the time |
| `ThermostatControl.RoomOrder` | src/stores/deviceStore.ts:557-564 | the distinct, non-empty room ids of the thermostats that have one, each once, in the order the grouping map first sees them |
| `ThermostatControl.RoomName` | src/stores/deviceStore.ts:570-571 | the first room with the id names the pair when its name is non-empty; otherwise "Room <id>" |
| `ThermostatControl.PairFor` | src/stores/deviceStore.ts:573-593 | the main unit is the room's first unit that is not floor heat and the floor heat its first floor-heat unit; with floor heat only, that unit is the main and there is no floor heat |
| `ThermostatControl.GetThermostatPairs` | src/stores/deviceStore.ts:553-597 | one pair per room id in order of first appearance, each main a thermostat of that room, named as `RoomName` says |
| `ThermostatControl.PairsCoverRooms` | src/stores/deviceStore.ts:559-564 | no room gets two pairs, every thermostat with a room id has its room's pair, and thermostats without one are never paired |
| `ThermostatControl.PairRoles` | src/stores/deviceStore.ts:574-593 | each pair's main and floor heat are chosen from its room's units as `PairFor` states |
| `ThermostatControl.FloorHeatMode` | src/stores/deviceStore.ts:610 | floor heat is heat exactly when the requested mode is heat, and off otherwise |
| `ThermostatControl.SetRoomThermostatMode` | src/stores/deviceStore.ts:600-643 | the main unit takes the mode and a named floor heat takes heat or off; the main request goes first and the floor request only when the main one did not throw; success needs both answers to succeed |
| `ThermostatControl.RoomModeCouplesFloorHeat` | src/stores/deviceStore.ts:610-616 | afterwards the floor heat is in heat exactly when the room mode is heat, and otherwise off |
| `ThermostatControl.SetFloorHeatMode` | src/stores/deviceStore.ts:646-690 | the floor heat takes heat or off; only heat also puts a named main unit into heat, with a second request sent after the first one answered |
| `ThermostatControl.FloorHeatOffLeavesMain` | src/stores/deviceStore.ts:660-663 | switching floor heat to anything but heat leaves the main unit as it was |
| `ThermostatControl.PatchTwice` | src/stores/deviceStore.ts:112-117 | a thermostat patch applied twice is the same as once |
| `ThermostatControl.PatchEachSpec` | src/stores/deviceStore.ts:702-711 | patching each listed id in turn patches exactly the units whose id is listed, and nothing else |
| `ThermostatControl.Ids` | src/stores/deviceStore.ts:717 | the units' ids, in order |
| `ThermostatControl.SetPointPayload` | src/stores/deviceStore.ts:739-743 | heat mode writes only the heat set point, cool mode only the cool one, any other case both |
| `ThermostatControl.ModeRequests` | src/stores/deviceStore.ts:716-730 | one mode request per unit, in order |
| `ThermostatControl.SetPointRequests` | src/stores/deviceStore.ts:745-759 | one set-point request per unit, in order, with the payload |
| `ThermostatControl.AllAnswered` | src/stores/deviceStore.ts:716-730 | every unit's request answered without throwing |
| `ThermostatControl.AllSucceeded` | src/stores/deviceStore.ts:761 | every unit's request answered with success |
| `ThermostatControl.SetAllThermostatsTemp` | src/stores/deviceStore.ts:694-765 | every unit takes the temperature as both set points, and the mode when given; the mode round goes first and a thrown mode request stops the set points; the result is that every set point succeeded |
| `ThermostatControl.ShutOffIds` | src/stores/deviceStore.ts:772-781 | the floor-heat ids listed are exactly those of pairs with floor heat, both units heating and the main satisfied |
| `ThermostatControl.CheckTemperatureSatisfaction` | src/stores/deviceStore.ts:768-797 | exactly the listed floor-heat units are set to off, one mode request each; nothing else changes |
| `ThermostatControl.ShutOffOnlyWhenSatisfied` | src/stores/deviceStore.ts:774-784 | a unit changes only if it is the floor heat of a pair whose main is heating and satisfied while the floor heat is heating too |
| `AuthStore.SetConnection` | src/stores/authStore.ts:40-50 | connected, not connecting or refreshing, no error; the address and key stored; a falsy token keeps the previous one; the env flag is ORed with the stored one |
| `AuthStore.SetConnecting` | src/stores/authStore.ts:52 | only the connecting flag changes, to the value given |
| `AuthStore.SetError` | src/stores/authStore.ts:56-60 | the error is stored and any connection attempt ends; nothing else changes |
| `AuthStore.Disconnect` | src/stores/authStore.ts:62-72 | every field is reset |
| `AuthStore.InvalidateAuth` | src/stores/authStore.ts:74-80 | not connected, not refreshing, no key; the address, token, env flag, connecting flag and error are kept |
| `AuthStore.GetAuthHeaders` | src/stores/authStore.ts:82-91 | empty unless both the address and the key are truthy; otherwise exactly the two x- headers carrying them |
| `AuthStore.Login` | src/stores/authStore.ts:107-134 | connects exactly when the reply has success and a key; otherwise records the reply's error, "Failed to connect" or the thrown message, keeping the connection flag; never left connecting |
| `AuthStore.LoginSignsAndReplays` | src/stores/authStore.ts:107-159 | after an accepted login the requests carry the new key and a refresh would send the same address and token again; a refused login leaves the signing as it was |
| `AuthStore.RefreshRequest` | src/stores/authStore.ts:141-159 | a request is sent exactly when there is an address and a token or the env flag; it omits the stored token when the env flag is set |
| `AuthStore.RefreshAuth` | src/stores/authStore.ts:137-177 | without credentials it invalidates and fails with no request; it succeeds exactly when the reply has success and a key; any other outcome invalidates, and a refused reply sets "Session expired. Please log in again." |
| `AuthStore.RefreshFailureKeepsRequest` | src/stores/authStore.ts:74-80 | a failed refresh keeps what is needed to try again: the next refresh sends the same request |
| `AuthStore.RefreshSuccessSignsRequests` | src/stores/authStore.ts:163-165 | after a successful refresh the store signs controller requests again, with the new key |
| `AuthStore.InvalidatedIsUnsigned` | src/stores/authStore.ts:62-91 | after invalidation no request is signed, and after disconnect no refresh is possible |
| `SuggestionStore.IgnoredIffShort` | src/stores/suggestionStore.ts:71-76 | a command is skipped exactly when its normalised form is shorter than five characters: every stop word is that short already |
| `SuggestionStore.NormalizeCommand` | src/stores/suggestionStore.ts:50-52 | a command's normal form is trimmed, holds no capital letter, is no longer than the command, and normalising it again changes nothing |
| `SuggestionStore.Bump` | src/stores/suggestionStore.ts:86-90 | every entry whose normalised command matches gets one more use and the new time; the others and the order are unchanged |
| `SuggestionStore.RecordCommand` | src/stores/suggestionStore.ts:70-107 | only the frequent list changes; an ignored command changes nothing; a known command is bumped; a new one is added with count 1, the list sorted by count, most used first, and cut to fifty |
| `SuggestionStore.RecordKnownCommand` | src/stores/suggestionStore.ts:83-91 | recording a command already listed, ignoring case and surrounding space, adds one to its count and keeps the length |
| `SuggestionStore.RecordNewCommand` | src/stores/suggestionStore.ts:92-104 | recording a new command leaves the list ordered by count, descending, one longer up to fifty, and holding the new command with count 1 unless the list was full |
| `SuggestionStore.FullListDropsNewCommand` | src/stores/suggestionStore.ts:94-104 | once fifty commands are listed, a new command never gets in: the stable sort puts it last and the cut drops it |
| `SuggestionStore.RecordActivity` | src/stores/suggestionStore.ts:109-116 | the new activity comes first, followed by the older ones, at most twenty in all |
| `SuggestionStore.Present` | src/stores/suggestionStore.ts:126 | the non-empty values present |
| `SuggestionStore.RecentActivities` | src/stores/suggestionStore.ts:120-123 | exactly the activities newer than five minutes before now |
| `SuggestionStore.Field` | src/stores/suggestionStore.ts:126-128 | one field of each activity, in order |
| `SuggestionStore.Values` | src/stores/suggestionStore.ts:126-128 | the distinct non-empty values of one field, each once |
| `SuggestionStore.GetRecentContext` | src/stores/suggestionStore.ts:118-131 | the rooms, areas and actions are exactly the non-empty values of the last five minutes' activities, each listed once |
| `SuggestionStore.Commands` | src/stores/suggestionStore.ts:154 | the commands of the entries, in order |
| `SuggestionStore.TopFrequent` | src/stores/suggestionStore.ts:147-154 | at most `limit` commands and no more than are listed; they are the commands of the best-scored usages, best first |
| `SuggestionStore.TopUsages` | src/stores/suggestionStore.ts:147-154 | as many usages as the limit allows, each a listed usage, ordered by descending score, and none left out scores higher than one kept |
| `SuggestionStore.BestFirst` | src/stores/suggestionStore.ts:153-154 | the first `k` usages after sorting by descending score are ordered, drawn from the list, and scored at least as high as every usage left out |
| `SuggestionStore.TopUsagesStable` | src/stores/suggestionStore.ts:153-154 | among usages of equal score, those kept are the first ones in list order, in that order, since the sort is stable |
| `SuggestionStore.GetTopSuggestions` | src/stores/suggestionStore.ts:133-169 | at most `limit` items: the assistant's suggestions if any; else the top frequent commands followed by the defaults they do not already cover, cut at the limit; else the defaults |
| `SuggestionStore.SuggestionsFromOneSource` | src/stores/suggestionStore.ts:133-169 | every suggestion shown comes from the source that has priority |
| `SuggestionStore.SetContextualSuggestions` | src/stores/suggestionStore.ts:62-64 | only the assistant's suggestions change |
| `SuggestionStore.ResetFrequentCommands` | src/stores/suggestionStore.ts:171-173 | the frequent, contextual and recent lists are emptied and the defaults kept |
| `SuggestionStore.ResetShowsDefaults` | src/stores/suggestionStore.ts:167-173 | after a reset the defaults are what is suggested |
| `PollingStore.Set` | src/stores/pollingStore.ts:59-65 | the chosen setting is stored raised to its floor (one second for an interval, ten for a threshold); every other setting is unchanged; valid settings stay valid |
| `PollingStore.Get` | src/stores/pollingStore.ts:21-32 | each setting of valid settings is at least its floor: one second for an interval, ten for a threshold |
| `PollingStore.ResetToDefaults` | src/stores/pollingStore.ts:7-19 | the settings are the defaults (3, 10, 60 and 1800 seconds; thresholds 60, 300 and 600), which are valid |
| `PollingStore.GetPollingSettingsMs` | src/stores/pollingStore.ts:83-98 | each interval and threshold in milliseconds |
| `PollingStore.SettersKeepTimersSane` | src/stores/pollingStore.ts:59-65 | after any setter, whatever the input, every interval is at least 1000 ms and every threshold at least 10000 ms |
| `PollingStore.FormatDuration` | src/stores/pollingStore.ts:101-113 | under a minute, the seconds and "s"; under an hour, the minutes and "m", then the leftover seconds when there are any; from an hour, the hours and "h", then the leftover whole minutes when there are any |
| `PollingStore.PartOfNat` | src/stores/pollingStore.ts:103-112 | a part such as "5m" holds no space and reads back as its seconds |
| `PollingStore.ReadOnePart` | src/stores/pollingStore.ts:103-112 | a one-part text reads back as its seconds |
| `PollingStore.ReadTwoParts` | src/stores/pollingStore.ts:108-112 | a two-part text such as "2m 5s" reads back as the sum of its parts |
| `PollingStore.HourArithmetic` | src/stores/pollingStore.ts:110-111 | whole hours plus whole minutes are the duration without its leftover seconds |
| `PollingStore.FormatDurationReadsBack` | src/stores/pollingStore.ts:101-113 | the formatted text reads back as the duration, except that past an hour the leftover seconds are dropped |
| `WeatherStore.SetWeatherData` | src/stores/weatherStore.ts:35-42 | the reading is stored with missing humidity and wind as none, stamped with the time, and the error cleared; loading is untouched |
| `WeatherStore.SetError` | src/stores/weatherStore.ts:45 | the error is recorded and loading stops; the last reading stays |
| `WeatherStore.DetermineMode` | src/stores/weatherStore.ts:49-71 | below 55°F always heat, above 80°F always cool, and in between heat exactly when outside is colder than the target |
| `WeatherStore.SentenceNamesTarget` | src/stores/weatherStore.ts:88-91 | the in-band sentence names the target temperature |
| `WeatherStore.GetModeRecommendation` | src/stores/weatherStore.ts:76-92 | the recommendation starts with "Heating" exactly when the mode is heat and with "Cooling" exactly when it is cool; in the band it names the target |
| `WeatherStore.FetchWeather` | src/stores/weatherStore.ts:94-131 | an unforced call with a reading under ten minutes old succeeds without asking; otherwise the endpoint is asked, loading ends, and success means the reply held data, which is stored; on failure the reply's error, the thrown message or a fixed text is recorded and the reading kept |
| `WeatherStore.CachedFetchIsFree` | src/stores/weatherStore.ts:104-110 | after a successful fetch, an unforced fetch within ten minutes asks nothing and changes nothing |
| `Routes.Unauthorized` | src/app/api/crestron/devices/route.ts:192-197 | status 401, not successful, the missing-headers message, no data |
| `Routes.PassOn` | src/app/api/crestron/rooms/route.ts:70 | a failed client result is answered with status 500 and its own `success` and `error` |
| `Routes.ExtractArray` | src/app/api/crestron/devices/route.ts:16-23 | an array is returned as is; an object gives the array under the key when one is there; anything else gives an empty list |
| `Routes.ExtractUnwraps` | src/app/api/crestron/devices/route.ts:16-23 | a list comes back out whether it was sent bare or under its key; an object without the key gives nothing |
| `Routes.IdText` | src/app/api/crestron/devices/route.ts:64 | a controller id renders as non-empty text |
| `Routes.IdTextInjective` | src/app/api/crestron/devices/route.ts:64 | two ids that render the same are the same id |
| `Routes.OptionalId` | src/app/api/crestron/devices/route.ts:67 | a room id is kept, as text, exactly when it is present and not 0 |
| `Routes.IdTextKeepsDistinct` | src/app/api/crestron/devices/route.ts:64 | distinct controller ids stay distinct once rendered |
| `DevicesRoute.Divisor` | src/app/api/crestron/devices/route.ts:40 | readings are divided by 10 or by 1 |
| `DevicesRoute.RoundDiv` | src/app/api/crestron/devices/route.ts:41 | the result is the nearest integer to the quotient, halves rounded up |
| `DevicesRoute.RoundDivUnique` | src/app/api/crestron/devices/route.ts:41 | only one integer rounds like that, so the rounding is pinned down |
| `DevicesRoute.SetPointTemperature` | src/app/api/crestron/devices/route.ts:44-45 | the set point is the first matching entry's temperature when that temperature is present and non-zero, and nothing otherwise; nothing when the list is missing or no entry matches |
| `DevicesRoute.ModeOf` | src/app/api/crestron/devices/route.ts:48-54 | "Heat" and "AuxHeat" are heat, "Cool" is cool, "Auto" is auto, and any other name is off |
| `DevicesRoute.FanOf` | src/app/api/crestron/devices/route.ts:56-61 | the fan is on exactly when the controller says "On" |
| `DevicesRoute.ModeNamesRoundTrip` | src/app/api/crestron/devices/route.ts:48-54 | every app mode reads back from the controller's name for it |
| `DevicesRoute.TransformThermostat` | src/app/api/crestron/devices/route.ts:38-76 | the id is rendered, a zero room id dropped, the temperature rounded after dividing tenths by 10, a missing set point replaced by the current temperature (cool by five more), the modes mapped, and the unit running unless its mode is "Off" |
| `DevicesRoute.TemperatureScaling` | src/app/api/crestron/devices/route.ts:39-41 | a reading of ten times a number of degrees in tenths is that number of degrees; a whole-degree reading is kept |
| `DevicesRoute.UnknownModeRunsAsOff` | src/app/api/crestron/devices/route.ts:71-74 | a mode the app does not know shows as off while the unit is reported running |
| `DevicesRoute.TransformLight` | src/app/api/crestron/devices/route.ts:89-99 | the level is kept, the light is on exactly when the level is positive, and it is a switch exactly when its subtype is "switch" in any case |
| `DevicesRoute.TransformedLightConsistent` | src/app/api/crestron/devices/route.ts:96-97 | a light from the controller already keeps the store's rule that it is on exactly when its level is positive |
| `DevicesRoute.SensorKindOf` | src/app/api/crestron/devices/route.ts:113-135 | "OccupancySensor" and "Motion" are motion; temperature, humidity and luminance by name; everything else contact |
| `DevicesRoute.PresenceOf` | src/app/api/crestron/devices/route.ts:127-136 | the value is true exactly for "Occupied" and "OpenOrOn" |
| `DevicesRoute.TransformSensor` | src/app/api/crestron/devices/route.ts:111-147 | the sensor keeps its id and name, its kind and value follow the two maps |
| `DevicesRoute.TransformShade` | src/app/api/crestron/devices/route.ts:158-166 | a missing position becomes 0 and a present one, even 0, is kept |
| `DevicesRoute.TransformDoorLock` | src/app/api/crestron/devices/route.ts:178-186 | `isLocked` wins, then `locked`, and a lock with neither is locked |
| `DevicesRoute.Get` | src/app/api/crestron/devices/route.ts:189-234 | without both headers 401; otherwise 200 with each list unwrapped and transformed element by element, in order, whether or not its call succeeded |
| `DevicesRoute.GetKeepsLightsApart` | src/app/api/crestron/devices/route.ts:214 | lights with distinct controller ids get distinct ids, and every light is on exactly when its level is positive |
| `RoomsRoute.ExtractRooms` | src/app/api/crestron/rooms/route.ts:27-34 | the array, or the array under "rooms", or an empty list |
| `RoomsRoute.TransformRoom` | src/app/api/crestron/rooms/route.ts:37-44 | the id is rendered, the area name kept, and the area id kept exactly when present and not 0 |
| `RoomsRoute.Get` | src/app/api/crestron/rooms/route.ts:47-71 | without both headers 401; a failed call 500 with its error; otherwise 200 with every room transformed, in order |
| `RoomsRoute.GetKeepsRoomsApart` | src/app/api/crestron/rooms/route.ts:37-44 | rooms with distinct controller ids get distinct ids, and each room has an area exactly when the controller gave a non-zero one |
| `ScenesRoute.TransformScene` | src/app/api/crestron/scenes/route.ts:33-41 | the scene is active only when the controller says so explicitly |
| `ScenesRoute.Get` | src/app/api/crestron/scenes/route.ts:44-64 | without both headers 401; a failed call 500 with its error; otherwise 200 with every scene transformed, in order |
| `ScenesRoute.Post` | src/app/api/crestron/scenes/route.ts:67-102 | the controller is asked to recall exactly when the headers are there, the body reads and its id is truthy, and it is asked for that id; a falsy id is 400, an unreadable body 500, and the answer is 200 exactly when the recall succeeded |
| `ScenesRoute.FalsyIdNeverRecalled` | src/app/api/crestron/scenes/route.ts:81-86 | the id 0, the empty id and a missing id never reach the controller |
| `MediaRoute.Get` | src/app/api/crestron/media/route.ts:16-34 | without both headers 401; otherwise the client's result with 200 when it succeeded and 500 when it did not |
| `MediaRoute.Check` | src/app/api/crestron/media/route.ts:51-122 | a falsy id is reported first, then a falsy action; a command is produced exactly when the action's own field passes its check (power "on"/"off", volume 0 to 100, a boolean mute, a non-negative source), for the body's id and carrying that field |
| `MediaRoute.Post` | src/app/api/crestron/media/route.ts:37-135 | the controller is sent a command exactly when the headers are there, the body reads and passes the checks, and it is the checked command; a rejected body is 400 with the check's message, an unreadable one 500, and the answer is 200 exactly when the call succeeded |
| `MediaRoute.VolumeBounds` | src/app/api/crestron/media/route.ts:83 | a numeric volume passes exactly when it lies between 0 and 100 inclusive |
| `MediaRoute.IdCheckedFirst` | src/app/api/crestron/media/route.ts:51-63 | a body missing both the id and the action is refused for the id |
| `MediaRoute.NullPassesChecks` | src/app/api/crestron/media/route.ts:83-107 | a `null` volume or source index compares as 0, passes its check and is sent on |
| `AudioZones.Create` | src/app/api/crestron/audio-zones/route.ts:56-107 | a missing or blank name and then an empty room list are refused with 400; a name already taken, ignoring case, is refused with 400; a failed write is a 500 with the error's message or "Failed to create audio zone"; the zone is created exactly when the name is not taken and the file is written; it is appended with the trimmed name, the room ids as text and not built in; otherwise the list is unchanged |
| `AudioZones.IndexOf` | src/app/api/crestron/audio-zones/route.ts:123 | the first zone whose id equals the given one, or none when no zone has it |
| `AudioZones.Update` | src/app/api/crestron/audio-zones/route.ts:110-170 | a falsy id is 400, an unknown one 404, a built-in zone 400, a truthy name another zone has (ignoring case) 400, a failed write 500 with the error's message or "Failed to update audio zone"; the update succeeds exactly when none of these holds and the write succeeds, and then only that zone's slot changes: its name (trimmed) when a truthy name is given, its room ids when given, and its update time |
| `AudioZones.Delete` | src/app/api/crestron/audio-zones/route.ts:173-215 | a missing id is 400, an unknown one 404 "Zone not found", a built-in zone 400 "Cannot delete built-in zones", a failed write 500 with the error's message or "Failed to delete audio zone"; a zone is removed exactly when none of these holds, with a plain success answer; only that slot goes, the rest keeps its order |
| `AudioZones.TrimTwice` | src/app/api/crestron/audio-zones/route.ts:90 | a trimmed name is its own trim, so a stored name compares like the trimmed input |
| `AudioZones.CreateKeepsWellFormed` | src/app/api/crestron/audio-zones/route.ts:77-97 | with a fresh id, creating keeps ids unique and names distinct ignoring case |
| `AudioZones.UpdateKeepsWellFormed` | src/app/api/crestron/audio-zones/route.ts:142-160 | updating keeps ids unique and names distinct ignoring case |
| `AudioZones.DeleteKeepsWellFormed` | src/app/api/crestron/audio-zones/route.ts:205 | deleting keeps ids unique and names distinct ignoring case |
| `AudioZones.BuiltInZonesSurvive` | src/app/api/crestron/audio-zones/route.ts:134-203 | no create, update or delete removes or changes a built-in zone |
| `AudioZones.UpdateMayEmptyZone` | src/app/api/crestron/audio-zones/route.ts:68-156 | creating needs at least one room, yet an update with an empty list leaves a zone with none |
| `AllowedUsers.Get` | src/app/api/users/allowed/route.ts:9-26 | 500 when the user lookup or the table read throws; 401 without a signed-in user; otherwise 200 with the table, and the admin flag is set exactly when the user's address equals the admin's ignoring case |
| `AllowedUsers.Add` | src/app/api/users/allowed/route.ts:28-62 | 500 when the lookup, the body or the table access throws; 401 without a user, 400 for a missing address or one without '@' once trimmed and lower-cased, 409 when it is already listed; otherwise 200 and exactly one row is appended; the table changes only on 200 |
| `AllowedUsers.Remove` | src/app/api/users/allowed/route.ts:64-94 | 500 when the lookup, the body or the table access throws; 401 without a user, 403 unless the admin asks, 400 for a missing address or the admin's own; otherwise exactly the rows with the normalised address are dropped |
| `AllowedUsers.AddKeepsEmailsUnique` | src/app/api/users/allowed/route.ts:47-55 | adding never lists an address twice |
| `AllowedUsers.AdminNeverRemoved` | src/app/api/users/allowed/route.ts:83-85 | whoever asks and whatever address is given, the admin's row stays |
| `AllowedUsers.AddTwiceIsRefused` | src/app/api/users/allowed/route.ts:41-50 | adding the same address again, in another case or with padding, is refused with 409 |
| `Auth.AllowedList` | src/lib/auth.ts:132 | one entry per comma-separated piece of the setting, each trimmed and lower-cased |
| `Auth.IsEmailAllowed` | src/lib/auth.ts:121-134 | with no list configured everyone is allowed; with one, a missing address is refused and an address is allowed exactly when its lower-cased form is on the list |
| `Auth.ListedEmailAllowed` | src/lib/auth.ts:121-134 | an address whose entry appears anywhere in the comma-joined list, in any case or padding, is allowed |
| `Auth.AllowlistIgnoresCase` | src/lib/auth.ts:133 | the answer does not depend on the case of the address |
| `Auth.HandleCallback` | src/lib/auth.ts:136-169 | an empty or mismatched state throws before any exchange; a user row and a session are written exactly when the exchange gives claims whose address is allowed, and the session, keyed by the new id, expires a week after now; a refused address throws the access-denied error |
| `Auth.GetSession` | src/lib/auth.ts:49-60 | a session is returned exactly when it exists and has not expired, leaving the table alone; otherwise the row, if any, is deleted |
| `Auth.SessionLastsSevenDays` | src/lib/auth.ts:12-60 | a session created by a successful callback is honoured up to exactly seven days later, and after that it is removed on first use |
| `CallbackRoute.GetHostname` | src/app/api/callback/route.ts:6-16 | a forwarded host wins: its first entry, trimmed, without a port; else a host header other than 0.0.0.0, without a port; else the URL's own host name |
| `CallbackRoute.HostnameHasNoPort` | src/app/api/callback/route.ts:8-14 | a host name taken from a header holds no ':' (and, from the forwarded one, no ','), and from the host header it is a prefix of that header |
| `CallbackRoute.HexDigit` | src/app/api/callback/route.ts:87 | the digit written for a value below 16 is unreserved and reads back as that value |
| `CallbackRoute.Utf8` | src/app/api/callback/route.ts:87 | a character becomes one to four bytes, each below 256 |
| `CallbackRoute.Utf8Valid` | src/app/api/callback/route.ts:87 | the bytes of a character are valid UTF-8: the lead byte announces the length, the others are continuation bytes, the form is the shortest, and their bits give the character back |
| `CallbackRoute.PercentBytes` | src/app/api/callback/route.ts:87 | each byte takes three characters, all '%' or unreserved |
| `CallbackRoute.PercentBytesAt` | src/app/api/callback/route.ts:87 | the k-th group is '%' followed by the high and the low hexadecimal digit of the k-th byte |
| `CallbackRoute.EncodeURIComponent` | src/app/api/callback/route.ts:87 | the result holds only '%' and unreserved characters, and is no shorter than the text |
| `CallbackRoute.EncodeAppend` | src/app/api/callback/route.ts:87 | encoding works character by character: the encoding of two texts joined is the two encodings joined |
| `CallbackRoute.ByteAtGroup` | src/app/api/callback/route.ts:87 | '%' followed by the two hexadecimal digits of a byte reads back as that byte |
| `CallbackRoute.ByteAtPercent` | src/app/api/callback/route.ts:87 | each "%XY" group written for a byte reads back as that byte, whatever follows |
| `CallbackRoute.DecodeOne` | src/app/api/callback/route.ts:87 | a decoded character takes at least one "%XY" group and no more text than there is |
| `CallbackRoute.DecodeURIComponent` | src/app/api/callback/route.ts:87 | the decoding of the detail (section 19.2.6.5 of ECMA-262) is never longer than the text, and text without '%' decodes to itself |
| `CallbackRoute.DecodeOneFromBytes` | src/app/api/callback/route.ts:87 | groups that read as the valid, shortest UTF-8 bytes of a character decode to that character and take exactly those groups |
| `CallbackRoute.DecodeOnePercent` | src/app/api/callback/route.ts:87 | the "%XY" groups written for an escaped character decode to that character and take exactly its groups |
| `CallbackRoute.DecodeEncodedChar` | src/app/api/callback/route.ts:87 | decoding undoes the encoding of the first character, whatever text follows |
| `CallbackRoute.DecodeEncode` | src/app/api/callback/route.ts:87 | `decodeURIComponent(encodeURIComponent(s))` gives `s` back for every text, so the detail on the login page carries the message exactly |
| `CallbackRoute.EncodeKeepsUnreserved` | src/app/api/callback/route.ts:87 | text made only of unreserved characters is left as it is |
| `CallbackRoute.ErrorPath` | src/app/api/callback/route.ts:73-88 | access denied first, then "state" or "CSRF", then "redirect_uri", otherwise the first hundred characters of the message, encoded, as the detail |
| `CallbackRoute.Get` | src/app/api/callback/route.ts:18-90 | the answer is a 500 exactly when the base URL does not parse, and otherwise a redirect to the detected host over https; no code gives no_code, a missing state, state cookie or verifier gives invalid_state, and the code is exchanged exactly when all four are present and the callback address parses; a session cookie is set, lasting a week, and the login cookies cleared exactly when a redirect follows an exchange that gave a session; a thrown exchange maps its message to the login error |
| `CallbackRoute.BrokenHostNames` | src/app/api/callback/route.ts:6-16 | a forwarded host of "," and a host header of ":80" give the empty host name; a host header of "[::1]:3000" gives "[" |
| `CallbackRoute.BrokenHostsAnswer500` | src/app/api/callback/route.ts:18-90 | those three header sets answer 500; with "[" the exchange does not run either |
| `CallbackRoute.CookieMatchesSession` | src/app/api/callback/route.ts:62 | the cookie's lifetime in seconds equals the session's lifetime in milliseconds |
| `CallbackRoute.DetailStaysOneParameter` | src/app/api/callback/route.ts:87-88 | whatever the message says, the detail cannot add a query parameter or fragment: it holds no '&', '=', '#' or '?' |
| `CallbackRoute.AccessDeniedMapped` | src/app/api/callback/route.ts:75-77 | the sign-in's refused-address error lands on the access-denied page |
| `NetworkInfo.Classify` | src/app/api/network-info/route.ts:20-33 | an address is VPN exactly when it starts with 192.168.3. or the adapter's name mentions vpn, wireguard, wg or tun in any case; LAN exactly when it is not VPN and starts with 192.168.132. |
| `NetworkInfo.ClassifyIgnoresCase` | src/app/api/network-info/route.ts:24-27 | the adapter name's case does not change the kind |
| `NetworkInfo.UrlOf` | src/app/api/network-info/route.ts:38 | the URL starts with "http://" and adds twelve characters to the address |
| `NetworkInfo.AddressOf` | src/app/api/network-info/route.ts:35-40 | an entry keeps the adapter name and address, its URL and its kind |
| `NetworkInfo.Group` | src/app/api/network-info/route.ts:17-42 | an interface contributes at most one entry per address it lists |
| `NetworkInfo.GroupInOrder` | src/app/api/network-info/route.ts:17-42 | an interface's entries are its external IPv4 addresses, one each, in the table's order |
| `NetworkInfo.GroupWellFormed` | src/app/api/network-info/route.ts:35-40 | every entry of an interface carries its name, and the URL and kind its name and address give |
| `NetworkInfo.CollectWellFormed` | src/app/api/network-info/route.ts:13-43 | every collected entry carries the URL and kind its adapter name and address give |
| `NetworkInfo.CollectAppend` | src/app/api/network-info/route.ts:13-43 | the interfaces contribute their entries in enumeration order |
| `NetworkInfo.GroupMembers` | src/app/api/network-info/route.ts:17-42 | an interface contributes exactly its external IPv4 addresses |
| `NetworkInfo.CollectMembers` | src/app/api/network-info/route.ts:13-43 | the list holds exactly the external IPv4 addresses of every interface that has a table |
| `NetworkInfo.Get` | src/app/api/network-info/route.ts:4-64 | the answer lists the collected addresses rearranged, VPN first, then LAN, then the rest; the quick-access URLs are those of the first VPN and first LAN address as collected; the local URL is fixed |
| `NetworkInfo.FirstSurvivesSort` | src/app/api/network-info/route.ts:46-52 | the stable sort keeps the first address of each kind, so looking it up after the sort finds the same one |
| `NetworkInfo.KindOrderKept` | src/app/api/network-info/route.ts:46-52 | the stable sort keeps the addresses of each kind in their collected order |
| `NetworkInfo.GetKeepsKindOrder` | src/app/api/network-info/route.ts:46-52 | the answer lists the addresses of each kind in the order they were collected |
| `NetworkInfo.VpnOffered` | src/app/api/network-info/route.ts:51-58 | when any VPN address is listed, a VPN URL is offered and the list starts with a VPN address |
| `CommandModal.Fallback` | src/components/ai/AICommandModal.tsx:263 | a truthy text is kept; otherwise the fallback |
| `CommandModal.WithoutUndo` | src/components/ai/AICommandModal.tsx:246-250 | every message with the given id, and only those, loses its undo button; the length is kept |
| `CommandModal.HandleUndo` | src/components/ai/AICommandModal.tsx:208-259 | with no snapshots only an error is set; otherwise the request is sent, and only a successful reply marks the command undone, appends a note and clears the undo button of that message; a failure keeps the conversation and sets the reply's or the exception's error |
| `CommandModal.History` | src/components/ai/AICommandModal.tsx:285-291 | the context is the last ten messages, or all of them when fewer, each as role and content, in order |
| `CommandModal.HandleSubmit` | src/components/ai/AICommandModal.tsx:262-377 | empty text or a running request does nothing; otherwise the text is recorded, the user's message appended, the input cleared and the request sent with the context; a success with actions adds one history entry and an undoable reply, a success asking for a fresh start leaves one assistant message, and a failure appends a note and sets the error |
| `CommandModal.NewMessageEndsHistory` | src/components/ai/AICommandModal.tsx:286-291 | the context sent always ends with the new message and holds one to ten messages |
| `CommandModal.SubmitThenUndo` | src/components/ai/AICommandModal.tsx:208-348 | a command that changed devices can be undone from its reply, and undoing marks exactly that reply and that history entry, leaving the earlier messages alone |
| `CommandModal.UndoMarksOnlyThatMessage` | src/components/ai/AICommandModal.tsx:233-250 | a successful undo marks the command undone, takes the undo button off that message and leaves every earlier message with another id alone |
| `CommandModal.UndoNeverReenables` | src/components/ai/AICommandModal.tsx:246-250 | whatever the undo reply, no message regains an undo button |
| `Devices.RoomMap` | src/components/devices/LightsByRoom.tsx:32-36 | the map holds exactly the rooms' ids |
| `Devices.RoomMapLastWins` | src/components/devices/LightsByRoom.tsx:32-36 | a room id maps to the name of the last room with that id |
| `Devices.PatchLight` | src/stores/deviceStore.ts:105-110 | the fields a light patch gives replace the light's, and the rest of the light, its identity included, is kept |
| `Devices.PatchThermostat` | src/stores/deviceStore.ts:112-117 | the mode, set points and fan mode a patch gives replace the thermostat's; its identity, temperature and running state are kept |
| `Devices.PatchDoorLock` | src/stores/deviceStore.ts:119-124 | a given locked state replaces the lock's, and its identity is kept |
| `LightsByRoom.RoomName` | src/components/devices/LightsByRoom.tsx:54 | a light with no room is "Unassigned"; a known room with a non-empty name shows that name; any other room id shows as an unknown room naming the id |
| `LightsByRoom.Groups` | src/components/devices/LightsByRoom.tsx:40-60 | one group per distinct room id of the lights, in first-seen order, each with its room's display name |
| `LightsByRoom.GroupsFacts` | src/components/devices/LightsByRoom.tsx:42-48 | each group holds exactly its room id's lights, in order, and is not empty; no two groups share a room id; every light's room id has a group |
| `LightsByRoom.GroupedSameGroups` | src/components/devices/LightsByRoom.tsx:63-67 | sorting neither loses nor adds a group |
| `LightsByRoom.GroupedKeysDistinct` | src/components/devices/LightsByRoom.tsx:40-67 | after sorting, no two groups share a room id |
| `LightsByRoom.GroupsPartition` | src/components/devices/LightsByRoom.tsx:39-70 | the listed groups partition the lights: each group is its room id's lights in their order, one group per room id, and every light's room id is listed |
| `LightsByRoom.InExactlyOneGroup` | src/components/devices/LightsByRoom.tsx:42-48 | every light is in exactly one group |
| `LightsByRoom.UnassignedLast` | src/components/devices/LightsByRoom.tsx:62-67 | no room comes after a group without a room |
| `LightsByRoom.RoomsByName` | src/components/devices/LightsByRoom.tsx:62-67 | the rooms appear in name order |
| `LightsByRoom.GetStats` | src/components/devices/LightsByRoom.tsx:73-86 | the total is the number of lights, split into assigned and unassigned; lights on counts those that say so or have a level; rooms with lights counts the distinct room ids |
| `LightsByRoom.LitIsOn` | src/components/devices/LightsByRoom.tsx:76 | for lights whose on state agrees with their level, as the store keeps them, the lights-on count is the number that say they are on |
| `LightsByRoom.PlacedGroupsOnPage` | src/components/devices/LightsByRoom.tsx:63-67 | the sorted page shows as many room groups as there are distinct room ids |
| `LightsByRoom.PlacedIdsDistinct` | src/components/devices/LightsByRoom.tsx:40-48 | the room ids of the groups are pairwise different |
| `LightsByRoom.PlacedIdsAreRoomIds` | src/components/devices/LightsByRoom.tsx:40-77 | the groups' room ids are exactly the room ids the statistics count |
| `LightsByRoom.RoomsWithLightsCountsGroups` | src/components/devices/LightsByRoom.tsx:77-137 | the "rooms" figure in the summary equals the number of room groups on the page |
| `LightsByRoom.RoomKey` | src/components/devices/LightsByRoom.tsx:139 | a group's key is its room id, or "unassigned" without one |
| `LightsByRoom.ToggleRoom` | src/components/devices/LightsByRoom.tsx:88-96 | toggling flips exactly that room's expanded state |
| `LightsByRoom.ToggleTwice` | src/components/devices/LightsByRoom.tsx:88-96 | toggling a room twice restores the set |
| `LightsByRoom.VisibleLights` | src/components/devices/LightsByRoom.tsx:142 | the `visibleLights` slice is a prefix of the group: all of it when expanded, otherwise exactly the per-room limit or the whole group when shorter |
| `LightsByRoom.DrawnLights` | src/components/devices/LightsByRoom.tsx:198-213 | the grid draws the slice only when the group is expanded or fits the limit, and nothing otherwise |
| `LightsByRoom.DrawnAllOrNothing` | src/components/devices/LightsByRoom.tsx:198-223 | a group with lights draws all of them or none, and none exactly when "show more" is offered, so the shortened slice is never drawn |
| `LightsByRoom.HasMoreIffHidden` | src/components/devices/LightsByRoom.tsx:142-143 | "show more" appears exactly when some light of the group is hidden |
| `LightsByRoom.UnassignedKeyShared` | src/components/devices/LightsByRoom.tsx:139 | a group without a room, one with an empty room id, and a room whose id is "unassigned" share one key |
| `LightsByRoom.ShownGroups` | src/components/devices/LightsByRoom.tsx:137 | hiding unassigned lights drops exactly the groups without a room |
| `MediaZone.Offers` | src/components/devices/MediaZoneControl.tsx:55-59 | a provider is offered exactly when some room of the zone lists it |
| `MediaZone.Tally` | src/components/devices/MediaZoneControl.tsx:53-59 | the tally has an entry for exactly the names seen |
| `MediaZone.TallyCounts` | src/components/devices/MediaZoneControl.tsx:57 | the tally of a name is the number of times it was seen |
| `MediaZone.Occurrences` | src/components/devices/MediaZoneControl.tsx:55-59 | a provider occurs zero times exactly when no room lists it |
| `MediaZone.OffersCount` | src/components/devices/MediaZoneControl.tsx:55-59 | counting a name in the flattened list gives the same as counting it room by room |
| `MediaZone.ZoneSources` | src/components/devices/MediaZoneControl.tsx:52-65 | one entry per distinct provider |
| `MediaZone.SourcesListed` | src/components/devices/MediaZoneControl.tsx:52-65 | a provider has an entry exactly when some room of the zone offers it |
| `MediaZone.SourcesOnce` | src/components/devices/MediaZoneControl.tsx:62-63 | no provider has two entries |
| `MediaZone.SourcesCounted` | src/components/devices/MediaZoneControl.tsx:57-63 | each entry counts the times the rooms list its provider and is universal exactly when that count is the number of rooms |
| `MediaZone.SourcesByCount` | src/components/devices/MediaZoneControl.tsx:64 | the most common providers come first, and providers with the same count keep their first-seen order |
| `MediaZone.UniversalMeansEveryRoom` | src/components/devices/MediaZoneControl.tsx:63 | when no room lists a provider twice, a provider is universal exactly when every room of the zone offers it |
| `MediaZone.DisplayName` | src/components/devices/MediaZoneControl.tsx:68-73 | a known room id gives its room's name; otherwise the media room's own name |
| `MediaZone.DisplayNameFromRooms` | src/components/devices/MediaZoneControl.tsx:45-73 | a media room in a known room shows the name of the last room listed with that id |
| `MediaZone.DisplayNameUnknownRoom` | src/components/devices/MediaZoneControl.tsx:68-73 | a media room with no room, or one no room has, keeps its own name |
| `MediaZone.PowerToggleTarget` | src/components/devices/MediaZoneControl.tsx:80-87 | the power button asks for "off" exactly when something is playing, and "on" otherwise |
| `Sorting.SortByKey` | src/app/api/network-info/route.ts:46-52 | sorting only rearranges: the result holds the same elements, each as often, and is as long |
| `Sorting.SortByKeySorted` | src/app/api/network-info/route.ts:46-52 | the sorted list is ascending by key |
| `Sorting.SortByKeyStable` | src/app/api/network-info/route.ts:46-52 | elements of equal key keep their relative order |
| `Sorting.SortByKeyMembers` | src/app/api/network-info/route.ts:46-52 | sorting neither adds nor drops an element |
| `Sorting.PrefixOfSortedIsSmallest` | src/stores/suggestionStore.ts:153-154 | the first `k` after sorting are drawn from the list, and every element left out has a key no smaller than each one kept |
| `Sorting.PrefixOfSortedStable` | src/stores/suggestionStore.ts:153-154 | the first `k` after sorting keep, among elements of one key, a prefix of those elements in their original order |
| `Sorting.AppendLastPlace` | src/stores/suggestionStore.ts:96-104 | an element appended with a key no smaller than any other ends up last after sorting |
| `Common.Distinct` | src/stores/suggestionStore.ts:126-128 | the elements without repeats: the same members, no two equal, and each placed after the first occurrence of every element before it, as `[...new Set(xs)]` orders them |

## Left out

- Network, file, database and cookie access: `fetch`, `NextResponse`, the Crestron client, the zone file, the drizzle tables and the cookie store. Replies and read or write outcomes are parameters, and so are the failures the allowed-users route catches and answers with 500. The tables are sequences or maps.
- Concurrency and timing:
  - the `Promise.all` fan-out of the devices route and the poll;
  - the `finally` of the outer `fetchAllData` call, which clears the loading flag while the retry it started is still running;
  - interval polling and timers.
  The module-level refresh flag is a field of the poll's state. The clock is the parameter `now`.
- Floating point:
  - numbers are integers;
  - `Math.round` is only applied to integer readings, where `RoundDiv` is exact;
  - the suggestion recency score is an abstract integer key;
  - `generateStatusReport` (averages, percentages and a debug block) is not modelled.
- `localeCompare` is an abstract integer rank on names.
- Text:
  - `toLowerCase` maps only the ASCII letters;
  - text is a sequence of Unicode scalar values, so `substring` counts scalar values, not UTF-16 code units;
  - a lone surrogate, on which `encodeURIComponent` throws, cannot occur.
- `isFloorHeat` and `isTemperatureSatisfied` come from src/lib/crestron/types.ts, which is not part of this model. They are parameters.
- The command history store (`addCommand`, `markUndone`, `getSnapshotsForUndo`) is not part of this model. The dialog reports the command it adds, and takes the number of stored snapshots as an input.
- `setZoneMediaRoomPower` is not part of this model. The media zone card only computes the state it asks for, and the number of playing rooms is an input.
- Device store operations outside the modelled core:
  - the bare setters, `quickActions` and `fetchQuickActions`;
  - `fetchRooms`, `fetchAllDevices`, `fetchLights` and `fetchScenes`;
  - `recallScene` and `createArea`;
  - the merged-room create, update, delete and fetch calls.
  Each is a single request followed by a plain store write.
- Session bookkeeping in the auth library is not modelled: OIDC discovery, tokens, `crypto` ids, `getCurrentUser`, `getLoginUrl` and `upsertUser`'s conflict rule. Session ids and the token exchange's result are parameters.
- The callback route calls `handleCallback(url, expectedState, verifier)`, yet the auth library declares `handleCallback(code, hostname, state, expectedState)`. The two are modelled separately: `CallbackRoute.Get` takes the exchange's outcome as a parameter, and `Auth.HandleCallback` follows the library's own guards.
- `CallbackRoute.Get`: the URL parser is not modelled. Whether "https://" + host parses, and whether it does with "/api/callback" after it, are parameters. The only parser facts stated are that an empty host and an unclosed '[' are rejected, and that a base that parses still parses with a path. So other rejected hosts (a space, a forbidden code point) give a 500 only when the caller says so.
- The admin e-mail address of the allowed-users route is a parameter, not the literal in the source.
- Audio zones:
  - GET and the file read are not modelled;
  - the zone id and the timestamps are parameters;
  - posted room ids are `null`, numbers or strings, so other JSON values (which `String` would render as "[object Object]" and the like) are not modelled;
  - a truthy non-string name in PUT, on which `trim` throws, is not modelled.
- Media route bodies: a field is absent, `null`, a number or (for `muted`) a boolean. Strings compared with `<` against numbers are not modelled.
- Network info: the interfaces come in the order `Object.keys` gives. The hint text of the answer is left out.
- `LightsByRoom.GroupedLights`: the source's comparator answers 1 whenever its first argument has no room, so for two groups without a room (an absent id and an empty one) it is inconsistent and the engine's order decides. The model keeps such groups in first-seen order after the rooms; only their relative order is unspecified in the source.
- `LightsByRoom.VisibleLights`: the per-room limit is a natural number; a negative `maxLightsPerRoom`, which `slice` would count from the end, is not modelled.
- `CommandModal.HandleSubmit`: a successful reply without a response text is modelled as a string reply; executed actions are their descriptions.
- `CommandProcessor.GetMatchingLights`, `GetMatchingThermostats`, `GetMatchingMediaRooms`: the function contracts state only that the result is an order-preserving subsequence. Each branch of the source is pinned by a separate lemma. For lights these are `LightsOfResolvedRoom`, `LightsOfUnresolvedRoom`, `LightsOfArea` and `LightsWithoutPlace`. For thermostats they are `ThermostatsOfResolvedRoom`, `ThermostatsOfRoomByRoomName`, `ThermostatsOfRoomByName`, `ThermostatsOfArea`, `ThermostatsOfAreaByName` and `ThermostatsFallBackToAll`. For media rooms they are `MediaRoomsOfResolvedRoom`, `MediaRoomsOfUnresolvedRoom` and `MediaRoomsOfArea`.

=== FILE: allowed_users.dfy ===
/**
 * The approved-user list behind the settings page: any signed-in user may
 * read it and add to it; only the admin may remove entries, and never the
 * admin's own. The table is a sequence of rows in insertion order; the
 * admin's address is a parameter.
 */
module AllowedUsers {
  import opened Common

  datatype AllowedUser = AllowedUser(email: string, addedBy: string)

  /** The signed-in user, if any; the e-mail may be unknown. */
  datatype CurrentUser = CurrentUser(email: Option<string>)

  /** A handler's status, message and the table afterwards. */
  datatype UsersOutcome = UsersOutcome(status: int, error: Option<string>, users: seq<AllowedUser>)

  const Unauthorized: string := "Unauthorized"
  const EmailRequired: string := "Email is required"
  const InvalidEmail: string := "Invalid email format"
  const AlreadyListed: string := "Email already in the approved list"
  const OnlyAdmin: string := "Only the admin can delete users"
  const CannotRemoveAdmin: string := "Cannot remove the admin user"

  /** `currentUser.email?.toLowerCase() === ADMIN_EMAIL.toLowerCase()`. */
  predicate IsAdmin(user: CurrentUser, admin: string) {
    user.email.Some? && Lower(user.email.value) == Lower(admin)
  }

  function NormalizeEmail(email: string): string {
    Lower(Trim(email))
  }

  predicate Listed(users: seq<AllowedUser>, email: string) {
    exists i :: 0 <= i < |users| && users[i].email == email
  }

  /**
   * Which awaited step, if any, throws: the signed-in-user lookup, reading
   * the JSON body, or the database. A step that throws is caught by the
   * handler's try/catch and answered with 500; a step the handler does not
   * reach cannot throw.
   */
  datatype Fault = NoFault | LookupThrows | BodyThrows | DatabaseThrows

  const FetchFailed: string := "Failed to fetch users"
  const AddFailed: string := "Failed to add user"
  const DeleteFailed: string := "Failed to delete user"

  /**
   * GET: 401 without a user; otherwise the table and whether the caller is
   * the admin. It reads no body, so only the lookup and the database can fail.
   */
  function Get(user: Option<CurrentUser>, users: seq<AllowedUser>, admin: string, fault: Fault): (r: (UsersOutcome, bool))
    ensures fault.LookupThrows? ==> r.0.status == 500 && r.0.error == Some(FetchFailed) && !r.1
    ensures !fault.LookupThrows? && user.None? ==> r.0.status == 401 && r.0.error == Some(Unauthorized) && !r.1
    ensures fault.DatabaseThrows? && user.Some? ==> r.0.status == 500 && r.0.error == Some(FetchFailed) && !r.1
    ensures r.0.status == 200 <==> (fault.NoFault? || fault.BodyThrows?) && user.Some?
    ensures r.0.status == 200 ==> r.0.error == None && (r.1 <==> IsAdmin(user.value, admin))
    ensures r.0.users == users
  {
    if fault.LookupThrows? then (UsersOutcome(500, Some(FetchFailed), users), false)
    else if user.None? then (UsersOutcome(401, Some(Unauthorized), users), false)
    else if fault.DatabaseThrows? then (UsersOutcome(500, Some(FetchFailed), users), false)
    else (UsersOutcome(200, None, users), IsAdmin(user.value, admin))
  }

  /**
   * POST: the e-mail (`None` when missing or not a string) is trimmed and
   * lower-cased, must contain '@' and must not be listed yet; the new row
   * records who added it. The body is read once the user is known, and the
   * database is reached once the address is well-formed.
   */
  function Add(user: Option<CurrentUser>, users: seq<AllowedUser>, email: Option<string>, fault: Fault): (r: UsersOutcome)
    ensures fault.LookupThrows? ==> r == UsersOutcome(500, Some(AddFailed), users)
    ensures !fault.LookupThrows? && user.None? ==> r == UsersOutcome(401, Some(Unauthorized), users)
    ensures fault.BodyThrows? && user.Some? ==> r == UsersOutcome(500, Some(AddFailed), users)
    ensures !fault.LookupThrows? && !fault.BodyThrows? && user.Some? && !Truthy(email) ==>
      r == UsersOutcome(400, Some(EmailRequired), users)
    ensures !fault.LookupThrows? && !fault.BodyThrows? && user.Some? && Truthy(email) && '@' !in NormalizeEmail(email.value) ==>
      r == UsersOutcome(400, Some(InvalidEmail), users)
    ensures fault.DatabaseThrows? && user.Some? && Truthy(email) && '@' in NormalizeEmail(email.value) ==>
      r == UsersOutcome(500, Some(AddFailed), users)
    ensures (fault.NoFault? && user.Some? && Truthy(email) && '@' in NormalizeEmail(email.value)
      && Listed(users, NormalizeEmail(email.value))) ==>
      r == UsersOutcome(409, Some(AlreadyListed), users)
    ensures r.status == 200 <==> (fault.NoFault? && user.Some? && Truthy(email) && '@' in NormalizeEmail(email.value)
      && !Listed(users, NormalizeEmail(email.value)))
    ensures r.status == 200 ==>
      r.users == users + [AllowedUser(NormalizeEmail(email.value), OrElse(user.value.email, Some("unknown")).value)]
    ensures r.status != 200 ==> r.users == users
  {
    if fault.LookupThrows? then UsersOutcome(500, Some(AddFailed), users)
    else if user.None? then UsersOutcome(401, Some(Unauthorized), users)
    else if fault.BodyThrows? then UsersOutcome(500, Some(AddFailed), users)
    else if !Truthy(email) then UsersOutcome(400, Some(EmailRequired), users)
    else
      var normalized := NormalizeEmail(email.value);
      if '@' !in normalized then UsersOutcome(400, Some(InvalidEmail), users)
      else if fault.DatabaseThrows? then UsersOutcome(500, Some(AddFailed), users)
      else if Listed(users, normalized) then UsersOutcome(409, Some(AlreadyListed), users)
      else UsersOutcome(200, None, users + [AllowedUser(normalized, OrElse(user.value.email, Some("unknown")).value)])
  }

  /**
   * DELETE: admin only; the admin's own address is refused; every row with
   * the normalised address goes. The body is read once the admin is known,
   * and the database is reached only for the delete itself.
   */
  function Remove(user: Option<CurrentUser>, users: seq<AllowedUser>, email: Option<string>, admin: string, fault: Fault): (r: UsersOutcome)
    ensures fault.LookupThrows? ==> r == UsersOutcome(500, Some(DeleteFailed), users)
    ensures !fault.LookupThrows? && user.None? ==> r == UsersOutcome(401, Some(Unauthorized), users)
    ensures !fault.LookupThrows? && user.Some? && !IsAdmin(user.value, admin) ==> r == UsersOutcome(403, Some(OnlyAdmin), users)
    ensures fault.BodyThrows? && user.Some? && IsAdmin(user.value, admin) ==> r == UsersOutcome(500, Some(DeleteFailed), users)
    ensures !fault.LookupThrows? && !fault.BodyThrows? && user.Some? && IsAdmin(user.value, admin) && !Truthy(email) ==>
      r == UsersOutcome(400, Some(EmailRequired), users)
    ensures (!fault.LookupThrows? && !fault.BodyThrows? && user.Some? && IsAdmin(user.value, admin) && Truthy(email)
      && NormalizeEmail(email.value) == Lower(admin)) ==>
      r == UsersOutcome(400, Some(CannotRemoveAdmin), users)
    ensures (fault.DatabaseThrows? && user.Some? && IsAdmin(user.value, admin) && Truthy(email)
      && NormalizeEmail(email.value) != Lower(admin)) ==>
      r == UsersOutcome(500, Some(DeleteFailed), users)
    ensures r.status == 200 <==> (fault.NoFault? && user.Some? && IsAdmin(user.value, admin) && Truthy(email)
      && NormalizeEmail(email.value) != Lower(admin))
    ensures r.status == 200 ==> ((forall u :: u in r.users <==> u in users && u.email != NormalizeEmail(email.value))
      && IsSubsequence(r.users, users))
    ensures r.status != 200 ==> r.users == users
  {
    if fault.LookupThrows? then UsersOutcome(500, Some(DeleteFailed), users)
    else if user.None? then UsersOutcome(401, Some(Unauthorized), users)
    else if !IsAdmin(user.value, admin) then UsersOutcome(403, Some(OnlyAdmin), users)
    else if fault.BodyThrows? then UsersOutcome(500, Some(DeleteFailed), users)
    else if !Truthy(email) then UsersOutcome(400, Some(EmailRequired), users)
    else
      var normalized := NormalizeEmail(email.value);
      if normalized == Lower(admin) then UsersOutcome(400, Some(CannotRemoveAdmin), users)
      else if fault.DatabaseThrows? then UsersOutcome(500, Some(DeleteFailed), users)
      else UsersOutcome(200, None, Filter(users, (u: AllowedUser) => u.email != normalized))
  }

  /** Every address appears at most once. */
  predicate UniqueEmails(users: seq<AllowedUser>) {
    forall i, j :: 0 <= i < j < |users| ==> users[i].email != users[j].email
  }

  /** Adding keeps the addresses unique. */
  lemma AddKeepsEmailsUnique(user: Option<CurrentUser>, users: seq<AllowedUser>, email: Option<string>, fault: Fault)
    requires UniqueEmails(users)
    ensures UniqueEmails(Add(user, users, email, fault).users)
  {
    var r := Add(user, users, email, fault);
    if r.status == 200 {
      var n := NormalizeEmail(email.value);
      assert !Listed(users, n);
      assert r.users[|users|].email == n;
      forall i, j | 0 <= i < j < |r.users|
        ensures r.users[i].email != r.users[j].email
      {
        if j == |users| {
          assert r.users[i] == users[i];
        } else {
          assert r.users[i] == users[i] && r.users[j] == users[j];
        }
      }
    }
  }

  /** Whatever anyone deletes, the admin's normalised address stays listed if it was. */
  lemma AdminNeverRemoved(user: Option<CurrentUser>, users: seq<AllowedUser>, email: Option<string>, admin: string,
                          fault: Fault, row: AllowedUser)
    requires row in users && row.email == Lower(admin)
    ensures row in Remove(user, users, email, admin, fault).users
  {
  }

  /** Adding twice, in any case and with any padding, stores one row. */
  lemma AddTwiceIsRefused(user: CurrentUser, users: seq<AllowedUser>, email: string, again: string)
    requires Truthy(Some(email)) && '@' in NormalizeEmail(email) && !Listed(users, NormalizeEmail(email))
    requires again != [] && NormalizeEmail(again) == NormalizeEmail(email)
    ensures var first := Add(Some(user), users, Some(email), NoFault);
      Add(Some(user), first.users, Some(again), NoFault).status == 409
  {
    var first := Add(Some(user), users, Some(email), NoFault);
    assert first.users[|users|].email == NormalizeEmail(again);
  }
}

=== FILE: area_edits.dfy ===
/**
 * Editing the area layout from the app: moving a room between areas and
 * deleting an area. Both change the cache first and then ask the server;
 * a refused move is repaired by a full poll, a refused delete by putting
 * the old list back.
 */
module AreaEdits {
  import opened Common
  import opened Devices
  import opened DeviceStore

  /** The pseudo-area for rooms that belong to no area. */
  const Unassigned: string := "unassigned"

  /** The outcome of an area edit: the state, the value returned, and whether a full poll follows. */
  datatype EditOutcome = EditOutcome(state: DeviceState, ok: bool, refetch: bool)

  function Without(ids: seq<string>, id: string): (r: seq<string>)
    ensures id !in r
    ensures forall x :: x in r <==> x in ids && x != id
    ensures IsSubsequence(r, ids)
  {
    Filter(ids, (x: string) => x != id)
  }

  /**
   * The optimistic area list: the source area loses the room, otherwise
   * the target area gains it at the end. The source test comes first, so
   * a move into the room's own area only removes it.
   */
  function MoveInAreas(areas: seq<Area>, roomId: string, source: Option<string>, target: string): (r: seq<Area>)
    ensures |r| == |areas|
    ensures forall i :: 0 <= i < |areas| ==> r[i].id == areas[i].id && r[i].name == areas[i].name
    ensures forall i :: 0 <= i < |areas| && Some(areas[i].id) == source ==> r[i].roomIds == Without(areas[i].roomIds, roomId)
    ensures forall i :: 0 <= i < |areas| && Some(areas[i].id) != source && areas[i].id == target ==>
      r[i].roomIds == areas[i].roomIds + [roomId]
    ensures forall i :: 0 <= i < |areas| && Some(areas[i].id) != source && areas[i].id != target ==> r[i] == areas[i]
  {
    seq(|areas|, i requires 0 <= i < |areas| =>
      if Some(areas[i].id) == source then areas[i].(roomIds := Without(areas[i].roomIds, roomId))
      else if areas[i].id == target then areas[i].(roomIds := areas[i].roomIds + [roomId])
      else areas[i])
  }

  function AreaIs(id: string): Area -> bool {
    (a: Area) => a.id == id
  }

  /** The room's new area fields: none for the unassigned pseudo-area, else the target and its name if known. */
  function MoveRoom(rooms: seq<Room>, areas: seq<Area>, roomId: string, target: string): (r: seq<Room>)
    ensures |r| == |rooms|
    ensures forall i :: 0 <= i < |rooms| && rooms[i].id != roomId ==> r[i] == rooms[i]
    ensures forall i :: 0 <= i < |rooms| && rooms[i].id == roomId ==>
      r[i].id == roomId && r[i].name == rooms[i].name
      && (target == Unassigned ==> r[i].areaId == None && r[i].areaName == None)
      && (target != Unassigned ==> (r[i].areaId == Some(target)
           && r[i].areaName == match Find(areas, AreaIs(target)) case Some(a) => Some(a.name) case None => None))
  {
    var areaName := match Find(areas, AreaIs(target)) case Some(a) => Some(a.name) case None => None;
    seq(|rooms|, i requires 0 <= i < |rooms| =>
      if rooms[i].id != roomId then rooms[i]
      else if target == Unassigned then rooms[i].(areaId := None, areaName := None)
      else rooms[i].(areaId := Some(target), areaName := areaName))
  }

  /** `moveRoomToArea`: edit the cache, then a refusal or an error triggers a full poll. */
  function MoveRoomToArea(s: DeviceState, roomId: string, source: Option<string>, target: string, reply: WriteReply): (r: EditOutcome)
    ensures r.state == s.(areas := MoveInAreas(s.areas, roomId, source, target), rooms := MoveRoom(s.rooms, s.areas, roomId, target))
    ensures r.ok <==> Succeeded(reply)
    ensures r.refetch <==> !r.ok
  {
    var s1 := s.(areas := MoveInAreas(s.areas, roomId, source, target), rooms := MoveRoom(s.rooms, s.areas, roomId, target));
    EditOutcome(s1, Succeeded(reply), !Succeeded(reply))
  }

  /**
   * Moving a room between two different areas: afterwards it is listed by
   * the target area and by no area with the source's id.
   */
  lemma MoveBetweenAreas(s: DeviceState, roomId: string, source: string, target: string, reply: WriteReply, i: nat)
    requires source != target && i < |s.areas|
    ensures var areas := MoveRoomToArea(s, roomId, Some(source), target, reply).state.areas;
      (s.areas[i].id == target ==> roomId in areas[i].roomIds)
      && (s.areas[i].id == source ==> roomId !in areas[i].roomIds)
  {
  }

  /**
   * Moving a room into the area it is already in removes it from that area
   * and never adds it back: no area with that id lists it afterwards.
   */
  lemma MoveIntoSameAreaDropsRoom(s: DeviceState, roomId: string, area: string, reply: WriteReply)
    ensures var areas := MoveRoomToArea(s, roomId, Some(area), area, reply).state.areas;
      forall i :: 0 <= i < |areas| && areas[i].id == area ==> roomId !in areas[i].roomIds
  {
  }

  /** `deleteArea`: drop it at once; put the old list back if the server refuses or the call fails. */
  function DeleteArea(s: DeviceState, areaId: string, reply: WriteReply): (r: EditOutcome)
    ensures r.ok <==> Succeeded(reply)
    ensures r.refetch <==> r.ok
    ensures !r.ok ==> r.state == s
    ensures r.ok ==> r.state == s.(areas := r.state.areas)
    ensures r.ok ==> forall a :: a in r.state.areas <==> a in s.areas && a.id != areaId
    ensures r.ok ==> IsSubsequence(r.state.areas, s.areas)
  {
    var original := s.areas;
    var s1 := s.(areas := Filter(s.areas, (a: Area) => a.id != areaId));
    if Succeeded(reply) then EditOutcome(s1, true, true)
    else EditOutcome(s1.(areas := original), false, false)
  }
}

=== FILE: audio_zones.dfy ===
/**
 * User-defined audio zones (named groups of media rooms), kept as one list
 * in a data file. The file is abstracted away: each handler receives the
 * list it read and whether the write succeeded, and returns the list that
 * is stored afterwards. The generated id and the clock are parameters.
 */
module AudioZones {
  import opened Common
  import opened Routes

  datatype Zone = Zone(
    id: string, name: string, mediaRoomIds: seq<string>, isBuiltIn: bool,
    createdAt: Option<string>, updatedAt: Option<string>)

  /** What writing the file did. */
  datatype Write = Written | WriteFailed(message: Option<string>)

  /** A handler's answer and the zone list stored afterwards. */
  datatype ZoneOutcome = ZoneOutcome(answer: Answer<Zone>, zones: seq<Zone>)

  const NameRequired: string := "Zone name is required"
  const RoomsRequired: string := "At least one media room ID is required"
  const DuplicateName: string := "A zone with this name already exists"
  const IdRequired: string := "Zone ID is required"
  const NotFound: string := "Zone not found"
  const CannotEdit: string := "Cannot edit built-in zones"
  const CannotDelete: string := "Cannot delete built-in zones"

  /** `String(x)` for an element of the posted id array (`null` renders as "null"). */
  function StringOf(x: JsonId): string {
    match x
    case NoId => "null"
    case NumberId(n) => IdText(n)
    case TextId(s) => s
  }

  /** Whether some zone other than `except` already has this name, ignoring case. */
  predicate NameTaken(zones: seq<Zone>, name: string, except: Option<string>) {
    exists i :: 0 <= i < |zones| && Some(zones[i].id) != except && Lower(zones[i].name) == Lower(Trim(name))
  }

  /** A failed write: the file keeps the old list and the answer is a 500. */
  function WriteError(zones: seq<Zone>, message: Option<string>, fallback: string): ZoneOutcome {
    ZoneOutcome(Answer(500, false, Some(message.GetOr(fallback)), None), zones)
  }

  function Reject(zones: seq<Zone>, status: int, message: string): ZoneOutcome {
    ZoneOutcome(Answer(status, false, Some(message), None), zones)
  }

  // ---------------------------------------------------------------------------
  // POST
  // ---------------------------------------------------------------------------

  /** POST's body: `name` is `None` when missing or not a string, `mediaRoomIds` when missing or not an array. */
  datatype CreateBody = CreateBody(name: Option<string>, mediaRoomIds: Option<seq<JsonId>>)

  /** POST: validate, refuse a duplicate name, append the new zone. */
  function Create(zones: seq<Zone>, body: CreateBody, newId: string, now: string, write: Write): (r: ZoneOutcome)
    ensures body.name.None? || Trim(body.name.value) == [] ==> r == Reject(zones, 400, NameRequired)
    ensures body.name.Some? && Trim(body.name.value) != [] && (body.mediaRoomIds.None? || body.mediaRoomIds.value == []) ==>
      r == Reject(zones, 400, RoomsRequired)
    ensures r.answer.success <==> (body.name.Some? && Trim(body.name.value) != []
      && body.mediaRoomIds.Some? && body.mediaRoomIds.value != []
      && !NameTaken(zones, body.name.value, None) && write.Written?)
    ensures (body.name.Some? && Trim(body.name.value) != [] && body.mediaRoomIds.Some? && body.mediaRoomIds.value != []
      && NameTaken(zones, body.name.value, None)) ==> r == Reject(zones, 400, DuplicateName)
    ensures (body.name.Some? && Trim(body.name.value) != [] && body.mediaRoomIds.Some? && body.mediaRoomIds.value != []
      && !NameTaken(zones, body.name.value, None) && write.WriteFailed?) ==>
      r == WriteError(zones, write.message, "Failed to create audio zone")
    ensures r.answer.success ==> (r.answer.status == 200 && r.answer.error.None?
      && r.answer.data.Some? && r.zones == zones + [r.answer.data.value]
      && r.answer.data.value == Zone(newId, Trim(body.name.value), Map(body.mediaRoomIds.value, StringOf), false, Some(now), Some(now)))
    ensures !r.answer.success ==> r.zones == zones
  {
    if body.name.None? || Trim(body.name.value) == [] then Reject(zones, 400, NameRequired)
    else if body.mediaRoomIds.None? || body.mediaRoomIds.value == [] then Reject(zones, 400, RoomsRequired)
    else if NameTaken(zones, body.name.value, None) then Reject(zones, 400, DuplicateName)
    else
      var zone := Zone(newId, Trim(body.name.value), Map(body.mediaRoomIds.value, StringOf), false, Some(now), Some(now));
      match write
      case WriteFailed(message) => WriteError(zones, message, "Failed to create audio zone")
      case Written => ZoneOutcome(Answer(200, true, None, Some(zone)), zones + [zone])
  }

  // ---------------------------------------------------------------------------
  // PUT
  // ---------------------------------------------------------------------------

  /** PUT's body; a name, when given, is assumed to be a string. */
  datatype UpdateBody = UpdateBody(id: JsonId, name: Option<string>, mediaRoomIds: Option<seq<JsonId>>)

  /** `zones.findIndex(zone => zone.id === id)`: only a string id can match. */
  function IndexOf(zones: seq<Zone>, id: JsonId): (r: Option<nat>)
    ensures r.Some? ==> (r.value < |zones| && id == TextId(zones[r.value].id)
      && forall j :: 0 <= j < r.value ==> TextId(zones[j].id) != id)
    ensures r.None? ==> forall j :: 0 <= j < |zones| ==> TextId(zones[j].id) != id
  {
    FindIndex(zones, (z: Zone) => TextId(z.id) == id)
  }

  /** PUT: find the zone, refuse a built-in one or a name another zone has, then replace its slot. */
  function Update(zones: seq<Zone>, body: UpdateBody, now: string, write: Write): (r: ZoneOutcome)
    ensures !TruthyId(body.id) ==> r == Reject(zones, 400, IdRequired)
    ensures TruthyId(body.id) && IndexOf(zones, body.id).None? ==> r == Reject(zones, 404, NotFound)
    ensures TruthyId(body.id) && IndexOf(zones, body.id).Some? && zones[IndexOf(zones, body.id).value].isBuiltIn ==>
      r == Reject(zones, 400, CannotEdit)
    ensures (TruthyId(body.id) && IndexOf(zones, body.id).Some? && !zones[IndexOf(zones, body.id).value].isBuiltIn
      && Truthy(body.name) && NameTaken(zones, body.name.value, Some(zones[IndexOf(zones, body.id).value].id))) ==>
      r == Reject(zones, 400, DuplicateName)
    ensures !r.answer.success ==> r.zones == zones
    ensures r.answer.success <==> (TruthyId(body.id) && IndexOf(zones, body.id).Some?
      && !zones[IndexOf(zones, body.id).value].isBuiltIn
      && (Truthy(body.name) ==> !NameTaken(zones, body.name.value, Some(zones[IndexOf(zones, body.id).value].id)))
      && write.Written?)
    ensures (TruthyId(body.id) && IndexOf(zones, body.id).Some? && !zones[IndexOf(zones, body.id).value].isBuiltIn
      && (Truthy(body.name) ==> !NameTaken(zones, body.name.value, Some(zones[IndexOf(zones, body.id).value].id)))
      && write.WriteFailed?) ==>
      r == WriteError(zones, write.message, "Failed to update audio zone")
    ensures r.answer.success ==> var i := IndexOf(zones, body.id).value; var prev := zones[i];
      && !prev.isBuiltIn && r.answer.status == 200 && r.answer.error.None?
      && r.answer.data.Some? && r.zones == zones[i := r.answer.data.value]
      && r.answer.data.value == prev.(
           name := if Truthy(body.name) then Trim(body.name.value) else prev.name,
           mediaRoomIds := if body.mediaRoomIds.Some? then Map(body.mediaRoomIds.value, StringOf) else prev.mediaRoomIds,
           updatedAt := Some(now))
  {
    if !TruthyId(body.id) then Reject(zones, 400, IdRequired)
    else match IndexOf(zones, body.id)
      case None => Reject(zones, 404, NotFound)
      case Some(i) =>
        var prev := zones[i];
        if prev.isBuiltIn then Reject(zones, 400, CannotEdit)
        else if Truthy(body.name) && NameTaken(zones, body.name.value, Some(prev.id)) then Reject(zones, 400, DuplicateName)
        else
          var updated := prev.(
            name := if Truthy(body.name) then Trim(body.name.value) else prev.name,
            mediaRoomIds := if body.mediaRoomIds.Some? then Map(body.mediaRoomIds.value, StringOf) else prev.mediaRoomIds,
            updatedAt := Some(now));
          match write
          case WriteFailed(message) => WriteError(zones, message, "Failed to update audio zone")
          case Written => ZoneOutcome(Answer(200, true, None, Some(updated)), zones[i := updated])
  }

  // ---------------------------------------------------------------------------
  // DELETE
  // ---------------------------------------------------------------------------

  /** DELETE `?id=`: find the zone, refuse a built-in one, then cut it out. */
  function Delete(zones: seq<Zone>, id: Option<string>, write: Write): (r: ZoneOutcome)
    ensures !Truthy(id) ==> r == Reject(zones, 400, IdRequired)
    ensures Truthy(id) && IndexOf(zones, TextId(id.value)).None? ==> r == Reject(zones, 404, NotFound)
    ensures Truthy(id) && IndexOf(zones, TextId(id.value)).Some? && zones[IndexOf(zones, TextId(id.value)).value].isBuiltIn ==>
      r == Reject(zones, 400, CannotDelete)
    ensures (Truthy(id) && IndexOf(zones, TextId(id.value)).Some? && !zones[IndexOf(zones, TextId(id.value)).value].isBuiltIn
      && write.WriteFailed?) ==>
      r == WriteError(zones, write.message, "Failed to delete audio zone")
    ensures !r.answer.success ==> r.zones == zones
    ensures r.answer.success <==> (Truthy(id) && IndexOf(zones, TextId(id.value)).Some?
      && !zones[IndexOf(zones, TextId(id.value)).value].isBuiltIn && write.Written?)
    ensures r.answer.success ==> var i := IndexOf(zones, TextId(id.value)).value;
      r.answer == Answer(200, true, None, None) && r.zones == zones[..i] + zones[i + 1..]
  {
    if !Truthy(id) then Reject(zones, 400, IdRequired)
    else match IndexOf(zones, TextId(id.value))
      case None => Reject(zones, 404, NotFound)
      case Some(i) =>
        if zones[i].isBuiltIn then Reject(zones, 400, CannotDelete)
        else match write
          case WriteFailed(message) => WriteError(zones, message, "Failed to delete audio zone")
          case Written => ZoneOutcome(Answer(200, true, None, None), zones[..i] + zones[i + 1..])
  }

  // ---------------------------------------------------------------------------
  // What the three handlers keep true of the list
  // ---------------------------------------------------------------------------

  /** Ids are unique and no two zones share a name, ignoring case. */
  predicate WellFormed(zones: seq<Zone>) {
    (forall i, j :: 0 <= i < j < |zones| ==> zones[i].id != zones[j].id)
    && (forall i, j :: 0 <= i < j < |zones| ==> Lower(zones[i].name) != Lower(zones[j].name))
  }

  /** A trimmed name is its own trim. */
  lemma TrimTwice(s: string)
    ensures Trim(Trim(s)) == Trim(s)
  {
    TrimStartSpec(s);
    TrimEndSpec(TrimStart(s));
    var t := Trim(s);
    if t != [] {
      assert !IsSpace(t[0]);
      assert TrimStart(t) == t;
      assert !IsSpace(t[|t| - 1]);
    }
  }

  /** Creating a zone with a fresh id keeps ids unique and names distinct. */
  lemma CreateKeepsWellFormed(zones: seq<Zone>, body: CreateBody, newId: string, now: string, write: Write)
    requires WellFormed(zones)
    requires forall z :: z in zones ==> z.id != newId
    ensures WellFormed(Create(zones, body, newId, now, write).zones)
  {
    var r := Create(zones, body, newId, now, write);
    if r.answer.success {
      var z := r.answer.data.value;
      assert r.zones == zones + [z];
      forall i | 0 <= i < |zones|
        ensures Lower(zones[i].name) != Lower(z.name)
      {
        TrimTwice(body.name.value);
      }
      forall i | 0 <= i < |zones|
        ensures zones[i].id != z.id
      {
        assert zones[i] in zones;
      }
    }
  }

  /** Renaming or re-filling a zone keeps ids unique and names distinct. */
  lemma UpdateKeepsWellFormed(zones: seq<Zone>, body: UpdateBody, now: string, write: Write)
    requires WellFormed(zones)
    ensures WellFormed(Update(zones, body, now, write).zones)
  {
    var r := Update(zones, body, now, write);
    if r.answer.success {
      var i := IndexOf(zones, body.id).value;
      var z := r.answer.data.value;
      assert z.id == zones[i].id;
      if Truthy(body.name) {
        TrimTwice(body.name.value);
        forall j | 0 <= j < |zones| && j != i
          ensures Lower(zones[j].name) != Lower(z.name)
        {
        }
      }
    }
  }

  /** Deleting a zone keeps ids unique and names distinct. */
  lemma DeleteKeepsWellFormed(zones: seq<Zone>, id: Option<string>, write: Write)
    requires WellFormed(zones)
    ensures WellFormed(Delete(zones, id, write).zones)
  {
    var r := Delete(zones, id, write);
    if r.answer.success {
      var i := IndexOf(zones, TextId(id.value)).value;
      assert forall k :: 0 <= k < |r.zones| ==> r.zones[k] == if k < i then zones[k] else zones[k + 1];
    }
  }

  /** No handler changes or removes a built-in zone. */
  lemma BuiltInZonesSurvive(zones: seq<Zone>, createBody: CreateBody, updateBody: UpdateBody,
                            deleteId: Option<string>, newId: string, now: string, write: Write, z: Zone)
    requires WellFormed(zones) && z in zones && z.isBuiltIn
    ensures z in Create(zones, createBody, newId, now, write).zones
    ensures z in Update(zones, updateBody, now, write).zones
    ensures z in Delete(zones, deleteId, write).zones
  {
    var k :| 0 <= k < |zones| && zones[k] == z;
    var u := Update(zones, updateBody, now, write);
    if u.answer.success {
      var i := IndexOf(zones, updateBody.id).value;
      assert i != k;
      assert u.zones[k] == z;
    }
    var d := Delete(zones, deleteId, write);
    if d.answer.success {
      var i := IndexOf(zones, TextId(deleteId.value)).value;
      assert i != k;
      if k < i {
        assert d.zones[k] == z;
      } else {
        assert d.zones[k - 1] == z;
      }
    }
  }

  /** Creating needs at least one room, but an update may empty a zone. */
  lemma UpdateMayEmptyZone(zones: seq<Zone>, name: Option<string>, now: string, z: Zone)
    requires WellFormed(zones) && z in zones && !z.isBuiltIn && z.id != "" && !Truthy(name)
    ensures var r := Update(zones, UpdateBody(TextId(z.id), name, Some([])), now, Written);
      r.answer.success && r.answer.data.value.mediaRoomIds == []
    ensures !Create(zones, CreateBody(Some(z.name + "!"), Some([])), "id", now, Written).answer.success
  {
    var k :| 0 <= k < |zones| && zones[k] == z;
    var i := IndexOf(zones, TextId(z.id));
    assert i.Some?;
    assert zones[i.value].id == z.id;
  }
}

=== FILE: auth.dfy ===
/**
 * Server-side sign-in: the e-mail allowlist, the order of the checks in
 * the OpenID Connect callback handler, and session lifetime. The identity
 * provider's answer, the generated session id and the clock are
 * parameters; the user and session tables are values.
 */
module Auth {
  import opened Common

  /** One week, in milliseconds. */
  const SessionTtl: int := 7 * 24 * 60 * 60 * 1000

  // ---------------------------------------------------------------------------
  // Allowlist
  // ---------------------------------------------------------------------------

  function Normalize(entry: string): string {
    Lower(Trim(entry))
  }

  /** The configured list: comma-separated, each entry trimmed and lower-cased. */
  function AllowedList(allowedUsers: string): (r: seq<string>)
    ensures |r| == |Split(allowedUsers, ',')|
    ensures forall k :: 0 <= k < |r| ==> r[k] == Normalize(Split(allowedUsers, ',')[k])
  {
    var parts := Split(allowedUsers, ',');
    seq(|parts|, k requires 0 <= k < |parts| => Normalize(parts[k]))
  }

  /**
   * `isEmailAllowed`: everyone when no list is configured; otherwise the
   * lower-cased e-mail (not trimmed) must be one of the entries.
   */
  function IsEmailAllowed(allowedUsers: Option<string>, email: Option<string>): (r: bool)
    ensures !Truthy(allowedUsers) ==> r
    ensures Truthy(allowedUsers) && !Truthy(email) ==> !r
    ensures Truthy(allowedUsers) && Truthy(email) ==> (r <==> Lower(email.value) in AllowedList(allowedUsers.value))
  {
    if !Truthy(allowedUsers) then true
    else if !Truthy(email) then false
    else Lower(email.value) in AllowedList(allowedUsers.value)
  }

  /**
   * An e-mail written into the list, in any case and with any spaces
   * around it, is allowed; and the check ignores the case of the e-mail.
   */
  lemma ListedEmailAllowed(entries: seq<string>, i: nat, email: string)
    requires |entries| >= 1 && i < |entries|
    requires forall k :: 0 <= k < |entries| ==> ',' !in entries[k]
    requires email != [] && Normalize(entries[i]) == Lower(email)
    ensures IsEmailAllowed(Some(Join(entries, ',')), Some(email))
  {
    SplitJoin(entries, ',');
    var list := AllowedList(Join(entries, ','));
    assert list[i] == Lower(email);
    LowerSpec(email);
    assert Join(entries, ',') != [] by {
      if Join(entries, ',') == [] {
        assert false;
      }
    }
  }

  /** The check does not depend on the case of the e-mail. */
  lemma AllowlistIgnoresCase(allowedUsers: Option<string>, email: string)
    ensures IsEmailAllowed(allowedUsers, Some(email)) == IsEmailAllowed(allowedUsers, Some(Lower(email)))
  {
    LowerTwice(email);
    LowerSpec(email);
  }

  // ---------------------------------------------------------------------------
  // Callback handler and sessions
  // ---------------------------------------------------------------------------

  datatype Claims = Claims(sub: string, email: Option<string>)

  /** The code exchange: the token set's claims (possibly none), or an exception. */
  datatype Exchange = Granted(claims: Option<Claims>) | ExchangeThrew(message: string)

  datatype UserRow = UserRow(id: string, email: Option<string>)
  datatype SessionRow = SessionRow(userId: string, expire: int)

  const StateError: string := "Invalid OAuth state - possible CSRF attack"
  const NoClaims: string := "No claims received from OIDC provider"
  /** The tag that marks a refused e-mail address; the callback route looks for it. */
  const DeniedTag: string := "ACCESS_DENIED"
  const AccessDenied: string := DeniedTag + ": Your email is not authorized to access this application"

  /** The handler's result and the side effects it had, in order. */
  datatype CallbackOutcome = CallbackOutcome(
    result: Result, exchanged: bool, upserted: Option<UserRow>, session: Option<(string, SessionRow)>)
  datatype Result = SessionId(sid: string) | Thrown(message: string)

  /** `handleCallback(code, hostname, state, expectedState)`. */
  function HandleCallback(state: string, expectedState: string, allowedUsers: Option<string>,
                          exchange: Exchange, newSid: string, now: int): (r: CallbackOutcome)
    ensures (state == "" || state != expectedState) ==> r == CallbackOutcome(Thrown(StateError), false, None, None)
    ensures r.exchanged <==> state != "" && state == expectedState
    ensures r.upserted.Some? <==> r.session.Some?
    ensures r.session.Some? <==> (r.exchanged && exchange.Granted? && exchange.claims.Some?
      && IsEmailAllowed(allowedUsers, exchange.claims.value.email))
    ensures r.result.SessionId? <==> r.session.Some?
    ensures r.session.Some? ==> (r.result.sid == newSid && r.session.value.0 == newSid
      && r.session.value.1 == SessionRow(exchange.claims.value.sub, now + SessionTtl)
      && r.upserted.value == UserRow(exchange.claims.value.sub, exchange.claims.value.email))
    ensures r.exchanged && exchange.Granted? && exchange.claims.Some? && !IsEmailAllowed(allowedUsers, exchange.claims.value.email) ==>
      r.result == Thrown(AccessDenied)
  {
    if state == "" || state != expectedState then CallbackOutcome(Thrown(StateError), false, None, None)
    else match exchange
      case ExchangeThrew(message) => CallbackOutcome(Thrown(message), true, None, None)
      case Granted(None) => CallbackOutcome(Thrown(NoClaims), true, None, None)
      case Granted(Some(claims)) =>
        if !IsEmailAllowed(allowedUsers, claims.email) then CallbackOutcome(Thrown(AccessDenied), true, None, None)
        else
          CallbackOutcome(SessionId(newSid), true, Some(UserRow(claims.sub, claims.email)),
            Some((newSid, SessionRow(claims.sub, now + SessionTtl))))
  }

  /** `getSession`: an unknown or expired session reads as none, and an expired one is deleted. */
  function GetSession(sessions: map<string, SessionRow>, sid: string, now: int): (r: (Option<SessionRow>, map<string, SessionRow>))
    ensures r.0.Some? <==> sid in sessions && sessions[sid].expire >= now
    ensures r.0.Some? ==> r.0.value == sessions[sid] && r.1 == sessions
    ensures r.0.None? ==> r.1 == sessions - {sid}
  {
    if sid !in sessions || sessions[sid].expire < now then (None, sessions - {sid})
    else (Some(sessions[sid]), sessions)
  }

  /** A session made by a successful callback is honoured for exactly seven days, then removed on first use. */
  lemma SessionLastsSevenDays(state: string, allowedUsers: Option<string>, claims: Claims,
                              sid: string, now: int, later: int, sessions: map<string, SessionRow>)
    requires state != "" && IsEmailAllowed(allowedUsers, claims.email) && now <= later
    ensures var created := HandleCallback(state, state, allowedUsers, Granted(Some(claims)), sid, now).session.value;
      var table := sessions[created.0 := created.1];
      (GetSession(table, sid, later).0.Some? <==> later <= now + SessionTtl)
      && (later > now + SessionTtl ==> sid !in GetSession(table, sid, later).1)
  {
  }
}

=== FILE: auth_store.dfy ===
/**
 * The connection store: which controller the app talks to, the session key
 * it holds, and the transitions between connected, connecting, refreshing
 * and disconnected. The login endpoint's reply is a parameter.
 */
module AuthStore {
  import opened Common

  datatype AuthState = AuthState(
    isConnected: bool,
    isConnecting: bool,
    isRefreshingAuth: bool,
    processorIp: Option<string>,
    authKey: Option<string>,
    authToken: Option<string>,
    authTokenFromEnv: bool,
    error: Option<string>)

  const Initial: AuthState := AuthState(false, false, false, None, None, None, false, None)

  const SessionExpired: string := "Session expired. Please log in again."

  /** What the login endpoint answered, or that the request threw (with the error's message, if it was an Error). */
  datatype LoginReply =
    | Replied(success: bool, authKey: Option<string>, error: Option<string>)
    | Threw(message: Option<string>)

  /** The body of a login request; an absent token lets the server use its own. */
  datatype LoginRequest = LoginRequest(processorIp: string, authToken: Option<string>)

  predicate Accepted(reply: LoginReply) {
    reply.Replied? && reply.success && Truthy(reply.authKey)
  }

  function SetConnection(s: AuthState, processorIp: string, authKey: string, authToken: Option<string>, fromEnv: bool): (r: AuthState)
    ensures r.isConnected && !r.isConnecting && !r.isRefreshingAuth && r.error == None
    ensures r.processorIp == Some(processorIp) && r.authKey == Some(authKey)
    ensures Truthy(authToken) ==> r.authToken == authToken
    ensures !Truthy(authToken) ==> r.authToken == s.authToken
    ensures r.authTokenFromEnv <==> fromEnv || s.authTokenFromEnv
  {
    AuthState(true, false, false, Some(processorIp), Some(authKey),
      OrElse(authToken, s.authToken), fromEnv || s.authTokenFromEnv, None)
  }

  /** Marks a connection attempt as started or finished; nothing else changes. */
  function SetConnecting(s: AuthState, connecting: bool): (r: AuthState)
    ensures r.isConnecting == connecting
    ensures r.isConnected == s.isConnected && r.isRefreshingAuth == s.isRefreshingAuth && r.error == s.error
    ensures r.processorIp == s.processorIp && r.authKey == s.authKey
    ensures r.authToken == s.authToken && r.authTokenFromEnv == s.authTokenFromEnv
  {
    s.(isConnecting := connecting)
  }

  /** Recording an error (or clearing it) also ends any connection attempt. */
  function SetError(s: AuthState, error: Option<string>): (r: AuthState)
    ensures r.error == error && !r.isConnecting
    ensures r.(error := s.error, isConnecting := s.isConnecting) == s
  {
    s.(error := error, isConnecting := false)
  }

  function Disconnect(s: AuthState): (r: AuthState)
    ensures !r.isConnected && !r.isConnecting && !r.isRefreshingAuth && !r.authTokenFromEnv
    ensures r.processorIp == None && r.authKey == None && r.authToken == None && r.error == None
  {
    Initial
  }

  /** Drops the session key but keeps what is needed to log in again. */
  function InvalidateAuth(s: AuthState): (r: AuthState)
    ensures !r.isConnected && !r.isRefreshingAuth && r.authKey == None
    ensures r.processorIp == s.processorIp && r.authToken == s.authToken
    ensures r.authTokenFromEnv == s.authTokenFromEnv
    ensures r.isConnecting == s.isConnecting && r.error == s.error
  {
    s.(isConnected := false, isRefreshingAuth := false, authKey := None)
  }

  /** The headers every controller request carries. */
  function GetAuthHeaders(s: AuthState): (r: map<string, string>)
    ensures r == map[] <==> !Truthy(s.processorIp) || !Truthy(s.authKey)
    ensures r != map[] ==> (r.Keys == {"x-processor-ip", "x-auth-key"}
      && r["x-processor-ip"] == s.processorIp.value && r["x-auth-key"] == s.authKey.value)
  {
    if !Truthy(s.processorIp) || !Truthy(s.authKey) then map[]
    else
      var r := map["x-processor-ip" := s.processorIp.value, "x-auth-key" := s.authKey.value];
      assert "x-auth-key" in r;
      r
  }

  /** Result of an asynchronous store action: the final state and the value returned. */
  datatype Outcome = Outcome(state: AuthState, ok: bool)

  /** `login`: connects on an accepted reply, otherwise records why not. */
  function Login(s: AuthState, processorIp: string, authToken: string, reply: LoginReply): (r: Outcome)
    ensures r.ok <==> Accepted(reply)
    ensures !r.state.isConnecting
    ensures r.ok ==> r.state == SetConnection(s, processorIp, reply.authKey.value, Some(authToken), false)
    ensures !r.ok ==> (r.state.error.Some? && r.state.isConnected == s.isConnected
      && r.state.authKey == s.authKey && r.state.processorIp == s.processorIp)
    ensures reply.Replied? && !r.ok && Truthy(reply.error) ==> r.state.error == reply.error
    ensures reply.Replied? && !r.ok && !Truthy(reply.error) ==> r.state.error == Some("Failed to connect")
    ensures reply.Threw? ==> r.state.error == Some(reply.message.GetOr("Connection failed"))
  {
    // setConnecting(true) is immediately undone by setError(null).
    var s1 := SetError(SetConnecting(s, true), None);
    match reply
    case Replied(success, authKey, error) =>
      if success && Truthy(authKey) then
        Outcome(SetConnection(s1, processorIp, authKey.value, Some(authToken), false), true)
      else
        Outcome(SetError(s1, Some(OrElse(error, Some("Failed to connect")).value)), false)
    case Threw(message) =>
      Outcome(SetError(s1, Some(message.GetOr("Connection failed"))), false)
  }

  /** Whether the stored credentials allow a refresh at all. */
  predicate CanRefresh(s: AuthState) {
    Truthy(s.processorIp) && (Truthy(s.authToken) || s.authTokenFromEnv)
  }

  /** The login request a refresh sends, if any. */
  function RefreshRequest(s: AuthState): (r: Option<LoginRequest>)
    ensures r.Some? <==> CanRefresh(s)
    ensures r.Some? ==> r.value.processorIp == s.processorIp.value
    ensures r.Some? && s.authTokenFromEnv ==> r.value.authToken == None
    ensures r.Some? && !s.authTokenFromEnv ==> r.value.authToken == s.authToken
  {
    if !CanRefresh(s) then None
    else Some(LoginRequest(s.processorIp.value, if s.authTokenFromEnv then None else s.authToken))
  }

  /**
   * `refreshAuth`: re-login with the stored credentials. Without usable
   * credentials it invalidates at once and sends nothing (`reply` unused).
   */
  function RefreshAuth(s: AuthState, reply: LoginReply): (r: Outcome)
    ensures !CanRefresh(s) ==> r == Outcome(InvalidateAuth(s), false)
    ensures r.ok <==> CanRefresh(s) && Accepted(reply)
    ensures r.ok ==> (r.state.isConnected && r.state.authKey == reply.authKey
      && r.state.processorIp == s.processorIp && r.state.authToken == s.authToken
      && r.state.authTokenFromEnv == s.authTokenFromEnv && r.state.error == None)
    ensures !r.ok ==> (!r.state.isConnected && r.state.authKey == None && !r.state.isRefreshingAuth
      && r.state.processorIp == s.processorIp && r.state.authToken == s.authToken
      && r.state.authTokenFromEnv == s.authTokenFromEnv)
    ensures CanRefresh(s) && reply.Replied? && !r.ok ==> r.state.error == Some(SessionExpired)
  {
    if !CanRefresh(s) then Outcome(InvalidateAuth(s), false)
    else
      var ip := s.processorIp.value;
      var s1 := SetConnecting(s.(isRefreshingAuth := true), true);
      match reply
      case Replied(success, authKey, _) =>
        if success && Truthy(authKey) then
          Outcome(SetConnection(s1, ip, authKey.value, s.authToken, s.authTokenFromEnv), true)
        else
          Outcome(SetError(InvalidateAuth(s1), Some(SessionExpired)), false)
      case Threw(message) =>
        Outcome(SetError(InvalidateAuth(s1), Some(message.GetOr("Failed to refresh session"))), false)
  }

  /**
   * A failed refresh keeps the credentials, so the next refresh sends the
   * very same request: failures never lock the app out of retrying.
   */
  lemma RefreshFailureKeepsRequest(s: AuthState, reply: LoginReply)
    requires !RefreshAuth(s, reply).ok
    ensures RefreshRequest(RefreshAuth(s, reply).state) == RefreshRequest(s)
  {
  }

  /** After a successful refresh the store can sign controller requests again. */
  lemma RefreshSuccessSignsRequests(s: AuthState, reply: LoginReply)
    requires RefreshAuth(s, reply).ok
    ensures GetAuthHeaders(RefreshAuth(s, reply).state)
      == map["x-processor-ip" := s.processorIp.value, "x-auth-key" := reply.authKey.value]
  {
  }

  /**
   * A login that is accepted signs later requests with the new key, and a
   * refresh replays the same login; a refused login leaves the signing as it was.
   */
  lemma LoginSignsAndReplays(s: AuthState, processorIp: string, authToken: string, reply: LoginReply)
    requires processorIp != ""
    ensures var r := Login(s, processorIp, authToken, reply);
      (r.ok ==> GetAuthHeaders(r.state) == map["x-processor-ip" := processorIp, "x-auth-key" := reply.authKey.value])
      && (r.ok && authToken != "" && !s.authTokenFromEnv ==>
            RefreshRequest(r.state) == Some(LoginRequest(processorIp, Some(authToken))))
      && (!r.ok ==> GetAuthHeaders(r.state) == GetAuthHeaders(s))
  {
  }

  /** After invalidation no request is signed, and disconnect forgets how to refresh. */
  lemma InvalidatedIsUnsigned(s: AuthState)
    ensures GetAuthHeaders(InvalidateAuth(s)) == map[]
    ensures !CanRefresh(Disconnect(s))
  {
  }
}

=== FILE: callback_route.dfy ===
/**
 * The OpenID Connect callback endpoint: which host to send the browser
 * back to, the checks on the query and cookies before the code is
 * exchanged, and how a failed exchange becomes an error code on the login
 * page. The exchange itself is a parameter (its outcome).
 */
module CallbackRoute {
  import opened Common
  import Auth

  // ---------------------------------------------------------------------------
  // Host name
  // ---------------------------------------------------------------------------

  /** The request's `x-forwarded-host` and `host` headers, and the host name of its own URL. */
  datatype HostInfo = HostInfo(forwardedHost: Option<string>, host: Option<string>, urlHostname: string)

  /** `getHostname`. */
  function GetHostname(h: HostInfo): (r: string)
    ensures Truthy(h.forwardedHost) ==> r == BeforeFirst(Trim(BeforeFirst(h.forwardedHost.value, ',')), ':')
    ensures !Truthy(h.forwardedHost) && Truthy(h.host) && h.host.value != "0.0.0.0" && !IsPrefix("0.0.0.0:", h.host.value) ==>
      r == BeforeFirst(h.host.value, ':')
    ensures !Truthy(h.forwardedHost) && !(Truthy(h.host) && h.host.value != "0.0.0.0" && !IsPrefix("0.0.0.0:", h.host.value)) ==>
      r == h.urlHostname
  {
    if Truthy(h.forwardedHost) then BeforeFirst(Trim(BeforeFirst(h.forwardedHost.value, ',')), ':')
    else if Truthy(h.host) && h.host.value != "0.0.0.0" && !IsPrefix("0.0.0.0:", h.host.value) then BeforeFirst(h.host.value, ':')
    else h.urlHostname
  }

  /**
   * The host name never carries a port or a second forwarded host: when it
   * comes from a header it has no ':' or ',' and is a prefix of what the
   * header held (after trimming, for the forwarded one).
   */
  lemma HostnameHasNoPort(h: HostInfo)
    ensures Truthy(h.forwardedHost) || (Truthy(h.host) && h.host.value != "0.0.0.0" && !IsPrefix("0.0.0.0:", h.host.value)) ==>
      ':' !in GetHostname(h)
    ensures Truthy(h.forwardedHost) ==> ',' !in GetHostname(h)
    ensures !Truthy(h.forwardedHost) && Truthy(h.host) && h.host.value != "0.0.0.0" && !IsPrefix("0.0.0.0:", h.host.value) ==>
      IsPrefix(GetHostname(h), h.host.value)
  {
    if Truthy(h.forwardedHost) {
      var first := BeforeFirst(h.forwardedHost.value, ',');
      var trimmed := Trim(first);
      TrimSpec(first);
      var k :| OccursAt(first, trimmed, k);
      var r := BeforeFirst(trimmed, ':');
      IsPrefixIff(r, trimmed);
      forall i | 0 <= i < |r|
        ensures r[i] != ','
      {
        assert r[i] == trimmed[i] == first[k + i];
        assert first[k + i] in first;
      }
    }
  }

  // ---------------------------------------------------------------------------
  // encodeURIComponent
  // ---------------------------------------------------------------------------

  /** The characters `encodeURIComponent` leaves alone. */
  predicate Unreserved(c: char) {
    ('A' <= c <= 'Z') || ('a' <= c <= 'z') || ('0' <= c <= '9')
    || c == '-' || c == '_' || c == '.' || c == '!' || c == '~' || c == '*' || c == '\'' || c == '(' || c == ')'
  }

  /** The value of a hexadecimal digit of either case; none for any other character. */
  function HexValue(c: char): (v: Option<int>)
    ensures v.Some? ==> 0 <= v.value < 16
  {
    if '0' <= c <= '9' then Some(c as int - '0' as int)
    else if 'A' <= c <= 'F' then Some(c as int - 'A' as int + 10)
    else if 'a' <= c <= 'f' then Some(c as int - 'a' as int + 10)
    else None
  }

  /** The upper-case hexadecimal digit `encodeURIComponent` writes for `d`. */
  function HexDigit(d: int): (c: char)
    requires 0 <= d < 16
    ensures Unreserved(c)
    ensures HexValue(c) == Some(d)
  {
    if d < 10 then ('0' as int + d) as char else ('A' as int + d - 10) as char
  }

  /** The UTF-8 bytes of one Unicode scalar value. */
  function Utf8(c: char): (bytes: seq<int>)
    ensures 1 <= |bytes| <= 4
    ensures forall k :: 0 <= k < |bytes| ==> 0 <= bytes[k] < 256
  {
    var cp := c as int;
    if cp < 0x80 then [cp]
    else if cp < 0x800 then [0xC0 + cp / 64, 0x80 + cp % 64]
    else if cp < 0x10000 then [0xE0 + cp / 4096, 0x80 + (cp / 64) % 64, 0x80 + cp % 64]
    else [0xF0 + cp / 262144, 0x80 + (cp / 4096) % 64, 0x80 + (cp / 64) % 64, 0x80 + cp % 64]
  }

  /** Each byte as '%' and two upper-case hexadecimal digits. */
  function PercentBytes(bytes: seq<int>): (r: string)
    requires forall k :: 0 <= k < |bytes| ==> 0 <= bytes[k] < 256
    ensures |r| == 3 * |bytes|
    ensures forall k :: 0 <= k < |r| ==> r[k] == '%' || Unreserved(r[k])
  {
    if bytes == [] then []
    else ['%', HexDigit(bytes[0] / 16), HexDigit(bytes[0] % 16)] + PercentBytes(bytes[1..])
  }

  /** The k-th group of `PercentBytes` is '%' and the two digits of the k-th byte. */
  lemma {:induction false} PercentBytesAt(bytes: seq<int>, k: nat)
    requires forall i :: 0 <= i < |bytes| ==> 0 <= bytes[i] < 256
    requires k < |bytes|
    ensures var r := PercentBytes(bytes);
      r[3 * k] == '%' && r[3 * k + 1] == HexDigit(bytes[k] / 16) && r[3 * k + 2] == HexDigit(bytes[k] % 16)
  {
    if k > 0 {
      var rest := PercentBytes(bytes[1..]);
      PercentBytesAt(bytes[1..], k - 1);
      assert bytes[1..][k - 1] == bytes[k];
      var r := PercentBytes(bytes);
      assert r == ['%', HexDigit(bytes[0] / 16), HexDigit(bytes[0] % 16)] + rest;
      assert r[3 * k] == rest[3 * (k - 1)];
      assert r[3 * k + 1] == rest[3 * (k - 1) + 1];
      assert r[3 * k + 2] == rest[3 * (k - 1) + 2];
    }
  }

  /** One character as `encodeURIComponent` writes it. */
  function EncodeChar(c: char): string {
    if Unreserved(c) then [c] else PercentBytes(Utf8(c))
  }

  /** `encodeURIComponent` (text is a sequence of Unicode scalar values, so no lone surrogates). */
  function EncodeURIComponent(s: string): (r: string)
    ensures forall k :: 0 <= k < |r| ==> r[k] == '%' || Unreserved(r[k])
    ensures |r| >= |s|
  {
    if s == [] then []
    else EncodeChar(s[0]) + EncodeURIComponent(s[1..])
  }

  /** Encoding works character by character: it distributes over concatenation. */
  lemma {:induction false} EncodeAppend(s: string, t: string)
    ensures EncodeURIComponent(s + t) == EncodeURIComponent(s) + EncodeURIComponent(t)
  {
    if s != [] {
      assert (s + t)[0] == s[0] && (s + t)[1..] == s[1..] + t;
      EncodeAppend(s[1..], t);
      var head := EncodeChar(s[0]);
      calc {
        EncodeURIComponent(s + t);
        head + EncodeURIComponent(s[1..] + t);
        head + (EncodeURIComponent(s[1..]) + EncodeURIComponent(t));
        (head + EncodeURIComponent(s[1..])) + EncodeURIComponent(t);
      }
    } else {
      assert s + t == t;
    }
  }

  // ---------------------------------------------------------------------------
  // decodeURIComponent, the inverse
  // ---------------------------------------------------------------------------

  /** How many bytes a UTF-8 sequence with this lead byte has; 0 for a byte that cannot lead one. */
  function Utf8Length(lead: int): nat {
    if 0 <= lead < 0x80 then 1
    else if 0xC0 <= lead < 0xE0 then 2
    else if 0xE0 <= lead < 0xF0 then 3
    else if 0xF0 <= lead < 0xF8 then 4
    else 0
  }

  /** The smallest code point that needs `n` bytes: a longer form is not valid UTF-8. */
  function Utf8Floor(n: nat): int {
    if n <= 1 then 0 else if n == 2 then 0x80 else if n == 3 then 0x800 else 0x10000
  }

  /** The code point of a lead byte and the low six bits of its continuation bytes. */
  function CodePoint(n: nat, lead: int, c1: int, c2: int, c3: int): int {
    if n <= 1 then lead
    else if n == 2 then (lead - 0xC0) * 64 + c1
    else if n == 3 then (lead - 0xE0) * 4096 + c1 * 64 + c2
    else (lead - 0xF0) * 262144 + c1 * 4096 + c2 * 64 + c3
  }

  predicate IsScalar(cp: int) {
    0 <= cp < 0xD800 || 0xE000 <= cp < 0x110000
  }

  /** The byte written as "%XY" in the k-th group of three characters of `r`, if it is one. */
  function ByteAt(r: string, k: nat): (b: Option<int>)
    ensures b.Some? ==> 3 * k + 3 <= |r| && 0 <= b.value < 256
  {
    if 3 * k + 3 <= |r| && r[3 * k] == '%' && HexValue(r[3 * k + 1]).Some? && HexValue(r[3 * k + 2]).Some? then
      Some(16 * HexValue(r[3 * k + 1]).value + HexValue(r[3 * k + 2]).value)
    else None
  }

  /** Whether the k-th group is a continuation byte (10xxxxxx). */
  predicate IsCont(r: string, k: nat) {
    ByteAt(r, k).Some? && 0x80 <= ByteAt(r, k).value < 0xC0
  }

  /** The low six bits of the k-th group, 0 when it is not a continuation byte. */
  function ContBits(r: string, k: nat): int {
    if IsCont(r, k) then ByteAt(r, k).value - 0x80 else 0
  }

  /**
   * The character the "%XY" groups at the start of `r` encode, and how many
   * characters of `r` they take: none unless the lead byte can lead, every
   * continuation byte is one, and the bytes are the shortest UTF-8 form of a
   * scalar value.
   */
  function DecodeOne(r: string): (d: Option<(char, nat)>)
    ensures d.Some? ==> 3 <= d.value.1 <= |r|
  {
    if ByteAt(r, 0).None? then None
    else
      var lead := ByteAt(r, 0).value;
      var n := Utf8Length(lead);
      if n == 0 || (n >= 2 && !IsCont(r, 1)) || (n >= 3 && !IsCont(r, 2)) || (n >= 4 && !IsCont(r, 3)) then None
      else
        var cp := CodePoint(n, lead, ContBits(r, 1), ContBits(r, 2), ContBits(r, 3));
        if cp < Utf8Floor(n) || !IsScalar(cp) then None
        else
          assert ByteAt(r, n - 1).Some?;
          Some((cp as char, 3 * n))
  }

  /**
   * `decodeURIComponent`, after the Decode algorithm of section 19.2.6.5 of
   * ECMA-262 with an empty reserved set: characters other than '%' are
   * copied, and a '%' starts the UTF-8 bytes of one character. Malformed
   * input, where JavaScript throws a URIError, gives none.
   */
  function DecodeURIComponent(r: string): (t: Option<string>)
    ensures t.Some? ==> |t.value| <= |r|
    ensures '%' !in r ==> t == Some(r)
    decreases |r|
  {
    if r == [] then Some([])
    else if r[0] != '%' then
      assert [r[0]] + r[1..] == r;
      match DecodeURIComponent(r[1..])
      case None => None
      case Some(t) => Some([r[0]] + t)
    else match DecodeOne(r)
      case None => None
      case Some((c, len)) =>
        match DecodeURIComponent(r[len..])
        case None => None
        case Some(t) => Some([c] + t)
  }

  /** A group of '%' and the two digits of a byte reads back as that byte. */
  lemma ByteAtGroup(r: string, k: nat, b: int)
    requires 0 <= b < 256 && 3 * k + 3 <= |r|
    requires r[3 * k] == '%' && r[3 * k + 1] == HexDigit(b / 16) && r[3 * k + 2] == HexDigit(b % 16)
    ensures ByteAt(r, k) == Some(b)
  {
    var hi, lo := b / 16, b % 16;
    assert 16 * hi + lo == b;
    assert HexValue(r[3 * k + 1]) == Some(hi);
    assert HexValue(r[3 * k + 2]) == Some(lo);
  }

  /** The groups written by `PercentBytes` read back as the bytes, whatever follows. */
  lemma ByteAtPercent(bytes: seq<int>, rest: string, k: nat)
    requires forall i :: 0 <= i < |bytes| ==> 0 <= bytes[i] < 256
    requires k < |bytes|
    ensures ByteAt(PercentBytes(bytes) + rest, k) == Some(bytes[k])
  {
    var e := PercentBytes(bytes);
    var r := e + rest;
    PercentBytesAt(bytes, k);
    var i := 3 * k;
    assert i + 3 <= |e|;
    assert r[i] == e[i] && r[i + 1] == e[i + 1] && r[i + 2] == e[i + 2];
    ByteAtGroup(r, k, bytes[k]);
  }

  /**
   * The bytes `Utf8` writes are a valid UTF-8 sequence for the character:
   * the lead byte gives the length, the others are continuation bytes, the
   * form is the shortest, and the bits give the character back.
   */
  lemma Utf8Valid(c: char)
    ensures var b := Utf8(c);
      Utf8Length(b[0]) == |b|
      && (forall k :: 1 <= k < |b| ==> 0x80 <= b[k] < 0xC0)
      && Utf8Floor(|b|) <= c as int
      && CodePoint(|b|, b[0], if |b| > 1 then b[1] - 0x80 else 0, if |b| > 2 then b[2] - 0x80 else 0,
                   if |b| > 3 then b[3] - 0x80 else 0) == c as int
  {
    var cp := c as int;
    if 0x800 <= cp < 0x10000 {
      assert cp / 64 == (cp / 4096) * 64 + (cp / 64) % 64;
    } else if 0x10000 <= cp {
      assert cp / 4096 == (cp / 262144) * 64 + (cp / 4096) % 64;
      assert cp / 64 == (cp / 4096) * 64 + (cp / 64) % 64;
    }
  }

  /** Groups that read as the valid UTF-8 bytes of a character decode to it. */
  lemma DecodeOneFromBytes(r: string, b: seq<int>, c: char)
    requires 1 <= |b| <= 4
    requires forall k :: 0 <= k < |b| ==> ByteAt(r, k) == Some(b[k])
    requires Utf8Length(b[0]) == |b| && forall k :: 1 <= k < |b| ==> 0x80 <= b[k] < 0xC0
    requires Utf8Floor(|b|) <= c as int
    requires CodePoint(|b|, b[0], if |b| > 1 then b[1] - 0x80 else 0, if |b| > 2 then b[2] - 0x80 else 0,
                       if |b| > 3 then b[3] - 0x80 else 0) == c as int
    ensures DecodeOne(r) == Some((c, 3 * |b|))
  {
    var n := |b|;
    assert ByteAt(r, 0) == Some(b[0]);
    if n >= 2 { assert ByteAt(r, 1) == Some(b[1]); assert IsCont(r, 1) && ContBits(r, 1) == b[1] - 0x80; }
    if n >= 3 { assert ByteAt(r, 2) == Some(b[2]); assert IsCont(r, 2) && ContBits(r, 2) == b[2] - 0x80; }
    if n >= 4 { assert ByteAt(r, 3) == Some(b[3]); assert IsCont(r, 3) && ContBits(r, 3) == b[3] - 0x80; }
    var cp := CodePoint(n, b[0], ContBits(r, 1), ContBits(r, 2), ContBits(r, 3));
    assert cp == c as int;
    assert IsScalar(cp);
  }

  /** The encoding of one character that needs escaping decodes back to it. */
  lemma DecodeOnePercent(c: char, rest: string)
    requires !Unreserved(c)
    ensures DecodeOne(PercentBytes(Utf8(c)) + rest) == Some((c, 3 * |Utf8(c)|))
  {
    var b := Utf8(c);
    var r := PercentBytes(b) + rest;
    Utf8Valid(c);
    forall k | 0 <= k < |b|
      ensures ByteAt(r, k) == Some(b[k])
    {
      ByteAtPercent(b, rest, k);
    }
    DecodeOneFromBytes(r, b, c);
  }

  /** Decoding undoes the encoding of the first character. */
  lemma DecodeEncodedChar(c: char, rest: string)
    ensures DecodeURIComponent(EncodeChar(c) + rest)
      == (match DecodeURIComponent(rest) case None => None case Some(t) => Some([c] + t))
  {
    var r := EncodeChar(c) + rest;
    if Unreserved(c) {
      assert r[0] == c && r[1..] == rest;
    } else {
      var e := PercentBytes(Utf8(c));
      assert r[0] == e[0] == '%';
      DecodeOnePercent(c, rest);
      assert r[3 * |Utf8(c)|..] == rest;
    }
  }

  /** `decodeURIComponent(encodeURIComponent(s)) === s` for every text. */
  lemma {:induction false} DecodeEncode(s: string)
    ensures DecodeURIComponent(EncodeURIComponent(s)) == Some(s)
  {
    if s != [] {
      DecodeEncode(s[1..]);
      DecodeEncodedChar(s[0], EncodeURIComponent(s[1..]));
      assert [s[0]] + s[1..] == s;
    }
  }

  /** Text made only of unreserved characters is left as it is. */
  lemma {:induction false} EncodeKeepsUnreserved(s: string)
    requires forall k :: 0 <= k < |s| ==> Unreserved(s[k])
    ensures EncodeURIComponent(s) == s
  {
    if s != [] {
      EncodeKeepsUnreserved(s[1..]);
      assert [s[0]] + s[1..] == s;
    }
  }

  // ---------------------------------------------------------------------------
  // GET
  // ---------------------------------------------------------------------------

  /** The query parameters and cookies the handler checks. */
  datatype CallbackRequest = CallbackRequest(
    code: Option<string>, state: Option<string>, stateCookie: Option<string>, verifierCookie: Option<string>)

  /** What the code exchange did: a session id, or an exception (with the message of an `Error`). */
  datatype Exchange = SessionCreated(sid: string) | ExchangeThrew(message: Option<string>)

  /** The redirect: its base URL and path, the session cookie set (id, max age in seconds), and whether the login cookies are cleared. */
  datatype Redirect = Redirect(base: string, path: string, session: Option<(string, int)>, clearsLoginCookies: bool)

  /** A week, in seconds. */
  const CookieMaxAge: int := 7 * 24 * 60 * 60

  const DetailLimit: nat := 100

  /** The login-page error for a failed exchange, by message, in the handler's order. */
  function ErrorPath(message: string): (r: string)
    ensures Contains(message, Auth.DeniedTag) ==> r == "/login?error=access_denied"
    ensures !Contains(message, Auth.DeniedTag) && (Contains(message, "state") || Contains(message, "CSRF")) ==>
      r == "/login?error=invalid_state"
    ensures (!Contains(message, Auth.DeniedTag) && !Contains(message, "state") && !Contains(message, "CSRF")
               && Contains(message, "redirect_uri")) ==> r == "/login?error=redirect_mismatch"
    ensures (!Contains(message, Auth.DeniedTag) && !Contains(message, "state") && !Contains(message, "CSRF")
               && !Contains(message, "redirect_uri")) ==>
      r == "/login?error=callback_failed&detail=" + EncodeURIComponent(Take(message, DetailLimit))
  {
    if Contains(message, Auth.DeniedTag) then "/login?error=access_denied"
    else if Contains(message, "state") || Contains(message, "CSRF") then "/login?error=invalid_state"
    else if Contains(message, "redirect_uri") then "/login?error=redirect_mismatch"
    else "/login?error=callback_failed&detail=" + EncodeURIComponent(Take(message, DetailLimit))
  }

  /** The handler's answer: a redirect, or a 500 when an exception escapes it. */
  datatype Response = Redirected(redirect: Redirect) | InternalError

  /** What the handler did: its answer, and whether it ran the exchange. */
  datatype CallbackOutcome = CallbackOutcome(response: Response, exchanged: bool)

  /** An IPv6 host that is opened but never closed. */
  predicate UnclosedIPv6(host: string) {
    |host| > 0 && host[0] == '[' && ']' !in host
  }

  /**
   * What is known of the URL parser, which is not modelled: `baseParses`
   * says whether "https://" + host is a URL, and `callbackParses` whether
   * that text followed by "/api/callback" is one. An empty host is no base
   * for a special scheme, an unclosed '[' is no host at all, and a base that
   * parses still parses with a path after it.
   */
  predicate ParserAgrees(host: string, baseParses: bool, callbackParses: bool) {
    (host == [] ==> !baseParses)
    && (UnclosedIPv6(host) ==> !baseParses && !callbackParses)
    && (baseParses ==> callbackParses)
  }

  /** The code, both state values and the verifier are all present. */
  predicate ChecksPass(req: CallbackRequest) {
    Truthy(req.code) && Truthy(req.state) && Truthy(req.stateCookie) && Truthy(req.verifierCookie)
  }

  /**
   * GET: the code, then the state pair, then the verifier; only then the
   * exchange. Every answer is built with `new URL(.., base)`, in the catch
   * block as well, so a base that does not parse ends in a 500; the
   * exchange still runs when the callback address parses.
   */
  function Get(h: HostInfo, req: CallbackRequest, exchange: Exchange, baseParses: bool, callbackParses: bool): (r: CallbackOutcome)
    requires ParserAgrees(GetHostname(h), baseParses, callbackParses)
    ensures !baseParses <==> r.response == InternalError
    ensures r.response.Redirected? ==> r.response.redirect.base == "https://" + GetHostname(h)
    ensures baseParses && !Truthy(req.code) ==>
      r == CallbackOutcome(Redirected(Redirect("https://" + GetHostname(h), "/login?error=no_code", None, false)), false)
    ensures baseParses && Truthy(req.code) && !(Truthy(req.state) && Truthy(req.stateCookie) && Truthy(req.verifierCookie)) ==>
      r == CallbackOutcome(Redirected(Redirect("https://" + GetHostname(h), "/login?error=invalid_state", None, false)), false)
    ensures r.exchanged <==> ChecksPass(req) && callbackParses
    ensures r.response.Redirected? && r.response.redirect.session.Some? <==> baseParses && r.exchanged && exchange.SessionCreated?
    ensures r.response.Redirected? && r.response.redirect.session.Some? ==>
      (r.response.redirect.path == "/" && r.response.redirect.session.value == (exchange.sid, CookieMaxAge)
       && r.response.redirect.clearsLoginCookies)
    ensures baseParses && r.exchanged && exchange.ExchangeThrew? ==>
      (r.response.redirect.path == ErrorPath(exchange.message.GetOr("Unknown error"))
       && !r.response.redirect.clearsLoginCookies)
  {
    var base := "https://" + GetHostname(h);
    var exchanged := ChecksPass(req) && callbackParses;
    if !baseParses then CallbackOutcome(InternalError, exchanged)
    else if !Truthy(req.code) then CallbackOutcome(Redirected(Redirect(base, "/login?error=no_code", None, false)), false)
    else if !Truthy(req.state) || !Truthy(req.stateCookie) then
      CallbackOutcome(Redirected(Redirect(base, "/login?error=invalid_state", None, false)), false)
    else if !Truthy(req.verifierCookie) then
      CallbackOutcome(Redirected(Redirect(base, "/login?error=invalid_state", None, false)), false)
    else match exchange
      case SessionCreated(sid) => CallbackOutcome(Redirected(Redirect(base, "/", Some((sid, CookieMaxAge)), true)), true)
      case ExchangeThrew(message) =>
        CallbackOutcome(Redirected(Redirect(base, ErrorPath(message.GetOr("Unknown error")), None, false)), true)
  }

  /** The host names of three broken header sets: a lone ",", a bare ":80", and an IPv6 host with a port. */
  lemma BrokenHostNames(url: string)
    ensures GetHostname(HostInfo(Some(","), None, url)) == ""
    ensures GetHostname(HostInfo(None, Some(":80"), url)) == ""
    ensures GetHostname(HostInfo(None, Some("[::1]:3000"), url)) == "["
  {
    var comma := BeforeFirst(",", ',');
    IsPrefixIff(comma, ",");
    assert comma == "";
    assert Trim("") == "";
    var none := BeforeFirst("", ':');
    IsPrefixIff(none, "");
    var port := BeforeFirst(":80", ':');
    IsPrefixIff(port, ":80");
    assert port == "";
    var v6: string := "[::1]:3000";
    var bracket := BeforeFirst(v6, ':');
    IsPrefixIff(bracket, v6);
    assert v6[0] == '[' && v6[1] == ':';
    assert bracket == v6[..1];
  }

  /**
   * Those headers end in a 500: the empty host name is no base for
   * "https:", and "[" stops the exchange as well.
   */
  lemma BrokenHostsAnswer500(req: CallbackRequest, exchange: Exchange, url: string, baseParses: bool, callbackParses: bool)
    ensures ParserAgrees("", baseParses, callbackParses) ==>
      Get(HostInfo(Some(","), None, url), req, exchange, baseParses, callbackParses).response == InternalError
    ensures ParserAgrees("", baseParses, callbackParses) ==>
      Get(HostInfo(None, Some(":80"), url), req, exchange, baseParses, callbackParses).response == InternalError
    ensures ParserAgrees("[", baseParses, callbackParses) ==>
      Get(HostInfo(None, Some("[::1]:3000"), url), req, exchange, baseParses, callbackParses)
        == CallbackOutcome(InternalError, false)
  {
    BrokenHostNames(url);
    assert UnclosedIPv6("[");
  }

  /** The cookie lives exactly as long as the session row it names. */
  lemma CookieMatchesSession()
    ensures CookieMaxAge * 1000 == Auth.SessionTtl
  {
  }

  /**
   * The error detail cannot add query parameters or a fragment: whatever
   * the exception says, the text after "detail=" holds no '&', '=', '#' or '?'.
   */
  lemma DetailStaysOneParameter(message: string)
    requires !Contains(message, Auth.DeniedTag) && !Contains(message, "state") && !Contains(message, "CSRF")
    requires !Contains(message, "redirect_uri")
    ensures var detail := EncodeURIComponent(Take(message, DetailLimit));
      ErrorPath(message) == "/login?error=callback_failed&detail=" + detail
      && '&' !in detail && '=' !in detail && '#' !in detail && '?' !in detail
  {
  }

  /** A refused e-mail address lands on the access-denied page. */
  lemma AccessDeniedMapped()
    ensures ErrorPath(Auth.AccessDenied) == "/login?error=access_denied"
  {
    PrefixOfConcat(Auth.DeniedTag, ": Your email is not authorized to access this application");
  }
}

=== FILE: command_modal.dfy ===
/**
 * The assistant dialog's two request handlers as state transitions: undoing
 * a command that changed devices, and submitting a new command with the
 * recent conversation as context. The server's reply, the clock (used only
 * to name messages) and the id the command history hands out are
 * parameters; the calls into the command history and suggestion stores are
 * reported in the outcome rather than performed.
 */
module CommandModal {
  import opened Common

  datatype Role = User | Assistant

  /**
   * One message of the conversation. `actions` are the executed actions'
   * descriptions; `commandStoreId` links the message to the history entry
   * that can undo it.
   */
  datatype Item = Item(
    id: string, role: Role, content: string,
    canUndo: Option<bool>, actions: Option<seq<string>>, commandStoreId: Option<string>)

  /** What the dialog holds between requests. */
  datatype Modal = Modal(conversation: seq<Item>, input: string, isProcessing: bool, error: Option<string>)

  /** `a || fallback` for an optional string, as text. */
  function Fallback(a: Option<string>, fallback: string): (r: string)
    ensures Truthy(a) ==> r == a.value
    ensures !Truthy(a) ==> r == fallback
  {
    OrElse(a, Some(fallback)).value
  }

  /** A message id: a prefix and the clock reading. */
  function MessageId(prefix: string, now: int): string {
    prefix + IntToString(now)
  }

  function Said(role: Role, content: string, id: string): Item {
    Item(id, role, content, None, None, None)
  }

  // ---------------------------------------------------------------------------
  // Undo
  // ---------------------------------------------------------------------------

  /** What the undo request came back with: the reply's fields, or an exception. */
  datatype UndoReply = UndoAnswered(success: bool, response: Option<string>, error: Option<string>) | UndoThrew(message: Option<string>)

  /** The dialog after an undo, whether the request was sent, and the history entry marked undone. */
  datatype UndoOutcome = UndoOutcome(modal: Modal, sent: bool, markedUndone: Option<string>)

  const NoUndoData: string := "No undo data available for this command."
  const UndoFailed: string := "Failed to undo command."
  const Undone: string := "Undone successfully."

  /** Every message with the given id, and only those, can no longer be undone. */
  function WithoutUndo(conversation: seq<Item>, itemId: string): (r: seq<Item>)
    ensures |r| == |conversation|
    ensures forall i :: 0 <= i < |r| && conversation[i].id != itemId ==> r[i] == conversation[i]
    ensures forall i :: 0 <= i < |r| && conversation[i].id == itemId ==> r[i] == conversation[i].(canUndo := Some(false))
  {
    seq(|conversation|, i requires 0 <= i < |conversation| =>
      if conversation[i].id == itemId then conversation[i].(canUndo := Some(false)) else conversation[i])
  }

  /** `handleUndo`: no snapshots, no request; only a successful reply marks the command undone. */
  function HandleUndo(m: Modal, commandStoreId: string, itemId: string, snapshots: nat, reply: UndoReply, now: int): (r: UndoOutcome)
    ensures snapshots == 0 ==> r == UndoOutcome(m.(error := Some(NoUndoData)), false, None)
    ensures r.sent <==> snapshots > 0
    ensures r.sent ==> !r.modal.isProcessing && r.modal.input == m.input
    ensures r.markedUndone.Some? <==> r.sent && reply.UndoAnswered? && reply.success
    ensures r.markedUndone.Some? ==> r.markedUndone.value == commandStoreId && r.modal.error == None
    ensures r.markedUndone.Some? ==> (|r.modal.conversation| == |m.conversation| + 1
      && (forall i :: 0 <= i < |m.conversation| && m.conversation[i].id != itemId ==> r.modal.conversation[i] == m.conversation[i])
      && (forall i :: 0 <= i < |m.conversation| && m.conversation[i].id == itemId ==>
            r.modal.conversation[i] == m.conversation[i].(canUndo := Some(false)))
      && r.modal.conversation[|m.conversation|].content == Fallback(reply.response, Undone))
    ensures r.sent && r.markedUndone.None? ==> (r.modal.conversation == m.conversation && r.modal.error.Some?)
    ensures r.sent && reply.UndoAnswered? && !reply.success ==> r.modal.error == Some(Fallback(reply.error, UndoFailed))
    ensures r.sent && reply.UndoThrew? ==> r.modal.error == Some(reply.message.GetOr(UndoFailed))
  {
    if snapshots == 0 then UndoOutcome(m.(error := Some(NoUndoData)), false, None)
    else
      match reply
      case UndoAnswered(success, response, error) =>
        if success then
          var note := Said(Assistant, Fallback(response, Undone), MessageId("undo-", now));
          var conversation := WithoutUndo(m.conversation + [note], itemId);
          UndoOutcome(m.(conversation := conversation, isProcessing := false, error := None), true, Some(commandStoreId))
        else UndoOutcome(m.(isProcessing := false, error := Some(Fallback(error, UndoFailed))), true, None)
      case UndoThrew(message) =>
        UndoOutcome(m.(isProcessing := false, error := Some(message.GetOr(UndoFailed))), true, None)
  }

  // ---------------------------------------------------------------------------
  // Submit
  // ---------------------------------------------------------------------------

  /** One entry of the history sent as context. */
  datatype Turn = Turn(role: Role, content: string)

  /** What the command request came back with. `suggestions` is `None` unless it is an array. */
  datatype SubmitReply =
    | SubmitAnswered(success: bool, response: string, error: Option<string>, suggestions: Option<seq<string>>,
                     clearConversation: bool, actions: Option<seq<string>>, wasUndo: bool)
    | SubmitThrew(message: Option<string>)

  /** A command handed to the history store. */
  datatype CommandRecord = CommandRecord(userInput: string, aiResponse: string, actions: seq<string>)

  /** The request the dialog sent. */
  datatype CommandRequest = CommandRequest(message: string, history: seq<Turn>)

  /**
   * The dialog after a submit, and what it did to the rest of the app: the
   * request, the text counted as a used command, the command added to the
   * history store, and the contextual suggestions set or cleared. A reply
   * that both carries suggestions and clears the conversation sets them and
   * then clears them, in that order, so such a submit leaves the suggestion
   * store without contextual suggestions.
   */
  datatype SubmitOutcome = SubmitOutcome(
    modal: Modal, request: Option<CommandRequest>, recorded: Option<string>,
    added: Option<CommandRecord>, suggestions: Option<seq<string>>, suggestionsCleared: bool)

  const HistoryLength: nat := 10
  const ProcessFailed: string := "Failed to process command."
  const CouldNotProcess: string := "Sorry, I couldn't process that command."
  const SendFailed: string := "Failed to send command."
  const RequestError: string := "Sorry, there was an error processing your request."

  function TurnOf(item: Item): Turn {
    Turn(item.role, item.content)
  }

  /** The context sent with a command: the last ten messages, the new one included. */
  function History(conversation: seq<Item>): (r: seq<Turn>)
    ensures |r| == if |conversation| < HistoryLength then |conversation| else HistoryLength
    ensures forall k :: 0 <= k < |r| ==> r[k] == TurnOf(conversation[|conversation| - |r| + k])
  {
    var last := TakeLast(conversation, HistoryLength);
    seq(|last|, k requires 0 <= k < |last| => TurnOf(last[k]))
  }

  predicate HasActions(actions: Option<seq<string>>) {
    actions.Some? && |actions.value| > 0
  }

  /** The reply to a successful command, after the user's message has been added. */
  function Answered(m: Modal, messageText: string, reply: SubmitReply, storeId: string, now: int): (r: SubmitOutcome)
    requires reply.SubmitAnswered? && reply.success
  {
    var suggestions := if reply.suggestions.Some? && |reply.suggestions.value| > 0 then reply.suggestions else None;
    // The clear below is applied after these suggestions are set.
    if reply.clearConversation then
      SubmitOutcome(m.(conversation := [Said(Assistant, reply.response, MessageId("fresh-", now))]), None, None, None, suggestions, true)
    else
      var hasActions := HasActions(reply.actions);
      var added := if hasActions then Some(CommandRecord(messageText, reply.response, reply.actions.value)) else None;
      var item := Item(MessageId("assistant-", now), Assistant, reply.response, Some(hasActions && !reply.wasUndo),
                       reply.actions, if hasActions then Some(storeId) else None);
      SubmitOutcome(m.(conversation := m.conversation + [item]), None, None, added, suggestions, false)
  }

  /**
   * `handleSubmit`: the text is the override when it is non-empty, else the
   * trimmed input; nothing happens for empty text or while a request runs.
   */
  function HandleSubmit(m: Modal, overrideInput: Option<string>, reply: SubmitReply, storeId: string, now: int): (r: SubmitOutcome)
    ensures var text := Fallback(overrideInput, Trim(m.input));
      (text == "" || m.isProcessing) ==> r == SubmitOutcome(m, None, None, None, None, false)
    ensures var text := Fallback(overrideInput, Trim(m.input));
      (text != "" && !m.isProcessing) ==> (
        r.request.Some? && r.request.value.message == text && r.recorded == Some(text)
        && r.request.value.history == History(m.conversation + [Said(User, text, MessageId("user-", now))])
        && r.modal.input == "" && !r.modal.isProcessing)
    ensures r.added.Some? <==> (r.request.Some? && reply.SubmitAnswered? && reply.success && !reply.clearConversation
      && HasActions(reply.actions))
    ensures r.added.Some? ==> r.added.value == CommandRecord(r.request.value.message, reply.response, reply.actions.value)
    ensures r.suggestions.Some? <==> (r.request.Some? && reply.SubmitAnswered? && reply.success
      && reply.suggestions.Some? && reply.suggestions.value != [])
    ensures r.suggestions.Some? ==> r.suggestions == reply.suggestions
    ensures r.suggestionsCleared <==> r.request.Some? && reply.SubmitAnswered? && reply.success && reply.clearConversation
    ensures r.suggestionsCleared ==> (|r.modal.conversation| == 1 && r.modal.conversation[0].role == Assistant
      && r.modal.conversation[0].content == reply.response)
    ensures r.request.Some? && !r.suggestionsCleared ==> (|r.modal.conversation| == |m.conversation| + 2
      && r.modal.conversation[..|m.conversation|] == m.conversation
      && r.modal.conversation[|m.conversation|] == Said(User, r.request.value.message, MessageId("user-", now))
      && r.modal.conversation[|m.conversation| + 1].role == Assistant)
    ensures r.request.Some? && reply.SubmitAnswered? && reply.success && !reply.clearConversation ==> (
      r.modal.conversation[|m.conversation| + 1].canUndo == Some(HasActions(reply.actions) && !reply.wasUndo)
      && (r.modal.conversation[|m.conversation| + 1].commandStoreId.Some? <==> HasActions(reply.actions))
      && r.modal.error == None)
    ensures r.request.Some? && reply.SubmitAnswered? && !reply.success ==> r.modal.error == Some(Fallback(reply.error, ProcessFailed))
    ensures r.request.Some? && reply.SubmitThrew? ==> r.modal.error == Some(reply.message.GetOr(SendFailed))
  {
    var text := Fallback(overrideInput, Trim(m.input));
    if text == "" || m.isProcessing then SubmitOutcome(m, None, None, None, None, false)
    else
      var userMessage := Said(User, text, MessageId("user-", now));
      var request := CommandRequest(text, History(m.conversation + [userMessage]));
      var sending := m.(conversation := m.conversation + [userMessage], input := "", isProcessing := false, error := None);
      match reply
      case SubmitAnswered(success, response, error, _, _, _, _) =>
        if success then
          var r := Answered(sending, text, reply, storeId, now);
          r.(request := Some(request), recorded := Some(text))
        else
          var note := Said(Assistant, Fallback(error, CouldNotProcess), MessageId("error-", now));
          SubmitOutcome(sending.(conversation := sending.conversation + [note], error := Some(Fallback(error, ProcessFailed))),
                        Some(request), Some(text), None, None, false)
      case SubmitThrew(message) =>
        var note := Said(Assistant, RequestError, MessageId("error-", now));
        SubmitOutcome(sending.(conversation := sending.conversation + [note], error := Some(message.GetOr(SendFailed))),
                      Some(request), Some(text), None, None, false)
  }

  // ---------------------------------------------------------------------------
  // Properties across the two handlers
  // ---------------------------------------------------------------------------

  /** The new message always ends the context, which never holds more than ten messages. */
  lemma NewMessageEndsHistory(m: Modal, overrideInput: Option<string>, reply: SubmitReply, storeId: string, now: int)
    requires HandleSubmit(m, overrideInput, reply, storeId, now).request.Some?
    ensures var h := HandleSubmit(m, overrideInput, reply, storeId, now).request.value;
      1 <= |h.history| <= HistoryLength && h.history[|h.history| - 1] == Turn(User, h.message)
  {
  }

  /**
   * A command that changed devices can be undone from its reply message,
   * and undoing it marks exactly that message and the command the submit
   * added to the history store.
   */
  lemma SubmitThenUndo(m: Modal, overrideInput: Option<string>, reply: SubmitReply, storeId: string, now: int,
                       snapshots: nat, undoReply: UndoReply, later: int)
    requires !m.isProcessing && Fallback(overrideInput, Trim(m.input)) != ""
    requires reply.SubmitAnswered? && reply.success && !reply.clearConversation && HasActions(reply.actions) && !reply.wasUndo
    requires snapshots > 0 && undoReply.UndoAnswered? && undoReply.success
    requires forall i :: 0 <= i < |m.conversation| ==> m.conversation[i].id != MessageId("assistant-", now)
    requires MessageId("user-", now) != MessageId("assistant-", now)
    ensures var s := HandleSubmit(m, overrideInput, reply, storeId, now).modal;
      var n := |m.conversation| + 1;
      var item := s.conversation[n];
      item.canUndo == Some(true) && item.commandStoreId == Some(storeId)
      && var u := HandleUndo(s, item.commandStoreId.value, item.id, snapshots, undoReply, later);
        u.markedUndone == Some(storeId)
        && u.modal.conversation[n].canUndo == Some(false)
        && u.modal.conversation[..n] == s.conversation[..n]
  {
    var s := HandleSubmit(m, overrideInput, reply, storeId, now).modal;
    var n := |m.conversation| + 1;
    var item := s.conversation[n];
    forall i | 0 <= i < n
      ensures s.conversation[i].id != item.id
    {
      if i < |m.conversation| {
        assert s.conversation[i] == m.conversation[i];
      }
    }
    UndoMarksOnlyThatMessage(s, n, storeId, snapshots, undoReply, later);
  }

  /** A successful undo of the message at `n` leaves every earlier message, whose ids differ, alone. */
  lemma UndoMarksOnlyThatMessage(s: Modal, n: nat, storeId: string, snapshots: nat, undoReply: UndoReply, later: int)
    requires n < |s.conversation| && forall i :: 0 <= i < n ==> s.conversation[i].id != s.conversation[n].id
    requires snapshots > 0 && undoReply.UndoAnswered? && undoReply.success
    ensures var u := HandleUndo(s, storeId, s.conversation[n].id, snapshots, undoReply, later);
      u.markedUndone == Some(storeId)
      && u.modal.conversation[n].canUndo == Some(false)
      && u.modal.conversation[..n] == s.conversation[..n]
  {
    var u := HandleUndo(s, storeId, s.conversation[n].id, snapshots, undoReply, later);
    assert forall i :: 0 <= i < n ==> u.modal.conversation[i] == s.conversation[i];
  }

  /** Whatever the undo reply, a message can lose its undo button but never regain it. */
  lemma UndoNeverReenables(m: Modal, commandStoreId: string, itemId: string, snapshots: nat, reply: UndoReply, now: int, i: nat)
    requires i < |m.conversation| && m.conversation[i].canUndo != Some(true)
    ensures HandleUndo(m, commandStoreId, itemId, snapshots, reply, now).modal.conversation[i].canUndo != Some(true)
  {
  }
}

=== FILE: command_processor.dfy ===
/**
 * The pure part of the AI command processor: fuzzy name matching, the
 * resolution of area/room/name hints into the devices a command acts on,
 * the English reply describing what was done, and the per-device snapshots
 * taken before a change so that it can be undone.
 */
module CommandProcessor {
  import opened Common
  import opened Devices

  /** Everything the processor may match a command against. */
  datatype Context = Context(
    areas: seq<Area>, rooms: seq<Room>, lights: seq<Light>,
    thermostats: seq<Thermostat>, mediaRooms: seq<MediaRoom>, scenes: seq<Scene>)

  /** The place hints of a command; each is absent when none was given. */
  datatype Hints = Hints(area: Option<string>, room: Option<string>)

  // ---------------------------------------------------------------------------
  // Fuzzy matching
  // ---------------------------------------------------------------------------

  /** `s.toLowerCase().trim()`; normalising twice changes nothing more. */
  function Normalize(s: string): (r: string)
    ensures |r| <= |s| && Trimmed(r) && NoUpper(r)
    ensures Trim(Lower(r)) == r
  {
    LowerTrimmedSpec(s);
    LowerTrimmedTwice(s);
    Trim(Lower(s))
  }

  /** Canonical place names and the spellings that may stand for them. */
  const Variations: seq<(string, seq<string>)> := [
    ("2nd floor", ["second floor", "2nd", "upstairs"]),
    ("1st floor", ["first floor", "1st", "main floor"]),
    ("lower level", ["basement", "lower", "downstairs"]),
    ("master suite", ["master", "primary suite"]),
    ("master bedroom", ["master bed", "primary bedroom"])
  ]

  /**
   * The alias rule read declaratively: some canonical name occurs in the
   * target and one of its alternatives occurs in the input. It is one-way:
   * a canonical name in the input and an alternative in the target do not
   * count.
   */
  ghost predicate AliasFires(table: seq<(string, seq<string>)>, input: string, target: string) {
    exists k, j :: 0 <= k < |table| && 0 <= j < |table[k].1|
      && Contains(target, table[k].0) && Contains(input, table[k].1[j])
  }

  function AnyAltIn(alts: seq<string>, input: string): (r: bool)
    ensures r <==> exists j :: 0 <= j < |alts| && Contains(input, alts[j])
  {
    if alts == [] then false
    else if Contains(input, alts[0]) then true
    else
      var rest := AnyAltIn(alts[1..], input);
      assert forall j :: 1 <= j < |alts| ==> alts[j] == alts[1..][j - 1];
      rest
  }

  /** The loop over the variation table, entry by entry. */
  function ScanVariations(table: seq<(string, seq<string>)>, input: string, target: string): bool
  {
    if table == [] then false
    else if Contains(target, table[0].0) && AnyAltIn(table[0].1, input) then true
    else ScanVariations(table[1..], input, target)
  }

  lemma {:induction false} ScanVariationsIff(table: seq<(string, seq<string>)>, input: string, target: string)
    ensures ScanVariations(table, input, target) <==> AliasFires(table, input, target)
    decreases |table|
  {
    if table != [] {
      ScanVariationsIff(table[1..], input, target);
      if AliasFires(table[1..], input, target) {
        var k, j :| 0 <= k < |table[1..]| && 0 <= j < |table[1..][k].1|
          && Contains(target, table[1..][k].0) && Contains(input, table[1..][k].1[j]);
        assert table[k + 1] == table[1..][k];
      }
      if AliasFires(table, input, target) {
        var k, j :| 0 <= k < |table| && 0 <= j < |table[k].1|
          && Contains(target, table[k].0) && Contains(input, table[k].1[j]);
        if k > 0 {
          assert table[1..][k - 1] == table[k];
        }
      }
    }
  }

  lemma ContainsSelf(s: string)
    ensures Contains(s, s)
  {
    PrefixOfConcat(s, []);
    assert s + [] == s;
  }

  /** Case-insensitive, trimmed comparison of a spoken name with a device name. */
  function FuzzyMatch(input: string, target: string): bool {
    var i := Normalize(input);
    var t := Normalize(target);
    if i == t then true
    else if Contains(t, i) then true
    else if Contains(i, t) then true
    else ScanVariations(Variations, i, t)
  }

  /**
   * A match holds exactly when, after lower-casing and trimming, either
   * name contains the other (equal names included) or the one-way alias
   * rule fires.
   */
  lemma FuzzyMatchIff(input: string, target: string)
    ensures Normalize(input) == Normalize(target) ==> FuzzyMatch(input, target)
    ensures FuzzyMatch(input, target) <==>
      Contains(Normalize(target), Normalize(input))
      || Contains(Normalize(input), Normalize(target))
      || AliasFires(Variations, Normalize(input), Normalize(target))
  {
    ScanVariationsIff(Variations, Normalize(input), Normalize(target));
    ContainsSelf(Normalize(target));
  }

  /** An input that trims to nothing is contained in every name. */
  lemma BlankInputMatchesEverything(input: string, target: string)
    requires Normalize(input) == ""
    ensures FuzzyMatch(input, target)
  {
    assert IsPrefix(Normalize(input), Normalize(target));
  }

  /** An alternative in the input finds its canonical name in the target ... */
  lemma AliasForward(input: string, target: string)
    requires Normalize(input) == "upstairs" && Normalize(target) == "2nd floor"
    ensures FuzzyMatch(input, target)
  {
    FuzzyMatchIff(input, target);
    ContainsSelf("2nd floor");
    ContainsSelf("upstairs");
    assert Variations[0].0 == "2nd floor" && Variations[0].1[2] == "upstairs";
    assert AliasFires(Variations, "upstairs", "2nd floor");
  }

  /** ... but the canonical name in the input does not find an alternative. */
  lemma AliasOneWay(input: string, target: string)
    requires Normalize(input) == "2nd floor" && Normalize(target) == "upstairs"
    ensures !FuzzyMatch(input, target)
  {
    NoMatchFromCanonical(Normalize(input), Normalize(target));
  }

  /** The steps of the match for the normalised names "2nd floor" and "upstairs". */
  lemma NoMatchFromCanonical(i: string, t: string)
    requires i == "2nd floor" && t == "upstairs"
    ensures i != t && !Contains(t, i) && !Contains(i, t) && !ScanVariations(Variations, i, t)
  {
    NoCanonicalNameInUpstairs();
    assert !Contains("upstairs", "2nd floor");
    assert !Contains("2nd floor", "upstairs");
  }

  /** No canonical place name occurs in "upstairs", so no alias fires for that target. */
  lemma NoCanonicalNameInUpstairs()
    ensures !ScanVariations(Variations, "2nd floor", "upstairs")
  {
    assert !Contains("upstairs", "2nd floor");
    assert !Contains("upstairs", "1st floor");
    assert !Contains("upstairs", "lower level");
    assert !Contains("upstairs", "master suite");
    assert !Contains("upstairs", "master bedroom");
    assert !ScanVariations(Variations[4..], "2nd floor", "upstairs");
    assert !ScanVariations(Variations[3..], "2nd floor", "upstairs");
    assert !ScanVariations(Variations[2..], "2nd floor", "upstairs");
    assert !ScanVariations(Variations[1..], "2nd floor", "upstairs");
  }

  // ---------------------------------------------------------------------------
  // Finding areas, rooms and scenes
  // ---------------------------------------------------------------------------

  /**
   * The first element whose name fuzzy-matches a hint; nothing for an
   * absent or empty hint.
   */
  function FindNamed<T(!new)>(hint: Option<string>, xs: seq<T>, name: T -> string): (r: Option<T>)
    ensures !Truthy(hint) ==> r == None
    ensures Truthy(hint) ==> (r.None? <==> forall x :: x in xs ==> !FuzzyMatch(hint.value, name(x)))
    ensures r.Some? ==> Truthy(hint) && exists i :: (0 <= i < |xs| && xs[i] == r.value
      && FuzzyMatch(hint.value, name(xs[i]))
      && forall j :: 0 <= j < i ==> !FuzzyMatch(hint.value, name(xs[j])))
  {
    if !Truthy(hint) then None
    else Find(xs, (x: T) => FuzzyMatch(hint.value, name(x)))
  }

  function AreaName(a: Area): string { a.name }
  function RoomName(r: Room): string { r.name }
  function SceneName(s: Scene): string { s.name }

  /** The first area whose name fuzzy-matches a non-empty hint. */
  function FindArea(hint: Option<string>, areas: seq<Area>): (r: Option<Area>)
    ensures r.Some? ==> Truthy(hint) && r.value in areas && FuzzyMatch(hint.value, r.value.name)
    ensures r.None? <==> !Truthy(hint) || forall a :: a in areas ==> !FuzzyMatch(hint.value, a.name)
  {
    FindNamed(hint, areas, AreaName)
  }

  /** The first room whose name fuzzy-matches a non-empty hint. */
  function FindRoom(hint: Option<string>, rooms: seq<Room>): (r: Option<Room>)
    ensures r.Some? ==> Truthy(hint) && r.value in rooms && FuzzyMatch(hint.value, r.value.name)
    ensures r.None? <==> !Truthy(hint) || forall x :: x in rooms ==> !FuzzyMatch(hint.value, x.name)
  {
    FindNamed(hint, rooms, RoomName)
  }

  /** The first room whose id is the given (present) id. */
  function RoomById(rooms: seq<Room>, id: Option<string>): (r: Option<Room>)
    ensures r.Some? ==> r.value in rooms && id == Some(r.value.id)
    ensures r.None? <==> forall x :: x in rooms ==> id != Some(x.id)
  {
    Find(rooms, (x: Room) => id == Some(x.id))
  }

  /** A device's room (looked up by id) fuzzy-matches the hint. */
  predicate InNamedRoom(rooms: seq<Room>, roomId: Option<string>, hint: string) {
    var lr := RoomById(rooms, roomId);
    lr.Some? && FuzzyMatch(hint, lr.value.name)
  }

  /** A device's truthy room id is listed by the area. */
  predicate InArea(a: Area, roomId: Option<string>) {
    Truthy(roomId) && roomId.value in a.roomIds
  }

  /**
   * When the room hint does not resolve, no room fuzzy-matches it, so the
   * fallback that looks for devices whose own room matches the hint finds
   * none: it can never select anything.
   */
  lemma UnresolvedRoomHasNoNamedRoom(rooms: seq<Room>, hint: Option<string>)
    requires Truthy(hint) && FindRoom(hint, rooms).None?
    ensures forall roomId :: !InNamedRoom(rooms, roomId, hint.value)
  {
    forall roomId: Option<string>
      ensures !InNamedRoom(rooms, roomId, hint.value)
    {
      var lr := RoomById(rooms, roomId);
      if lr.Some? {
        assert lr.value in rooms;
        assert !FuzzyMatch(hint.value, RoomName(lr.value));
      }
    }
  }

  function SceneInRoomMatches(sceneName: string, room: Room): Scene -> bool {
    (s: Scene) => s.roomId == Some(room.id) && FuzzyMatch(sceneName, s.name)
  }

  function SceneNamed(sceneName: string): Scene -> bool {
    (s: Scene) => FuzzyMatch(sceneName, s.name)
  }

  /** The room hint resolves to a room holding a scene that matches the name. */
  predicate RoomHasScene(sceneName: string, roomHint: Option<string>, ctx: Context) {
    FindRoom(roomHint, ctx.rooms).Some?
      && exists s :: s in ctx.scenes && SceneInRoomMatches(sceneName, FindRoom(roomHint, ctx.rooms).value)(s)
  }

  /**
   * A scene by name, preferring one in the hinted room when that room
   * resolves and has a matching scene.
   */
  function FindScene(sceneName: string, roomHint: Option<string>, ctx: Context): (r: Option<Scene>)
    ensures r.Some? ==> r.value in ctx.scenes && FuzzyMatch(sceneName, r.value.name)
    ensures r.None? <==> forall s :: s in ctx.scenes ==> !FuzzyMatch(sceneName, s.name)
    ensures RoomHasScene(sceneName, roomHint, ctx) ==>
      r.Some? && r.value.roomId == Some(FindRoom(roomHint, ctx.rooms).value.id)
    ensures RoomHasScene(sceneName, roomHint, ctx) ==> forall i :: ((0 <= i < |ctx.scenes|
      && SceneInRoomMatches(sceneName, FindRoom(roomHint, ctx.rooms).value)(ctx.scenes[i])
      && (forall j :: 0 <= j < i ==> !SceneInRoomMatches(sceneName, FindRoom(roomHint, ctx.rooms).value)(ctx.scenes[j])))
      ==> r == Some(ctx.scenes[i]))
    ensures !RoomHasScene(sceneName, roomHint, ctx) ==> forall i :: ((0 <= i < |ctx.scenes|
      && FuzzyMatch(sceneName, ctx.scenes[i].name)
      && (forall j :: 0 <= j < i ==> !FuzzyMatch(sceneName, ctx.scenes[j].name)))
      ==> r == Some(ctx.scenes[i]))
  {
    var inRoom := SceneInHintedRoom(sceneName, roomHint, ctx);
    FindIsFirst(ctx.scenes, SceneNamed(sceneName));
    if inRoom.Some? then inRoom
    else Find(ctx.scenes, SceneNamed(sceneName))
  }

  /** The first matching scene of the room the hint resolves to, if any. */
  function SceneInHintedRoom(sceneName: string, roomHint: Option<string>, ctx: Context): (r: Option<Scene>)
    ensures r.Some? <==> RoomHasScene(sceneName, roomHint, ctx)
    ensures r.Some? ==> (r.value in ctx.scenes && FuzzyMatch(sceneName, r.value.name)
      && r.value.roomId == Some(FindRoom(roomHint, ctx.rooms).value.id))
    ensures RoomHasScene(sceneName, roomHint, ctx) ==> forall i :: ((0 <= i < |ctx.scenes|
      && SceneInRoomMatches(sceneName, FindRoom(roomHint, ctx.rooms).value)(ctx.scenes[i])
      && (forall j :: 0 <= j < i ==> !SceneInRoomMatches(sceneName, FindRoom(roomHint, ctx.rooms).value)(ctx.scenes[j])))
      ==> r == Some(ctx.scenes[i]))
  {
    if Truthy(roomHint) then
      match FindRoom(roomHint, ctx.rooms)
      case Some(room) =>
        FindIsFirst(ctx.scenes, SceneInRoomMatches(sceneName, room));
        Find(ctx.scenes, SceneInRoomMatches(sceneName, room))
      case None => None
    else None
  }

  // ---------------------------------------------------------------------------
  // Selecting devices
  // ---------------------------------------------------------------------------

  /** A light passes the optional name filter. */
  predicate NameOk(lightName: Option<string>, l: Light) {
    Truthy(lightName) ==> FuzzyMatch(lightName.value, l.name)
  }

  function LightsByName(lights: seq<Light>, lightName: Option<string>): (r: seq<Light>)
    ensures IsSubsequence(r, lights)
    ensures forall l :: l in r <==> l in lights && NameOk(lightName, l)
  {
    if Truthy(lightName) then Filter(lights, (l: Light) => FuzzyMatch(lightName.value, l.name))
    else
      SubsequenceRefl(lights);
      lights
  }

  /** The lights in the hinted place, before the name filter. */
  function LightsByPlace(hints: Hints, ctx: Context): (r: seq<Light>)
    ensures IsSubsequence(r, ctx.lights)
  {
    SubsequenceRefl(ctx.lights);
    if Truthy(hints.room) then
      match FindRoom(hints.room, ctx.rooms)
      case Some(room) => Filter(ctx.lights, (l: Light) => l.roomId == Some(room.id))
      case None => Filter(ctx.lights, (l: Light) => InNamedRoom(ctx.rooms, l.roomId, hints.room.value))
    else if Truthy(hints.area) then
      match FindArea(hints.area, ctx.areas)
      case Some(area) => Filter(ctx.lights, (l: Light) => InArea(area, l.roomId))
      case None => ctx.lights
    else ctx.lights
  }

  /**
   * The lights a light command acts on: an order-preserving selection of
   * the known lights, narrowed by room (or else area), then by name.
   */
  function GetMatchingLights(hints: Hints, lightName: Option<string>, ctx: Context): (r: seq<Light>)
    ensures IsSubsequence(r, ctx.lights)
    ensures forall l :: l in r ==> NameOk(lightName, l)
  {
    var byPlace := LightsByPlace(hints, ctx);
    var r := LightsByName(byPlace, lightName);
    SubsequenceTrans(r, byPlace, ctx.lights);
    r
  }

  /** A resolved room hint selects exactly that room's lights (that pass the name filter). */
  lemma LightsOfResolvedRoom(hints: Hints, lightName: Option<string>, ctx: Context, room: Room)
    requires Truthy(hints.room) && FindRoom(hints.room, ctx.rooms) == Some(room)
    ensures forall l :: l in GetMatchingLights(hints, lightName, ctx) <==>
      l in ctx.lights && l.roomId == Some(room.id) && NameOk(lightName, l)
  {
  }

  /** A room hint that resolves to no room selects no light at all. */
  lemma LightsOfUnresolvedRoom(hints: Hints, lightName: Option<string>, ctx: Context)
    requires Truthy(hints.room) && FindRoom(hints.room, ctx.rooms).None?
    ensures GetMatchingLights(hints, lightName, ctx) == []
  {
    UnresolvedRoomHasNoNamedRoom(ctx.rooms, hints.room);
    var byPlace := LightsByPlace(hints, ctx);
    assert byPlace == [];
  }

  /** Without a room hint, a resolved area selects the lights of its rooms. */
  lemma LightsOfArea(hints: Hints, lightName: Option<string>, ctx: Context, area: Area)
    requires !Truthy(hints.room) && FindArea(hints.area, ctx.areas) == Some(area)
    ensures forall l :: l in GetMatchingLights(hints, lightName, ctx) <==>
      l in ctx.lights && InArea(area, l.roomId) && NameOk(lightName, l)
  {
  }

  /** With no usable place hint, only the name filter applies. */
  lemma LightsWithoutPlace(hints: Hints, lightName: Option<string>, ctx: Context)
    requires !Truthy(hints.room) && FindArea(hints.area, ctx.areas).None?
    ensures GetMatchingLights(hints, lightName, ctx) == LightsByName(ctx.lights, lightName)
  {
  }

  /** A thermostat is related to a room hint by one of the three strategies. */
  predicate RelatedToRoomHint(t: Thermostat, rooms: seq<Room>, hint: Option<string>)
    requires Truthy(hint)
  {
    (FindRoom(hint, rooms).Some? && t.roomId == Some(FindRoom(hint, rooms).value.id))
    || InNamedRoom(rooms, t.roomId, hint.value)
    || FuzzyMatch(hint.value, t.name)
  }

  /** The thermostats whose room id is `id`. */
  function InRoomId(id: string): Thermostat -> bool {
    (t: Thermostat) => t.roomId == Some(id)
  }

  /** The thermostats whose own room fuzzy-matches the hint. */
  function InRoomNamed(rooms: seq<Room>, hint: string): Thermostat -> bool {
    (t: Thermostat) => InNamedRoom(rooms, t.roomId, hint)
  }

  /** The thermostats whose own name fuzzy-matches the hint. */
  function NamedLike(hint: string): Thermostat -> bool {
    (t: Thermostat) => FuzzyMatch(hint, t.name)
  }

  /** The thermostats in one of the area's rooms. */
  function InAreaRooms(area: Area): Thermostat -> bool {
    (t: Thermostat) => InArea(area, t.roomId)
  }

  /** Room hint: by room id, then by the thermostat's room name, then by its own name; else none. */
  function ThermostatsForRoom(hint: Option<string>, ctx: Context): (r: seq<Thermostat>)
    requires Truthy(hint)
    ensures IsSubsequence(r, ctx.thermostats)
  {
    EmptySubsequence(ctx.thermostats);
    var ts := ctx.thermostats;
    var room := FindRoom(hint, ctx.rooms);
    var byRoomId := if room.Some? then Filter(ts, InRoomId(room.value.id)) else [];
    var byRoomName := Filter(ts, InRoomNamed(ctx.rooms, hint.value));
    var byName := Filter(ts, NamedLike(hint.value));
    if |byRoomId| > 0 then byRoomId
    else if |byRoomName| > 0 then byRoomName
    else if |byName| > 0 then byName
    else []
  }

  /** Area hint that resolves: by the area's rooms, then by thermostat name; else all. */
  function ThermostatsForArea(hint: Option<string>, area: Area, ts: seq<Thermostat>): (r: seq<Thermostat>)
    requires Truthy(hint)
    ensures IsSubsequence(r, ts)
  {
    SubsequenceRefl(ts);
    var byArea := Filter(ts, InAreaRooms(area));
    var byName := Filter(ts, NamedLike(hint.value));
    if |byArea| > 0 then byArea
    else if |byName| > 0 then byName
    else ts
  }

  /** The thermostats a climate command acts on. */
  function GetMatchingThermostats(hints: Hints, ctx: Context): (r: seq<Thermostat>)
    ensures IsSubsequence(r, ctx.thermostats)
  {
    SubsequenceRefl(ctx.thermostats);
    if Truthy(hints.room) then ThermostatsForRoom(hints.room, ctx)
    else if Truthy(hints.area) && FindArea(hints.area, ctx.areas).Some? then
      ThermostatsForArea(hints.area, FindArea(hints.area, ctx.areas).value, ctx.thermostats)
    else ctx.thermostats
  }

  /** Every thermostat picked for a room hint is related to it by one of the strategies. */
  lemma ThermostatsOfRoomRelated(hints: Hints, ctx: Context)
    requires Truthy(hints.room)
    ensures forall t :: t in GetMatchingThermostats(hints, ctx) ==> RelatedToRoomHint(t, ctx.rooms, hints.room)
  {
  }

  /**
   * A room hint yields nothing exactly when no thermostat is related to it
   * by any strategy: it never falls back to all thermostats.
   */
  lemma ThermostatsOfRoomEmptyIff(hints: Hints, ctx: Context)
    requires Truthy(hints.room)
    ensures GetMatchingThermostats(hints, ctx) == [] <==>
      forall t :: t in ctx.thermostats ==> !RelatedToRoomHint(t, ctx.rooms, hints.room)
  {
    var r := GetMatchingThermostats(hints, ctx);
    if r == [] {
      forall t | t in ctx.thermostats
        ensures !RelatedToRoomHint(t, ctx.rooms, hints.room)
      {
        var room := FindRoom(hints.room, ctx.rooms);
        if room.Some? {
          assert t !in Filter(ctx.thermostats, InRoomId(room.value.id));
        }
        assert t !in Filter(ctx.thermostats, InRoomNamed(ctx.rooms, hints.room.value));
        assert t !in Filter(ctx.thermostats, NamedLike(hints.room.value));
      }
    } else {
      assert r[0] in r;
    }
  }

  /** When the resolved room has thermostats, exactly those are picked, in their order. */
  lemma ThermostatsOfResolvedRoom(hints: Hints, ctx: Context, room: Room)
    requires Truthy(hints.room) && FindRoom(hints.room, ctx.rooms) == Some(room)
    requires exists t :: t in ctx.thermostats && t.roomId == Some(room.id)
    ensures GetMatchingThermostats(hints, ctx) == Filter(ctx.thermostats, InRoomId(room.id))
  {
    var t0 :| t0 in ctx.thermostats && t0.roomId == Some(room.id);
    assert t0 in Filter(ctx.thermostats, InRoomId(room.id));
  }

  /** No thermostat carries the resolved room's id (or the hint names no room). */
  predicate NoneByRoomId(hint: Option<string>, ctx: Context) {
    var room := FindRoom(hint, ctx.rooms);
    room.None? || forall t :: t in ctx.thermostats ==> t.roomId != Some(room.value.id)
  }

  /**
   * Second strategy: when no thermostat carries the resolved room's id but
   * some thermostat's own room fuzzy-matches the hint, exactly those are
   * picked, in their order, whatever their names say.
   */
  lemma ThermostatsOfRoomByRoomName(hints: Hints, ctx: Context)
    requires Truthy(hints.room) && NoneByRoomId(hints.room, ctx)
    requires exists t :: t in ctx.thermostats && InNamedRoom(ctx.rooms, t.roomId, hints.room.value)
    ensures GetMatchingThermostats(hints, ctx) == Filter(ctx.thermostats, InRoomNamed(ctx.rooms, hints.room.value))
  {
    var room := FindRoom(hints.room, ctx.rooms);
    if room.Some? {
      assert Filter(ctx.thermostats, InRoomId(room.value.id)) == [];
    }
    var t0 :| t0 in ctx.thermostats && InNamedRoom(ctx.rooms, t0.roomId, hints.room.value);
    assert t0 in Filter(ctx.thermostats, InRoomNamed(ctx.rooms, hints.room.value));
  }

  /**
   * Third strategy: when neither the room id nor the thermostats' room names
   * match, the thermostats whose own name fuzzy-matches the hint are picked,
   * in their order.
   */
  lemma ThermostatsOfRoomByName(hints: Hints, ctx: Context)
    requires Truthy(hints.room) && NoneByRoomId(hints.room, ctx)
    requires forall t :: t in ctx.thermostats ==> !InNamedRoom(ctx.rooms, t.roomId, hints.room.value)
    ensures GetMatchingThermostats(hints, ctx) == Filter(ctx.thermostats, NamedLike(hints.room.value))
  {
    var room := FindRoom(hints.room, ctx.rooms);
    if room.Some? {
      assert Filter(ctx.thermostats, InRoomId(room.value.id)) == [];
    }
    assert Filter(ctx.thermostats, InRoomNamed(ctx.rooms, hints.room.value)) == [];
  }

  /** Without a room hint, an area with thermostats in its rooms picks exactly those, in their order. */
  lemma ThermostatsOfArea(hints: Hints, ctx: Context, area: Area)
    requires !Truthy(hints.room) && FindArea(hints.area, ctx.areas) == Some(area)
    requires exists t :: t in ctx.thermostats && InArea(area, t.roomId)
    ensures GetMatchingThermostats(hints, ctx) == Filter(ctx.thermostats, InAreaRooms(area))
  {
    var t0 :| t0 in ctx.thermostats && InArea(area, t0.roomId);
    assert t0 in Filter(ctx.thermostats, InAreaRooms(area));
  }

  /**
   * Without a room hint, an area whose rooms hold no thermostat falls back
   * to the thermostats named like the area, when there is at least one.
   */
  lemma ThermostatsOfAreaByName(hints: Hints, ctx: Context, area: Area)
    requires !Truthy(hints.room) && FindArea(hints.area, ctx.areas) == Some(area)
    requires forall t :: t in ctx.thermostats ==> !InArea(area, t.roomId)
    requires exists t :: t in ctx.thermostats && FuzzyMatch(hints.area.value, t.name)
    ensures GetMatchingThermostats(hints, ctx) == Filter(ctx.thermostats, NamedLike(hints.area.value))
  {
    assert Filter(ctx.thermostats, InAreaRooms(area)) == [];
    var t0 :| t0 in ctx.thermostats && FuzzyMatch(hints.area.value, t0.name);
    assert t0 in Filter(ctx.thermostats, NamedLike(hints.area.value));
  }

  /**
   * Without a room hint, an area that does not resolve, or that resolves but
   * matches no thermostat by its rooms or by name, selects every thermostat.
   */
  lemma ThermostatsFallBackToAll(hints: Hints, ctx: Context)
    requires !Truthy(hints.room)
    requires FindArea(hints.area, ctx.areas).None?
      || forall t :: t in ctx.thermostats ==>
           !InArea(FindArea(hints.area, ctx.areas).value, t.roomId) && !FuzzyMatch(hints.area.value, t.name)
    ensures GetMatchingThermostats(hints, ctx) == ctx.thermostats
  {
    if FindArea(hints.area, ctx.areas).Some? {
      var area := FindArea(hints.area, ctx.areas).value;
      assert Filter(ctx.thermostats, InAreaRooms(area)) == [];
      assert Filter(ctx.thermostats, NamedLike(hints.area.value)) == [];
    }
  }

  /** The media rooms a media command acts on. */
  function GetMatchingMediaRooms(hints: Hints, ctx: Context): (r: seq<MediaRoom>)
    ensures IsSubsequence(r, ctx.mediaRooms)
  {
    SubsequenceRefl(ctx.mediaRooms);
    if Truthy(hints.room) then
      match FindRoom(hints.room, ctx.rooms)
      case Some(room) => Filter(ctx.mediaRooms, (m: MediaRoom) => m.roomId == Some(room.id))
      case None => Filter(ctx.mediaRooms, (m: MediaRoom) => InNamedRoom(ctx.rooms, m.roomId, hints.room.value))
    else if Truthy(hints.area) && FindArea(hints.area, ctx.areas).Some? then
      Filter(ctx.mediaRooms, (m: MediaRoom) => InArea(FindArea(hints.area, ctx.areas).value, m.roomId))
    else ctx.mediaRooms
  }

  /** A resolved room hint selects exactly the media rooms in that room. */
  lemma MediaRoomsOfResolvedRoom(hints: Hints, ctx: Context, room: Room)
    requires Truthy(hints.room) && FindRoom(hints.room, ctx.rooms) == Some(room)
    ensures forall m :: m in GetMatchingMediaRooms(hints, ctx) <==> m in ctx.mediaRooms && m.roomId == Some(room.id)
  {
  }

  /** A room hint that resolves to no room selects no media room. */
  lemma MediaRoomsOfUnresolvedRoom(hints: Hints, ctx: Context)
    requires Truthy(hints.room) && FindRoom(hints.room, ctx.rooms).None?
    ensures GetMatchingMediaRooms(hints, ctx) == []
  {
    UnresolvedRoomHasNoNamedRoom(ctx.rooms, hints.room);
    var r := GetMatchingMediaRooms(hints, ctx);
    assert r == [];
  }

  /** Without a room hint, a resolved area selects the media rooms of its rooms; otherwise all. */
  lemma MediaRoomsOfArea(hints: Hints, ctx: Context)
    requires !Truthy(hints.room)
    ensures FindArea(hints.area, ctx.areas).Some? ==>
      forall m :: m in GetMatchingMediaRooms(hints, ctx) <==>
        m in ctx.mediaRooms && InArea(FindArea(hints.area, ctx.areas).value, m.roomId)
    ensures FindArea(hints.area, ctx.areas).None? ==> GetMatchingMediaRooms(hints, ctx) == ctx.mediaRooms
  {
  }

  // ---------------------------------------------------------------------------
  // Replies
  // ---------------------------------------------------------------------------

  datatype LightArgs = LightArgs(
    action: string, area: Option<string>, room: Option<string>,
    lightName: Option<string>, brightness: Option<int>)

  datatype ClimateArgs = ClimateArgs(
    action: string, area: Option<string>, room: Option<string>,
    temperature: Option<int>, mode: Option<string>)

  datatype MediaArgs = MediaArgs(
    action: string, area: Option<string>, room: Option<string>,
    volume: Option<int>, source: Option<string>)

  /** A number interpolated into a template; a missing one prints as "undefined". */
  function NumText(n: Option<int>): string {
    match n
    case Some(v) => IntToString(v)
    case None => "undefined"
  }

  function Text(s: Option<string>): string {
    match s
    case Some(v) => v
    case None => "undefined"
  }

  /** "s" unless the count is exactly one. */
  function Plural(n: nat): (r: string)
    ensures r == "" <==> n == 1
    ensures r != "" ==> r == "s"
  {
    if n != 1 then "s" else ""
  }

  const Degrees: string := "\U{00B0}F"

  /** How a light reply names its target, most specific hint first. */
  function LightTarget(args: LightArgs): (r: string)
    ensures Truthy(args.lightName) && Truthy(args.room) ==> r == args.lightName.value + " in " + args.room.value
    ensures Truthy(args.lightName) && !Truthy(args.room) ==> r == args.lightName.value
    ensures !Truthy(args.lightName) && Truthy(args.room) ==> r == args.room.value
    ensures !Truthy(args.lightName) && !Truthy(args.room) && Truthy(args.area) ==> r == args.area.value
    ensures !Truthy(args.lightName) && !Truthy(args.room) && !Truthy(args.area) ==> r == "the whole house"
  {
    if Truthy(args.lightName) && Truthy(args.room) then args.lightName.value + " in " + args.room.value
    else if Truthy(args.lightName) then args.lightName.value
    else if Truthy(args.room) then args.room.value
    else if Truthy(args.area) then args.area.value
    else "the whole house"
  }

  /** Room, else area, else the whole house. */
  function PlaceTarget(room: Option<string>, area: Option<string>): (r: string)
    ensures Truthy(room) ==> r == room.value
    ensures !Truthy(room) && Truthy(area) ==> r == area.value
    ensures !Truthy(room) && !Truthy(area) ==> r == "the whole house"
  {
    if Truthy(room) then room.value
    else if Truthy(area) then area.value
    else "the whole house"
  }

  const LightsNotFound: string := "I couldn't find any lights matching \""
  const ThermostatsNotFound: string := "I couldn't find any thermostats in "
  const MediaRoomsNotFound: string := "I couldn't find any media rooms in "

  /**
   * `generateLightResponse`: one sentence, ending in a full stop. The
   * lemmas below pin each of its cases.
   */
  function LightResponse(args: LightArgs, matching: seq<Light>, changed: seq<Light>): (r: string)
    ensures |r| > 0 && r[|r| - 1] == '.'
  {
    var target := LightTarget(args);
    var total := |matching|;
    var count := |changed|;
    if total == 1 && count == 1 then
      var name := changed[0].name;
      if args.action == "on" then "Turned on " + name + "."
      else if args.action == "off" then "Turned off " + name + "."
      else if args.action == "set_brightness" then "Set " + name + " to " + NumText(args.brightness) + "%."
      else "Updated " + name + "."
    else if total == 0 then
      LightsNotFound + (if Truthy(args.lightName) then args.lightName.value else target) + "\"."
    else if args.action == "on" then
      if count == 0 then "All " + NatToString(total) + " lights in " + target + " were already on."
      else "Turned on " + NatToString(count) + " of " + NatToString(total) + " lights in " + target + "."
    else if args.action == "off" then
      if count == 0 then "All " + NatToString(total) + " lights in " + target + " were already off."
      else "Turned off " + NatToString(count) + " of " + NatToString(total) + " lights in " + target + "."
    else if args.action == "set_brightness" then
      "Set " + NatToString(count) + " lights in " + target + " to " + NumText(args.brightness) + "% brightness."
    else "Updated " + NatToString(count) + " lights in " + target + "."
  }

  /** The words after the noun in a temperature or mode reply. */
  function ClimateTail(args: ClimateArgs, target: string): string {
    if args.action == "set_temperature" then " in " + target + " to " + NumText(args.temperature) + Degrees + "."
    else " in " + target + " to " + Text(args.mode) + " mode."
  }

  /** `generateClimateResponse`: one sentence, ending in a full stop. */
  function ClimateResponse(args: ClimateArgs, matching: seq<Thermostat>, changed: seq<Thermostat>): (r: string)
    ensures |r| > 0 && r[|r| - 1] == '.'
  {
    var target := PlaceTarget(args.room, args.area);
    var count := |changed|;
    if |matching| == 0 then ThermostatsNotFound + target + "."
    else if args.action == "set_temperature" || args.action == "set_mode" then
      "Set " + NatToString(count) + " thermostat" + Plural(count) + ClimateTail(args, target)
    else "Updated " + NatToString(count) + " thermostats in " + target + "."
  }

  /** The media actions whose reply counts the changed rooms with a singular or plural noun. */
  const CountedMediaActions: set<string> := {"power_on", "power_off", "set_volume", "mute", "unmute", "select_source"}

  /** The words before the count in a media reply. */
  function MediaLead(args: MediaArgs): string {
    if args.action == "power_on" then "Powered on "
    else if args.action == "power_off" then "Powered off "
    else if args.action == "set_volume" then "Set volume to " + NumText(args.volume) + "% in "
    else if args.action == "mute" then "Muted "
    else if args.action == "unmute" then "Unmuted "
    else if args.action == "select_source" then "Switched "
    else "Updated "
  }

  /** The words after the noun in a media reply. */
  function MediaTail(args: MediaArgs, target: string): string {
    if args.action == "set_volume" then "."
    else if args.action == "select_source" then " to " + Text(args.source) + "."
    else " in " + target + "."
  }

  /** `generateMediaResponse`: one sentence, ending in a full stop. */
  function MediaResponse(args: MediaArgs, matching: seq<MediaRoom>, changed: seq<MediaRoom>): (r: string)
    ensures |r| > 0 && r[|r| - 1] == '.'
  {
    var target := PlaceTarget(args.room, args.area);
    var count := |changed|;
    if |matching| == 0 then MediaRoomsNotFound + target + "."
    else if args.action in CountedMediaActions then
      MediaLead(args) + NatToString(count) + " media room" + Plural(count) + MediaTail(args, target)
    else "Updated " + NatToString(count) + " media rooms in " + target + "."
  }

  /** A reply admits failure exactly when nothing matched. */
  lemma {:induction false} LightNotFoundIff(args: LightArgs, matching: seq<Light>, changed: seq<Light>)
    ensures IsPrefix(LightsNotFound, LightResponse(args, matching, changed)) <==> |matching| == 0
  {
    var r := LightResponse(args, matching, changed);
    if |matching| == 0 {
      var tail := (if Truthy(args.lightName) then args.lightName.value else LightTarget(args)) + "\".";
      assert r == LightsNotFound + tail;
      PrefixOfConcat(LightsNotFound, tail);
    } else {
      assert r[0] != 'I';
    }
  }

  /**
   * Switching lights on or off that all matched: the reply is "All <n> lights
   * in <target> were already on/off." exactly when none of them changed.
   */
  lemma {:induction false} LightAlreadyIff(args: LightArgs, matching: seq<Light>, changed: seq<Light>)
    requires |matching| > 0 && (args.action == "on" || args.action == "off")
    ensures IsPrefix("All ", LightResponse(args, matching, changed)) <==> |changed| == 0
    ensures |changed| == 0 ==>
      LightResponse(args, matching, changed) == "All " + NatToString(|matching|) + " lights in " + LightTarget(args) + " were already " + args.action + "."
  {
    var r := LightResponse(args, matching, changed);
    if |changed| == 0 {
      var tail := NatToString(|matching|) + " lights in " + LightTarget(args) + " were already " + args.action + ".";
      assert r == "All " + tail;
      PrefixOfConcat("All ", tail);
    } else {
      assert r[0] == 'T';
    }
  }

  /** What a switch reply names: the one light, or "<changed> of <matched> lights in <target>". */
  function SwitchedWhat(args: LightArgs, matching: seq<Light>, changed: seq<Light>): string
    requires |changed| > 0
  {
    if |matching| == 1 && |changed| == 1 then changed[0].name
    else NatToString(|changed|) + " of " + NatToString(|matching|) + " lights in " + LightTarget(args)
  }

  /**
   * Switching lights on or off when some changed: the reply names the light
   * exactly when one light matched and it changed, and otherwise counts the
   * changed lights out of the matched ones.
   */
  lemma LightSwitchReply(args: LightArgs, matching: seq<Light>, changed: seq<Light>)
    requires |matching| > 0 && |changed| > 0
    ensures args.action == "on" ==> LightResponse(args, matching, changed) == "Turned on " + SwitchedWhat(args, matching, changed) + "."
    ensures args.action == "off" ==> LightResponse(args, matching, changed) == "Turned off " + SwitchedWhat(args, matching, changed) + "."
  {
    var what := SwitchedWhat(args, matching, changed);
    var r := LightResponse(args, matching, changed);
    if |matching| == 1 && |changed| == 1 {
      assert what == changed[0].name;
    } else if args.action == "on" {
      assert r == "Turned on " + NatToString(|changed|) + " of " + NatToString(|matching|) + " lights in " + LightTarget(args) + ".";
      assert what == NatToString(|changed|) + " of " + NatToString(|matching|) + " lights in " + LightTarget(args);
    } else if args.action == "off" {
      assert r == "Turned off " + NatToString(|changed|) + " of " + NatToString(|matching|) + " lights in " + LightTarget(args) + ".";
      assert what == NatToString(|changed|) + " of " + NatToString(|matching|) + " lights in " + LightTarget(args);
    }
  }

  /** One light matched and it changed: brightness and other commands name it too. */
  lemma LightSingleReply(args: LightArgs, matching: seq<Light>, changed: seq<Light>)
    requires |matching| == 1 && |changed| == 1
    ensures var r := LightResponse(args, matching, changed);
      (args.action == "set_brightness" ==> r == "Set " + changed[0].name + " to " + NumText(args.brightness) + "%.")
      && (args.action !in {"on", "off", "set_brightness"} ==> r == "Updated " + changed[0].name + ".")
  {
  }

  /** Otherwise brightness and other commands count the changed lights. */
  lemma LightCountedReply(args: LightArgs, matching: seq<Light>, changed: seq<Light>)
    requires |matching| > 0 && !(|matching| == 1 && |changed| == 1)
    ensures var r := LightResponse(args, matching, changed);
      (args.action == "set_brightness" ==>
        r == "Set " + NatToString(|changed|) + " lights in " + LightTarget(args) + " to " + NumText(args.brightness) + "% brightness.")
      && (args.action !in {"on", "off", "set_brightness"} ==>
        r == "Updated " + NatToString(|changed|) + " lights in " + LightTarget(args) + ".")
  {
    var total, count := |matching|, |changed|;
    assert !(total == 1 && count == 1) && total != 0;
    if args.action == "set_brightness" {
      assert args.action != "on" && args.action != "off";
    } else if args.action != "on" && args.action != "off" {
      assert LightResponse(args, matching, changed) == "Updated " + NatToString(count) + " lights in " + LightTarget(args) + ".";
    }
  }

  lemma {:induction false} ClimateNotFoundIff(args: ClimateArgs, matching: seq<Thermostat>, changed: seq<Thermostat>)
    ensures IsPrefix(ThermostatsNotFound, ClimateResponse(args, matching, changed)) <==> |matching| == 0
  {
    var r := ClimateResponse(args, matching, changed);
    if |matching| == 0 {
      var tail := PlaceTarget(args.room, args.area) + ".";
      assert r == ThermostatsNotFound + tail;
      PrefixOfConcat(ThermostatsNotFound, tail);
    } else {
      assert r[0] != 'I';
    }
  }

  lemma {:induction false} MediaNotFoundIff(args: MediaArgs, matching: seq<MediaRoom>, changed: seq<MediaRoom>)
    ensures IsPrefix(MediaRoomsNotFound, MediaResponse(args, matching, changed)) <==> |matching| == 0
  {
    var r := MediaResponse(args, matching, changed);
    if |matching| == 0 {
      var tail := PlaceTarget(args.room, args.area) + ".";
      assert r == MediaRoomsNotFound + tail;
      PrefixOfConcat(MediaRoomsNotFound, tail);
    } else {
      assert r[0] != 'I';
    }
  }

  /**
   * For the temperature and mode commands the noun is singular exactly
   * when one thermostat changed: the reply is "Set <count> thermostat"
   * followed by text that starts with "s" only for other counts.
   */
  lemma {:induction false} ClimateSingularIff(args: ClimateArgs, matching: seq<Thermostat>, changed: seq<Thermostat>)
    requires |matching| > 0 && args.action in {"set_temperature", "set_mode"}
    ensures exists rest :: (ClimateResponse(args, matching, changed)
      == "Set " + NatToString(|changed|) + " thermostat" + rest
      && (IsPrefix("s", rest) <==> |changed| != 1))
  {
    var count := |changed|;
    var after := ClimateTail(args, PlaceTarget(args.room, args.area));
    var rest := Plural(count) + after;
    assert ClimateResponse(args, matching, changed) == "Set " + NatToString(count) + " thermostat" + rest;
    if count != 1 {
      PrefixOfConcat("s", after);
    } else {
      assert rest[0] == ' ';
    }
  }

  /**
   * For the counted media commands the noun is singular exactly when one
   * media room changed.
   */
  lemma {:induction false} MediaSingularIff(args: MediaArgs, matching: seq<MediaRoom>, changed: seq<MediaRoom>)
    requires |matching| > 0 && args.action in CountedMediaActions
    ensures exists rest :: (MediaResponse(args, matching, changed)
      == MediaLead(args) + NatToString(|changed|) + " media room" + rest
      && (IsPrefix("s", rest) <==> |changed| != 1))
  {
    var count := |changed|;
    var after := MediaTail(args, PlaceTarget(args.room, args.area));
    var rest := Plural(count) + after;
    assert MediaResponse(args, matching, changed) == MediaLead(args) + NatToString(count) + " media room" + rest;
    if count != 1 {
      PrefixOfConcat("s", after);
    } else {
      assert rest[0] != 's';
    }
  }

  // ---------------------------------------------------------------------------
  // Snapshots for undo
  // ---------------------------------------------------------------------------

  datatype DeviceKind = LightDevice | ThermostatDevice | MediaRoomDevice

  /** The fields a snapshot copies, per device kind. */
  datatype PreviousState =
    | LightState(level: int, isOn: bool)
    | ThermostatState(mode: ThermostatMode, heatSetPoint: int, coolSetPoint: int, fanMode: FanMode)
    | MediaRoomState(isPoweredOn: bool, volumePercent: int, isMuted: bool, currentProviderId: Option<int>)

  datatype Snapshot = Snapshot(kind: DeviceKind, id: string, previous: PreviousState)

  function LightSnapshot(l: Light): Snapshot {
    Snapshot(LightDevice, l.id, LightState(l.level, l.isOn))
  }

  function ThermostatSnapshot(t: Thermostat): Snapshot {
    Snapshot(ThermostatDevice, t.id, ThermostatState(t.mode, t.heatSetPoint, t.coolSetPoint, t.fanMode))
  }

  function MediaRoomSnapshot(m: MediaRoom): Snapshot {
    Snapshot(MediaRoomDevice, m.id, MediaRoomState(m.isPoweredOn, m.volumePercent, m.isMuted, m.currentProviderId))
  }

  function CaptureLightSnapshots(lights: seq<Light>): (r: seq<Snapshot>)
    ensures |r| == |lights|
    ensures forall i :: 0 <= i < |r| ==>
      r[i].kind == LightDevice && r[i].id == lights[i].id
      && r[i].previous == LightState(lights[i].level, lights[i].isOn)
  {
    seq(|lights|, i requires 0 <= i < |lights| => LightSnapshot(lights[i]))
  }

  function CaptureThermostatSnapshots(ts: seq<Thermostat>): (r: seq<Snapshot>)
    ensures |r| == |ts|
    ensures forall i :: 0 <= i < |r| ==>
      r[i].kind == ThermostatDevice && r[i].id == ts[i].id
      && r[i].previous == ThermostatState(ts[i].mode, ts[i].heatSetPoint, ts[i].coolSetPoint, ts[i].fanMode)
  {
    seq(|ts|, i requires 0 <= i < |ts| => ThermostatSnapshot(ts[i]))
  }

  function CaptureMediaRoomSnapshots(ms: seq<MediaRoom>): (r: seq<Snapshot>)
    ensures |r| == |ms|
    ensures forall i :: 0 <= i < |r| ==>
      r[i].kind == MediaRoomDevice && r[i].id == ms[i].id
      && r[i].previous == MediaRoomState(ms[i].isPoweredOn, ms[i].volumePercent, ms[i].isMuted, ms[i].currentProviderId)
  {
    seq(|ms|, i requires 0 <= i < |ms| => MediaRoomSnapshot(ms[i]))
  }
}

=== FILE: common.dfy ===
/**
 * Shared vocabulary for the whole model: optional values, JavaScript
 * truthiness of optional strings, the string operations the TypeScript code
 * relies on (toLowerCase, trim, includes, startsWith, split), decimal
 * rendering of integers, and order-preserving filtering and searching of
 * sequences.
 */
module Common {

  datatype Option<+T> = None | Some(value: T) {
    /** The wrapped value, or `default` when absent (the `??` operator). */
    function GetOr(default: T): T {
      match this
      case Some(v) => v
      case None => default
    }
  }

  /** JavaScript truthiness of an optional string: `undefined`, `null` and "" are falsy. */
  predicate Truthy(o: Option<string>) {
    o.Some? && o.value != ""
  }

  /** The `a || b` operator on optional strings. */
  function OrElse(a: Option<string>, b: Option<string>): (r: Option<string>)
    ensures Truthy(a) ==> r == a
    ensures !Truthy(a) ==> r == b
  {
    if Truthy(a) then a else b
  }

  // ---------------------------------------------------------------------------
  // Characters and case
  // ---------------------------------------------------------------------------

  /** `toLowerCase` on one character; only the ASCII letters are mapped. */
  function LowerChar(c: char): char {
    if 'A' <= c <= 'Z' then (c as int + 32) as char else c
  }

  function Lower(s: string): string {
    if s == [] then [] else [LowerChar(s[0])] + Lower(s[1..])
  }

  lemma {:induction false} LowerSpec(s: string)
    ensures |Lower(s)| == |s|
    ensures forall i :: 0 <= i < |s| ==> Lower(s)[i] == LowerChar(s[i])
    decreases |s|
  {
    if s != [] {
      LowerSpec(s[1..]);
    }
  }

  /** Lower-casing is idempotent. */
  lemma LowerTwice(s: string)
    ensures Lower(Lower(s)) == Lower(s)
  {
    LowerSpec(s);
    LowerSpec(Lower(s));
  }

  /** The characters `String.prototype.trim` removes (ECMAScript WhiteSpace and LineTerminator). */
  predicate IsSpace(c: char) {
    c == ' ' || c == '\t' || c == '\n' || c == '\r' || c == '\U{000B}' || c == '\U{000C}'
    || c == '\U{00A0}' || c == '\U{FEFF}' || c == '\U{1680}' || ('\U{2000}' <= c <= '\U{200A}')
    || c == '\U{2028}' || c == '\U{2029}' || c == '\U{202F}' || c == '\U{205F}' || c == '\U{3000}'
  }

  function TrimStart(s: string): string {
    if |s| > 0 && IsSpace(s[0]) then TrimStart(s[1..]) else s
  }

  function TrimEnd(s: string): string {
    if |s| > 0 && IsSpace(s[|s| - 1]) then TrimEnd(s[..|s| - 1]) else s
  }

  /** `String.prototype.trim`. */
  function Trim(s: string): string {
    TrimEnd(TrimStart(s))
  }

  lemma {:induction false} TrimStartSpec(s: string)
    ensures |TrimStart(s)| <= |s| && TrimStart(s) == s[|s| - |TrimStart(s)|..]
    ensures TrimStart(s) == [] || !IsSpace(TrimStart(s)[0])
    ensures forall i :: 0 <= i < |s| - |TrimStart(s)| ==> IsSpace(s[i])
    decreases |s|
  {
    if |s| > 0 && IsSpace(s[0]) {
      TrimStartSpec(s[1..]);
    }
  }

  lemma {:induction false} TrimEndSpec(s: string)
    ensures |TrimEnd(s)| <= |s| && TrimEnd(s) == s[..|TrimEnd(s)|]
    ensures TrimEnd(s) == [] || !IsSpace(TrimEnd(s)[|TrimEnd(s)| - 1])
    ensures forall i :: |TrimEnd(s)| <= i < |s| ==> IsSpace(s[i])
    decreases |s|
  {
    if |s| > 0 && IsSpace(s[|s| - 1]) {
      TrimEndSpec(s[..|s| - 1]);
    }
  }

  /** The trimmed string is a slice of the input with no white space at either end. */
  lemma TrimSpec(s: string)
    ensures |Trim(s)| <= |s|
    ensures Trim(s) == [] || (!IsSpace(Trim(s)[0]) && !IsSpace(Trim(s)[|Trim(s)| - 1]))
    ensures exists k :: OccursAt(s, Trim(s), k)
  {
    TrimStartSpec(s);
    TrimEndSpec(TrimStart(s));
    var k := |s| - |TrimStart(s)|;
    assert OccursAt(s, Trim(s), k);
  }

  /** No white space at either end. */
  predicate Trimmed(s: string) {
    s == [] || (!IsSpace(s[0]) && !IsSpace(s[|s| - 1]))
  }

  /** No ASCII capital letter anywhere. */
  predicate NoUpper(s: string) {
    forall i :: 0 <= i < |s| ==> !('A' <= s[i] <= 'Z')
  }

  /** `s.toLowerCase().trim()`: trimmed, lower-case, and no longer than the input. */
  lemma LowerTrimmedSpec(s: string)
    ensures var r := Trim(Lower(s)); |r| <= |s| && Trimmed(r) && NoUpper(r)
  {
    var l := Lower(s);
    var r := Trim(l);
    LowerSpec(s);
    TrimSpec(l);
    var k :| OccursAt(l, r, k);
    forall i | 0 <= i < |r|
      ensures !('A' <= r[i] <= 'Z')
    {
      assert r[i] == l[k + i] == LowerChar(s[k + i]);
    }
  }

  /** Trimming a trimmed string, or lower-casing one without capitals, changes nothing. */
  lemma NormalFormFixed(s: string)
    requires Trimmed(s) && NoUpper(s)
    ensures Trim(Lower(s)) == s
  {
    LowerSpec(s);
    assert Lower(s) == s;
    assert TrimStart(s) == s;
    assert TrimEnd(s) == s;
  }

  /** Lower-casing and trimming once is enough. */
  lemma LowerTrimmedTwice(s: string)
    ensures Trim(Lower(Trim(Lower(s)))) == Trim(Lower(s))
  {
    LowerTrimmedSpec(s);
    NormalFormFixed(Trim(Lower(s)));
  }

  // ---------------------------------------------------------------------------
  // Searching in strings
  // ---------------------------------------------------------------------------

  /** `s.startsWith(p)`. */
  predicate IsPrefix(p: string, s: string) {
    p == [] || (s != [] && p[0] == s[0] && IsPrefix(p[1..], s[1..]))
  }

  /** `s.includes(sub)`: `sub` occurs as a contiguous slice of `s` (the empty string always does). */
  predicate Contains(s: string, sub: string)
    decreases |s|
  {
    IsPrefix(sub, s) || (|s| > |sub| && Contains(s[1..], sub))
  }

  /** `sub` occurs in `s` starting at index `i`. */
  predicate OccursAt(s: string, sub: string, i: int) {
    0 <= i && i + |sub| <= |s| && s[i..i + |sub|] == sub
  }

  lemma {:induction false} IsPrefixIff(p: string, s: string)
    ensures IsPrefix(p, s) <==> |p| <= |s| && s[..|p|] == p
    decreases |p|
  {
    if p != [] && s != [] {
      IsPrefixIff(p[1..], s[1..]);
      if |p| <= |s| && s[..|p|] == p {
        assert s[1..][..|p| - 1] == p[1..];
      }
      if p[0] == s[0] && |p[1..]| <= |s[1..]| && s[1..][..|p[1..]|] == p[1..] {
        assert s[..|p|] == [s[0]] + s[1..][..|p| - 1];
      }
    }
  }

  /** `Contains` agrees with the slice-based reading of `includes`. */
  lemma {:induction false} ContainsIff(s: string, sub: string)
    ensures Contains(s, sub) <==> exists i :: OccursAt(s, sub, i)
    decreases |s|
  {
    IsPrefixIff(sub, s);
    if IsPrefix(sub, s) {
      assert OccursAt(s, sub, 0);
    } else if |s| > |sub| {
      ContainsIff(s[1..], sub);
      if Contains(s[1..], sub) {
        var i :| OccursAt(s[1..], sub, i);
        assert s[1..][i..i + |sub|] == s[i + 1..i + 1 + |sub|];
        assert OccursAt(s, sub, i + 1);
      }
      if i :| OccursAt(s, sub, i) {
        assert i != 0;
        assert s[1..][i - 1..i - 1 + |sub|] == s[i..i + |sub|];
        assert OccursAt(s[1..], sub, i - 1);
      }
    }
  }

  /** A string contains every one of its slices, in particular itself. */
  lemma ContainsOccurrence(s: string, sub: string, i: int)
    requires OccursAt(s, sub, i)
    ensures Contains(s, sub)
  {
    ContainsIff(s, sub);
  }

  lemma {:induction false} PrefixOfConcat(p: string, x: string)
    ensures IsPrefix(p, p + x)
    decreases |p|
  {
    if p != [] {
      assert (p + x)[1..] == p[1..] + x;
      PrefixOfConcat(p[1..], x);
    }
  }

  // ---------------------------------------------------------------------------
  // Splitting and joining
  // ---------------------------------------------------------------------------

  /** `s.split(c)` for a one-character separator. */
  function Split(s: string, c: char): (r: seq<string>)
    ensures |r| >= 1
    ensures forall k :: 0 <= k < |r| ==> c !in r[k]
    decreases |s|
  {
    if s == [] then [""]
    else if s[0] == c then [""] + Split(s[1..], c)
    else var rest := Split(s[1..], c); [[s[0]] + rest[0]] + rest[1..]
  }

  /** `parts.join(c)`. */
  function Join(parts: seq<string>, c: char): string
  {
    if |parts| == 0 then ""
    else if |parts| == 1 then parts[0]
    else parts[0] + [c] + Join(parts[1..], c)
  }

  /** Splitting and re-joining with the same separator gives the input back. */
  lemma {:induction false} JoinSplit(s: string, c: char)
    ensures Join(Split(s, c), c) == s
    decreases |s|
  {
    if s != [] {
      var rest := Split(s[1..], c);
      JoinSplit(s[1..], c);
      if s[0] == c {
        assert Split(s, c) == [""] + rest;
        assert ([""] + rest)[1..] == rest;
      } else {
        var r := Split(s, c);
        assert r == [[s[0]] + rest[0]] + rest[1..];
        if |rest| == 1 {
          assert r == [[s[0]] + rest[0]];
        } else {
          assert r[1..] == rest[1..];
          assert Join(rest, c) == rest[0] + [c] + Join(rest[1..], c);
        }
      }
    }
  }

  /** A string without the separator splits into itself. */
  lemma {:induction false} SplitNoSeparator(a: string, c: char)
    requires c !in a
    ensures Split(a, c) == [a]
    decreases |a|
  {
    if a != [] {
      SplitNoSeparator(a[1..], c);
      assert [a[0]] + a[1..] == a;
    }
  }

  /** Splitting at the first separator: the part before it, then the split of the rest. */
  lemma {:induction false} SplitAtSeparator(a: string, b: string, c: char)
    requires c !in a
    ensures Split(a + [c] + b, c) == [a] + Split(b, c)
    decreases |a|
  {
    var s := a + [c] + b;
    if a == [] {
      assert s == [c] + b;
      assert s[1..] == b;
    } else {
      assert s[0] == a[0];
      assert s[1..] == a[1..] + [c] + b;
      SplitAtSeparator(a[1..], b, c);
      assert [a[0]] + a[1..] == a;
    }
  }

  /** Joining parts that hold no separator and splitting again gives the parts back. */
  lemma {:induction false} SplitJoin(parts: seq<string>, c: char)
    requires |parts| >= 1
    requires forall k :: 0 <= k < |parts| ==> c !in parts[k]
    ensures Split(Join(parts, c), c) == parts
    decreases |parts|
  {
    if |parts| == 1 {
      SplitNoSeparator(parts[0], c);
    } else {
      SplitJoin(parts[1..], c);
      SplitAtSeparator(parts[0], Join(parts[1..], c), c);
      assert [parts[0]] + parts[1..] == parts;
    }
  }

  /** `s.split(c)[0]`: the part of `s` before the first `c`, or all of `s`. */
  function BeforeFirst(s: string, c: char): (r: string)
    ensures c !in r
    ensures IsPrefix(r, s)
    ensures |r| < |s| ==> s[|r|] == c
  {
    IsPrefixIff(Split(s, c)[0], s);
    SplitHeadIsPrefix(s, c);
    Split(s, c)[0]
  }

  lemma {:induction false} SplitHeadIsPrefix(s: string, c: char)
    ensures |Split(s, c)[0]| <= |s| && s[..|Split(s, c)[0]|] == Split(s, c)[0]
    ensures |Split(s, c)[0]| < |s| ==> s[|Split(s, c)[0]|] == c
    decreases |s|
  {
    if s != [] && s[0] != c {
      SplitHeadIsPrefix(s[1..], c);
    }
  }

  // ---------------------------------------------------------------------------
  // Numbers rendered as text (template literals `${n}`)
  // ---------------------------------------------------------------------------

  function DigitChar(d: int): char
    requires 0 <= d < 10
  {
    "0123456789"[d]
  }

  predicate IsDigit(c: char) {
    '0' <= c <= '9'
  }

  /** Decimal rendering of a natural number without leading zeros. */
  function NatToString(n: nat): (r: string)
    ensures |r| >= 1
    ensures forall i :: 0 <= i < |r| ==> IsDigit(r[i])
    ensures |r| > 1 ==> r[0] != '0'
    decreases n
  {
    if n < 10 then [DigitChar(n)] else NatToString(n / 10) + [DigitChar(n % 10)]
  }

  /** Decimal rendering of an integer, with a leading '-' when negative. */
  function IntToString(n: int): (r: string)
    ensures |r| >= 1
    ensures n >= 0 <==> IsDigit(r[0])
  {
    if n >= 0 then NatToString(n) else "-" + NatToString(-n)
  }

  /** Value of a non-empty string of decimal digits. */
  function DigitsValue(s: string): int
    requires forall i :: 0 <= i < |s| ==> IsDigit(s[i])
    decreases |s|
  {
    if s == [] then 0 else DigitsValue(s[..|s| - 1]) * 10 + (s[|s| - 1] as int - '0' as int)
  }

  /** Reading a rendered number back gives the number. */
  lemma {:induction false} DigitsValueOfNatToString(n: nat)
    ensures DigitsValue(NatToString(n)) == n
    decreases n
  {
    if n >= 10 {
      var r := NatToString(n);
      DigitsValueOfNatToString(n / 10);
      assert r[..|r| - 1] == NatToString(n / 10);
    }
  }

  /** Different numbers are rendered differently. */
  lemma NatToStringInjective(a: nat, b: nat)
    requires NatToString(a) == NatToString(b)
    ensures a == b
  {
    DigitsValueOfNatToString(a);
    DigitsValueOfNatToString(b);
  }

  // ---------------------------------------------------------------------------
  // Sequences
  // ---------------------------------------------------------------------------

  /** `a` is `b` with some elements removed, the rest kept in order. */
  ghost predicate IsSubsequence<T>(a: seq<T>, b: seq<T>)
    decreases |b|
  {
    a == [] || (|b| > 0 && ((a[0] == b[0] && IsSubsequence(a[1..], b[1..])) || IsSubsequence(a, b[1..])))
  }

  lemma {:induction false} SubsequenceRefl<T>(a: seq<T>)
    ensures IsSubsequence(a, a)
    decreases |a|
  {
    if a != [] {
      SubsequenceRefl(a[1..]);
    }
  }

  lemma {:induction false} SubsequenceTrans<T>(a: seq<T>, b: seq<T>, c: seq<T>)
    requires IsSubsequence(a, b) && IsSubsequence(b, c)
    ensures IsSubsequence(a, c)
    decreases |c|
  {
    if a != [] {
      if IsSubsequence(b, c[1..]) {
        SubsequenceTrans(a, b, c[1..]);
      } else if a[0] == b[0] && IsSubsequence(a[1..], b[1..]) {
        SubsequenceTrans(a[1..], b[1..], c[1..]);
      } else {
        SubsequenceTrans(a, b[1..], c[1..]);
      }
    }
  }

  lemma {:induction false} EmptySubsequence<T>(b: seq<T>)
    ensures IsSubsequence([], b)
  {
  }

  /** `xs.filter(p)`. */
  function Filter<T(!new)>(xs: seq<T>, p: T -> bool): (r: seq<T>)
    ensures |r| <= |xs|
    ensures forall x :: x in r <==> x in xs && p(x)
    ensures r == [] <==> forall x :: x in xs ==> !p(x)
    ensures IsSubsequence(r, xs)
    decreases |xs|
  {
    if xs == [] then []
    else if p(xs[0]) then [xs[0]] + Filter(xs[1..], p)
    else Filter(xs[1..], p)
  }

  lemma {:induction false} FilterAll<T(!new)>(xs: seq<T>, p: T -> bool)
    requires forall x :: x in xs ==> p(x)
    ensures Filter(xs, p) == xs
    decreases |xs|
  {
    if xs != [] {
      FilterAll(xs[1..], p);
    }
  }

  /** Two predicates that agree on every element filter alike. */
  lemma {:induction false} FilterSame<T(!new)>(xs: seq<T>, p: T -> bool, q: T -> bool)
    requires forall x :: x in xs ==> p(x) == q(x)
    ensures Filter(xs, p) == Filter(xs, q)
    decreases |xs|
  {
    if xs != [] {
      FilterSame(xs[1..], p, q);
    }
  }

  lemma {:induction false} FilterAppend<T(!new)>(xs: seq<T>, ys: seq<T>, p: T -> bool)
    ensures Filter(xs + ys, p) == Filter(xs, p) + Filter(ys, p)
    decreases |xs|
  {
    if xs != [] {
      var zs := xs + ys;
      assert zs[0] == xs[0] && zs[1..] == xs[1..] + ys;
      FilterAppend(xs[1..], ys, p);
      var rest := Filter(xs[1..], p);
      if p(xs[0]) {
        assert Filter(zs, p) == [xs[0]] + (rest + Filter(ys, p));
        assert Filter(xs, p) == [xs[0]] + rest;
      } else {
        assert Filter(zs, p) == rest + Filter(ys, p);
        assert Filter(xs, p) == rest;
      }
    } else {
      assert xs + ys == ys;
    }
  }

  /** Filtering a single element keeps it exactly when it passes. */
  lemma FilterSingle<T(!new)>(x: T, p: T -> bool)
    ensures Filter([x], p) == if p(x) then [x] else []
  {
    assert [x][1..] == [];
  }

  /** Number of elements satisfying `p` (`xs.filter(p).length`). */
  function Count<T(!new)>(xs: seq<T>, p: T -> bool): nat
  {
    |Filter(xs, p)|
  }

  /** `xs.findIndex(p)` as an option: the first index whose element satisfies `p`. */
  function FindIndex<T>(xs: seq<T>, p: T -> bool): (r: Option<nat>)
    ensures r.Some? ==> r.value < |xs| && p(xs[r.value]) && forall j :: 0 <= j < r.value ==> !p(xs[j])
    ensures r.None? ==> forall j :: 0 <= j < |xs| ==> !p(xs[j])
    decreases |xs|
  {
    if xs == [] then None
    else if p(xs[0]) then Some(0)
    else match FindIndex(xs[1..], p)
      case None => None
      case Some(i) => Some(i + 1)
  }

  /** `xs.find(p)`: the first element satisfying `p`. */
  function Find<T(!new)>(xs: seq<T>, p: T -> bool): (r: Option<T>)
    ensures r.Some? ==> r.value in xs && p(r.value)
    ensures r.Some? ==> exists i :: 0 <= i < |xs| && xs[i] == r.value && forall j :: 0 <= j < i ==> !p(xs[j])
    ensures r.None? <==> forall x :: x in xs ==> !p(x)
  {
    match FindIndex(xs, p)
    case None => None
    case Some(i) => Some(xs[i])
  }

  /** `find` returns the first element satisfying the predicate, whichever it is. */
  lemma FindIsFirst<T(!new)>(xs: seq<T>, p: T -> bool)
    ensures forall i :: 0 <= i < |xs| && p(xs[i]) && (forall j :: 0 <= j < i ==> !p(xs[j])) ==> Find(xs, p) == Some(xs[i])
  {
    forall i | 0 <= i < |xs| && p(xs[i]) && (forall j :: 0 <= j < i ==> !p(xs[j]))
      ensures Find(xs, p) == Some(xs[i])
    {
      var k := FindIndex(xs, p);
      assert k.Some?;
      assert !(k.value < i);
    }
  }

  /** `xs.some(p)`. */
  predicate Any<T>(xs: seq<T>, p: T -> bool) {
    exists i :: 0 <= i < |xs| && p(xs[i])
  }

  /** `xs.slice(0, n)`. */
  function Take<T>(xs: seq<T>, n: nat): (r: seq<T>)
    ensures |r| == if n < |xs| then n else |xs|
    ensures r == xs[..|r|]
  {
    if n < |xs| then xs[..n] else xs
  }

  /** `xs.slice(-n)`: the last `n` elements, or all of them. */
  function TakeLast<T>(xs: seq<T>, n: nat): (r: seq<T>)
    ensures |r| == if n < |xs| then n else |xs|
    ensures r == xs[|xs| - |r|..]
  {
    if n < |xs| then xs[|xs| - n..] else xs
  }

  /** `xs.map(f)`. */
  function Map<A, B>(xs: seq<A>, f: A -> B): (r: seq<B>)
    ensures |r| == |xs|
    ensures forall i :: 0 <= i < |xs| ==> r[i] == f(xs[i])
  {
    seq(|xs|, i requires 0 <= i < |xs| => f(xs[i]))
  }

  /** The elements of `xs` without repeats, each at its first occurrence (`[...new Set(xs)]`). */
  function Distinct<T(==, !new)>(xs: seq<T>): (r: seq<T>)
    ensures forall x :: x in r <==> x in xs
    ensures forall i, j :: 0 <= i < j < |r| ==> r[i] != r[j]
    ensures forall i, j, k :: 0 <= i < j < |r| && 0 <= k < |xs| && xs[k] == r[j] ==> r[i] in xs[..k]
    decreases |xs|
  {
    if xs == [] then []
    else
      var init := xs[..|xs| - 1];
      var before := Distinct(init);
      assert forall x :: x in xs <==> x in init || x == xs[|xs| - 1] by {
        assert xs == init + [xs[|xs| - 1]];
      }
      assert forall k :: 0 <= k < |init| ==> xs[..k] == init[..k];
      assert xs[..|init|] == init;
      if xs[|xs| - 1] in before then before else before + [xs[|xs| - 1]]
  }
}

=== FILE: device_store.dfy ===
/**
 * The device cache: every collection the app shows, plus the loading flag,
 * the last error and the time of the last successful poll. Store actions
 * are pure `DeviceState -> DeviceState` functions; the optimistic
 * by-id patches live here, the poll merge in `DeviceSync`.
 */
module DeviceStore {
  import opened Common
  import opened Devices
  import CommandProcessor

  datatype DeviceState = DeviceState(
    areas: seq<Area>,
    rooms: seq<Room>,
    mergedRooms: seq<MergedRoom>,
    lights: seq<Light>,
    shades: seq<Shade>,
    scenes: seq<Scene>,
    thermostats: seq<Thermostat>,
    doorLocks: seq<DoorLock>,
    sensors: seq<Sensor>,
    securityDevices: seq<SecurityDevice>,
    mediaRooms: seq<MediaRoom>,
    isLoading: bool,
    error: Option<string>,
    lastUpdated: Option<int>,
    /** The module-level guard that keeps two polls from refreshing the session at once. */
    refreshingAuth: bool)

  const Empty: DeviceState := DeviceState([], [], [], [], [], [], [], [], [], [], [], false, None, None, false)

  /** `clearAll`: every collection emptied, no error, never updated. */
  function ClearAll(s: DeviceState): (r: DeviceState)
    ensures r.areas == [] && r.rooms == [] && r.mergedRooms == [] && r.lights == [] && r.shades == [] && r.scenes == []
    ensures r.thermostats == [] && r.doorLocks == [] && r.sensors == [] && r.securityDevices == [] && r.mediaRooms == []
    ensures !r.isLoading && r.error == None && r.lastUpdated == None
    ensures r.refreshingAuth == s.refreshingAuth
  {
    Empty.(refreshingAuth := s.refreshingAuth)
  }

  // ---------------------------------------------------------------------------
  // Optimistic by-id patches
  // ---------------------------------------------------------------------------

  /** `updateLight`: patch every light whose id is `id`; nothing else moves. */
  function UpdateLight(s: DeviceState, id: string, p: LightPatch): (r: DeviceState)
    ensures r.(lights := s.lights) == s
    ensures |r.lights| == |s.lights|
    ensures forall i :: 0 <= i < |s.lights| ==> r.lights[i].id == s.lights[i].id
    ensures forall i :: 0 <= i < |s.lights| && s.lights[i].id != id ==> r.lights[i] == s.lights[i]
    ensures forall i :: 0 <= i < |s.lights| && s.lights[i].id == id ==>
      r.lights[i].level == p.level.GetOr(s.lights[i].level) && r.lights[i].isOn == p.isOn.GetOr(s.lights[i].isOn)
      && r.lights[i].name == s.lights[i].name && r.lights[i].roomId == s.lights[i].roomId
  {
    s.(lights := seq(|s.lights|, i requires 0 <= i < |s.lights| =>
      if s.lights[i].id == id then PatchLight(s.lights[i], p) else s.lights[i]))
  }

  /** `updateThermostat`: patch every thermostat whose id is `id`. */
  function UpdateThermostat(s: DeviceState, id: string, p: ThermostatPatch): (r: DeviceState)
    ensures r.(thermostats := s.thermostats) == s
    ensures |r.thermostats| == |s.thermostats|
    ensures forall i :: 0 <= i < |s.thermostats| ==> r.thermostats[i].id == s.thermostats[i].id
    ensures forall i :: 0 <= i < |s.thermostats| && s.thermostats[i].id != id ==> r.thermostats[i] == s.thermostats[i]
    ensures forall i :: 0 <= i < |s.thermostats| && s.thermostats[i].id == id ==>
      r.thermostats[i].mode == p.mode.GetOr(s.thermostats[i].mode)
      && r.thermostats[i].heatSetPoint == p.heatSetPoint.GetOr(s.thermostats[i].heatSetPoint)
      && r.thermostats[i].coolSetPoint == p.coolSetPoint.GetOr(s.thermostats[i].coolSetPoint)
      && r.thermostats[i].fanMode == p.fanMode.GetOr(s.thermostats[i].fanMode)
      && r.thermostats[i].roomId == s.thermostats[i].roomId
  {
    s.(thermostats := seq(|s.thermostats|, i requires 0 <= i < |s.thermostats| =>
      if s.thermostats[i].id == id then PatchThermostat(s.thermostats[i], p) else s.thermostats[i]))
  }

  /** `updateDoorLock`: patch every door lock whose id is `id`. */
  function UpdateDoorLock(s: DeviceState, id: string, p: DoorLockPatch): (r: DeviceState)
    ensures r.(doorLocks := s.doorLocks) == s
    ensures |r.doorLocks| == |s.doorLocks|
    ensures forall i :: 0 <= i < |s.doorLocks| ==> r.doorLocks[i].id == s.doorLocks[i].id
    ensures forall i :: 0 <= i < |s.doorLocks| && s.doorLocks[i].id != id ==> r.doorLocks[i] == s.doorLocks[i]
    ensures forall i :: 0 <= i < |s.doorLocks| && s.doorLocks[i].id == id ==>
      r.doorLocks[i].isLocked == p.isLocked.GetOr(s.doorLocks[i].isLocked)
  {
    s.(doorLocks := seq(|s.doorLocks|, i requires 0 <= i < |s.doorLocks| =>
      if s.doorLocks[i].id == id then PatchDoorLock(s.doorLocks[i], p) else s.doorLocks[i]))
  }

  /** Applying the same patch twice is the same as applying it once. */
  lemma UpdateLightIdempotent(s: DeviceState, id: string, p: LightPatch)
    ensures UpdateLight(UpdateLight(s, id, p), id, p) == UpdateLight(s, id, p)
  {
    var once := UpdateLight(s, id, p);
    assert UpdateLight(once, id, p).lights == once.lights;
  }

  lemma UpdateThermostatIdempotent(s: DeviceState, id: string, p: ThermostatPatch)
    ensures UpdateThermostat(UpdateThermostat(s, id, p), id, p) == UpdateThermostat(s, id, p)
  {
    var once := UpdateThermostat(s, id, p);
    assert UpdateThermostat(once, id, p).thermostats == once.thermostats;
  }

  /** The patch that writes a light snapshot back. */
  function LightRestorePatch(snap: CommandProcessor.Snapshot): (p: LightPatch)
    requires snap.previous.LightState?
    ensures p.level == Some(snap.previous.level) && p.isOn == Some(snap.previous.isOn)
  {
    LightPatch(Some(snap.previous.level), Some(snap.previous.isOn))
  }

  /** The patch that writes a thermostat snapshot back. */
  function ThermostatRestorePatch(snap: CommandProcessor.Snapshot): (p: ThermostatPatch)
    requires snap.previous.ThermostatState?
    ensures p.mode == Some(snap.previous.mode) && p.fanMode == Some(snap.previous.fanMode)
    ensures p.heatSetPoint == Some(snap.previous.heatSetPoint) && p.coolSetPoint == Some(snap.previous.coolSetPoint)
  {
    ThermostatPatch(Some(snap.previous.mode), Some(snap.previous.heatSetPoint),
      Some(snap.previous.coolSetPoint), Some(snap.previous.fanMode))
  }

  predicate UniqueLightIds(lights: seq<Light>) {
    forall i, j :: 0 <= i < j < |lights| ==> lights[i].id != lights[j].id
  }

  predicate UniqueThermostatIds(ts: seq<Thermostat>) {
    forall i, j :: 0 <= i < j < |ts| ==> ts[i].id != ts[j].id
  }

  /**
   * Undo round trip: whatever patch a command applied to a light, writing
   * back the snapshot taken before it restores the store exactly.
   */
  lemma RestoreLightSnapshot(s: DeviceState, k: nat, p: LightPatch)
    requires k < |s.lights| && UniqueLightIds(s.lights)
    ensures var snap := CommandProcessor.LightSnapshot(s.lights[k]);
      UpdateLight(UpdateLight(s, snap.id, p), snap.id, LightRestorePatch(snap)) == s
  {
    var snap := CommandProcessor.LightSnapshot(s.lights[k]);
    var r := UpdateLight(UpdateLight(s, snap.id, p), snap.id, LightRestorePatch(snap));
    assert r.lights == s.lights;
  }

  /** The same round trip for a thermostat. */
  lemma RestoreThermostatSnapshot(s: DeviceState, k: nat, p: ThermostatPatch)
    requires k < |s.thermostats| && UniqueThermostatIds(s.thermostats)
    ensures var snap := CommandProcessor.ThermostatSnapshot(s.thermostats[k]);
      UpdateThermostat(UpdateThermostat(s, snap.id, p), snap.id, ThermostatRestorePatch(snap)) == s
  {
    var snap := CommandProcessor.ThermostatSnapshot(s.thermostats[k]);
    var r := UpdateThermostat(UpdateThermostat(s, snap.id, p), snap.id, ThermostatRestorePatch(snap));
    assert r.thermostats == s.thermostats;
  }

  // ---------------------------------------------------------------------------
  // Device commands: optimistic patch, then the controller's answer
  // ---------------------------------------------------------------------------

  /** The answer to a device command: `data.success`, or the request threw. */
  datatype WriteReply = Answered(success: bool) | Threw

  predicate Succeeded(reply: WriteReply) {
    reply.Answered? && reply.success
  }

  /** Full level of a dimmer, written when a light is switched on without a level. */
  const FullLevel: int := 65535

  /** The optimistic patch `setLightState` applies before asking the controller. */
  function LightStatePatch(level: Option<int>, isOn: Option<bool>): (r: Option<LightPatch>)
    ensures r.None? <==> level.None? && isOn.None?
    ensures level.Some? ==> r == Some(LightPatch(level, Some(level.value > 0)))
    ensures level.None? && isOn.Some? ==> r == Some(LightPatch(Some(if isOn.value then FullLevel else 0), isOn))
  {
    match level
    case Some(v) => Some(LightPatch(level, Some(v > 0)))
    case None =>
      match isOn
      case Some(on) => Some(LightPatch(Some(if on then FullLevel else 0), isOn))
      case None => None
  }

  /** A light whose on flag agrees with its level. */
  predicate Consistent(l: Light) {
    l.isOn <==> l.level > 0
  }

  /** The outcome of a device command: the state, the value returned, and whether the lights are re-read. */
  datatype CommandOutcome = CommandOutcome(state: DeviceState, ok: bool, refetchLights: bool)

  /** `setLightState`: patch optimistically; on failure re-read the lights from the controller. */
  function SetLightState(s: DeviceState, id: string, level: Option<int>, isOn: Option<bool>, reply: WriteReply): (r: CommandOutcome)
    ensures r.ok <==> Succeeded(reply)
    ensures r.refetchLights <==> !r.ok
    ensures LightStatePatch(level, isOn).None? ==> r.state == s
    ensures LightStatePatch(level, isOn).Some? ==> r.state == UpdateLight(s, id, LightStatePatch(level, isOn).value)
  {
    var s1 := match LightStatePatch(level, isOn)
      case None => s
      case Some(p) => UpdateLight(s, id, p);
    CommandOutcome(s1, Succeeded(reply), !Succeeded(reply))
  }

  /**
   * Whenever `setLightState` is given a level or an on flag, the lights it
   * patches end up consistent: on exactly when their level is positive.
   */
  lemma SetLightStateConsistent(s: DeviceState, id: string, level: Option<int>, isOn: Option<bool>, reply: WriteReply, i: nat)
    requires level.Some? || isOn.Some?
    requires i < |s.lights| && s.lights[i].id == id
    ensures Consistent(SetLightState(s, id, level, isOn, reply).state.lights[i])
  {
  }

  /** `setThermostatSetPoint`: only the given set points are patched. */
  function SetThermostatSetPoint(s: DeviceState, id: string, heat: Option<int>, cool: Option<int>, reply: WriteReply): (r: CommandOutcome)
    ensures r.ok <==> Succeeded(reply)
    ensures !r.refetchLights
    ensures r.state == UpdateThermostat(s, id, ThermostatPatch(None, heat, cool, None))
  {
    CommandOutcome(UpdateThermostat(s, id, ThermostatPatch(None, heat, cool, None)), Succeeded(reply), false)
  }

  /** `setThermostatMode`. */
  function SetThermostatMode(s: DeviceState, id: string, mode: ThermostatMode, reply: WriteReply): (r: CommandOutcome)
    ensures r.ok <==> Succeeded(reply)
    ensures !r.refetchLights
    ensures r.state == UpdateThermostat(s, id, ThermostatPatch(Some(mode), None, None, None))
  {
    CommandOutcome(UpdateThermostat(s, id, ThermostatPatch(Some(mode), None, None, None)), Succeeded(reply), false)
  }

  /** `setDoorLockState`. */
  function SetDoorLockState(s: DeviceState, id: string, isLocked: bool, reply: WriteReply): (r: CommandOutcome)
    ensures r.ok <==> Succeeded(reply)
    ensures !r.refetchLights
    ensures r.state == UpdateDoorLock(s, id, DoorLockPatch(Some(isLocked)))
  {
    CommandOutcome(UpdateDoorLock(s, id, DoorLockPatch(Some(isLocked))), Succeeded(reply), false)
  }
}

=== FILE: device_sync.dfy ===
/**
 * One poll of the controller (`fetchAllData`): how the fetched collections
 * are merged into the cache, how areas are rebuilt from room data, and the
 * "everything empty" rule that refreshes the session once and retries once.
 * The five HTTP answers, the refresh answer and the clock are parameters.
 */
module DeviceSync {
  import opened Common
  import opened Devices
  import opened DeviceStore
  import AuthStore

  // ---------------------------------------------------------------------------
  // Shapes of the answers
  // ---------------------------------------------------------------------------

  /**
   * The `data` field of an answer: an array, an object that may carry the
   * array under a key, or nothing at all.
   */
  datatype Payload<T> = Items(items: seq<T>) | Keyed(field: Option<seq<T>>) | NoData

  datatype Reply<D> = Reply(success: bool, data: D, error: Option<string>)

  /** The devices endpoint's object; a collection it leaves out is empty. */
  datatype DeviceData = DeviceData(
    lights: seq<Light>, shades: seq<Shade>, thermostats: seq<Thermostat>,
    doorLocks: seq<DoorLock>, sensors: seq<Sensor>,
    securityDevices: seq<SecurityDevice>, mediaRooms: seq<MediaRoom>)

  /** The five answers of one poll, or the exception that ended it. */
  datatype Poll =
    | Fetched(areas: Reply<Payload<Area>>, rooms: Reply<Payload<Room>>,
              devices: Reply<Option<DeviceData>>, scenes: Reply<Payload<Scene>>,
              merged: Reply<Payload<MergedRoom>>)
    | PollThrew(message: Option<string>)

  /** `Array.isArray(data) ? data : data?.key || []` on an answer that succeeded. */
  function ArrayOrKeyed<T>(r: Reply<Payload<T>>): (xs: seq<T>)
    ensures !r.success ==> xs == []
    ensures r.success && r.data.Items? ==> xs == r.data.items
    ensures r.success && r.data.Keyed? && r.data.field.Some? ==> xs == r.data.field.value
    ensures r.data.NoData? || (r.data.Keyed? && r.data.field.None?) ==> xs == []
  {
    if !r.success then []
    else match r.data
      case Items(items) => items
      case Keyed(Some(field)) => field
      case _ => []
  }

  /** Only a real array counts (scenes, merged rooms). */
  function ArrayOnly<T>(r: Reply<Payload<T>>): (xs: Option<seq<T>>)
    ensures xs.Some? <==> r.success && r.data.Items?
    ensures xs.Some? ==> xs.value == r.data.items
  {
    if r.success && r.data.Items? then Some(r.data.items) else None
  }

  function LightsOf(r: Reply<Option<DeviceData>>): (xs: seq<Light>)
    ensures r.success && r.data.Some? ==> xs == r.data.value.lights
    ensures !(r.success && r.data.Some?) ==> xs == []
  {
    if r.success && r.data.Some? then r.data.value.lights else []
  }

  /** The test for an expired session: every answer came back empty. */
  predicate AllEmpty(p: Poll)
    requires p.Fetched?
  {
    ArrayOrKeyed(p.areas) == [] && ArrayOrKeyed(p.rooms) == []
    && LightsOf(p.devices) == [] && ArrayOnly(p.scenes).GetOr([]) == []
  }

  // ---------------------------------------------------------------------------
  // Rooms and areas
  // ---------------------------------------------------------------------------

  /** `areaIdToName.get(id)`: later areas overwrite earlier ones in the map. */
  function AreaNameById(areas: seq<Area>, id: string): (r: Option<string>)
    ensures r.None? <==> forall a :: a in areas ==> a.id != id
    ensures r.Some? ==> exists i :: (0 <= i < |areas| && areas[i].id == id && areas[i].name == r.value
      && forall j :: i < j < |areas| ==> areas[j].id != id)
    decreases |areas|
  {
    if areas == [] then None
    else
      var last := areas[|areas| - 1];
      if last.id == id then Some(last.name)
      else
        var r := AreaNameById(areas[..|areas| - 1], id);
        assert forall a :: a in areas ==> a in areas[..|areas| - 1] || a == last;
        r
  }

  /** A fetched room with its area name filled in from the area list when it has none. */
  function EnrichRoom(room: Room, areas: seq<Area>): (r: Room)
    ensures r.id == room.id && r.name == room.name && r.areaId == room.areaId
    ensures Truthy(room.areaName) ==> r.areaName == room.areaName
    ensures !Truthy(room.areaName) && Truthy(room.areaId) ==> r.areaName == AreaNameById(areas, room.areaId.value)
    ensures !Truthy(room.areaName) && !Truthy(room.areaId) ==> r.areaName == None
  {
    room.(areaName := OrElse(room.areaName, if Truthy(room.areaId) then AreaNameById(areas, room.areaId.value) else None))
  }

  function EnrichRooms(rooms: seq<Room>, areas: seq<Area>): (r: seq<Room>)
    ensures |r| == |rooms|
    ensures forall i :: 0 <= i < |rooms| ==> r[i] == EnrichRoom(rooms[i], areas)
  {
    seq(|rooms|, i requires 0 <= i < |rooms| => EnrichRoom(rooms[i], areas))
  }

  /** A room that can place itself in an area: it names both the area's id and its name. */
  predicate Placed(room: Room) {
    Truthy(room.areaId) && Truthy(room.areaName)
  }

  function IdIs(id: string): Area -> bool {
    (a: Area) => a.id == id
  }

  /** One step of the grouping loop: file `room` under its area, opening the area on first sight. */
  function GroupStep(acc: seq<Area>, room: Room): (r: seq<Area>)
  {
    if !Placed(room) then acc
    else
      var aid := room.areaId.value;
      match FindIndex(acc, IdIs(aid))
      case None => acc + [Area(aid, room.areaName.value, [room.id])]
      case Some(k) => acc[k := acc[k].(roomIds := acc[k].roomIds + [room.id])]
  }

  /** The areas built from the rooms' own area fields, in order of first appearance. */
  function AreasFromRooms(rooms: seq<Room>): seq<Area>
    decreases |rooms|
  {
    if rooms == [] then [] else GroupStep(AreasFromRooms(rooms[..|rooms| - 1]), rooms[|rooms| - 1])
  }

  /** Reference: the ids, in order, of the placed rooms that name area `aid`. */
  function RoomIdsIn(rooms: seq<Room>, aid: string): seq<string>
    decreases |rooms|
  {
    if rooms == [] then []
    else
      var last := rooms[|rooms| - 1];
      RoomIdsIn(rooms[..|rooms| - 1], aid) + (if Placed(last) && last.areaId.value == aid then [last.id] else [])
  }

  /** Reference: the area name carried by the first placed room that names area `aid`. */
  function FirstAreaName(rooms: seq<Room>, aid: string): Option<string>
    decreases |rooms|
  {
    if rooms == [] then None
    else
      var last := rooms[|rooms| - 1];
      var before := FirstAreaName(rooms[..|rooms| - 1], aid);
      if before.Some? then before
      else if Placed(last) && last.areaId.value == aid then last.areaName
      else None
  }

  predicate UniqueAreaIds(areas: seq<Area>) {
    forall i, j :: 0 <= i < j < |areas| ==> areas[i].id != areas[j].id
  }

  /** The grouping loop builds exactly one area per area id, holding its rooms in order. */
  predicate GroupsRooms(r: seq<Area>, rooms: seq<Room>) {
    && UniqueAreaIds(r)
    && (forall i :: 0 <= i < |r| ==> r[i].roomIds == RoomIdsIn(rooms, r[i].id))
    && (forall i :: 0 <= i < |r| ==> Some(r[i].name) == FirstAreaName(rooms, r[i].id))
    && (forall i :: 0 <= i < |r| ==> |r[i].roomIds| > 0)
    && (forall room :: room in rooms && Placed(room) ==> exists i :: 0 <= i < |r| && r[i].id == room.areaId.value)
  }

  lemma {:induction false} AreasFromRoomsGroups(rooms: seq<Room>)
    ensures GroupsRooms(AreasFromRooms(rooms), rooms)
    decreases |rooms|
  {
    if rooms != [] {
      var init := rooms[..|rooms| - 1];
      var last := rooms[|rooms| - 1];
      AreasFromRoomsGroups(init);
      if !Placed(last) {
        GroupStepSkips(AreasFromRooms(init), rooms);
      } else if FindIndex(AreasFromRooms(init), IdIs(last.areaId.value)).None? {
        GroupStepOpens(AreasFromRooms(init), rooms);
      } else {
        GroupStepFiles(AreasFromRooms(init), rooms);
      }
    }
  }

  lemma GroupStepSkips(acc: seq<Area>, rooms: seq<Room>)
    requires rooms != [] && !Placed(rooms[|rooms| - 1])
    requires GroupsRooms(acc, rooms[..|rooms| - 1])
    ensures GroupsRooms(GroupStep(acc, rooms[|rooms| - 1]), rooms)
  {
    var init := rooms[..|rooms| - 1];
    assert rooms == init + [rooms[|rooms| - 1]];
    assert forall aid :: RoomIdsIn(rooms, aid) == RoomIdsIn(init, aid);
    assert forall aid :: FirstAreaName(rooms, aid) == FirstAreaName(init, aid);
  }

  lemma GroupStepOpens(acc: seq<Area>, rooms: seq<Room>)
    requires rooms != [] && Placed(rooms[|rooms| - 1])
    requires FindIndex(acc, IdIs(rooms[|rooms| - 1].areaId.value)).None?
    requires GroupsRooms(acc, rooms[..|rooms| - 1])
    ensures GroupsRooms(GroupStep(acc, rooms[|rooms| - 1]), rooms)
  {
    var init := rooms[..|rooms| - 1];
    var last := rooms[|rooms| - 1];
    var aid := last.areaId.value;
    var r := GroupStep(acc, last);
    assert r == acc + [Area(aid, last.areaName.value, [last.id])];
    assert forall room :: room in rooms ==> room in init || room == last by {
      assert rooms == init + [last];
    }
    assert RoomIdsIn(init, aid) == [] by {
      if RoomIdsIn(init, aid) != [] {
        RoomIdsInWitness(init, aid);
      }
    }
    assert FirstAreaName(init, aid) == None by {
      if FirstAreaName(init, aid).Some? {
        FirstAreaNameWitness(init, aid);
      }
    }
    forall i | 0 <= i < |acc|
      ensures acc[i].id != aid
    {
      assert !IdIs(aid)(acc[i]);
    }
    assert UniqueAreaIds(r) by {
      forall i, j | 0 <= i < j < |r|
        ensures r[i].id != r[j].id
      {
        assert r[i] == acc[i];
        if j < |acc| {
          assert r[j] == acc[j];
        }
      }
    }
    forall i | 0 <= i < |r|
      ensures r[i].roomIds == RoomIdsIn(rooms, r[i].id)
      ensures Some(r[i].name) == FirstAreaName(rooms, r[i].id)
      ensures |r[i].roomIds| > 0
    {
      var id := r[i].id;
      if i < |acc| {
        assert r[i] == acc[i] && id != aid;
        assert RoomIdsIn(rooms, id) == RoomIdsIn(init, id) + [];
        assert FirstAreaName(init, id).Some?;
      } else {
        assert r[i] == Area(aid, last.areaName.value, [last.id]);
        assert RoomIdsIn(rooms, aid) == RoomIdsIn(init, aid) + [last.id];
      }
    }
    forall room | room in rooms && Placed(room)
      ensures exists i :: 0 <= i < |r| && r[i].id == room.areaId.value
    {
      if room == last {
        assert r[|acc|].id == aid;
      } else {
        var i :| 0 <= i < |acc| && acc[i].id == room.areaId.value;
        assert r[i] == acc[i];
      }
    }
  }

  lemma GroupStepFiles(acc: seq<Area>, rooms: seq<Room>)
    requires rooms != [] && Placed(rooms[|rooms| - 1])
    requires FindIndex(acc, IdIs(rooms[|rooms| - 1].areaId.value)).Some?
    requires GroupsRooms(acc, rooms[..|rooms| - 1])
    ensures GroupsRooms(GroupStep(acc, rooms[|rooms| - 1]), rooms)
  {
    var init := rooms[..|rooms| - 1];
    var last := rooms[|rooms| - 1];
    var aid := last.areaId.value;
    var k := FindIndex(acc, IdIs(aid)).value;
    var r := GroupStep(acc, last);
    assert r == acc[k := acc[k].(roomIds := acc[k].roomIds + [last.id])];
    assert acc[k].id == aid;
    assert forall room :: room in rooms ==> room in init || room == last by {
      assert rooms == init + [last];
    }
    forall i | 0 <= i < |r|
      ensures r[i].roomIds == RoomIdsIn(rooms, r[i].id)
      ensures Some(r[i].name) == FirstAreaName(rooms, r[i].id)
    {
      if i != k {
        assert r[i] == acc[i];
        assert acc[i].id != aid;
      }
    }
    forall room | room in rooms && Placed(room)
      ensures exists i :: 0 <= i < |r| && r[i].id == room.areaId.value
    {
      if room == last {
        assert r[k].id == aid;
      } else {
        var i :| 0 <= i < |acc| && acc[i].id == room.areaId.value;
        assert r[i].id == acc[i].id;
      }
    }
  }

  /** A non-empty `RoomIdsIn` comes from a placed room naming that area. */
  lemma {:induction false} RoomIdsInWitness(rooms: seq<Room>, aid: string)
    requires RoomIdsIn(rooms, aid) != []
    ensures exists room :: room in rooms && Placed(room) && room.areaId.value == aid
    decreases |rooms|
  {
    var init := rooms[..|rooms| - 1];
    var last := rooms[|rooms| - 1];
    if !(Placed(last) && last.areaId.value == aid) {
      RoomIdsInWitness(init, aid);
      var room :| room in init && Placed(room) && room.areaId.value == aid;
      assert room in rooms;
    }
  }

  lemma {:induction false} FirstAreaNameWitness(rooms: seq<Room>, aid: string)
    requires FirstAreaName(rooms, aid).Some?
    ensures exists room :: room in rooms && Placed(room) && room.areaId.value == aid
    decreases |rooms|
  {
    var init := rooms[..|rooms| - 1];
    var last := rooms[|rooms| - 1];
    if FirstAreaName(init, aid).Some? {
      FirstAreaNameWitness(init, aid);
      var room :| room in init && Placed(room) && room.areaId.value == aid;
      assert room in rooms;
    }
  }

  /**
   * Rebuilt areas overwrite only the room lists of fetched areas with the
   * same id; unmatched fetched areas keep their own lists.
   */
  function MergeRoomIds(areas: seq<Area>, fromRooms: seq<Area>): (r: seq<Area>)
    ensures |r| == |areas|
    ensures forall i :: 0 <= i < |areas| ==> r[i].id == areas[i].id && r[i].name == areas[i].name
    ensures forall i :: 0 <= i < |areas| ==>
      r[i].roomIds == match Find(fromRooms, IdIs(areas[i].id))
        case Some(g) => g.roomIds
        case None => areas[i].roomIds
  {
    seq(|areas|, i requires 0 <= i < |areas| =>
      match Find(fromRooms, IdIs(areas[i].id))
      case Some(g) => areas[i].(roomIds := g.roomIds)
      case None => areas[i])
  }

  predicate HasRoomIds(a: Area) {
    |a.roomIds| > 0
  }

  /**
   * The areas a poll would store: the fetched ones, rebuilt from rooms when
   * none of them lists its rooms and some rooms were fetched.
   */
  function ResolveAreas(fetched: seq<Area>, rooms: seq<Room>): (r: seq<Area>)
    ensures Any(fetched, HasRoomIds) || rooms == [] ==> r == fetched
    ensures !Any(fetched, HasRoomIds) && rooms != [] && fetched == [] ==> r == AreasFromRooms(rooms)
    ensures !Any(fetched, HasRoomIds) && rooms != [] && fetched != [] ==> r == MergeRoomIds(fetched, AreasFromRooms(rooms))
  {
    if Any(fetched, HasRoomIds) || rooms == [] then fetched
    else if fetched == [] then AreasFromRooms(rooms)
    else MergeRoomIds(fetched, AreasFromRooms(rooms))
  }

  /**
   * When the fetched areas carry no room lists, each stored area either
   * gets exactly the ids of the placed rooms that name it, in room order, or
   * keeps its own list because no room names it.
   */
  lemma RebuiltAreasFollowRooms(fetched: seq<Area>, rooms: seq<Room>, i: nat)
    requires !Any(fetched, HasRoomIds) && rooms != [] && fetched != []
    requires i < |fetched|
    ensures var r := ResolveAreas(fetched, rooms);
      r[i].id == fetched[i].id &&
      (r[i].roomIds == RoomIdsIn(rooms, fetched[i].id) || (r[i].roomIds == fetched[i].roomIds && RoomIdsIn(rooms, fetched[i].id) == []))
  {
    var groups := AreasFromRooms(rooms);
    AreasFromRoomsGroups(rooms);
    var aid := fetched[i].id;
    match Find(groups, IdIs(aid))
    case Some(g) =>
      var k :| 0 <= k < |groups| && groups[k] == g;
      assert g.roomIds == RoomIdsIn(rooms, aid);
    case None =>
      if RoomIdsIn(rooms, aid) != [] {
        RoomIdsInWitness(rooms, aid);
        assert false;
      }
  }

  // ---------------------------------------------------------------------------
  // One poll
  // ---------------------------------------------------------------------------

  const SessionExpired: string := "Session expired. Please log in again."

  /** `!reply.success && reply.error`, kept only when it is a non-empty text. */
  function FailureText<D>(reply: Reply<D>): Option<string> {
    if !reply.success && Truthy(reply.error) then reply.error else None
  }

  predicate IsPresent(o: Option<string>) { o.Some? }

  function TextOf(o: Option<string>): string { o.GetOr("") }

  /** The three candidates of the poll's error list, in endpoint order. */
  function Failures(p: Poll): seq<Option<string>>
    requires p.Fetched?
  {
    [FailureText(p.rooms), FailureText(p.devices), FailureText(p.scenes)]
  }

  /** The non-empty error texts of failed answers, in endpoint order. */
  function PollErrors(p: Poll): (r: seq<string>)
    requires p.Fetched?
    ensures |r| <= 3
    ensures forall k :: 0 <= k < |r| ==> r[k] != []
  {
    (if FailureText(p.rooms).Some? then [p.rooms.error.value] else [])
    + (if FailureText(p.devices).Some? then [p.devices.error.value] else [])
    + (if FailureText(p.scenes).Some? then [p.scenes.error.value] else [])
  }

  /**
   * The list is the source's candidate list with its falsy entries
   * filtered out: one message per failed answer that has one, rooms first,
   * then devices, then scenes.
   */
  lemma PollErrorsListed(p: Poll)
    requires p.Fetched?
    ensures PollErrors(p) == Map(Filter(Failures(p), IsPresent), TextOf)
  {
    PollErrorsFiltered(p);
    var xs := Filter(Failures(p), IsPresent);
    var ys := PollErrors(p);
    assert |xs| == |ys|;
    assert forall k :: 0 <= k < |xs| ==> TextOf(xs[k]) == ys[k];
  }

  lemma PollErrorsFiltered(p: Poll)
    requires p.Fetched?
    ensures Filter(Failures(p), IsPresent)
      == (if FailureText(p.rooms).Some? then [FailureText(p.rooms)] else [])
       + (if FailureText(p.devices).Some? then [FailureText(p.devices)] else [])
       + (if FailureText(p.scenes).Some? then [FailureText(p.scenes)] else [])
  {
    var a, b, c := FailureText(p.rooms), FailureText(p.devices), FailureText(p.scenes);
    assert Failures(p) == [a] + ([b] + [c]);
    FilterAppend([a], [b] + [c], IsPresent);
    FilterAppend([b], [c], IsPresent);
    FilterSingle(a, IsPresent);
    FilterSingle(b, IsPresent);
    FilterSingle(c, IsPresent);
  }

  /**
   * `xs.join("; ")`: the parts in order with "; " between neighbours, so the
   * text starts with the first part, and it is empty only for no parts when
   * no part is empty. `JoinErrorsEndsWithLast` gives the other end.
   */
  function JoinErrors(xs: seq<string>): (r: string)
    ensures |xs| == 0 ==> r == ""
    ensures |xs| > 0 ==> |xs[0]| <= |r| && r[..|xs[0]|] == xs[0]
    ensures |xs| > 1 ==> |r| >= |xs[0]| + 2 && r[|xs[0]|..|xs[0]| + 2] == "; "
    ensures (forall i :: 0 <= i < |xs| ==> xs[i] != "") ==> (r == "" <==> xs == [])
  {
    if |xs| == 0 then ""
    else if |xs| == 1 then xs[0]
    else xs[0] + "; " + JoinErrors(xs[1..])
  }

  /** The joined text ends with the last part. */
  lemma {:induction false} JoinErrorsEndsWithLast(xs: seq<string>)
    requires |xs| > 0
    ensures var r := JoinErrors(xs); var last := xs[|xs| - 1];
      |last| <= |r| && r[|r| - |last|..] == last
  {
    if |xs| > 1 {
      var rest := JoinErrors(xs[1..]);
      JoinErrorsEndsWithLast(xs[1..]);
      var last := xs[|xs| - 1];
      assert xs[1..][|xs[1..]| - 1] == last;
      var r := xs[0] + "; " + rest;
      assert JoinErrors(xs) == r;
      assert r[|r| - |last|..] == rest[|rest| - |last|..];
    }
  }

  /** The join of one, two and three parts, as a poll with up to three failed replies reports them. */
  lemma JoinErrorsUpToThree(a: string, b: string, c: string)
    ensures JoinErrors([a]) == a
    ensures JoinErrors([a, b]) == a + "; " + b
    ensures JoinErrors([a, b, c]) == a + "; " + b + "; " + c
  {
    JoinTwo(a, b);
    JoinThree(a, b, c);
  }

  lemma JoinThree(a: string, b: string, c: string)
    ensures JoinErrors([a, b, c]) == a + "; " + b + "; " + c
  {
    JoinTwo(b, c);
    var xs := [a, b, c];
    assert xs[1..] == [b, c];
    var tail := b + "; " + c;
    assert JoinErrors(xs) == a + "; " + tail;
    assert a + "; " + tail == a + "; " + b + "; " + c;
  }

  lemma JoinTwo(a: string, b: string)
    ensures JoinErrors([a, b]) == a + "; " + b
  {
    var xs := [a, b];
    assert xs[1..] == [b];
    assert JoinErrors(xs[1..]) == b;
  }

  /** Replace a cached collection only with a non-empty fetched one. */
  function Keep<T>(cached: seq<T>, fetched: seq<T>): (r: seq<T>)
    ensures r == (if fetched == [] then cached else fetched)
    ensures r == [] ==> cached == [] && fetched == []
  {
    if |fetched| > 0 then fetched else cached
  }

  /** The merge of a completed poll into the cache (no refresh taken). */
  function MergePoll(s: DeviceState, p: Poll, now: int): (r: DeviceState)
    requires p.Fetched?
    ensures !r.isLoading && r.lastUpdated == Some(now)
    ensures r.refreshingAuth == s.refreshingAuth
    ensures r.error == (if PollErrors(p) == [] then None else Some(JoinErrors(PollErrors(p))))
    ensures r.rooms == (if ArrayOrKeyed(p.rooms) == [] then s.rooms else EnrichRooms(ArrayOrKeyed(p.rooms), ArrayOrKeyed(p.areas)))
    ensures var areas := ResolveAreas(ArrayOrKeyed(p.areas), EnrichRooms(ArrayOrKeyed(p.rooms), ArrayOrKeyed(p.areas)));
      r.areas == (if areas == [] then s.areas else areas)
    ensures p.devices.success && p.devices.data.Some? ==>
      var d := p.devices.data.value;
      r.lights == Keep(s.lights, d.lights) && r.shades == Keep(s.shades, d.shades)
      && r.thermostats == Keep(s.thermostats, d.thermostats) && r.doorLocks == Keep(s.doorLocks, d.doorLocks)
      && r.sensors == Keep(s.sensors, d.sensors) && r.securityDevices == Keep(s.securityDevices, d.securityDevices)
      && r.mediaRooms == Keep(s.mediaRooms, d.mediaRooms)
    ensures !(p.devices.success && p.devices.data.Some?) ==>
      r.lights == s.lights && r.shades == s.shades && r.thermostats == s.thermostats
      && r.doorLocks == s.doorLocks && r.sensors == s.sensors
      && r.securityDevices == s.securityDevices && r.mediaRooms == s.mediaRooms
    ensures r.scenes == Keep(s.scenes, ArrayOnly(p.scenes).GetOr([]))
    ensures r.mergedRooms == ArrayOnly(p.merged).GetOr(s.mergedRooms)
  {
    var areasIn := ArrayOrKeyed(p.areas);
    var roomsIn := EnrichRooms(ArrayOrKeyed(p.rooms), areasIn);
    var areas := ResolveAreas(areasIn, roomsIn);
    var s1 := s.(
      rooms := if roomsIn == [] then s.rooms else roomsIn,
      areas := if areas == [] then s.areas else areas);
    var s2 := if p.devices.success && p.devices.data.Some? then
        var d := p.devices.data.value;
        s1.(lights := Keep(s1.lights, d.lights), shades := Keep(s1.shades, d.shades),
          thermostats := Keep(s1.thermostats, d.thermostats), doorLocks := Keep(s1.doorLocks, d.doorLocks),
          sensors := Keep(s1.sensors, d.sensors), securityDevices := Keep(s1.securityDevices, d.securityDevices),
          mediaRooms := Keep(s1.mediaRooms, d.mediaRooms))
      else s1;
    var errors := PollErrors(p);
    s2.(scenes := Keep(s2.scenes, ArrayOnly(p.scenes).GetOr([])),
      mergedRooms := ArrayOnly(p.merged).GetOr(s2.mergedRooms),
      lastUpdated := Some(now),
      error := if errors == [] then None else Some(JoinErrors(errors)),
      isLoading := false)
  }

  /** Final stores after `fetchAllData`, and how many times it refreshed the session. */
  datatype FetchResult = FetchResult(store: DeviceState, auth: AuthStore.AuthState, refreshes: nat)

  /** Whether a poll takes the refresh branch. */
  predicate TakesRefresh(s: DeviceState, isRetry: bool, p: Poll) {
    !s.isLoading && p.Fetched? && AllEmpty(p) && !isRetry && !s.refreshingAuth
  }

  /**
   * `fetchAllData(isRetry)`: `first` answers this call's requests, `retry`
   * the requests of the single retry after a successful refresh, whose
   * answer is `refreshReply`.
   */
  function FetchAllData(s: DeviceState, auth: AuthStore.AuthState, isRetry: bool, first: Poll, retry: Poll,
                        refreshReply: AuthStore.LoginReply, now: int): (r: FetchResult)
    ensures r.refreshes <= 1
    ensures r.refreshes == 1 <==> TakesRefresh(s, isRetry, first)
    ensures isRetry ==> r.refreshes == 0
    ensures s.isLoading ==> r == FetchResult(s, auth, 0)
    ensures !s.isLoading ==> !r.store.isLoading
    ensures r.store.refreshingAuth == s.refreshingAuth
    ensures !s.isLoading && first.PollThrew? ==>
      r == FetchResult(s.(error := Some(first.message.GetOr("Failed to fetch data"))), auth, 0)
    ensures !s.isLoading && first.Fetched? && !TakesRefresh(s, isRetry, first) ==>
      r == FetchResult(MergePoll(s.(isLoading := true, error := None), first, now), auth, 0)
    decreases if isRetry then 0 else 1
  {
    if s.isLoading then FetchResult(s, auth, 0)
    else
      var s1 := s.(isLoading := true, error := None);
      match first
      case PollThrew(message) =>
        FetchResult(s1.(error := Some(message.GetOr("Failed to fetch data")), isLoading := false), auth, 0)
      case Fetched(_, _, _, _, _) =>
        if AllEmpty(first) && !isRetry && !s1.refreshingAuth then
          var refreshed := AuthStore.RefreshAuth(auth, refreshReply);
          var s2 := s1.(isLoading := false);
          if refreshed.ok then
            var again := FetchAllData(s2, refreshed.state, true, retry, retry, refreshReply, now);
            FetchResult(again.store.(isLoading := false), again.auth, 1)
          else
            FetchResult(s2.(error := Some(SessionExpired)), refreshed.state, 1)
        else
          FetchResult(MergePoll(s1, first, now), auth, 0)
  }

  /** While a load is in flight a poll changes nothing and sends nothing. */
  lemma SkipWhileLoading(s: DeviceState, auth: AuthStore.AuthState, isRetry: bool, first: Poll, retry: Poll,
                         reply: AuthStore.LoginReply, now: int)
    requires s.isLoading
    ensures FetchAllData(s, auth, isRetry, first, retry, reply, now).store == s
  {
  }

  /**
   * A failed refresh ends the poll with the session-expired error, keeps
   * every cached collection, and leaves the device cache unloaded.
   */
  lemma RefreshFailureKeepsCache(s: DeviceState, auth: AuthStore.AuthState, first: Poll, retry: Poll,
                                 reply: AuthStore.LoginReply, now: int)
    requires TakesRefresh(s, false, first) && !AuthStore.RefreshAuth(auth, reply).ok
    ensures var r := FetchAllData(s, auth, false, first, retry, reply, now);
      r.store == s.(error := Some(SessionExpired)) && r.auth == AuthStore.RefreshAuth(auth, reply).state
  {
  }

  /**
   * After a successful refresh the result is exactly that of a retry poll
   * on the refreshed session, and a retry poll never refreshes again.
   */
  lemma RefreshSuccessRetriesOnce(s: DeviceState, auth: AuthStore.AuthState, first: Poll, retry: Poll,
                                  reply: AuthStore.LoginReply, now: int)
    requires TakesRefresh(s, false, first) && AuthStore.RefreshAuth(auth, reply).ok
    ensures var r := FetchAllData(s, auth, false, first, retry, reply, now);
      var again := FetchAllData(s.(error := None), AuthStore.RefreshAuth(auth, reply).state, true, retry, retry, reply, now);
      r.store == again.store && r.auth == again.auth && again.refreshes == 0
  {
  }

  /**
   * Cache merge rule: a poll that completes without refreshing replaces a
   * device collection only with a non-empty fetched one.
   */
  lemma EmptyAnswersKeepCache(s: DeviceState, auth: AuthStore.AuthState, isRetry: bool, first: Poll, retry: Poll,
                              reply: AuthStore.LoginReply, now: int)
    requires !s.isLoading && first.Fetched? && !TakesRefresh(s, isRetry, first)
    ensures var r := FetchAllData(s, auth, isRetry, first, retry, reply, now).store;
      (|r.lights| > 0 || s.lights == []) && (|r.thermostats| > 0 || s.thermostats == [])
      && (|r.scenes| > 0 || s.scenes == []) && (|r.rooms| > 0 || s.rooms == [])
      && (|r.areas| > 0 || s.areas == []) && r.lastUpdated == Some(now)
  {
  }
}

=== FILE: devices.dfy ===
/**
 * The app-side records of the Crestron home: areas group rooms, rooms hold
 * devices. Ids are strings; a device's `roomId` is absent when the
 * controller reports none. Numbers are modelled as integers.
 */
module Devices {
  import opened Common

  datatype ThermostatMode = Off | Heat | Cool | Auto
  datatype FanMode = FanAuto | FanOn
  datatype LightSubType = Dimmer | Switch
  datatype SensorKind = Motion | Contact | Temperature | Humidity | Luminance

  datatype Area = Area(id: string, name: string, roomIds: seq<string>)

  datatype Room = Room(id: string, name: string, areaId: Option<string>, areaName: Option<string>)

  datatype Light = Light(
    id: string, name: string, subType: LightSubType, roomId: Option<string>,
    level: int, isOn: bool)

  datatype Thermostat = Thermostat(
    id: string, name: string, roomId: Option<string>, currentTemp: int,
    heatSetPoint: int, coolSetPoint: int, mode: ThermostatMode,
    fanMode: FanMode, isRunning: bool)

  datatype MediaRoom = MediaRoom(
    id: string, name: string, roomId: Option<string>, isPoweredOn: bool,
    volumePercent: int, isMuted: bool, currentProviderId: Option<int>,
    currentSourceName: Option<string>, availableProviders: seq<string>)

  datatype Scene = Scene(id: string, name: string, roomId: Option<string>, isActive: bool)

  datatype DoorLock = DoorLock(id: string, name: string, roomId: Option<string>, isLocked: bool)

  datatype Shade = Shade(id: string, name: string, roomId: Option<string>, position: int)

  datatype Sensor = Sensor(id: string, name: string, kind: SensorKind, roomId: Option<string>, value: bool)

  /** Room id to name, built by visiting the rooms in order; a later room with the same id wins (`RoomMapLastWins`). */
  function RoomMap(rooms: seq<Room>): (r: map<string, string>)
    ensures forall id :: id in r <==> exists i :: 0 <= i < |rooms| && rooms[i].id == id
    decreases |rooms|
  {
    if rooms == [] then map[]
    else
      var init := rooms[..|rooms| - 1];
      var last := rooms[|rooms| - 1];
      assert forall i :: 0 <= i < |init| ==> init[i] == rooms[i];
      RoomMap(init)[last.id := last.name]
  }

  /** The name kept for an id is that of the last room carrying it. */
  lemma {:induction false} RoomMapLastWins(rooms: seq<Room>, i: nat)
    requires i < |rooms| && forall j :: i < j < |rooms| ==> rooms[j].id != rooms[i].id
    ensures rooms[i].id in RoomMap(rooms) && RoomMap(rooms)[rooms[i].id] == rooms[i].name
    decreases |rooms|
  {
    if i < |rooms| - 1 {
      var init := rooms[..|rooms| - 1];
      assert init[i] == rooms[i];
      RoomMapLastWins(init, i);
    }
  }

  /** Records the store keeps but never inspects. */
  datatype SecurityDevice = SecurityDevice(id: string, name: string)
  datatype MergedRoom = MergedRoom(id: string, name: string, sourceRoomIds: seq<string>)

  /**
   * The parts of a `Partial<Light>` the app ever writes: a present field
   * overrides the record's, an absent one keeps it (object spread).
   */
  datatype LightPatch = LightPatch(level: Option<int>, isOn: Option<bool>)
  datatype ThermostatPatch = ThermostatPatch(
    mode: Option<ThermostatMode>, heatSetPoint: Option<int>,
    coolSetPoint: Option<int>, fanMode: Option<FanMode>)
  datatype DoorLockPatch = DoorLockPatch(isLocked: Option<bool>)

  function PatchLight(l: Light, p: LightPatch): (r: Light)
    ensures r.id == l.id && r.name == l.name && r.roomId == l.roomId && r.subType == l.subType
    ensures r.level == p.level.GetOr(l.level) && r.isOn == p.isOn.GetOr(l.isOn)
  {
    l.(level := p.level.GetOr(l.level), isOn := p.isOn.GetOr(l.isOn))
  }

  function PatchThermostat(t: Thermostat, p: ThermostatPatch): (r: Thermostat)
    ensures r.id == t.id && r.name == t.name && r.roomId == t.roomId
    ensures r.currentTemp == t.currentTemp && r.isRunning == t.isRunning
    ensures r.mode == p.mode.GetOr(t.mode) && r.fanMode == p.fanMode.GetOr(t.fanMode)
    ensures r.heatSetPoint == p.heatSetPoint.GetOr(t.heatSetPoint)
    ensures r.coolSetPoint == p.coolSetPoint.GetOr(t.coolSetPoint)
  {
    t.(mode := p.mode.GetOr(t.mode), heatSetPoint := p.heatSetPoint.GetOr(t.heatSetPoint),
       coolSetPoint := p.coolSetPoint.GetOr(t.coolSetPoint), fanMode := p.fanMode.GetOr(t.fanMode))
  }

  function PatchDoorLock(d: DoorLock, p: DoorLockPatch): (r: DoorLock)
    ensures r.id == d.id && r.name == d.name && r.roomId == d.roomId
    ensures r.isLocked == p.isLocked.GetOr(d.isLocked)
  {
    d.(isLocked := p.isLocked.GetOr(d.isLocked))
  }
}

=== FILE: devices_route.dfy ===
/**
 * The devices endpoint: it reads the seven device lists from the
 * controller, however each is wrapped, and turns every controller record
 * into the app's record (string ids, Fahrenheit temperatures, lower-case
 * modes, defaults for missing fields).
 */
module DevicesRoute {
  import opened Common
  import opened Devices
  import opened Routes
  import DeviceStore
  import DeviceSync

  // ---------------------------------------------------------------------------
  // Controller records
  // ---------------------------------------------------------------------------

  datatype SetPoint = SetPoint(kind: string, temperature: Option<int>)

  datatype CrestronThermostat = CrestronThermostat(
    id: int, name: string, roomId: Option<int>, currentTemperature: int,
    temperatureUnits: string, currentMode: string, currentFanMode: Option<string>,
    currentSetPoint: Option<seq<SetPoint>>)

  datatype CrestronLight = CrestronLight(id: int, name: string, roomId: Option<int>, level: int, subType: Option<string>)

  datatype CrestronSensor = CrestronSensor(id: int, name: string, roomId: Option<int>, presence: string, subType: string)

  datatype CrestronShade = CrestronShade(id: int, name: string, roomId: Option<int>, position: Option<int>)

  datatype CrestronDoorLock = CrestronDoorLock(
    id: int, name: string, roomId: Option<int>, locked: Option<bool>, isLocked: Option<bool>)

  // ---------------------------------------------------------------------------
  // Thermostats
  // ---------------------------------------------------------------------------

  /** Readings in "DeciFahrenheit" are tenths of a degree; anything else is whole degrees. */
  function Divisor(units: string): (d: int)
    ensures d == 1 || d == 10
  {
    if units == "DeciFahrenheit" then 10 else 1
  }

  /** `Math.round(x / d)`: the nearest integer, halves rounded up. */
  function RoundDiv(x: int, d: int): (r: int)
    requires d > 0
    ensures 2 * d * r - d <= 2 * x < 2 * d * r + d
  {
    (2 * x + d) / (2 * d)
  }

  /** The value of `Math.round(x / d)` is the only integer that rounds like that. */
  lemma RoundDivUnique(x: int, d: int, r: int)
    requires d > 0 && 2 * d * r - d <= 2 * x < 2 * d * r + d
    ensures RoundDiv(x, d) == r
  {
    var q := RoundDiv(x, d);
    var k := 2 * d;
    assert k * (q - r) == k * q - k * r;
    assert k * (r - q) == k * r - k * q;
    BelowOne(k, q - r);
    BelowOne(k, r - q);
  }

  lemma BelowOne(k: int, a: int)
    requires k > 0 && k * a < k
    ensures a < 1
  {
  }

  predicate IsHeatPoint(sp: SetPoint) {
    sp.kind == "heat" || sp.kind == "auxHeat"
  }

  predicate IsCoolPoint(sp: SetPoint) {
    sp.kind == "cool"
  }

  /** `currentSetPoint?.find(p)?.temperature`, kept only when truthy (present and non-zero). */
  function SetPointTemperature(points: Option<seq<SetPoint>>, p: SetPoint -> bool): (r: Option<int>)
    ensures r.Some? ==> (r.value != 0 && points.Some?
      && exists i :: (0 <= i < |points.value| && p(points.value[i]) && points.value[i].temperature == r
         && forall j :: 0 <= j < i ==> !p(points.value[j])))
    ensures points.Some? ==> forall i :: ((0 <= i < |points.value| && p(points.value[i])
      && (forall j :: 0 <= j < i ==> !p(points.value[j])))
      ==> r == if points.value[i].temperature.Some? && points.value[i].temperature.value != 0
        then points.value[i].temperature else None)
    ensures points.None? || (forall i :: 0 <= i < |points.value| ==> !p(points.value[i])) ==> r.None?
  {
    if points.None? then None
    else match FindIndex(points.value, p)
      case None => None
      case Some(i) =>
        var t := points.value[i].temperature;
        if t.Some? && t.value != 0 then t else None
  }

  /** The controller's mode names; an unknown name reads as off. */
  function ModeOf(name: string): (m: ThermostatMode)
    ensures name == "Heat" || name == "AuxHeat" ==> m == Heat
    ensures m == Cool <==> name == "Cool"
    ensures m == Auto <==> name == "Auto"
    ensures m == Heat <==> name == "Heat" || name == "AuxHeat"
  {
    if name == "Heat" || name == "AuxHeat" then Heat
    else if name == "Cool" then Cool
    else if name == "Auto" then Auto
    else Off
  }

  /** The controller's fan mode names; only "On" turns the fan on, and a missing name reads as "Auto". */
  function FanOf(name: Option<string>): (f: FanMode)
    ensures f == FanOn <==> name == Some("On")
  {
    var key := if Truthy(name) then name.value else "Auto";
    if key == "On" then FanOn else FanAuto
  }

  /** The controller's name for each app mode. */
  function CrestronModeName(m: ThermostatMode): string {
    match m
    case Off => "Off"
    case Heat => "Heat"
    case Cool => "Cool"
    case Auto => "Auto"
  }

  /** Every app mode survives the trip through the controller's name for it. */
  lemma ModeNamesRoundTrip(m: ThermostatMode)
    ensures ModeOf(CrestronModeName(m)) == m
  {
  }

  /** `transformThermostat`. */
  function TransformThermostat(t: CrestronThermostat): (r: Thermostat)
    ensures r.id == IdText(t.id) && r.name == t.name && r.roomId == OptionalId(t.roomId)
    ensures var d := Divisor(t.temperatureUnits);
      2 * d * r.currentTemp - d <= 2 * t.currentTemperature < 2 * d * r.currentTemp + d
    ensures var h := SetPointTemperature(t.currentSetPoint, IsHeatPoint);
      r.heatSetPoint == if h.Some? then RoundDiv(h.value, Divisor(t.temperatureUnits)) else r.currentTemp
    ensures var c := SetPointTemperature(t.currentSetPoint, IsCoolPoint);
      r.coolSetPoint == if c.Some? then RoundDiv(c.value, Divisor(t.temperatureUnits)) else r.currentTemp + 5
    ensures r.mode == ModeOf(t.currentMode) && r.fanMode == FanOf(t.currentFanMode)
    ensures r.isRunning <==> t.currentMode != "Off"
  {
    var d := Divisor(t.temperatureUnits);
    var current := RoundDiv(t.currentTemperature, d);
    var heat := SetPointTemperature(t.currentSetPoint, IsHeatPoint);
    var cool := SetPointTemperature(t.currentSetPoint, IsCoolPoint);
    Thermostat(
      IdText(t.id), t.name, OptionalId(t.roomId), current,
      if heat.Some? then RoundDiv(heat.value, d) else current,
      if cool.Some? then RoundDiv(cool.value, d) else current + 5,
      ModeOf(t.currentMode), FanOf(t.currentFanMode), t.currentMode != "Off")
  }

  /** A reading of 730 tenths is 73°F; a reading in whole degrees is kept. */
  lemma TemperatureScaling(t: CrestronThermostat, degrees: int)
    ensures t.temperatureUnits == "DeciFahrenheit" && t.currentTemperature == 10 * degrees ==>
      TransformThermostat(t).currentTemp == degrees
    ensures t.temperatureUnits != "DeciFahrenheit" ==> TransformThermostat(t).currentTemp == t.currentTemperature
  {
    if t.temperatureUnits == "DeciFahrenheit" && t.currentTemperature == 10 * degrees {
      RoundDivUnique(t.currentTemperature, 10, degrees);
    }
    if t.temperatureUnits != "DeciFahrenheit" {
      RoundDivUnique(t.currentTemperature, 1, t.currentTemperature);
    }
  }

  /**
   * A mode name the controller sends but the app does not know shows as
   * off, yet the unit is still reported as running.
   */
  lemma UnknownModeRunsAsOff(t: CrestronThermostat)
    requires t.currentMode == "Dry"
    ensures TransformThermostat(t).mode == Off && TransformThermostat(t).isRunning
  {
  }

  // ---------------------------------------------------------------------------
  // Lights, sensors, shades, locks
  // ---------------------------------------------------------------------------

  /** `transformLight`: "switch" in any case is a switch, everything else a dimmer; on exactly when the level is positive. */
  function TransformLight(l: CrestronLight): (r: Light)
    ensures r.id == IdText(l.id) && r.name == l.name && r.roomId == OptionalId(l.roomId)
    ensures r.level == l.level
    ensures r.isOn <==> l.level > 0
    ensures r.subType == Switch <==> l.subType.Some? && Lower(l.subType.value) == "switch"
  {
    Light(IdText(l.id), l.name,
      if l.subType.Some? && Lower(l.subType.value) == "switch" then Switch else Dimmer,
      OptionalId(l.roomId), l.level, l.level > 0)
  }

  /** Lights fresh from the controller already satisfy the on/level agreement the store's patches keep. */
  lemma TransformedLightConsistent(l: CrestronLight)
    ensures DeviceStore.Consistent(TransformLight(l))
  {
  }

  /** The sensor kinds the controller names; any other name is a contact sensor. */
  function SensorKindOf(name: string): (k: SensorKind)
    ensures k == Motion <==> name == "OccupancySensor" || name == "Motion"
    ensures k == Temperature <==> name == "Temperature"
    ensures k == Humidity <==> name == "Humidity"
    ensures k == Luminance <==> name == "Luminance"
  {
    if name == "OccupancySensor" || name == "Motion" then Motion
    else if name == "Temperature" then Temperature
    else if name == "Humidity" then Humidity
    else if name == "Luminance" then Luminance
    else Contact
  }

  /** Presence readings: "Occupied" and "OpenOrOn" are true, everything else false. */
  function PresenceOf(presence: string): (v: bool)
    ensures v <==> presence == "Occupied" || presence == "OpenOrOn"
  {
    presence == "Occupied" || presence == "OpenOrOn"
  }

  function TransformSensor(s: CrestronSensor): (r: Sensor)
    ensures r.id == IdText(s.id) && r.name == s.name && r.roomId == OptionalId(s.roomId)
    ensures r.kind == SensorKindOf(s.subType) && r.value == PresenceOf(s.presence)
  {
    Sensor(IdText(s.id), s.name, SensorKindOf(s.subType), OptionalId(s.roomId), PresenceOf(s.presence))
  }

  /** `transformShade`: a missing position is 0; a present one, even 0, is kept. */
  function TransformShade(s: CrestronShade): (r: Shade)
    ensures r.id == IdText(s.id) && r.name == s.name && r.roomId == OptionalId(s.roomId)
    ensures r.position == if s.position.Some? then s.position.value else 0
  {
    Shade(IdText(s.id), s.name, OptionalId(s.roomId), s.position.GetOr(0))
  }

  /** `transformDoorLock`: `isLocked`, else `locked`, else locked. */
  function TransformDoorLock(d: CrestronDoorLock): (r: DoorLock)
    ensures r.id == IdText(d.id) && r.name == d.name && r.roomId == OptionalId(d.roomId)
    ensures d.isLocked.Some? ==> r.isLocked == d.isLocked.value
    ensures d.isLocked.None? && d.locked.Some? ==> r.isLocked == d.locked.value
    ensures d.isLocked.None? && d.locked.None? ==> r.isLocked
  {
    DoorLock(IdText(d.id), d.name, OptionalId(d.roomId), d.isLocked.GetOr(d.locked.GetOr(true)))
  }

  // ---------------------------------------------------------------------------
  // GET
  // ---------------------------------------------------------------------------

  /** The `data` of the seven controller calls, whether or not each call succeeded. */
  datatype DeviceLists = DeviceLists(
    lights: Raw<CrestronLight>, shades: Raw<CrestronShade>, thermostats: Raw<CrestronThermostat>,
    doorLocks: Raw<CrestronDoorLock>, sensors: Raw<CrestronSensor>,
    securityDevices: Raw<SecurityDevice>, mediaRooms: Raw<MediaRoom>)

  /** GET: 401 without both session headers; otherwise every list, transformed in order. */
  function Get(h: Headers, lists: DeviceLists): (r: Answer<DeviceSync.DeviceData>)
    ensures !HasAuth(h) ==> r == Unauthorized()
    ensures HasAuth(h) ==> r.status == 200 && r.success && r.data.Some?
    ensures HasAuth(h) ==> var data := r.data.value;
      && |data.lights| == |ExtractArray(lists.lights, "lights")|
      && (forall i :: 0 <= i < |data.lights| ==> data.lights[i] == TransformLight(ExtractArray(lists.lights, "lights")[i]))
      && |data.shades| == |ExtractArray(lists.shades, "shades")|
      && (forall i :: 0 <= i < |data.shades| ==> data.shades[i] == TransformShade(ExtractArray(lists.shades, "shades")[i]))
      && |data.thermostats| == |ExtractArray(lists.thermostats, "thermostats")|
      && (forall i :: 0 <= i < |data.thermostats| ==>
            data.thermostats[i] == TransformThermostat(ExtractArray(lists.thermostats, "thermostats")[i]))
      && |data.doorLocks| == |ExtractArray(lists.doorLocks, "doorLocks")|
      && (forall i :: 0 <= i < |data.doorLocks| ==>
            data.doorLocks[i] == TransformDoorLock(ExtractArray(lists.doorLocks, "doorLocks")[i]))
      && |data.sensors| == |ExtractArray(lists.sensors, "sensors")|
      && (forall i :: 0 <= i < |data.sensors| ==> data.sensors[i] == TransformSensor(ExtractArray(lists.sensors, "sensors")[i]))
      && data.securityDevices == ExtractArray(lists.securityDevices, "securityDevices")
      && data.mediaRooms == ExtractArray(lists.mediaRooms, "mediaRooms")
  {
    if !HasAuth(h) then Unauthorized()
    else
      var data := DeviceSync.DeviceData(
        Map(ExtractArray(lists.lights, "lights"), TransformLight),
        Map(ExtractArray(lists.shades, "shades"), TransformShade),
        Map(ExtractArray(lists.thermostats, "thermostats"), TransformThermostat),
        Map(ExtractArray(lists.doorLocks, "doorLocks"), TransformDoorLock),
        Map(ExtractArray(lists.sensors, "sensors"), TransformSensor),
        ExtractArray(lists.securityDevices, "securityDevices"),
        ExtractArray(lists.mediaRooms, "mediaRooms"));
      Answer(200, true, None, Some(data))
  }

  function LightIds(ls: seq<CrestronLight>): seq<int> {
    Map(ls, (l: CrestronLight) => l.id)
  }

  /**
   * Lights with distinct controller ids keep distinct ids, and every one
   * of them satisfies the store's on/level agreement.
   */
  lemma GetKeepsLightsApart(h: Headers, lists: DeviceLists)
    requires HasAuth(h) && DistinctInts(LightIds(ExtractArray(lists.lights, "lights")))
    ensures var lights := Get(h, lists).data.value.lights;
      DistinctIds(Map(lights, (l: Light) => l.id))
      && forall i :: 0 <= i < |lights| ==> DeviceStore.Consistent(lights[i])
  {
    var raw := ExtractArray(lists.lights, "lights");
    var lights := Get(h, lists).data.value.lights;
    IdTextKeepsDistinct(LightIds(raw));
    assert Map(lights, (l: Light) => l.id) == Map(LightIds(raw), IdText);
  }
}

=== FILE: lights_by_room.dfy ===
/**
 * The lights page grouped by room: one group per room id in order of first
 * appearance, named from the room list, sorted by name with the unassigned
 * lights last; the summary counts; and the per-room expand/collapse state
 * that decides how many lights a group shows. `localeCompare` is an
 * abstract order on names, given as a rank.
 */
module LightsByRoom {
  import opened Common
  import opened Devices
  import opened Sorting
  import DeviceStore

  const DefaultMaxLights: nat := 6
  const Unassigned: string := "Unassigned"
  const UnassignedKey: string := "unassigned"

  /** One group: the room id it stands for, its heading and its lights. */
  datatype RoomGroup = RoomGroup(roomId: Option<string>, roomName: string, lights: seq<Light>)

  // ---------------------------------------------------------------------------
  // Room names
  // ---------------------------------------------------------------------------

  function UnknownRoom(id: string): string {
    "Unknown Room (" + id + ")"
  }

  /** The heading of a group: the room's name, a placeholder for an unknown room, or "Unassigned". */
  function RoomName(roomMap: map<string, string>, roomId: Option<string>): (r: string)
    ensures !Truthy(roomId) ==> r == Unassigned
    ensures Truthy(roomId) && roomId.value in roomMap && roomMap[roomId.value] != "" ==> r == roomMap[roomId.value]
    ensures Truthy(roomId) && (roomId.value !in roomMap || roomMap[roomId.value] == "") ==> r == UnknownRoom(roomId.value)
  {
    if !Truthy(roomId) then Unassigned
    else if roomId.value in roomMap && roomMap[roomId.value] != "" then roomMap[roomId.value]
    else UnknownRoom(roomId.value)
  }

  // ---------------------------------------------------------------------------
  // Grouping
  // ---------------------------------------------------------------------------

  function RoomIdOf(l: Light): Option<string> {
    l.roomId
  }

  function InRoom(id: Option<string>): Light -> bool {
    (l: Light) => l.roomId == id
  }

  /** A group that sorts among the rooms; `""` and a missing id both count as unassigned. */
  predicate Assigned(g: RoomGroup) {
    Truthy(g.roomId)
  }

  function IsAssigned(): RoomGroup -> bool {
    (g: RoomGroup) => Assigned(g)
  }

  function IsUnassigned(): RoomGroup -> bool {
    (g: RoomGroup) => !Assigned(g)
  }

  /** Groups with pairwise different room ids. */
  predicate DistinctKeys(gs: seq<RoomGroup>) {
    forall i, j :: 0 <= i < j < |gs| ==> gs[i].roomId != gs[j].roomId
  }

  /** The room ids of the lights, each once, in order of first appearance (the grouping map's key order). */
  function RoomIds(lights: seq<Light>): seq<Option<string>> {
    Distinct(Map(lights, RoomIdOf))
  }

  function GroupOf(lights: seq<Light>, roomMap: map<string, string>, id: Option<string>): RoomGroup {
    RoomGroup(id, RoomName(roomMap, id), Filter(lights, InRoom(id)))
  }

  /** The groups in the order their room ids first appear among the lights. */
  function Groups(lights: seq<Light>, rooms: seq<Room>): (r: seq<RoomGroup>)
    ensures |r| == |RoomIds(lights)|
    ensures forall i :: 0 <= i < |r| ==> r[i] == GroupOf(lights, RoomMap(rooms), RoomIds(lights)[i])
  {
    var roomMap := RoomMap(rooms);
    Map(RoomIds(lights), (id: Option<string>) => GroupOf(lights, roomMap, id))
  }

  /** Each group holds the lights of its room id, and none is empty; each light's room id has a group. */
  lemma GroupsFacts(lights: seq<Light>, rooms: seq<Room>)
    ensures forall g :: g in Groups(lights, rooms) ==>
      g.lights == Filter(lights, InRoom(g.roomId)) && g.roomName == RoomName(RoomMap(rooms), g.roomId) && g.lights != []
    ensures DistinctKeys(Groups(lights, rooms))
    ensures forall l :: l in lights ==> exists g :: g in Groups(lights, rooms) && g.roomId == l.roomId
  {
    var ids := RoomIds(lights);
    var all := Map(lights, RoomIdOf);
    var r := Groups(lights, rooms);
    forall g | g in r
      ensures g.lights != []
    {
      var k :| 0 <= k < |r| && r[k] == g;
      assert ids[k] in all;
      var m :| 0 <= m < |lights| && all[m] == ids[k];
      assert lights[m] in Filter(lights, InRoom(g.roomId));
    }
    forall l | l in lights
      ensures exists g :: g in r && g.roomId == l.roomId
    {
      var k :| 0 <= k < |lights| && lights[k] == l;
      assert all[k] == l.roomId;
      assert l.roomId in ids;
      var m :| 0 <= m < |ids| && ids[m] == l.roomId;
      assert r[m] in r;
    }
  }

  function ByName(nameRank: string -> int): RoomGroup -> int {
    (g: RoomGroup) => nameRank(g.roomName)
  }

  /** `groupedLights`: the rooms sorted by name, then the unassigned lights. */
  function GroupedLights(lights: seq<Light>, rooms: seq<Room>, nameRank: string -> int): seq<RoomGroup> {
    var groups := Groups(lights, rooms);
    SortByKey(Filter(groups, IsAssigned()), ByName(nameRank)) + Filter(groups, IsUnassigned())
  }

  /** Sorting only reorders the groups. */
  lemma GroupedSameGroups(lights: seq<Light>, rooms: seq<Room>, nameRank: string -> int)
    ensures forall g :: g in GroupedLights(lights, rooms, nameRank) <==> g in Groups(lights, rooms)
  {
    var groups := Groups(lights, rooms);
    SortByKeyMembers(Filter(groups, IsAssigned()), ByName(nameRank));
  }

  lemma {:induction false} DistinctKeysAfterFilter(gs: seq<RoomGroup>, p: RoomGroup -> bool)
    requires DistinctKeys(gs)
    ensures DistinctKeys(Filter(gs, p))
    decreases |gs|
  {
    if gs != [] {
      DistinctKeysTail(gs);
      DistinctKeysAfterFilter(gs[1..], p);
      var rest := Filter(gs[1..], p);
      forall i | 0 <= i < |rest|
        ensures rest[i].roomId != gs[0].roomId
      {
        assert rest[i] in gs[1..];
      }
    }
  }

  lemma DistinctKeysTail(gs: seq<RoomGroup>)
    requires DistinctKeys(gs) && gs != []
    ensures DistinctKeys(gs[1..])
  {
    forall i, j | 0 <= i < j < |gs[1..]|
      ensures gs[1..][i].roomId != gs[1..][j].roomId
    {
      assert gs[1..][i] == gs[i + 1] && gs[1..][j] == gs[j + 1];
    }
  }

  /** In groups with distinct room ids, no group occurs twice. */
  lemma {:induction false} OnceEach(gs: seq<RoomGroup>, g: RoomGroup)
    requires DistinctKeys(gs)
    ensures multiset(gs)[g] <= 1
    decreases |gs|
  {
    if gs != [] {
      assert gs == [gs[0]] + gs[1..];
      DistinctKeysTail(gs);
      OnceEach(gs[1..], g);
      if g == gs[0] {
        assert g !in gs[1..] by {
          forall k | 0 <= k < |gs[1..]|
            ensures gs[1..][k] != g
          {
            assert gs[k + 1].roomId != gs[0].roomId;
          }
        }
      }
    }
  }

  /** Reordering keeps the room ids apart. */
  lemma DistinctKeysKept(a: seq<RoomGroup>, b: seq<RoomGroup>)
    requires DistinctKeys(a) && multiset(a) == multiset(b)
    ensures DistinctKeys(b)
  {
    forall i, j | 0 <= i < j < |b|
      ensures b[i].roomId != b[j].roomId
    {
      if b[i].roomId == b[j].roomId {
        assert b[i] in multiset(a) && b[j] in multiset(a);
        var p :| 0 <= p < |a| && a[p] == b[i];
        var q :| 0 <= q < |a| && a[q] == b[j];
        if b[i] == b[j] {
          assert b == b[..j] + b[j..];
          assert b[i] in b[..j];
          assert multiset(b)[b[i]] == multiset(b[..j])[b[i]] + multiset(b[j..])[b[i]];
          assert b[j..][0] == b[j];
          OnceEach(a, b[i]);
        }
      }
    }
  }

  lemma GroupedKeysDistinct(lights: seq<Light>, rooms: seq<Room>, nameRank: string -> int)
    ensures DistinctKeys(GroupedLights(lights, rooms, nameRank))
  {
    var groups := Groups(lights, rooms);
    GroupsFacts(lights, rooms);
    var placed := Filter(groups, IsAssigned());
    var unplaced := Filter(groups, IsUnassigned());
    var sorted := SortByKey(placed, ByName(nameRank));
    SortByKeyMembers(placed, ByName(nameRank));
    DistinctKeysAfterFilter(groups, IsAssigned());
    DistinctKeysAfterFilter(groups, IsUnassigned());
    DistinctKeysKept(placed, sorted);
    var r := sorted + unplaced;
    forall i, j | 0 <= i < j < |r|
      ensures r[i].roomId != r[j].roomId
    {
      if i < |sorted| <= j {
        assert r[i] in placed;
        assert r[j] in unplaced;
      }
    }
  }

  /** The groups partition the lights: each group is its room id's lights in their order, one group per room id. */
  lemma GroupsPartition(lights: seq<Light>, rooms: seq<Room>, nameRank: string -> int)
    ensures var r := GroupedLights(lights, rooms, nameRank);
      (forall g :: g in r ==> g.lights == Filter(lights, InRoom(g.roomId)) && g.roomName == RoomName(RoomMap(rooms), g.roomId))
      && DistinctKeys(r)
      && (forall l :: l in lights ==> exists g :: g in r && g.roomId == l.roomId)
  {
    GroupsFacts(lights, rooms);
    GroupedSameGroups(lights, rooms, nameRank);
    GroupedKeysDistinct(lights, rooms, nameRank);
  }

  /** A light belongs to exactly one group. */
  lemma InExactlyOneGroup(lights: seq<Light>, rooms: seq<Room>, nameRank: string -> int, l: Light)
    requires l in lights
    ensures var r := GroupedLights(lights, rooms, nameRank);
      exists i :: 0 <= i < |r| && l in r[i].lights && forall j :: 0 <= j < |r| && j != i ==> l !in r[j].lights
  {
    GroupsPartition(lights, rooms, nameRank);
    var r := GroupedLights(lights, rooms, nameRank);
    var g :| g in r && g.roomId == l.roomId;
    var i :| 0 <= i < |r| && r[i] == g;
    assert l in Filter(lights, InRoom(g.roomId));
    forall j | 0 <= j < |r| && j != i
      ensures l !in r[j].lights
    {
      assert r[j] in r;
    }
  }

  /** The sorted rooms and the unassigned groups that `GroupedLights` puts one after the other. */
  lemma GroupedHalves(lights: seq<Light>, rooms: seq<Room>, nameRank: string -> int)
    returns (sorted: seq<RoomGroup>, unplaced: seq<RoomGroup>)
    ensures GroupedLights(lights, rooms, nameRank) == sorted + unplaced
    ensures forall g :: g in sorted ==> Assigned(g)
    ensures forall g :: g in unplaced ==> !Assigned(g)
    ensures SortedByKey(sorted, ByName(nameRank))
  {
    var groups := Groups(lights, rooms);
    var placed := Filter(groups, IsAssigned());
    sorted := SortByKey(placed, ByName(nameRank));
    unplaced := Filter(groups, IsUnassigned());
    SortByKeyMembers(placed, ByName(nameRank));
    SortByKeySorted(placed, ByName(nameRank));
  }

  lemma UnassignedAfterRooms(sorted: seq<RoomGroup>, unplaced: seq<RoomGroup>)
    requires forall g :: g in sorted ==> Assigned(g)
    requires forall g :: g in unplaced ==> !Assigned(g)
    ensures var r := sorted + unplaced;
      forall i, j :: 0 <= i < j < |r| && !Assigned(r[i]) ==> !Assigned(r[j])
  {
    var r := sorted + unplaced;
    forall i, j | 0 <= i < j < |r| && !Assigned(r[i])
      ensures !Assigned(r[j])
    {
      assert r[j] == unplaced[j - |sorted|];
    }
  }

  lemma RoomsInKeyOrder(sorted: seq<RoomGroup>, unplaced: seq<RoomGroup>, key: RoomGroup -> int)
    requires SortedByKey(sorted, key)
    requires forall g :: g in unplaced ==> !Assigned(g)
    ensures var r := sorted + unplaced;
      forall i, j :: 0 <= i < j < |r| && Assigned(r[j]) ==> key(r[i]) <= key(r[j])
  {
    var r := sorted + unplaced;
    forall i, j | 0 <= i < j < |r| && Assigned(r[j])
      ensures key(r[i]) <= key(r[j])
    {
      assert r[i] == sorted[i] && r[j] == sorted[j];
    }
  }

  /** The unassigned lights come after every room. */
  lemma UnassignedLast(lights: seq<Light>, rooms: seq<Room>, nameRank: string -> int)
    ensures var r := GroupedLights(lights, rooms, nameRank);
      forall i, j :: 0 <= i < j < |r| && !Assigned(r[i]) ==> !Assigned(r[j])
  {
    var sorted, unplaced := GroupedHalves(lights, rooms, nameRank);
    UnassignedAfterRooms(sorted, unplaced);
  }

  /** The rooms appear in name order. */
  lemma RoomsByName(lights: seq<Light>, rooms: seq<Room>, nameRank: string -> int)
    ensures var r := GroupedLights(lights, rooms, nameRank);
      forall i, j :: 0 <= i < j < |r| && Assigned(r[j]) ==> nameRank(r[i].roomName) <= nameRank(r[j].roomName)
  {
    var sorted, unplaced := GroupedHalves(lights, rooms, nameRank);
    RoomsInKeyOrder(sorted, unplaced, ByName(nameRank));
  }

  // ---------------------------------------------------------------------------
  // Statistics
  // ---------------------------------------------------------------------------

  datatype Stats = Stats(total: nat, assignedLights: nat, unassignedLights: nat, lightsOn: nat, roomsWithLights: nat)

  /** A light counts as on when it says so or its level is above zero. */
  predicate Lit(l: Light) {
    l.isOn || l.level > 0
  }

  function HasRoom(): Light -> bool {
    (l: Light) => Truthy(l.roomId)
  }

  /** `new Set(...)` of the assigned lights' room ids. */
  function AssignedRoomIds(lights: seq<Light>): set<string> {
    set l | l in lights && Truthy(l.roomId) :: l.roomId.value
  }

  /** The summary line's counts. */
  function GetStats(lights: seq<Light>): (r: Stats)
    ensures r.total == |lights| && r.assignedLights + r.unassignedLights == r.total
    ensures r.unassignedLights == Count(lights, (l: Light) => !Truthy(l.roomId))
    ensures r.lightsOn == Count(lights, (l: Light) => Lit(l))
    ensures r.roomsWithLights == |AssignedRoomIds(lights)|
  {
    var placed := Count(lights, HasRoom());
    CountSplit(lights, HasRoom(), (l: Light) => !Truthy(l.roomId));
    Stats(|lights|, placed, |lights| - placed, Count(lights, (l: Light) => Lit(l)), |AssignedRoomIds(lights)|)
  }

  /** Every element is counted by exactly one of two complementary tests. */
  lemma {:induction false} CountSplit(xs: seq<Light>, p: Light -> bool, q: Light -> bool)
    requires forall x :: q(x) == !p(x)
    ensures Count(xs, p) + Count(xs, q) == |xs|
    decreases |xs|
  {
    if xs != [] {
      CountSplit(xs[1..], p, q);
    }
  }

  /** For lights kept consistent by the store, "on" is just the `isOn` flag. */
  lemma LitIsOn(lights: seq<Light>)
    requires forall l :: l in lights ==> DeviceStore.Consistent(l)
    ensures GetStats(lights).lightsOn == Count(lights, (l: Light) => l.isOn)
  {
    FilterSame(lights, (l: Light) => Lit(l), (l: Light) => l.isOn);
  }

  /** The page shows every room group once: as many as the grouping made. */
  lemma PlacedGroupsOnPage(lights: seq<Light>, rooms: seq<Room>, nameRank: string -> int)
    ensures |Filter(GroupedLights(lights, rooms, nameRank), IsAssigned())| == |Filter(Groups(lights, rooms), IsAssigned())|
  {
    var groups := Groups(lights, rooms);
    var placed := Filter(groups, IsAssigned());
    var unplaced := Filter(groups, IsUnassigned());
    var sorted := SortByKey(placed, ByName(nameRank));
    SortByKeyMembers(placed, ByName(nameRank));
    FilterAppend(sorted, unplaced, IsAssigned());
    FilterAll(sorted, IsAssigned());
    assert Filter(unplaced, IsAssigned()) == [];
  }

  /** The room ids of the room groups, in their order. */
  function PlacedIds(lights: seq<Light>, rooms: seq<Room>): seq<string> {
    Map(Filter(Groups(lights, rooms), IsAssigned()), (g: RoomGroup) => if g.roomId.Some? then g.roomId.value else "")
  }

  lemma PlacedIdsDistinct(lights: seq<Light>, rooms: seq<Room>)
    ensures forall i, j :: 0 <= i < j < |PlacedIds(lights, rooms)| ==> PlacedIds(lights, rooms)[i] != PlacedIds(lights, rooms)[j]
  {
    var groups := Groups(lights, rooms);
    var placed := Filter(groups, IsAssigned());
    var ids := PlacedIds(lights, rooms);
    GroupsFacts(lights, rooms);
    DistinctKeysAfterFilter(groups, IsAssigned());
    forall i, j | 0 <= i < j < |ids|
      ensures ids[i] != ids[j]
    {
      assert placed[i] in placed && placed[j] in placed;
    }
  }

  /** The summary's room ids are exactly those of the room groups. */
  lemma PlacedIdsAreRoomIds(lights: seq<Light>, rooms: seq<Room>)
    ensures AssignedRoomIds(lights) == set x | x in PlacedIds(lights, rooms)
  {
    forall x | x in AssignedRoomIds(lights)
      ensures x in PlacedIds(lights, rooms)
    {
      LitRoomHasGroup(lights, rooms, x);
    }
    forall x | x in PlacedIds(lights, rooms)
      ensures x in AssignedRoomIds(lights)
    {
      GroupHasLight(lights, rooms, x);
    }
  }

  lemma LitRoomHasGroup(lights: seq<Light>, rooms: seq<Room>, x: string)
    requires x in AssignedRoomIds(lights)
    ensures x in PlacedIds(lights, rooms)
  {
    var groups := Groups(lights, rooms);
    var placed := Filter(groups, IsAssigned());
    GroupsFacts(lights, rooms);
    var l :| l in lights && Truthy(l.roomId) && l.roomId.value == x;
    var g :| g in groups && g.roomId == l.roomId;
    assert g in placed;
    var k :| 0 <= k < |placed| && placed[k] == g;
    assert PlacedIds(lights, rooms)[k] == x;
  }

  lemma GroupHasLight(lights: seq<Light>, rooms: seq<Room>, x: string)
    requires x in PlacedIds(lights, rooms)
    ensures x in AssignedRoomIds(lights)
  {
    var groups := Groups(lights, rooms);
    var placed := Filter(groups, IsAssigned());
    var ids := PlacedIds(lights, rooms);
    GroupsFacts(lights, rooms);
    var k :| 0 <= k < |ids| && ids[k] == x;
    var g := placed[k];
    assert g in placed;
    var m := g.lights[0];
    assert m in Filter(lights, InRoom(g.roomId));
  }

  /** The room count in the summary is the number of room groups on the page. */
  lemma RoomsWithLightsCountsGroups(lights: seq<Light>, rooms: seq<Room>, nameRank: string -> int)
    ensures GetStats(lights).roomsWithLights == |Filter(GroupedLights(lights, rooms, nameRank), IsAssigned())|
  {
    PlacedGroupsOnPage(lights, rooms, nameRank);
    PlacedIdsDistinct(lights, rooms);
    PlacedIdsAreRoomIds(lights, rooms);
    DistinctCard(PlacedIds(lights, rooms));
  }

  /** A sequence without repeats has as many elements as its set. */
  lemma {:induction false} DistinctCard(xs: seq<string>)
    requires forall i, j :: 0 <= i < j < |xs| ==> xs[i] != xs[j]
    ensures |set x | x in xs| == |xs|
    decreases |xs|
  {
    if xs != [] {
      var rest := xs[1..];
      DistinctCard(rest);
      assert (set x | x in xs) == (set x | x in rest) + {xs[0]};
      assert xs[0] !in rest by {
        forall k | 0 <= k < |rest|
          ensures rest[k] != xs[0]
        {
          assert rest[k] == xs[k + 1];
        }
      }
    }
  }

  // ---------------------------------------------------------------------------
  // Expanding and collapsing
  // ---------------------------------------------------------------------------

  /** The key a group is expanded under: its room id, or "unassigned". */
  function RoomKey(roomId: Option<string>): (r: string)
    ensures Truthy(roomId) ==> r == roomId.value
    ensures !Truthy(roomId) ==> r == UnassignedKey
  {
    OrElse(roomId, Some(UnassignedKey)).value
  }

  /** `toggleRoom`. */
  function ToggleRoom(expanded: set<string>, key: string): (r: set<string>)
    ensures key in r <==> key !in expanded
    ensures forall k :: k != key ==> (k in r <==> k in expanded)
  {
    if key in expanded then expanded - {key} else expanded + {key}
  }

  lemma ToggleTwice(expanded: set<string>, key: string)
    ensures ToggleRoom(ToggleRoom(expanded, key), key) == expanded
  {
  }

  /** The `visibleLights` slice: all of the group when expanded, else its first `maxLights`. */
  function VisibleLights(g: RoomGroup, expanded: set<string>, maxLights: nat): (r: seq<Light>)
    ensures |r| <= |g.lights| && r == g.lights[..|r|]
    ensures RoomKey(g.roomId) in expanded ==> r == g.lights
    ensures RoomKey(g.roomId) !in expanded ==> |r| == if |g.lights| < maxLights then |g.lights| else maxLights
  {
    if RoomKey(g.roomId) in expanded then g.lights else Take(g.lights, maxLights)
  }

  /**
   * The lights the page actually draws for a group: the grid is rendered only
   * when the group is expanded or fits the limit, and then it draws the slice.
   */
  function DrawnLights(g: RoomGroup, expanded: set<string>, maxLights: nat): (r: seq<Light>)
    ensures RoomKey(g.roomId) in expanded || |g.lights| <= maxLights ==> r == VisibleLights(g, expanded, maxLights)
    ensures !(RoomKey(g.roomId) in expanded || |g.lights| <= maxLights) ==> r == []
  {
    if RoomKey(g.roomId) in expanded || |g.lights| <= maxLights then VisibleLights(g, expanded, maxLights) else []
  }

  /**
   * A group's grid draws either every light or none: the shortened slice is
   * never drawn, and nothing is drawn exactly when "show more" is offered
   * (for a group with lights).
   */
  lemma DrawnAllOrNothing(g: RoomGroup, expanded: set<string>, maxLights: nat)
    requires |g.lights| > 0
    ensures var r := DrawnLights(g, expanded, maxLights);
      (r == g.lights || r == []) && (r == [] <==> HasMore(g, expanded, maxLights))
  {
    var r := DrawnLights(g, expanded, maxLights);
    if RoomKey(g.roomId) !in expanded && |g.lights| <= maxLights {
      assert Take(g.lights, maxLights) == g.lights;
    }
  }

  /** `hasMore`. */
  function HasMore(g: RoomGroup, expanded: set<string>, maxLights: nat): bool {
    |g.lights| > maxLights && RoomKey(g.roomId) !in expanded
  }

  /** "Show more" appears exactly when some light is hidden. */
  lemma HasMoreIffHidden(g: RoomGroup, expanded: set<string>, maxLights: nat)
    ensures HasMore(g, expanded, maxLights) <==> |VisibleLights(g, expanded, maxLights)| < |g.lights|
  {
  }

  /** The missing and the empty room id share one expand key with a room whose id is "unassigned". */
  lemma UnassignedKeyShared()
    ensures RoomKey(None) == RoomKey(Some("")) == RoomKey(Some(UnassignedKey))
  {
  }

  /** The groups drawn: all of them, or only the rooms when unassigned lights are hidden. */
  function ShownGroups(groups: seq<RoomGroup>, showUnassigned: bool): (r: seq<RoomGroup>)
    ensures showUnassigned ==> r == groups
    ensures !showUnassigned ==> forall g :: g in r <==> g in groups && Assigned(g)
  {
    if showUnassigned then groups else Filter(groups, IsAssigned())
  }
}

=== FILE: media_route.dfy ===
/**
 * The media endpoint: listing media rooms, and one control request (power,
 * volume, mute or source) checked field by field before anything is sent
 * to the controller. Body fields are modelled as the JSON shapes the
 * checks distinguish.
 */
module MediaRoute {
  import opened Common
  import opened Devices
  import opened Routes

  /** GET: 401 without both session headers; the client's result, with 200 or 500. */
  function Get(h: Headers, result: ClientResult<Raw<MediaRoom>>): (r: Answer<Raw<MediaRoom>>)
    ensures !HasAuth(h) ==> r == Unauthorized()
    ensures HasAuth(h) ==> r.success == result.success && r.error == result.error
    ensures HasAuth(h) ==> (r.status == 200 <==> result.success) && (r.status == 500 <==> !result.success)
    ensures HasAuth(h) && result.success ==> r.data == Some(result.data)
  {
    if !HasAuth(h) then Unauthorized()
    else if result.success then Answer(200, true, result.error, Some(result.data))
    else PassOn(result)
  }

  /** A numeric body field: absent, `null`, or a number. */
  datatype NumberField = Absent | Null | Number(n: int)

  /** The POST body; `muted` is `None` when it is not a JSON boolean. */
  datatype MediaBody = MediaBody(
    id: JsonId, action: Option<string>, powerState: Option<string>,
    volumePercent: NumberField, muted: Option<bool>, sourceIndex: NumberField)

  datatype Request = Parsed(body: MediaBody) | Unreadable(message: string)

  /** What reaches the controller. */
  datatype MediaCommand =
    | SetPower(id: JsonId, state: string)
    | SetVolume(id: JsonId, volume: NumberField)
    | SetMute(id: JsonId, muted: bool)
    | SelectSource(id: JsonId, index: NumberField)

  const MissingId: string := "Missing media room id"
  const MissingAction: string := "Missing action"
  const InvalidPower: string := "Invalid power state. Must be 'on' or 'off'"
  const InvalidVolume: string := "Invalid volume. Must be 0-100"
  const InvalidMute: string := "Invalid mute value. Must be boolean"
  const InvalidSource: string := "Invalid source index"
  const ControlFailed: string := "Failed to control media room"

  function UnknownAction(action: string): string {
    "Unknown action: " + action + ". Valid actions: power, volume, mute, source"
  }

  /** `volumePercent === undefined || volumePercent < 0 || volumePercent > 100`; `null` compares as 0. */
  predicate BadVolume(v: NumberField) {
    v.Absent? || (v.Number? && (v.n < 0 || v.n > 100))
  }

  /** `sourceIndex === undefined || sourceIndex < 0`. */
  predicate BadSource(v: NumberField) {
    v.Absent? || (v.Number? && v.n < 0)
  }

  /** The command a valid body asks for, or the 400 message that rejects it. */
  datatype Checked = Command(command: MediaCommand) | Rejected(message: string)

  /** The checks, in the order the handler makes them. */
  function Check(b: MediaBody): (r: Checked)
    ensures !TruthyId(b.id) ==> r == Rejected(MissingId)
    ensures TruthyId(b.id) && !Truthy(b.action) ==> r == Rejected(MissingAction)
    ensures r.Command? ==> TruthyId(b.id) && r.command.id == b.id
    ensures r.Command? && r.command.SetPower? <==> (TruthyId(b.id) && b.action == Some("power")
      && (b.powerState == Some("on") || b.powerState == Some("off")))
    ensures r.Command? && r.command.SetVolume? <==> TruthyId(b.id) && b.action == Some("volume") && !BadVolume(b.volumePercent)
    ensures r.Command? && r.command.SetMute? <==> TruthyId(b.id) && b.action == Some("mute") && b.muted.Some?
    ensures r.Command? && r.command.SelectSource? <==> TruthyId(b.id) && b.action == Some("source") && !BadSource(b.sourceIndex)
    ensures r.Command? && r.command.SetPower? ==> r.command.state == b.powerState.value
    ensures r.Command? && r.command.SetVolume? ==> r.command.volume == b.volumePercent
    ensures r.Command? && r.command.SetMute? ==> r.command.muted == b.muted.value
    ensures r.Command? && r.command.SelectSource? ==> r.command.index == b.sourceIndex
  {
    if !TruthyId(b.id) then Rejected(MissingId)
    else if !Truthy(b.action) then Rejected(MissingAction)
    else
      var action := b.action.value;
      if action == "power" then
        if b.powerState == Some("on") || b.powerState == Some("off") then Command(SetPower(b.id, b.powerState.value))
        else Rejected(InvalidPower)
      else if action == "volume" then
        if BadVolume(b.volumePercent) then Rejected(InvalidVolume) else Command(SetVolume(b.id, b.volumePercent))
      else if action == "mute" then
        if b.muted.None? then Rejected(InvalidMute) else Command(SetMute(b.id, b.muted.value))
      else if action == "source" then
        if BadSource(b.sourceIndex) then Rejected(InvalidSource) else Command(SelectSource(b.id, b.sourceIndex))
      else Rejected(UnknownAction(action))
  }

  /** What POST answered and what, if anything, it sent to the controller. */
  datatype PostOutcome = PostOutcome(answer: Answer<()>, sent: Option<MediaCommand>)

  /** POST: headers, then the body's checks, then the controller's answer. */
  function Post(h: Headers, request: Request, reply: CallReply): (r: PostOutcome)
    ensures !HasAuth(h) ==> r == PostOutcome(Unauthorized(), None)
    ensures r.sent.Some? <==> HasAuth(h) && request.Parsed? && Check(request.body).Command?
    ensures r.sent.Some? ==> r.sent.value == Check(request.body).command
    ensures HasAuth(h) && request.Parsed? && Check(request.body).Rejected? ==>
      r.answer == Answer(400, false, Some(Check(request.body).message), None)
    ensures HasAuth(h) && request.Unreadable? ==> r.answer == Answer(500, false, Some(request.message), None)
    ensures r.sent.Some? ==> ((r.answer.status == 200 <==> reply.Returned? && reply.result.success)
      && (r.answer.status != 200 ==> r.answer.status == 500))
    ensures r.answer.success <==> r.answer.status == 200
  {
    if !HasAuth(h) then PostOutcome(Unauthorized(), None)
    else match request
      case Unreadable(message) => PostOutcome(Answer(500, false, Some(message), None), None)
      case Parsed(body) =>
        match Check(body)
        case Rejected(message) => PostOutcome(Answer(400, false, Some(message), None), None)
        case Command(command) =>
          match reply
          case Returned(result) =>
            if result.success then PostOutcome(Answer(200, true, None, None), Some(command))
            else PostOutcome(PassOn(result), Some(command))
          case CallThrew(message) =>
            PostOutcome(Answer(500, false, Some(message.GetOr(ControlFailed)), None), Some(command))
  }

  /** Both ends of the volume range are accepted; one step past either end is not. */
  lemma VolumeBounds(id: JsonId, v: int)
    requires TruthyId(id)
    ensures var b := MediaBody(id, Some("volume"), None, Number(v), None, Absent);
      Check(b).Command? <==> 0 <= v <= 100
  {
  }

  /** A missing id is reported before a missing action, whatever else the body holds. */
  lemma IdCheckedFirst(b: MediaBody)
    requires !TruthyId(b.id) && !Truthy(b.action)
    ensures Check(b) == Rejected(MissingId)
  {
  }

  /** A `null` volume or source index passes the checks and is sent on. */
  lemma NullPassesChecks(id: JsonId)
    requires TruthyId(id)
    ensures Check(MediaBody(id, Some("volume"), None, Null, None, Absent)) == Command(SetVolume(id, Null))
    ensures Check(MediaBody(id, Some("source"), None, Absent, None, Null)) == Command(SelectSource(id, Null))
  {
  }
}

=== FILE: media_zone.dfy ===
/**
 * The media zone card: the sources offered across a zone's media rooms,
 * counted and ranked by how many rooms list them; the room heading shown
 * for each media room; and the state the power button asks for.
 */
module MediaZone {
  import opened Common
  import opened Devices
  import opened Sorting

  /** One entry of the zone's source picker. */
  datatype ZoneSource = ZoneSource(name: string, count: nat, isUniversal: bool)

  /** The provider names of the zone's rooms, room by room, repeats included. */
  function Offers(mediaRooms: seq<MediaRoom>): (r: seq<string>)
    ensures forall s :: s in r <==> exists i :: 0 <= i < |mediaRooms| && s in mediaRooms[i].availableProviders
  {
    if mediaRooms == [] then []
    else
      assert forall i :: 1 <= i < |mediaRooms| ==> mediaRooms[i] == mediaRooms[1..][i - 1];
      mediaRooms[0].availableProviders + Offers(mediaRooms[1..])
  }

  function Is(name: string): string -> bool {
    s => s == name
  }

  /** The running tally: each name seen so far, with the number of times it was seen. */
  function Tally(names: seq<string>): (r: map<string, nat>)
    ensures forall s :: s in r <==> s in names
    decreases |names|
  {
    if names == [] then map[]
    else
      var init := names[..|names| - 1];
      var last := names[|names| - 1];
      assert names == init + [last];
      var before := Tally(init);
      before[last := (if last in before then before[last] else 0) + 1]
  }

  /** Each tally is the number of occurrences of the name. */
  lemma {:induction false} TallyCounts(names: seq<string>, name: string)
    requires name in Tally(names)
    ensures Tally(names)[name] == Count(names, Is(name))
    decreases |names|
  {
    var init := names[..|names| - 1];
    var last := names[|names| - 1];
    assert names == init + [last];
    FilterAppend(init, [last], Is(name));
    if name in Tally(init) {
      TallyCounts(init, name);
    } else {
      assert Filter(init, Is(name)) == [];
    }
  }

  /** How many times the rooms list a provider, room by room: the reference count. */
  function Occurrences(mediaRooms: seq<MediaRoom>, name: string): (r: nat)
    ensures r == 0 <==> forall i :: 0 <= i < |mediaRooms| ==> name !in mediaRooms[i].availableProviders
  {
    if mediaRooms == [] then 0
    else
      assert forall i :: 1 <= i < |mediaRooms| ==> mediaRooms[i] == mediaRooms[1..][i - 1];
      Count(mediaRooms[0].availableProviders, Is(name)) + Occurrences(mediaRooms[1..], name)
  }

  lemma {:induction false} OffersCount(mediaRooms: seq<MediaRoom>, name: string)
    ensures Count(Offers(mediaRooms), Is(name)) == Occurrences(mediaRooms, name)
    decreases |mediaRooms|
  {
    if mediaRooms != [] {
      OffersCount(mediaRooms[1..], name);
      FilterAppend(mediaRooms[0].availableProviders, Offers(mediaRooms[1..]), Is(name));
    }
  }

  function Entry(tally: map<string, nat>, rooms: nat): (string -> ZoneSource) {
    name => ZoneSource(name, if name in tally then tally[name] else 0, (if name in tally then tally[name] else 0) == rooms)
  }

  /** Most common first: the sort key is the negated count. */
  function MostCommonFirst(s: ZoneSource): int {
    0 - s.count as int
  }

  /** `zoneSources`: the tally's entries in first-seen order, sorted by count, most common first. */
  function ZoneSources(mediaRooms: seq<MediaRoom>): (r: seq<ZoneSource>)
    ensures |r| == |Distinct(Offers(mediaRooms))|
  {
    var names := Offers(mediaRooms);
    var entries := Map(Distinct(names), Entry(Tally(names), |mediaRooms|));
    SortByKey(entries, MostCommonFirst)
  }

  /** The entries before sorting, in the order the tally first saw each name. */
  lemma Entries(mediaRooms: seq<MediaRoom>)
    returns (entries: seq<ZoneSource>)
    ensures ZoneSources(mediaRooms) == SortByKey(entries, MostCommonFirst)
    ensures |entries| == |Distinct(Offers(mediaRooms))|
    ensures forall i :: 0 <= i < |entries| ==> entries[i].name == Distinct(Offers(mediaRooms))[i]
    ensures forall e :: e in entries ==>
      e.count == Occurrences(mediaRooms, e.name) && (e.isUniversal <==> e.count == |mediaRooms|)
  {
    var names := Offers(mediaRooms);
    var tally := Tally(names);
    entries := Map(Distinct(names), Entry(tally, |mediaRooms|));
    forall e | e in entries
      ensures e.count == Occurrences(mediaRooms, e.name) && (e.isUniversal <==> e.count == |mediaRooms|)
    {
      var i :| 0 <= i < |entries| && entries[i] == e;
      assert e.name == Distinct(names)[i] && e.name in names;
      TallyCounts(names, e.name);
      OffersCount(mediaRooms, e.name);
    }
  }

  /** Every offered provider has an entry, and every entry is an offered provider. */
  lemma SourcesListed(mediaRooms: seq<MediaRoom>)
    ensures forall s :: s in Offers(mediaRooms) <==> exists e :: e in ZoneSources(mediaRooms) && e.name == s
  {
    var offers := Offers(mediaRooms);
    var names := Distinct(offers);
    var entries := Map(names, Entry(Tally(offers), |mediaRooms|));
    var r := SortByKey(entries, MostCommonFirst);
    assert r == ZoneSources(mediaRooms);
    forall i | 0 <= i < |entries|
      ensures entries[i].name == names[i]
    {
    }
    NamesPermuted(entries, r, names);
    forall s
      ensures s in offers <==> exists e :: e in r && e.name == s
    {
      assert s in offers <==> s in names;
    }
  }

  /** Reordering entries keeps the set of names. */
  lemma NamesPermuted(entries: seq<ZoneSource>, r: seq<ZoneSource>, names: seq<string>)
    requires multiset(r) == multiset(entries)
    requires |entries| == |names|
    requires forall i :: 0 <= i < |entries| ==> entries[i].name == names[i]
    ensures forall s :: s in names <==> exists e :: e in r && e.name == s
  {
    forall s | s in names
      ensures exists e :: e in r && e.name == s
    {
      var i :| 0 <= i < |names| && names[i] == s;
      assert entries[i] in multiset(r);
    }
    forall e | e in r
      ensures e.name in names
    {
      assert e in multiset(entries);
      var i :| 0 <= i < |entries| && entries[i] == e;
    }
  }

  /** No provider has two entries. */
  lemma SourcesOnce(mediaRooms: seq<MediaRoom>)
    ensures var r := ZoneSources(mediaRooms);
      forall i, j :: 0 <= i < j < |r| ==> r[i].name != r[j].name
  {
    var entries := Entries(mediaRooms);
    DistinctNamesPermuted(entries, ZoneSources(mediaRooms), Distinct(Offers(mediaRooms)));
  }

  /**
   * Each entry counts the times the rooms list its provider, and is
   * universal exactly when that count is the number of rooms.
   */
  lemma SourcesCounted(mediaRooms: seq<MediaRoom>)
    ensures forall e :: e in ZoneSources(mediaRooms) ==>
      e.count == Occurrences(mediaRooms, e.name) && (e.isUniversal <==> e.count == |mediaRooms|)
  {
    var entries := Entries(mediaRooms);
    SortByKeyMembers(entries, MostCommonFirst);
  }

  /** Reordering entries with distinct names keeps the names distinct. */
  lemma DistinctNamesPermuted(entries: seq<ZoneSource>, r: seq<ZoneSource>, names: seq<string>)
    requires multiset(r) == multiset(entries)
    requires |entries| == |names|
    requires forall i :: 0 <= i < |entries| ==> entries[i].name == names[i]
    requires forall i, j :: 0 <= i < j < |names| ==> names[i] != names[j]
    ensures forall i, j :: 0 <= i < j < |r| ==> r[i].name != r[j].name
  {
    forall i, j | 0 <= i < j < |r|
      ensures r[i].name != r[j].name
    {
      assert r[i] in multiset(entries) && r[j] in multiset(entries);
      var a :| 0 <= a < |entries| && entries[a] == r[i];
      var b :| 0 <= b < |entries| && entries[b] == r[j];
      if a == b {
        EqualAtTwoPlaces(r, i, j);
        OnceInDistinct(entries, names, a);
      } else if a < b {
        assert names[a] != names[b];
      } else {
        assert names[b] != names[a];
      }
    }
  }

  /** An element found at two places of a sequence occurs at least twice. */
  lemma EqualAtTwoPlaces<T>(r: seq<T>, i: nat, j: nat)
    requires i < j < |r| && r[i] == r[j]
    ensures multiset(r)[r[i]] >= 2
  {
    assert r == r[..i] + [r[i]] + r[i + 1..j] + [r[j]] + r[j + 1..];
  }

  /** Entries named after distinct names occur once each. */
  lemma OnceInDistinct(entries: seq<ZoneSource>, names: seq<string>, a: nat)
    requires |entries| == |names| && a < |entries|
    requires forall i :: 0 <= i < |entries| ==> entries[i].name == names[i]
    requires forall i, j :: 0 <= i < j < |names| ==> names[i] != names[j]
    ensures multiset(entries)[entries[a]] == 1
  {
    assert entries == entries[..a] + [entries[a]] + entries[a + 1..];
    assert entries[a] !in entries[..a] by {
      forall k | 0 <= k < a ensures entries[k] != entries[a] { assert names[k] != names[a]; }
    }
    assert entries[a] !in entries[a + 1..] by {
      forall k | a < k < |entries| ensures entries[k] != entries[a] { assert names[a] != names[k]; }
    }
  }

  /** The picker lists the most common sources first; sources with the same count keep their first-seen order. */
  lemma SourcesByCount(mediaRooms: seq<MediaRoom>, c: int)
    ensures var r := ZoneSources(mediaRooms);
      forall i, j :: 0 <= i < j < |r| ==> r[i].count >= r[j].count
    ensures exists entries: seq<ZoneSource> ::
      ZoneSources(mediaRooms) == SortByKey(entries, MostCommonFirst)
      && (forall i :: 0 <= i < |entries| ==> entries[i].name == Distinct(Offers(mediaRooms))[i])
      && Filter(ZoneSources(mediaRooms), KeyIs(MostCommonFirst, c)) == Filter(entries, KeyIs(MostCommonFirst, c))
  {
    var entries := Entries(mediaRooms);
    SortByKeySorted(entries, MostCommonFirst);
    SortByKeyStable(entries, MostCommonFirst, c);
    var r := ZoneSources(mediaRooms);
    forall i, j | 0 <= i < j < |r|
      ensures r[i].count >= r[j].count
    {
      assert MostCommonFirst(r[i]) <= MostCommonFirst(r[j]);
    }
  }

  /**
   * When no room lists a provider twice, a source is universal exactly
   * when every room of the zone offers it.
   */
  lemma UniversalMeansEveryRoom(mediaRooms: seq<MediaRoom>, e: ZoneSource)
    requires forall i :: 0 <= i < |mediaRooms| ==> NoRepeats(mediaRooms[i].availableProviders)
    requires e in ZoneSources(mediaRooms)
    ensures e.isUniversal <==> forall i :: 0 <= i < |mediaRooms| ==> e.name in mediaRooms[i].availableProviders
  {
    SourcesCounted(mediaRooms);
    OccurrencesAtMostRooms(mediaRooms, e.name);
  }

  predicate NoRepeats(xs: seq<string>) {
    forall i, j :: 0 <= i < j < |xs| ==> xs[i] != xs[j]
  }

  lemma {:induction false} CountWithoutRepeats(xs: seq<string>, name: string)
    requires NoRepeats(xs)
    ensures Count(xs, Is(name)) == (if name in xs then 1 else 0)
    decreases |xs|
  {
    if xs != [] {
      assert NoRepeats(xs[1..]) by {
        forall i, j | 0 <= i < j < |xs[1..]| ensures xs[1..][i] != xs[1..][j] {
          assert xs[1..][i] == xs[i + 1] && xs[1..][j] == xs[j + 1];
        }
      }
      CountWithoutRepeats(xs[1..], name);
      if xs[0] == name {
        assert name !in xs[1..] by {
          forall k | 0 <= k < |xs[1..]| ensures xs[1..][k] != name { assert xs[1..][k] == xs[k + 1]; }
        }
      } else {
        assert name in xs <==> name in xs[1..];
      }
    }
  }

  /** Without repeats within a room, the count is at most the number of rooms, and reaches it exactly when every room lists the name. */
  lemma {:induction false} OccurrencesAtMostRooms(mediaRooms: seq<MediaRoom>, name: string)
    requires forall i :: 0 <= i < |mediaRooms| ==> NoRepeats(mediaRooms[i].availableProviders)
    ensures Occurrences(mediaRooms, name) <= |mediaRooms|
    ensures Occurrences(mediaRooms, name) == |mediaRooms| <==>
      forall i :: 0 <= i < |mediaRooms| ==> name in mediaRooms[i].availableProviders
    decreases |mediaRooms|
  {
    if mediaRooms != [] {
      var rest := mediaRooms[1..];
      assert forall i :: 1 <= i < |mediaRooms| ==> mediaRooms[i] == rest[i - 1];
      OccurrencesAtMostRooms(rest, name);
      CountWithoutRepeats(mediaRooms[0].availableProviders, name);
    }
  }

  /** `getDisplayName`: the room's name when the id is known, otherwise the media room's own name. */
  function DisplayName(roomNameMap: map<string, string>, roomId: Option<string>, defaultName: string): (r: string)
    ensures Truthy(roomId) && roomId.value in roomNameMap ==> r == roomNameMap[roomId.value]
    ensures !(Truthy(roomId) && roomId.value in roomNameMap) ==> r == defaultName
  {
    if Truthy(roomId) && roomId.value in roomNameMap then roomNameMap[roomId.value] else defaultName
  }

  /**
   * A media room in a known room is headed with that room's name (the last
   * room listed with its id), even when the name is empty; otherwise with
   * its own name.
   */
  lemma DisplayNameFromRooms(rooms: seq<Room>, m: MediaRoom, k: nat)
    requires k < |rooms| && m.roomId == Some(rooms[k].id) && rooms[k].id != ""
    requires forall j :: k < j < |rooms| ==> rooms[j].id != rooms[k].id
    ensures DisplayName(RoomMap(rooms), m.roomId, m.name) == rooms[k].name
  {
    RoomMapLastWins(rooms, k);
  }

  lemma DisplayNameUnknownRoom(rooms: seq<Room>, m: MediaRoom)
    requires m.roomId.None? || forall j :: 0 <= j < |rooms| ==> Some(rooms[j].id) != m.roomId
    ensures DisplayName(RoomMap(rooms), m.roomId, m.name) == m.name
  {
  }

  /** The power button: off when any room of the zone is playing, on otherwise. */
  function PowerToggleTarget(playingCount: int): (r: string)
    ensures r == "off" || r == "on"
    ensures r == "off" <==> playingCount > 0
  {
    if playingCount > 0 then "off" else "on"
  }
}

=== FILE: network_info.dfy ===
/**
 * The network-info endpoint: the host's IPv4 addresses, each classified as
 * reached over the VPN tunnel, over the home LAN, or otherwise, listed VPN
 * first, and the first URL of each of the two kinds offered for quick
 * access. The interface table is a parameter.
 */
module NetworkInfo {
  import opened Common
  import opened Sorting

  /** One address of an interface, as the operating system lists it. */
  datatype Net = Net(family: string, address: string, internal: bool)

  /** An interface name and its addresses (`None` when the table holds nothing for it). */
  datatype Interface = Interface(name: string, nets: Option<seq<Net>>)

  datatype Kind = Vpn | Lan | Other

  /** One listed address. */
  datatype Address = Address(name: string, ip: string, url: string, kind: Kind)

  const VpnPrefix: string := "192.168.3."
  const LanPrefix: string := "192.168.132."
  const Port: string := "3000"

  /** Only external IPv4 addresses are listed. */
  predicate Listed(n: Net) {
    n.family == "IPv4" && !n.internal
  }

  /** An adapter name that suggests a tunnel, in any case. */
  predicate TunnelName(name: string) {
    var l := Lower(name);
    Contains(l, "vpn") || Contains(l, "wireguard") || Contains(l, "wg") || Contains(l, "tun")
  }

  function Classify(name: string, address: string): (r: Kind)
    ensures r == Vpn <==> IsPrefix(VpnPrefix, address) || TunnelName(name)
    ensures r == Lan <==> !IsPrefix(VpnPrefix, address) && !TunnelName(name) && IsPrefix(LanPrefix, address)
  {
    if IsPrefix(VpnPrefix, address) || TunnelName(name) then Vpn
    else if IsPrefix(LanPrefix, address) then Lan
    else Other
  }

  /** The adapter name's case does not matter. */
  lemma ClassifyIgnoresCase(name: string, address: string)
    ensures Classify(Lower(name), address) == Classify(name, address)
  {
    LowerTwice(name);
  }

  function UrlOf(address: string): (r: string)
    ensures IsPrefix("http://", r) && |r| == |address| + 12
  {
    PrefixOfConcat("http://", address + ":" + Port);
    assert "http://" + address + ":" + Port == "http://" + (address + ":" + Port);
    "http://" + address + ":" + Port
  }

  function AddressOf(name: string, n: Net): (r: Address)
    ensures r.name == name && r.ip == n.address && r.url == UrlOf(n.address)
    ensures r.kind == Classify(name, n.address)
  {
    Address(name, n.address, UrlOf(n.address), Classify(name, n.address))
  }

  function AddressIn(name: string): Net -> Address {
    (n: Net) => AddressOf(name, n)
  }

  /** An entry whose URL and kind are the ones its own adapter name and address give. */
  predicate WellFormed(a: Address) {
    a.url == UrlOf(a.ip) && a.kind == Classify(a.name, a.ip)
  }

  /** The listed addresses of one interface, in the table's order. */
  function Group(name: string, nets: seq<Net>): (r: seq<Address>)
    ensures |r| <= |nets|
    decreases |nets|
  {
    if nets == [] then []
    else (if Listed(nets[0]) then [AddressOf(name, nets[0])] else []) + Group(name, nets[1..])
  }

  /** The listed addresses of every interface, in enumeration order. */
  function Collect(ifaces: seq<Interface>): (r: seq<Address>)
    decreases |ifaces|
  {
    if ifaces == [] then []
    else (if ifaces[0].nets.None? then [] else Group(ifaces[0].name, ifaces[0].nets.value)) + Collect(ifaces[1..])
  }

  /** An interface's entries are its listed nets, one each, in the table's order. */
  lemma {:induction false} GroupInOrder(name: string, nets: seq<Net>)
    ensures Group(name, nets) == Map(Filter(nets, Listed), AddressIn(name))
    decreases |nets|
  {
    if nets != [] {
      GroupInOrder(name, nets[1..]);
    }
  }

  lemma {:induction false} GroupWellFormed(name: string, nets: seq<Net>)
    ensures forall a :: a in Group(name, nets) ==> a.name == name && WellFormed(a)
    decreases |nets|
  {
    if nets != [] {
      GroupWellFormed(name, nets[1..]);
    }
  }

  /** Every collected entry carries the URL and kind of its own adapter name and address. */
  lemma {:induction false} CollectWellFormed(ifaces: seq<Interface>)
    ensures forall a :: a in Collect(ifaces) ==> WellFormed(a)
    decreases |ifaces|
  {
    if ifaces != [] {
      CollectWellFormed(ifaces[1..]);
      if ifaces[0].nets.Some? {
        GroupWellFormed(ifaces[0].name, ifaces[0].nets.value);
      }
    }
  }

  /** The interfaces contribute their groups in enumeration order. */
  lemma {:induction false} CollectAppend(xs: seq<Interface>, ys: seq<Interface>)
    ensures Collect(xs + ys) == Collect(xs) + Collect(ys)
    decreases |xs|
  {
    if xs == [] {
      assert xs + ys == ys;
    } else {
      var g := if xs[0].nets.None? then [] else Group(xs[0].name, xs[0].nets.value);
      assert (xs + ys)[0] == xs[0] && (xs + ys)[1..] == xs[1..] + ys;
      assert Collect(xs + ys) == g + Collect(xs[1..] + ys);
      CollectAppend(xs[1..], ys);
      assert Collect(xs) == g + Collect(xs[1..]);
    }
  }

  /** An address is listed exactly when it is an external IPv4 address of some interface. */
  lemma {:induction false} GroupMembers(name: string, nets: seq<Net>, a: Address)
    ensures a in Group(name, nets) <==> exists n :: n in nets && Listed(n) && a == AddressOf(name, n)
    decreases |nets|
  {
    if nets != [] {
      GroupMembers(name, nets[1..], a);
      assert forall n :: n in nets <==> n == nets[0] || n in nets[1..];
    }
  }

  lemma {:induction false} CollectMembers(ifaces: seq<Interface>, a: Address)
    ensures a in Collect(ifaces) <==>
      (exists i, n :: 0 <= i < |ifaces| && ifaces[i].nets.Some? && n in ifaces[i].nets.value && Listed(n)
        && a == AddressOf(ifaces[i].name, n))
    decreases |ifaces|
  {
    if ifaces != [] {
      CollectMembers(ifaces[1..], a);
      if ifaces[0].nets.Some? {
        GroupMembers(ifaces[0].name, ifaces[0].nets.value, a);
      }
      if a in Collect(ifaces[1..]) {
        var i, n :| 0 <= i < |ifaces[1..]| && ifaces[1..][i].nets.Some? && n in ifaces[1..][i].nets.value && Listed(n)
          && a == AddressOf(ifaces[1..][i].name, n);
        assert ifaces[i + 1] == ifaces[1..][i];
      }
      if exists i, n :: 0 <= i < |ifaces| && ifaces[i].nets.Some? && n in ifaces[i].nets.value && Listed(n)
          && a == AddressOf(ifaces[i].name, n) {
        var i, n :| 0 <= i < |ifaces| && ifaces[i].nets.Some? && n in ifaces[i].nets.value && Listed(n)
          && a == AddressOf(ifaces[i].name, n);
        if i > 0 {
          assert ifaces[1..][i - 1] == ifaces[i];
        }
      }
    }
  }

  /** VPN first, then LAN, then the rest. */
  function Rank(k: Kind): int {
    match k
    case Vpn => 0
    case Lan => 1
    case Other => 2
  }

  function AddressRank(a: Address): int {
    Rank(a.kind)
  }

  function KindIs(k: Kind): Address -> bool {
    (a: Address) => a.kind == k
  }

  /** The answer: the sorted list and the quick-access URLs. */
  datatype Info = Info(addresses: seq<Address>, fromVpnNetwork: Option<string>, fromLocalLan: Option<string>, fromThisMachine: string)

  function UrlOfFirst(xs: seq<Address>, k: Kind): Option<string> {
    match Find(xs, KindIs(k))
    case None => None
    case Some(a) => Some(a.url)
  }

  function Get(ifaces: seq<Interface>): (r: Info)
    ensures multiset(r.addresses) == multiset(Collect(ifaces))
    ensures SortedByKey(r.addresses, AddressRank)
    ensures r.fromVpnNetwork == UrlOfFirst(Collect(ifaces), Vpn)
    ensures r.fromLocalLan == UrlOfFirst(Collect(ifaces), Lan)
    ensures r.fromThisMachine == "http://localhost:3000"
  {
    var collected := Collect(ifaces);
    var sorted := SortByKey(collected, AddressRank);
    SortByKeySorted(collected, AddressRank);
    FirstSurvivesSort(collected, Vpn);
    FirstSurvivesSort(collected, Lan);
    Info(sorted, UrlOfFirst(sorted, Vpn), UrlOfFirst(sorted, Lan), "http://localhost:3000")
  }

  /** `find` gives the head of `filter`. */
  lemma {:induction false} FindIsFirstOfFilter<T(!new)>(xs: seq<T>, p: T -> bool)
    ensures Find(xs, p) == (if Filter(xs, p) == [] then None else Some(Filter(xs, p)[0]))
    decreases |xs|
  {
    if xs != [] && !p(xs[0]) {
      FindIsFirstOfFilter(xs[1..], p);
      var i := FindIndex(xs[1..], p);
      if i.Some? {
        assert FindIndex(xs, p) == Some(i.value + 1);
      }
    }
  }

  lemma KindIsKey(k: Kind)
    ensures forall x :: KindIs(k)(x) == KeyIs(AddressRank, Rank(k))(x)
  {
    forall x
      ensures KindIs(k)(x) == KeyIs(AddressRank, Rank(k))(x)
    {
      assert KeyIs(AddressRank, Rank(k))(x) == (AddressRank(x) == Rank(k));
    }
  }

  /** The sort is stable: the addresses of one kind keep their collected order. */
  lemma KindOrderKept(xs: seq<Address>, k: Kind)
    ensures Filter(SortByKey(xs, AddressRank), KindIs(k)) == Filter(xs, KindIs(k))
  {
    var sorted := SortByKey(xs, AddressRank);
    SortByKeyStable(xs, AddressRank, Rank(k));
    KindIsKey(k);
    FilterSame(sorted, KindIs(k), KeyIs(AddressRank, Rank(k)));
    FilterSame(xs, KindIs(k), KeyIs(AddressRank, Rank(k)));
  }

  /** Sorting by kind keeps the first address of each kind. */
  lemma FirstSurvivesSort(xs: seq<Address>, k: Kind)
    ensures UrlOfFirst(SortByKey(xs, AddressRank), k) == UrlOfFirst(xs, k)
  {
    var sorted := SortByKey(xs, AddressRank);
    KindOrderKept(xs, k);
    FindIsFirstOfFilter(sorted, KindIs(k));
    FindIsFirstOfFilter(xs, KindIs(k));
  }

  /** The answer lists the addresses of each kind in the order they were collected. */
  lemma GetKeepsKindOrder(ifaces: seq<Interface>, k: Kind)
    ensures Filter(Get(ifaces).addresses, KindIs(k)) == Filter(Collect(ifaces), KindIs(k))
  {
    KindOrderKept(Collect(ifaces), k);
  }

  /** A VPN address, when there is one, is offered for quick access and is listed first. */
  lemma VpnOffered(ifaces: seq<Interface>)
    requires exists a :: a in Collect(ifaces) && a.kind == Vpn
    ensures Get(ifaces).fromVpnNetwork.Some?
    ensures Get(ifaces).addresses != [] && Get(ifaces).addresses[0].kind == Vpn
  {
    var r := Get(ifaces);
    var a :| a in Collect(ifaces) && a.kind == Vpn;
    assert KindIs(Vpn)(a);
    assert Find(Collect(ifaces), KindIs(Vpn)).Some?;
    assert a in multiset(r.addresses);
    var j :| 0 <= j < |r.addresses| && r.addresses[j] == a;
    if j > 0 {
      assert AddressRank(r.addresses[0]) <= AddressRank(r.addresses[j]);
    }
  }
}

=== FILE: polling_store.dfy ===
/**
 * How often the app polls the controller: four intervals (active, and
 * after 1, 5 and 10 idle minutes) and three idle thresholds, all in
 * seconds, with the setters' lower bounds and the duration wording the
 * settings page shows.
 */
module PollingStore {
  import opened Common

  datatype PollingSettings = PollingSettings(
    activeInterval: int, idle1MinInterval: int, idle5MinInterval: int, idle10MinInterval: int,
    idleThreshold1: int, idleThreshold2: int, idleThreshold3: int)

  const Defaults: PollingSettings := PollingSettings(3, 10, 60, 1800, 60, 300, 600)

  /** The shortest interval and the shortest threshold a setter stores. */
  const MinInterval: int := 1
  const MinThreshold: int := 10

  function Max(a: int, b: int): int {
    if a >= b then a else b
  }

  /** Every interval at least a second and every threshold at least ten seconds. */
  predicate Valid(s: PollingSettings) {
    s.activeInterval >= MinInterval && s.idle1MinInterval >= MinInterval
    && s.idle5MinInterval >= MinInterval && s.idle10MinInterval >= MinInterval
    && s.idleThreshold1 >= MinThreshold && s.idleThreshold2 >= MinThreshold && s.idleThreshold3 >= MinThreshold
  }

  datatype Setting = Active | Idle1Min | Idle5Min | Idle10Min | Threshold1 | Threshold2 | Threshold3

  predicate IsInterval(k: Setting) {
    k == Active || k == Idle1Min || k == Idle5Min || k == Idle10Min
  }

  /** One setting's value; in valid settings it is at least its floor. */
  function Get(s: PollingSettings, k: Setting): (r: int)
    ensures Valid(s) ==> r >= (if IsInterval(k) then MinInterval else MinThreshold)
  {
    match k
    case Active => s.activeInterval
    case Idle1Min => s.idle1MinInterval
    case Idle5Min => s.idle5MinInterval
    case Idle10Min => s.idle10MinInterval
    case Threshold1 => s.idleThreshold1
    case Threshold2 => s.idleThreshold2
    case Threshold3 => s.idleThreshold3
  }

  /** The seven setters: an interval is stored as at least 1, a threshold as at least 10. */
  function Set(s: PollingSettings, k: Setting, seconds: int): (r: PollingSettings)
    ensures Get(r, k) == (if seconds >= (if IsInterval(k) then MinInterval else MinThreshold) then seconds
                          else if IsInterval(k) then MinInterval else MinThreshold)
    ensures forall other :: other != k ==> Get(r, other) == Get(s, other)
    ensures Valid(s) ==> Valid(r)
  {
    match k
    case Active => s.(activeInterval := Max(MinInterval, seconds))
    case Idle1Min => s.(idle1MinInterval := Max(MinInterval, seconds))
    case Idle5Min => s.(idle5MinInterval := Max(MinInterval, seconds))
    case Idle10Min => s.(idle10MinInterval := Max(MinInterval, seconds))
    case Threshold1 => s.(idleThreshold1 := Max(MinThreshold, seconds))
    case Threshold2 => s.(idleThreshold2 := Max(MinThreshold, seconds))
    case Threshold3 => s.(idleThreshold3 := Max(MinThreshold, seconds))
  }

  /** `resetToDefaults`. */
  function ResetToDefaults(s: PollingSettings): (r: PollingSettings)
    ensures r.activeInterval == 3 && r.idle1MinInterval == 10 && r.idle5MinInterval == 60 && r.idle10MinInterval == 1800
    ensures r.idleThreshold1 == 60 && r.idleThreshold2 == 300 && r.idleThreshold3 == 600
    ensures Valid(r)
  {
    Defaults
  }

  datatype PollingMs = PollingMs(
    active: int, idle1Min: int, idle5Min: int, idle10Min: int,
    one: int, two: int, three: int)

  /** `getPollingSettingsMs`: every value in milliseconds. */
  function GetPollingSettingsMs(s: PollingSettings): (r: PollingMs)
    ensures r.active == s.activeInterval * 1000 && r.idle1Min == s.idle1MinInterval * 1000
    ensures r.idle5Min == s.idle5MinInterval * 1000 && r.idle10Min == s.idle10MinInterval * 1000
    ensures r.one == s.idleThreshold1 * 1000 && r.two == s.idleThreshold2 * 1000 && r.three == s.idleThreshold3 * 1000
  {
    PollingMs(s.activeInterval * 1000, s.idle1MinInterval * 1000, s.idle5MinInterval * 1000,
      s.idle10MinInterval * 1000, s.idleThreshold1 * 1000, s.idleThreshold2 * 1000, s.idleThreshold3 * 1000)
  }

  /** Whatever the user types, the poller never waits less than a second or idles in under ten. */
  lemma SettersKeepTimersSane(s: PollingSettings, k: Setting, seconds: int)
    requires Valid(s)
    ensures var ms := GetPollingSettingsMs(Set(s, k, seconds));
      ms.active >= 1000 && ms.idle1Min >= 1000 && ms.idle5Min >= 1000 && ms.idle10Min >= 1000
      && ms.one >= 10000 && ms.two >= 10000 && ms.three >= 10000
  {
  }

  // ---------------------------------------------------------------------------
  // Durations as text
  // ---------------------------------------------------------------------------

  /** One part of a duration: a number and its unit letter. */
  function Part(n: nat, unit: char): string {
    NatToString(n) + [unit]
  }

  /** `formatDuration`: "45s", "2m", "2m 5s", "1h", "1h 30m" (seconds are dropped once past an hour). */
  function FormatDuration(seconds: int): (r: string)
    ensures seconds < 60 ==> r == IntToString(seconds) + "s"
    ensures 60 <= seconds < 3600 && seconds % 60 > 0 ==> r == Part(seconds / 60, 'm') + " " + Part(seconds % 60, 's')
    ensures 60 <= seconds < 3600 && seconds % 60 == 0 ==> r == Part(seconds / 60, 'm')
    ensures seconds >= 3600 && seconds % 3600 >= 60 ==> r == Part(seconds / 3600, 'h') + " " + Part((seconds % 3600) / 60, 'm')
    ensures seconds >= 3600 && seconds % 3600 < 60 ==> r == Part(seconds / 3600, 'h')
  {
    if seconds < 60 then IntToString(seconds) + "s"
    else if seconds < 3600 then
      var mins := seconds / 60;
      var secs := seconds % 60;
      if secs > 0 then Part(mins, 'm') + " " + Part(secs, 's') else Part(mins, 'm')
    else
      var hours := seconds / 3600;
      var mins := (seconds % 3600) / 60;
      if mins > 0 then Part(hours, 'h') + " " + Part(mins, 'm') else Part(hours, 'h')
  }

  function UnitSeconds(u: char): Option<int> {
    if u == 's' then Some(1) else if u == 'm' then Some(60) else if u == 'h' then Some(3600) else None
  }

  predicate AllDigits(s: string) {
    forall i :: 0 <= i < |s| ==> IsDigit(s[i])
  }

  /** Reads one "<digits><unit>" part. */
  function PartSeconds(part: string): Option<int> {
    if |part| < 2 || !AllDigits(part[..|part| - 1]) then None
    else match UnitSeconds(part[|part| - 1])
      case None => None
      case Some(f) => Some(DigitsValue(part[..|part| - 1]) * f)
  }

  function SumParts(parts: seq<string>): Option<int>
    decreases |parts|
  {
    if parts == [] then Some(0)
    else match (PartSeconds(parts[0]), SumParts(parts[1..]))
      case (Some(a), Some(b)) => Some(a + b)
      case _ => None
  }

  /** Reads a duration written as space-separated parts back into seconds. */
  function ParseDuration(s: string): Option<int> {
    SumParts(Split(s, ' '))
  }

  lemma PartOfNat(n: nat, u: char)
    requires UnitSeconds(u).Some?
    ensures ' ' !in Part(n, u)
    ensures PartSeconds(Part(n, u)) == Some(n * UnitSeconds(u).value)
  {
    var part := Part(n, u);
    assert part[..|part| - 1] == NatToString(n);
    DigitsValueOfNatToString(n);
  }

  lemma ReadOnePart(n: nat, u: char)
    requires UnitSeconds(u).Some?
    ensures ParseDuration(Part(n, u)) == Some(n * UnitSeconds(u).value)
  {
    var p := Part(n, u);
    PartOfNat(n, u);
    SplitNoSeparator(p, ' ');
    assert [p][1..] == [];
    assert SumParts([p]) == Some(n * UnitSeconds(u).value + 0);
  }

  lemma ReadTwoParts(a: nat, u: char, b: nat, v: char)
    requires UnitSeconds(u).Some? && UnitSeconds(v).Some?
    ensures ParseDuration(Part(a, u) + " " + Part(b, v)) == Some(a * UnitSeconds(u).value + b * UnitSeconds(v).value)
  {
    var x := Part(a, u);
    var y := Part(b, v);
    PartOfNat(a, u);
    PartOfNat(b, v);
    SplitNoSeparator(y, ' ');
    SplitAtSeparator(x, y, ' ');
    assert x + " " + y == x + [' '] + y;
    assert [x, y][1..] == [y];
    assert [y][1..] == [];
    assert SumParts([y]) == Some(b * UnitSeconds(v).value + 0);
  }

  lemma HourArithmetic(seconds: nat)
    requires seconds >= 3600
    ensures (seconds / 3600) * 3600 + ((seconds % 3600) / 60) * 60 == seconds - seconds % 60
  {
    var hours := seconds / 3600;
    var rest := seconds % 3600;
    var mins := rest / 60;
    var secs := rest % 60;
    assert hours * 3600 == (hours * 60) * 60;
    assert seconds == (hours * 60 + mins) * 60 + secs;
    ModOfSum(hours * 60 + mins, secs, seconds);
  }

  /** The remainder by sixty of `q * 60 + s`, for `s` below sixty, is `s`. */
  lemma ModOfSum(q: nat, s: nat, n: nat)
    requires s < 60 && n == q * 60 + s
    ensures n % 60 == s && n / 60 == q
  {
    var d := q - n / 60;
    assert d * 60 == n % 60 - s;
  }

  /**
   * Reading the text back gives the duration, except that past an hour
   * the leftover seconds are not shown.
   */
  lemma FormatDurationReadsBack(seconds: nat)
    ensures ParseDuration(FormatDuration(seconds)) == Some(if seconds < 3600 then seconds else seconds - seconds % 60)
  {
    if seconds < 60 {
      ReadOnePart(seconds, 's');
      assert FormatDuration(seconds) == Part(seconds, 's');
    } else if seconds < 3600 {
      var mins := seconds / 60;
      var secs := seconds % 60;
      if secs > 0 {
        ReadTwoParts(mins, 'm', secs, 's');
      } else {
        ReadOnePart(mins, 'm');
      }
    } else {
      HourArithmetic(seconds);
      var hours := seconds / 3600;
      var mins := (seconds % 3600) / 60;
      if mins > 0 {
        ReadTwoParts(hours, 'h', mins, 'm');
      } else {
        ReadOnePart(hours, 'h');
      }
    }
  }
}

=== FILE: rooms_route.dfy ===
/**
 * The rooms endpoint: the controller's room list, however it is wrapped,
 * with ids rendered as strings and area id 0 read as "no area".
 */
module RoomsRoute {
  import opened Common
  import opened Devices
  import opened Routes

  datatype CrestronRoom = CrestronRoom(id: int, name: string, areaId: Option<int>, areaName: Option<string>)

  /** `extractRooms`: the array, or the array under `rooms`, or nothing. */
  function ExtractRooms(data: Raw<CrestronRoom>): (r: seq<CrestronRoom>)
    ensures data.Array? ==> r == data.items
    ensures data.Object? && "rooms" in data.fields && data.fields["rooms"].Some? ==> r == data.fields["rooms"].value
    ensures !data.Array? && !(data.Object? && "rooms" in data.fields && data.fields["rooms"].Some?) ==> r == []
  {
    ExtractArray(data, "rooms")
  }

  /** `transformRoom`. */
  function TransformRoom(room: CrestronRoom): (r: Room)
    ensures r.id == IdText(room.id) && r.name == room.name && r.areaName == room.areaName
    ensures r.areaId.Some? <==> room.areaId.Some? && room.areaId.value != 0
    ensures r.areaId.Some? ==> r.areaId.value == IdText(room.areaId.value)
  {
    Room(IdText(room.id), room.name, OptionalId(room.areaId), room.areaName)
  }

  /** GET: 401 without both session headers, the client's failure with 500, else the rooms in order. */
  function Get(h: Headers, result: ClientResult<Raw<CrestronRoom>>): (r: Answer<seq<Room>>)
    ensures !HasAuth(h) ==> r == Unauthorized()
    ensures HasAuth(h) && !result.success ==> r.status == 500 && !r.success && r.error == result.error
    ensures HasAuth(h) && result.success ==> (r.status == 200 && r.success && r.data.Some?
      && |r.data.value| == |ExtractRooms(result.data)|
      && forall i :: 0 <= i < |r.data.value| ==> r.data.value[i] == TransformRoom(ExtractRooms(result.data)[i]))
  {
    if !HasAuth(h) then Unauthorized()
    else if result.success then Answer(200, true, None, Some(Map(ExtractRooms(result.data), TransformRoom)))
    else PassOn(result)
  }

  function RoomIds(rooms: seq<CrestronRoom>): seq<int> {
    Map(rooms, (r: CrestronRoom) => r.id)
  }

  /**
   * Rooms with distinct controller ids come out with distinct ids, and a
   * room that names a non-zero area keeps that area, as a string.
   */
  lemma GetKeepsRoomsApart(h: Headers, result: ClientResult<Raw<CrestronRoom>>)
    requires HasAuth(h) && result.success && DistinctInts(RoomIds(ExtractRooms(result.data)))
    ensures var rooms := Get(h, result).data.value;
      DistinctIds(Map(rooms, (r: Room) => r.id))
      && forall i :: 0 <= i < |rooms| ==>
           (ExtractRooms(result.data)[i].areaId.Some? && ExtractRooms(result.data)[i].areaId.value != 0
            <==> rooms[i].areaId.Some?)
  {
    var raw := ExtractRooms(result.data);
    var rooms := Get(h, result).data.value;
    IdTextKeepsDistinct(RoomIds(raw));
    assert Map(rooms, (r: Room) => r.id) == Map(RoomIds(raw), IdText);
  }
}

=== FILE: routes.dfy ===
/**
 * What the controller-facing API routes share: the two headers that carry
 * the session, the JSON answer with its HTTP status, the lenient reading
 * of a controller payload that may be an array or an object holding one,
 * and the rendering of the controller's numeric ids as strings.
 */
module Routes {
  import opened Common

  /** The `x-processor-ip` and `x-auth-key` request headers. */
  datatype Headers = Headers(processorIp: Option<string>, authKey: Option<string>)

  /** `getClientConfig` succeeds: both headers are present and non-empty. */
  predicate HasAuth(h: Headers) {
    Truthy(h.processorIp) && Truthy(h.authKey)
  }

  /** A JSON answer: its status, `success`, `error` and `data` fields. */
  datatype Answer<D> = Answer(status: int, success: bool, error: Option<string>, data: Option<D>)

  const MissingAuth: string := "Missing authentication headers"

  function Unauthorized<D>(): (r: Answer<D>)
    ensures r.status == 401 && !r.success && r.error == Some(MissingAuth) && r.data == None
  {
    Answer(401, false, Some(MissingAuth), None)
  }

  /** What a controller client call returns. */
  datatype ClientResult<D> = ClientResult(success: bool, data: D, error: Option<string>)

  /** A failed client result sent on as is, with status 500. */
  function PassOn<D, E>(result: ClientResult<D>): (r: Answer<E>)
    ensures r.status == 500 && r.success == result.success && r.error == result.error && r.data == None
  {
    Answer(500, result.success, result.error, None)
  }

  /** A JSON id in a request body: missing or null, a number, or a string. */
  datatype JsonId = NoId | NumberId(n: int) | TextId(s: string)

  /** `!!id`: 0 and "" are as absent as a missing id. */
  predicate TruthyId(id: JsonId) {
    (id.NumberId? && id.n != 0) || (id.TextId? && id.s != "")
  }

  /** A controller call that changes something: it returns a result, or it throws (with the message of an `Error`). */
  datatype CallReply = Returned(result: ClientResult<()>) | CallThrew(message: Option<string>)

  /**
   * A payload as the controller may send it: something falsy, an array, an
   * object whose fields may hold arrays (a field that is missing or null
   * is `None`), or some other truthy value.
   */
  datatype Raw<T> = Falsy | Array(items: seq<T>) | Object(fields: map<string, Option<seq<T>>>) | Scalar

  /** `extractArray(data, key)`: the array itself, or the array under `key`, or nothing. */
  function ExtractArray<T>(data: Raw<T>, key: string): (r: seq<T>)
    ensures data.Array? ==> r == data.items
    ensures data.Object? && key in data.fields && data.fields[key].Some? ==> r == data.fields[key].value
    ensures data.Falsy? || data.Scalar? ==> r == []
    ensures data.Object? && (key !in data.fields || data.fields[key].None?) ==> r == []
  {
    match data
    case Falsy => []
    case Array(items) => items
    case Object(fields) => if key in fields && fields[key].Some? then fields[key].value else []
    case Scalar => []
  }

  /** Whichever way the controller wraps a list, the list comes back out. */
  lemma ExtractUnwraps<T>(xs: seq<T>, key: string, others: map<string, Option<seq<T>>>)
    ensures ExtractArray(Array(xs), key) == xs
    ensures ExtractArray(Object(others[key := Some(xs)]), key) == xs
    ensures ExtractArray(Object(others - {key}), key) == []
  {
  }

  /** `String(id)` for a controller id. */
  function IdText(id: int): (r: string)
    ensures r != []
  {
    IntToString(id)
  }

  /** Different controller ids never render as the same string. */
  lemma IdTextInjective(a: int, b: int)
    requires IdText(a) == IdText(b)
    ensures a == b
  {
    var s := IdText(a);
    if a >= 0 && b >= 0 {
      NatToStringInjective(a, b);
    } else if a < 0 && b < 0 {
      assert s[1..] == NatToString(-a);
      assert s[1..] == NatToString(-b);
      NatToStringInjective(-a, -b);
    } else {
      assert false;
    }
  }

  /** `id ? String(id) : undefined`: a missing id and the id 0 both mean "none". */
  function OptionalId(id: Option<int>): (r: Option<string>)
    ensures r.Some? <==> id.Some? && id.value != 0
    ensures r.Some? ==> r.value == IdText(id.value)
  {
    if id.Some? && id.value != 0 then Some(IdText(id.value)) else None
  }

  /** Ids that are pairwise different. */
  predicate DistinctIds(ids: seq<string>) {
    forall i, j :: 0 <= i < j < |ids| ==> ids[i] != ids[j]
  }

  predicate DistinctInts(ids: seq<int>) {
    forall i, j :: 0 <= i < j < |ids| ==> ids[i] != ids[j]
  }

  /** Rendering distinct controller ids gives distinct strings. */
  lemma IdTextKeepsDistinct(ids: seq<int>)
    requires DistinctInts(ids)
    ensures DistinctIds(Map(ids, IdText))
  {
    var r := Map(ids, IdText);
    forall i, j | 0 <= i < j < |r|
      ensures r[i] != r[j]
    {
      if r[i] == r[j] {
        IdTextInjective(ids[i], ids[j]);
      }
    }
  }
}

=== FILE: scenes_route.dfy ===
/**
 * The scenes endpoint: listing the controller's scenes, and recalling one.
 * The request body and the controller's answers are parameters.
 */
module ScenesRoute {
  import opened Common
  import opened Devices
  import opened Routes

  datatype CrestronScene = CrestronScene(id: int, name: string, roomId: Option<int>, isActive: Option<bool>)

  /** `transformScene`: string ids, room id 0 read as none, inactive unless told otherwise. */
  function TransformScene(s: CrestronScene): (r: Scene)
    ensures r.id == IdText(s.id) && r.name == s.name && r.roomId == OptionalId(s.roomId)
    ensures r.isActive <==> s.isActive == Some(true)
  {
    Scene(IdText(s.id), s.name, OptionalId(s.roomId), s.isActive.GetOr(false))
  }

  /** GET: 401 without both session headers, the client's failure with 500, else the scenes in order. */
  function Get(h: Headers, result: ClientResult<Raw<CrestronScene>>): (r: Answer<seq<Scene>>)
    ensures !HasAuth(h) ==> r == Unauthorized()
    ensures HasAuth(h) && !result.success ==> r.status == 500 && !r.success && r.error == result.error
    ensures HasAuth(h) && result.success ==> (r.status == 200 && r.success && r.data.Some?
      && |r.data.value| == |ExtractArray(result.data, "scenes")|
      && forall i :: 0 <= i < |r.data.value| ==> r.data.value[i] == TransformScene(ExtractArray(result.data, "scenes")[i]))
  {
    if !HasAuth(h) then Unauthorized()
    else if result.success then Answer(200, true, None, Some(Map(ExtractArray(result.data, "scenes"), TransformScene)))
    else PassOn(result)
  }

  /** The POST body: read, or unreadable (the parser's message). */
  datatype SceneBody = Parsed(id: JsonId) | Unreadable(message: string)

  const MissingSceneId: string := "Missing scene id"
  const RecallFailed: string := "Failed to recall scene"

  /** What POST answered and which id, if any, it asked the controller to recall. */
  datatype PostOutcome = PostOutcome(answer: Answer<()>, recalled: Option<JsonId>)

  /** POST: headers first, then the body's id, then the recall. */
  function Post(h: Headers, body: SceneBody, reply: CallReply): (r: PostOutcome)
    ensures !HasAuth(h) ==> r == PostOutcome(Unauthorized(), None)
    ensures r.recalled.Some? <==> HasAuth(h) && body.Parsed? && TruthyId(body.id)
    ensures r.recalled.Some? ==> r.recalled.value == body.id
    ensures HasAuth(h) && body.Parsed? && !TruthyId(body.id) ==>
      r.answer.status == 400 && r.answer.error == Some(MissingSceneId)
    ensures HasAuth(h) && body.Unreadable? ==> r.answer.status == 500 && r.answer.error == Some(body.message)
    ensures r.recalled.Some? ==> (r.answer.status == 200 <==> reply.Returned? && reply.result.success)
    ensures r.recalled.Some? && r.answer.status != 200 ==> r.answer.status == 500
    ensures r.answer.success <==> r.answer.status == 200
  {
    if !HasAuth(h) then PostOutcome(Unauthorized(), None)
    else match body
      case Unreadable(message) => PostOutcome(Answer(500, false, Some(message), None), None)
      case Parsed(id) =>
        if !TruthyId(id) then PostOutcome(Answer(400, false, Some(MissingSceneId), None), None)
        else match reply
          case Returned(result) =>
            if result.success then PostOutcome(Answer(200, true, None, None), Some(id))
            else PostOutcome(PassOn(result), Some(id))
          case CallThrew(message) =>
            PostOutcome(Answer(500, false, Some(message.GetOr(RecallFailed)), None), Some(id))
  }

  /** The id 0 and the empty string never reach the controller. */
  lemma FalsyIdNeverRecalled(h: Headers, reply: CallReply)
    ensures Post(h, Parsed(NumberId(0)), reply).recalled == None
    ensures Post(h, Parsed(TextId("")), reply).recalled == None
    ensures Post(h, Parsed(NoId), reply).recalled == None
  {
  }
}

=== FILE: sorting.dfy ===
/**
 * A stable sort by an integer key, the model of `Array.prototype.sort` with
 * a numeric comparator `(a, b) => key(a) - key(b)`. ECMAScript requires the
 * sort to be stable, so elements with equal keys keep their relative order;
 * `SortByKeyStable` states exactly that.
 */
module Sorting {
  import opened Common

  ghost predicate SortedByKey<T(!new)>(xs: seq<T>, key: T -> int) {
    forall i, j :: 0 <= i < j < |xs| ==> key(xs[i]) <= key(xs[j])
  }

  /** The elements whose key is `c`. */
  function KeyIs<T(!new)>(key: T -> int, c: int): T -> bool {
    t => key(t) == c
  }

  /** Inserts `x` after every element whose key is not larger than its own. */
  function Insert<T(!new)>(s: seq<T>, x: T, key: T -> int): (r: seq<T>)
    ensures multiset(r) == multiset(s) + multiset{x}
    ensures |r| == |s| + 1
    decreases |s|
  {
    if s == [] || key(s[|s| - 1]) <= key(x) then s + [x]
    else
      assert s == s[..|s| - 1] + [s[|s| - 1]];
      Insert(s[..|s| - 1], x, key) + [s[|s| - 1]]
  }

  function SortByKey<T(!new)>(xs: seq<T>, key: T -> int): (r: seq<T>)
    ensures multiset(r) == multiset(xs)
    ensures |r| == |xs|
    decreases |xs|
  {
    if xs == [] then []
    else
      assert xs == xs[..|xs| - 1] + [xs[|xs| - 1]];
      Insert(SortByKey(xs[..|xs| - 1], key), xs[|xs| - 1], key)
  }

  lemma {:induction false} InsertSorted<T(!new)>(s: seq<T>, x: T, key: T -> int)
    requires SortedByKey(s, key)
    ensures SortedByKey(Insert(s, x, key), key)
    decreases |s|
  {
    if s != [] && key(s[|s| - 1]) > key(x) {
      var init := s[..|s| - 1];
      var last := s[|s| - 1];
      InsertSorted(init, x, key);
      var r0 := Insert(init, x, key);
      forall y | y in r0
        ensures key(y) <= key(last)
      {
        assert y in multiset(r0);
        if y != x {
          assert y in multiset(init);
          var k :| 0 <= k < |init| && init[k] == y;
          assert s[k] == y;
        }
      }
      var r := r0 + [last];
      forall i, j | 0 <= i < j < |r|
        ensures key(r[i]) <= key(r[j])
      {
        if j == |r| - 1 {
          assert r[i] in r0;
        }
      }
    }
  }

  /** The sorted result is ordered by key (ascending). */
  lemma {:induction false} SortByKeySorted<T(!new)>(xs: seq<T>, key: T -> int)
    ensures SortedByKey(SortByKey(xs, key), key)
    decreases |xs|
  {
    if xs != [] {
      SortByKeySorted(xs[..|xs| - 1], key);
      InsertSorted(SortByKey(xs[..|xs| - 1], key), xs[|xs| - 1], key);
    }
  }

  lemma {:induction false} InsertStable<T(!new)>(s: seq<T>, x: T, key: T -> int, c: int)
    ensures Filter(Insert(s, x, key), KeyIs(key, c))
         == Filter(s, KeyIs(key, c)) + Filter([x], KeyIs(key, c))
    decreases |s|
  {
    var p := KeyIs(key, c);
    if s == [] || key(s[|s| - 1]) <= key(x) {
      FilterAppend(s, [x], p);
    } else {
      var init := s[..|s| - 1];
      var last := s[|s| - 1];
      assert s == init + [last];
      InsertStable(init, x, key, c);
      var r0 := Insert(init, x, key);
      assert Insert(s, x, key) == r0 + [last];
      FilterAppend(r0, [last], p);
      FilterAppend(init, [last], p);
      FilterSingle(x, p);
      FilterSingle(last, p);
      SwapWhenOneEmpty(Filter(init, p), Filter([x], p), Filter([last], p));
    }
  }

  /** Two pieces of which at least one is empty may be swapped. */
  lemma SwapWhenOneEmpty<T>(a: seq<T>, b: seq<T>, c: seq<T>)
    requires b == [] || c == []
    ensures a + b + c == a + c + b
  {
    if b == [] {
      assert a + b == a && a + c + b == a + c;
    } else {
      assert a + c == a && a + b + c == a + b;
    }
  }

  /**
   * Stability: for every key value, the elements carrying it appear in the
   * output in the same order as in the input.
   */
  lemma {:induction false} SortByKeyStable<T(!new)>(xs: seq<T>, key: T -> int, c: int)
    ensures Filter(SortByKey(xs, key), KeyIs(key, c)) == Filter(xs, KeyIs(key, c))
    decreases |xs|
  {
    if xs != [] {
      var init := xs[..|xs| - 1];
      var last := xs[|xs| - 1];
      assert xs == init + [last];
      SortByKeyStable(init, key, c);
      InsertStable(SortByKey(init, key), last, key, c);
      FilterAppend(init, [last], KeyIs(key, c));
    }
  }

  /**
   * The first `k` of the sorted list are `k` of the smallest keys: every
   * element left out has a key no smaller than any element kept.
   */
  lemma PrefixOfSortedIsSmallest<T(!new)>(xs: seq<T>, key: T -> int, k: nat)
    requires k <= |xs|
    ensures var top := SortByKey(xs, key)[..k];
      multiset(top) <= multiset(xs)
      && forall x, c :: x in top && c in multiset(xs) - multiset(top) ==> key(x) <= key(c)
  {
    var sorted := SortByKey(xs, key);
    SortByKeySorted(xs, key);
    var top := sorted[..k];
    var rest := sorted[k..];
    assert sorted == top + rest;
    assert multiset(xs) == multiset(top) + multiset(rest);
    assert multiset(xs) - multiset(top) == multiset(rest);
    forall x, c | x in top && c in multiset(xs) - multiset(top)
      ensures key(x) <= key(c)
    {
      var i :| 0 <= i < k && top[i] == x;
      assert c in rest;
      var j :| 0 <= j < |rest| && rest[j] == c;
      assert sorted[i] == x && sorted[k + j] == c;
    }
  }

  /**
   * Cutting the sorted list after `k` elements keeps, for every key value,
   * the first of the elements carrying it, in input order.
   */
  lemma PrefixOfSortedStable<T(!new)>(xs: seq<T>, key: T -> int, k: nat, c: int)
    requires k <= |xs|
    ensures var kept := Filter(SortByKey(xs, key)[..k], KeyIs(key, c));
      |kept| <= |Filter(xs, KeyIs(key, c))| && kept == Filter(xs, KeyIs(key, c))[..|kept|]
  {
    var sorted := SortByKey(xs, key);
    SortByKeyStable(xs, key, c);
    assert sorted == sorted[..k] + sorted[k..];
    FilterAppend(sorted[..k], sorted[k..], KeyIs(key, c));
  }

  /** An element appended with a key no smaller than any other ends up last. */
  lemma AppendLastPlace<T(!new)>(xs: seq<T>, x: T, key: T -> int)
    requires forall y :: y in xs ==> key(y) <= key(x)
    ensures SortByKey(xs + [x], key) == SortByKey(xs, key) + [x]
  {
    var ys := xs + [x];
    assert ys[..|ys| - 1] == xs;
    var sorted := SortByKey(xs, key);
    if sorted != [] {
      assert sorted[|sorted| - 1] in multiset(xs);
    }
  }

  /** Sorting neither adds nor drops an element. */
  lemma SortByKeyMembers<T(!new)>(xs: seq<T>, key: T -> int)
    ensures forall x :: x in SortByKey(xs, key) <==> x in xs
  {
    var r := SortByKey(xs, key);
    forall x
      ensures x in r <==> x in xs
    {
      assert x in r <==> x in multiset(r);
      assert x in xs <==> x in multiset(xs);
    }
  }
}

=== FILE: suggestion_store.dfy ===
/**
 * Command suggestions for the assistant: commands the user typed, counted
 * case- and whitespace-insensitively; the latest activities; and the
 * ranked list shown under the input. The clock is a parameter, and the
 * recency-weighted score used for ranking is an abstract integer score
 * (higher ranks first).
 */
module SuggestionStore {
  import opened Common
  import opened Sorting

  datatype CommandUsage = CommandUsage(command: string, count: int, lastUsed: int)

  datatype Activity = Activity(
    room: Option<string>, area: Option<string>, deviceType: Option<string>,
    action: Option<string>, timestamp: int)

  datatype SuggestionState = SuggestionState(
    contextual: seq<string>, frequent: seq<CommandUsage>,
    recent: seq<Activity>, defaults: seq<string>)

  const DefaultSuggestions: seq<string> := ["Turn off all lights", "What's on?", "Set house to 70\U{00B0}"]

  const Initial: SuggestionState := SuggestionState([], [], [], DefaultSuggestions)

  /** At most this many frequent commands and this many activities are kept. */
  const MaxFrequent: nat := 50
  const MaxActivities: nat := 20

  /** Replies too common to be worth suggesting. */
  const StopWords: seq<string> := ["yes", "no", "ok", "okay", "sure"]

  function NormalizeCommand(command: string): (r: string)
    ensures |r| <= |command| && Trimmed(r) && NoUpper(r)
    ensures Trim(Lower(r)) == r
  {
    LowerTrimmedSpec(command);
    LowerTrimmedTwice(command);
    Trim(Lower(command))
  }

  /** Whether `recordCommand` skips a command with this normalised form. */
  predicate Ignored(normalized: string) {
    |normalized| < 5 || normalized in StopWords
  }

  /** Every stop word is shorter than five characters, so the length test alone decides. */
  lemma IgnoredIffShort(normalized: string)
    ensures Ignored(normalized) <==> |normalized| < 5
  {
    assert forall w :: w in StopWords ==> |w| < 5;
  }

  function SameCommand(normalized: string): CommandUsage -> bool {
    (c: CommandUsage) => NormalizeCommand(c.command) == normalized
  }

  /** Higher counts first: ascending order of the negated count. */
  function ByCountDesc(c: CommandUsage): int {
    -c.count
  }

  /** One more use of every entry for the command. */
  function Bump(frequent: seq<CommandUsage>, normalized: string, now: int): (r: seq<CommandUsage>)
    ensures |r| == |frequent|
    ensures forall i :: 0 <= i < |frequent| ==> r[i].command == frequent[i].command
    ensures forall i :: 0 <= i < |frequent| && SameCommand(normalized)(frequent[i]) ==>
      r[i].count == frequent[i].count + 1 && r[i].lastUsed == now
    ensures forall i :: 0 <= i < |frequent| && !SameCommand(normalized)(frequent[i]) ==> r[i] == frequent[i]
  {
    seq(|frequent|, i requires 0 <= i < |frequent| =>
      if SameCommand(normalized)(frequent[i]) then frequent[i].(count := frequent[i].count + 1, lastUsed := now)
      else frequent[i])
  }

  /** `recordCommand`. */
  function RecordCommand(s: SuggestionState, command: string, now: int): (r: SuggestionState)
    ensures r.(frequent := s.frequent) == s
    ensures Ignored(NormalizeCommand(command)) ==> r == s
    ensures !Ignored(NormalizeCommand(command)) && Any(s.frequent, SameCommand(NormalizeCommand(command))) ==>
      r.frequent == Bump(s.frequent, NormalizeCommand(command), now)
    ensures !Ignored(NormalizeCommand(command)) && !Any(s.frequent, SameCommand(NormalizeCommand(command))) ==>
      r.frequent == Take(SortByKey(s.frequent + [CommandUsage(command, 1, now)], ByCountDesc), MaxFrequent)
    ensures |r.frequent| <= if |s.frequent| < MaxFrequent then |s.frequent| + 1 else |s.frequent|
  {
    var normalized := NormalizeCommand(command);
    if Ignored(normalized) then s
    else if Find(s.frequent, SameCommand(normalized)).Some? then
      s.(frequent := Bump(s.frequent, normalized, now))
    else
      s.(frequent := Take(SortByKey(s.frequent + [CommandUsage(command, 1, now)], ByCountDesc), MaxFrequent))
  }

  /** Recording a command already in the list adds one to its count and keeps the length. */
  lemma RecordKnownCommand(s: SuggestionState, command: string, now: int, i: nat)
    requires !Ignored(NormalizeCommand(command))
    requires i < |s.frequent| && NormalizeCommand(s.frequent[i].command) == NormalizeCommand(command)
    ensures var r := RecordCommand(s, command, now);
      |r.frequent| == |s.frequent| && r.frequent[i].count == s.frequent[i].count + 1
      && r.frequent[i].command == s.frequent[i].command
  {
    assert SameCommand(NormalizeCommand(command))(s.frequent[i]);
  }

  /**
   * Recording a new command: the list is ordered by count, descending, and
   * holds the new command with count 1 unless the list was already full.
   */
  lemma {:induction false} RecordNewCommand(s: SuggestionState, command: string, now: int)
    requires !Ignored(NormalizeCommand(command))
    requires forall c :: c in s.frequent ==> !SameCommand(NormalizeCommand(command))(c)
    ensures var r := RecordCommand(s, command, now);
      SortedByKey(r.frequent, ByCountDesc)
      && |r.frequent| == (if |s.frequent| + 1 < MaxFrequent then |s.frequent| + 1 else MaxFrequent)
      && (|s.frequent| < MaxFrequent ==> CommandUsage(command, 1, now) in r.frequent)
  {
    var normalized := NormalizeCommand(command);
    var sorted := SortByKey(s.frequent + [CommandUsage(command, 1, now)], ByCountDesc);
    assert !Any(s.frequent, SameCommand(normalized));
    SortByKeySorted(s.frequent + [CommandUsage(command, 1, now)], ByCountDesc);
    var r := Take(sorted, MaxFrequent);
    forall i, j | 0 <= i < j < |r| ensures ByCountDesc(r[i]) <= ByCountDesc(r[j]) {
      assert r[i] == sorted[i] && r[j] == sorted[j];
    }
    if |s.frequent| < MaxFrequent {
      assert CommandUsage(command, 1, now) in multiset(sorted);
      assert r == sorted;
    }
  }

  predicate Counted(frequent: seq<CommandUsage>) {
    forall c :: c in frequent ==> c.count >= 1
  }

  /**
   * Once the list is full, a new command never gets in: it ties with or
   * loses to every kept count, and the stable sort leaves it last, where the
   * cut to fifty drops it.
   */
  lemma FullListDropsNewCommand(s: SuggestionState, command: string, now: int)
    requires !Ignored(NormalizeCommand(command)) && !Any(s.frequent, SameCommand(NormalizeCommand(command)))
    requires Counted(s.frequent) && |s.frequent| >= MaxFrequent
    ensures RecordCommand(s, command, now).frequent == SortByKey(s.frequent, ByCountDesc)[..MaxFrequent]
  {
    var x := CommandUsage(command, 1, now);
    forall y | y in s.frequent ensures ByCountDesc(y) <= ByCountDesc(x) { }
    AppendLastPlace(s.frequent, x, ByCountDesc);
    var sorted := SortByKey(s.frequent, ByCountDesc);
    assert RecordCommand(s, command, now).frequent == Take(sorted + [x], MaxFrequent);
    TakeOfLonger(sorted, [x], MaxFrequent);
  }

  lemma TakeOfLonger<T>(a: seq<T>, b: seq<T>, n: nat)
    requires n <= |a|
    ensures Take(a + b, n) == a[..n]
  {
    assert (a + b)[..n] == a[..n];
  }

  /** `recordActivity`: newest first, at most twenty. */
  function RecordActivity(s: SuggestionState, room: Option<string>, area: Option<string>, deviceType: Option<string>,
                          action: Option<string>, now: int): (r: SuggestionState)
    ensures r.(recent := s.recent) == s
    ensures |r.recent| == if |s.recent| + 1 < MaxActivities then |s.recent| + 1 else MaxActivities
    ensures r.recent[0] == Activity(room, area, deviceType, action, now)
    ensures r.recent[1..] == Take(s.recent, MaxActivities - 1)
  {
    s.(recent := Take([Activity(room, area, deviceType, action, now)] + s.recent, MaxActivities))
  }

  /** The non-empty values present, in order (`.filter(Boolean)`). */
  function Present(xs: seq<Option<string>>): (r: seq<string>)
    ensures forall x :: x in r <==> Some(x) in xs && x != ""
    decreases |xs|
  {
    if xs == [] then []
    else (if Truthy(xs[0]) then [xs[0].value] else []) + Present(xs[1..])
  }

  /** Five minutes, in milliseconds. */
  const RecentWindow: int := 5 * 60 * 1000

  datatype RecentContext = RecentContext(rooms: seq<string>, areas: seq<string>, actions: seq<string>)

  function RecentActivities(s: SuggestionState, now: int): (r: seq<Activity>)
    ensures forall a :: a in r <==> a in s.recent && a.timestamp > now - RecentWindow
  {
    Filter(s.recent, (a: Activity) => a.timestamp > now - RecentWindow)
  }

  /** One field of each activity, in order. */
  function Field(recent: seq<Activity>, f: Activity -> Option<string>): (r: seq<Option<string>>)
    ensures |r| == |recent| && forall i :: 0 <= i < |recent| ==> r[i] == f(recent[i])
  {
    seq(|recent|, i requires 0 <= i < |recent| => f(recent[i]))
  }

  /** The distinct non-empty values of one field, in order of first appearance. */
  function Values(recent: seq<Activity>, f: Activity -> Option<string>): (r: seq<string>)
    ensures forall x :: x in r <==> exists a :: a in recent && f(a) == Some(x) && x != ""
    ensures forall i, j :: 0 <= i < j < |r| ==> r[i] != r[j]
  {
    var values := Field(recent, f);
    assert forall x :: Some(x) in values <==> exists a :: a in recent && f(a) == Some(x) by {
      forall x | Some(x) in values ensures exists a :: a in recent && f(a) == Some(x) {
        var i :| 0 <= i < |values| && values[i] == Some(x);
        assert recent[i] in recent;
      }
      forall x | exists a :: a in recent && f(a) == Some(x) ensures Some(x) in values {
        var a :| a in recent && f(a) == Some(x);
        var i :| 0 <= i < |recent| && recent[i] == a;
        assert values[i] == Some(x);
      }
    }
    Distinct(Present(values))
  }

  function RoomOf(a: Activity): Option<string> { a.room }
  function AreaOf(a: Activity): Option<string> { a.area }
  function ActionOf(a: Activity): Option<string> { a.action }

  /** `getRecentContext`: the distinct rooms, areas and actions of the last five minutes. */
  function GetRecentContext(s: SuggestionState, now: int): (r: RecentContext)
    ensures forall room :: room in r.rooms <==>
      exists a :: a in s.recent && a.timestamp > now - RecentWindow && a.room == Some(room) && room != ""
    ensures forall area :: area in r.areas <==>
      exists a :: a in s.recent && a.timestamp > now - RecentWindow && a.area == Some(area) && area != ""
    ensures forall action :: action in r.actions <==>
      exists a :: a in s.recent && a.timestamp > now - RecentWindow && a.action == Some(action) && action != ""
    ensures forall i, j :: 0 <= i < j < |r.rooms| ==> r.rooms[i] != r.rooms[j]
    ensures forall i, j :: 0 <= i < j < |r.areas| ==> r.areas[i] != r.areas[j]
    ensures forall i, j :: 0 <= i < j < |r.actions| ==> r.actions[i] != r.actions[j]
  {
    var recent := RecentActivities(s, now);
    RecentContext(Values(recent, RoomOf), Values(recent, AreaOf), Values(recent, ActionOf))
  }

  function Commands(cs: seq<CommandUsage>): (r: seq<string>)
    ensures |r| == |cs| && forall i :: 0 <= i < |cs| ==> r[i] == cs[i].command
  {
    seq(|cs|, i requires 0 <= i < |cs| => cs[i].command)
  }

  /** Whether `d` matches one of `top`, ignoring case and surrounding space. */
  predicate Covered(top: seq<string>, d: string) {
    exists t :: t in top && NormalizeCommand(t) == NormalizeCommand(d)
  }

  function NotCovered(top: seq<string>): string -> bool {
    (d: string) => !Covered(top, d)
  }

  /** Best score first: the sort key is the negated score. */
  function ByScoreDesc(score: CommandUsage -> int): CommandUsage -> int {
    (c: CommandUsage) => 0 - score(c)
  }

  /**
   * `scored.sort((a, b) => b.score - a.score).slice(0, limit)`: the `limit`
   * best-scored usages (all of them when there are fewer), best first;
   * nothing left out scores above anything kept.
   */
  function TopUsages(s: SuggestionState, limit: nat, score: CommandUsage -> int): (u: seq<CommandUsage>)
    ensures |u| == if limit < |s.frequent| then limit else |s.frequent|
    ensures forall i, j :: 0 <= i < j < |u| ==> score(u[i]) >= score(u[j])
    ensures multiset(u) <= multiset(s.frequent)
    ensures forall x, c :: x in u && c in multiset(s.frequent) - multiset(u) ==> score(x) >= score(c)
  {
    var k := if limit < |s.frequent| then limit else |s.frequent|;
    BestFirst(s.frequent, score, k);
    SortByKey(s.frequent, ByScoreDesc(score))[..k]
  }

  /** The first `k` after sorting by descending score are ranked, drawn from the list, and the best. */
  lemma BestFirst(xs: seq<CommandUsage>, score: CommandUsage -> int, k: nat)
    requires k <= |xs|
    ensures var u := SortByKey(xs, ByScoreDesc(score))[..k];
      (forall i, j :: 0 <= i < j < |u| ==> score(u[i]) >= score(u[j]))
      && multiset(u) <= multiset(xs)
      && (forall x, c :: x in u && c in multiset(xs) - multiset(u) ==> score(x) >= score(c))
  {
    var key := ByScoreDesc(score);
    var sorted := SortByKey(xs, key);
    var u := sorted[..k];
    SortByKeySorted(xs, key);
    PrefixOfSortedIsSmallest(xs, key, k);
    forall i, j | 0 <= i < j < |u|
      ensures score(u[i]) >= score(u[j])
    {
      assert u[i] == sorted[i] && u[j] == sorted[j];
      assert key(sorted[i]) <= key(sorted[j]);
    }
    forall x, c | x in u && c in multiset(xs) - multiset(u)
      ensures score(x) >= score(c)
    {
      assert key(x) <= key(c);
    }
  }

  /** Among usages with equal scores, the kept ones are the first listed. */
  lemma TopUsagesStable(s: SuggestionState, limit: nat, score: CommandUsage -> int, c: int)
    ensures var kept := Filter(TopUsages(s, limit, score), KeyIs(ByScoreDesc(score), c));
      var all := Filter(s.frequent, KeyIs(ByScoreDesc(score), c));
      |kept| <= |all| && kept == all[..|kept|]
  {
    var k := if limit < |s.frequent| then limit else |s.frequent|;
    PrefixOfSortedStable(s.frequent, ByScoreDesc(score), k, c);
  }

  /** The commands of the best-scored usages, best first. */
  function TopFrequent(s: SuggestionState, limit: nat, score: CommandUsage -> int): (r: seq<string>)
    ensures |r| <= limit && |r| <= |s.frequent|
    ensures |r| == |TopUsages(s, limit, score)|
    ensures forall i :: 0 <= i < |r| ==> r[i] == TopUsages(s, limit, score)[i].command
  {
    Commands(TopUsages(s, limit, score))
  }

  /**
   * `getTopSuggestions(limit)`: the assistant's own suggestions if it gave
   * any; else the frequent commands, padded with the defaults they do not
   * already cover; else the defaults.
   */
  function GetTopSuggestions(s: SuggestionState, limit: nat, score: CommandUsage -> int): (r: seq<string>)
    ensures |r| <= limit
    ensures s.contextual != [] ==> r == Take(s.contextual, limit)
    ensures s.contextual == [] && s.frequent == [] ==> r == Take(s.defaults, limit)
    ensures s.contextual == [] && s.frequent != [] ==>
      var top := TopFrequent(s, limit, score);
      |top| <= |r| && r[..|top|] == top
      && (forall k :: |top| <= k < |r| ==> r[k] in s.defaults && !Covered(top, r[k]))
      && r == Take(top + Filter(s.defaults, NotCovered(top)), limit)
  {
    if s.contextual != [] then Take(s.contextual, limit)
    else if s.frequent != [] then
      var top := TopFrequent(s, limit, score);
      if |top| < limit then
        var remaining := Filter(s.defaults, NotCovered(top));
        TakeAfterPrefix(top, remaining, limit);
        Take(top + remaining, limit)
      else
        TakeOfLonger(top, Filter(s.defaults, NotCovered(top)), limit);
        assert top[..limit] == top;
        top
    else Take(s.defaults, limit)
  }

  /** Cutting `top + rest` to `n`, with `top` no longer than `n`, keeps `top` whole and continues with `rest`. */
  lemma TakeAfterPrefix<T>(top: seq<T>, rest: seq<T>, n: nat)
    requires |top| <= n
    ensures var r := Take(top + rest, n);
      |top| <= |r| && r[..|top|] == top && forall k :: |top| <= k < |r| ==> r[k] == rest[k - |top|]
  {
  }

  /** The suggestions shown always come from the source that has priority. */
  lemma SuggestionsFromOneSource(s: SuggestionState, limit: nat, score: CommandUsage -> int, k: nat)
    requires k < |GetTopSuggestions(s, limit, score)|
    ensures var r := GetTopSuggestions(s, limit, score);
      (s.contextual != [] ==> r[k] in s.contextual)
      && (s.contextual == [] && s.frequent == [] ==> r[k] in s.defaults)
      && (s.contextual == [] && s.frequent != [] ==>
            r[k] in s.defaults || exists c :: c in s.frequent && c.command == r[k])
  {
    var r := GetTopSuggestions(s, limit, score);
    if s.contextual == [] && s.frequent != [] {
      var top := TopFrequent(s, limit, score);
      if k < |top| {
        var sorted := SortByKey(s.frequent, (c: CommandUsage) => -score(c));
        assert r[k] == sorted[k].command;
        assert sorted[k] in multiset(s.frequent);
      }
    }
  }

  /** `setContextualSuggestions`. */
  function SetContextualSuggestions(s: SuggestionState, suggestions: seq<string>): (r: SuggestionState)
    ensures r.contextual == suggestions && r.(contextual := s.contextual) == s
  {
    s.(contextual := suggestions)
  }

  /** `resetFrequentCommands`: forgets the user's history and the assistant's suggestions, keeps the defaults. */
  function ResetFrequentCommands(s: SuggestionState): (r: SuggestionState)
    ensures r.frequent == [] && r.contextual == [] && r.recent == [] && r.defaults == s.defaults
  {
    s.(frequent := [], contextual := [], recent := [])
  }

  /** After a reset the defaults are what is suggested. */
  lemma ResetShowsDefaults(s: SuggestionState, limit: nat, score: CommandUsage -> int)
    ensures GetTopSuggestions(ResetFrequentCommands(s), limit, score) == Take(s.defaults, limit)
  {
  }
}

=== FILE: thermostat_control.dfy ===
/**
 * Rooms with a main thermostat and an optional floor-heat unit: how units
 * are paired per room, how a mode change on one is carried to the other,
 * the whole-house set-point command, and the shut-off of floor heat once
 * the room is warm. Which units are floor heat, and when a room counts as
 * warm enough, are decided by code outside this model: both are taken as
 * parameters.
 */
module ThermostatControl {
  import opened Common
  import opened Devices
  import opened DeviceStore

  // ---------------------------------------------------------------------------
  // Pairing
  // ---------------------------------------------------------------------------

  datatype ThermostatPair = ThermostatPair(
    roomId: string, roomName: string, main: Thermostat, floorHeat: Option<Thermostat>)

  /** Whether `t` is placed in room `roomId`. */
  function InRoom(roomId: string): Thermostat -> bool {
    (t: Thermostat) => t.roomId == Some(roomId)
  }

  /**
   * The distinct room ids of the thermostats that have one, in order of
   * first appearance (the insertion order of the grouping map).
   */
  function RoomOrder(ts: seq<Thermostat>): (r: seq<string>)
    ensures forall i, j :: 0 <= i < j < |r| ==> r[i] != r[j]
    ensures forall id :: id in r <==> exists t :: t in ts && Truthy(t.roomId) && t.roomId.value == id
    ensures forall id :: id in r ==> id != []
    decreases |ts|
  {
    if ts == [] then []
    else
      var init := ts[..|ts| - 1];
      var last := ts[|ts| - 1];
      var before := RoomOrder(init);
      assert forall t :: t in ts <==> t in init || t == last by {
        assert ts == init + [last];
      }
      if Truthy(last.roomId) && last.roomId.value !in before then before + [last.roomId.value]
      else before
  }

  /** `room?.name || "Room <id>"`. */
  function RoomName(rooms: seq<Room>, roomId: string): (r: string)
    ensures match Find(rooms, (room: Room) => room.id == roomId)
      case Some(room) => r == (if room.name != "" then room.name else "Room " + roomId)
      case None => r == "Room " + roomId
  {
    match Find(rooms, (room: Room) => room.id == roomId)
    case Some(room) => if room.name != "" then room.name else "Room " + roomId
    case None => "Room " + roomId
  }

  function Not(p: Thermostat -> bool): Thermostat -> bool {
    (t: Thermostat) => !p(t)
  }

  /** The pair for one room's (non-empty) list of units. */
  function PairFor(roomId: string, name: string, group: seq<Thermostat>, isFloorHeat: Thermostat -> bool): (r: ThermostatPair)
    requires group != []
    ensures r.roomId == roomId && r.roomName == name
    ensures r.main in group
    ensures (exists t :: t in group && !isFloorHeat(t)) ==>
      Some(r.main) == Find(group, Not(isFloorHeat)) && r.floorHeat == Find(group, isFloorHeat)
    ensures (forall t :: t in group ==> isFloorHeat(t)) ==>
      r.main == group[0] && r.floorHeat == None
  {
    var floorHeat := Find(group, isFloorHeat);
    match Find(group, Not(isFloorHeat))
    case Some(main) => ThermostatPair(roomId, name, main, floorHeat)
    case None =>
      assert isFloorHeat(group[0]);
      ThermostatPair(roomId, name, floorHeat.value, None)
  }

  /** `getThermostatPairs`: one pair per room that has a thermostat, in order of first appearance. */
  function GetThermostatPairs(s: DeviceState, isFloorHeat: Thermostat -> bool): (r: seq<ThermostatPair>)
    ensures |r| == |RoomOrder(s.thermostats)|
    ensures forall i :: 0 <= i < |r| ==> r[i].roomId == RoomOrder(s.thermostats)[i]
    ensures forall i :: 0 <= i < |r| ==> r[i].main in s.thermostats && r[i].main.roomId == Some(r[i].roomId)
    ensures forall i :: 0 <= i < |r| ==> r[i].roomName == RoomName(s.rooms, r[i].roomId)
  {
    var order := RoomOrder(s.thermostats);
    seq(|order|, i requires 0 <= i < |order| =>
      var group := Filter(s.thermostats, InRoom(order[i]));
      assert group != [] by {
        assert order[i] in order;
        var t :| t in s.thermostats && Truthy(t.roomId) && t.roomId.value == order[i];
        assert InRoom(order[i])(t);
      }
      PairFor(order[i], RoomName(s.rooms, order[i]), group, isFloorHeat))
  }

  /** Thermostats without a room are never paired, and no room gets two pairs. */
  lemma PairsCoverRooms(s: DeviceState, isFloorHeat: Thermostat -> bool)
    ensures var r := GetThermostatPairs(s, isFloorHeat);
      (forall i, j :: 0 <= i < j < |r| ==> r[i].roomId != r[j].roomId)
      && (forall t :: t in s.thermostats && Truthy(t.roomId) ==> exists i :: 0 <= i < |r| && r[i].roomId == t.roomId.value)
      && (forall i :: 0 <= i < |r| ==> r[i].roomId != [])
  {
    var r := GetThermostatPairs(s, isFloorHeat);
    var order := RoomOrder(s.thermostats);
    assert forall i :: 0 <= i < |r| ==> r[i].roomId == order[i];
    forall t | t in s.thermostats && Truthy(t.roomId)
      ensures exists i :: 0 <= i < |r| && r[i].roomId == t.roomId.value
    {
      assert t.roomId.value in order;
      var i :| 0 <= i < |order| && order[i] == t.roomId.value;
      assert r[i].roomId == order[i];
    }
    assert forall i :: 0 <= i < |r| ==> order[i] in order;
  }

  /**
   * Within a pair, the main unit is the room's first unit that is not
   * floor heat and the floor heat its first floor-heat unit; a room with
   * floor heat only makes that unit its main and has no floor heat.
   */
  lemma PairRoles(s: DeviceState, isFloorHeat: Thermostat -> bool, i: nat)
    requires i < |GetThermostatPairs(s, isFloorHeat)|
    ensures var p := GetThermostatPairs(s, isFloorHeat)[i];
      var group := Filter(s.thermostats, InRoom(p.roomId));
      group != [] &&
      ((exists t :: t in group && !isFloorHeat(t)) ==>
        Some(p.main) == Find(group, Not(isFloorHeat)) && p.floorHeat == Find(group, isFloorHeat)) &&
      ((forall t :: t in group ==> isFloorHeat(t)) ==> p.main == group[0] && p.floorHeat.None?)
  {
    var order := RoomOrder(s.thermostats);
    var group := Filter(s.thermostats, InRoom(order[i]));
    assert order[i] in order;
    var t :| t in s.thermostats && Truthy(t.roomId) && t.roomId.value == order[i];
    assert InRoom(order[i])(t);
    assert t in group;
  }

  // ---------------------------------------------------------------------------
  // Mode coupling
  // ---------------------------------------------------------------------------

  /** A request to the thermostat endpoint. */
  datatype Request =
    | ModeRequest(id: string, mode: ThermostatMode)
    | SetPointRequest(id: string, heat: Option<int>, cool: Option<int>)

  /** The outcome of a coordinated command: the state, the value returned and the requests sent, in order. */
  datatype ClimateOutcome = ClimateOutcome(state: DeviceState, ok: bool, requests: seq<Request>)

  function ModePatch(mode: ThermostatMode): ThermostatPatch {
    ThermostatPatch(Some(mode), None, None, None)
  }

  /** Floor heat knows only heat and off. */
  function FloorHeatMode(mode: ThermostatMode): (r: ThermostatMode)
    ensures r == Heat <==> mode == Heat
    ensures r == Heat || r == Off
  {
    if mode == Heat then Heat else Off
  }

  /**
   * `setRoomThermostatMode`: the main unit takes `mode`, the floor heat
   * (when named) heat or off. The two requests go out one after the
   * other, so a main request that throws means the floor request is never sent.
   */
  function SetRoomThermostatMode(s: DeviceState, mainId: string, floorHeatId: Option<string>, mode: ThermostatMode,
                                 mainReply: WriteReply, floorReply: WriteReply): (r: ClimateOutcome)
    ensures var s1 := UpdateThermostat(s, mainId, ModePatch(mode));
      r.state == if Truthy(floorHeatId) then UpdateThermostat(s1, floorHeatId.value, ModePatch(FloorHeatMode(mode))) else s1
    ensures |r.requests| >= 1 && r.requests[0] == ModeRequest(mainId, mode)
    ensures |r.requests| == 2 <==> Truthy(floorHeatId) && mainReply.Answered?
    ensures |r.requests| == 2 ==> r.requests[1] == ModeRequest(floorHeatId.value, FloorHeatMode(mode))
    ensures |r.requests| <= 2
    ensures r.ok <==> Succeeded(mainReply) && (!Truthy(floorHeatId) || Succeeded(floorReply))
  {
    var s1 := UpdateThermostat(s, mainId, ModePatch(mode));
    if !Truthy(floorHeatId) then
      ClimateOutcome(s1, Succeeded(mainReply), [ModeRequest(mainId, mode)])
    else
      var floorId := floorHeatId.value;
      var s2 := UpdateThermostat(s1, floorId, ModePatch(FloorHeatMode(mode)));
      if mainReply.Threw? then ClimateOutcome(s2, false, [ModeRequest(mainId, mode)])
      else ClimateOutcome(s2, Succeeded(mainReply) && Succeeded(floorReply),
        [ModeRequest(mainId, mode), ModeRequest(floorId, FloorHeatMode(mode))])
  }

  /**
   * In the optimistic state the floor heat is in heat mode exactly when the
   * requested room mode is heat (the two ids being different units).
   */
  lemma RoomModeCouplesFloorHeat(s: DeviceState, mainId: string, floorId: string, mode: ThermostatMode,
                                 mainReply: WriteReply, floorReply: WriteReply, i: nat)
    requires floorId != "" && i < |s.thermostats| && s.thermostats[i].id == floorId
    ensures var r := SetRoomThermostatMode(s, mainId, Some(floorId), mode, mainReply, floorReply);
      (r.state.thermostats[i].mode == Heat <==> mode == Heat)
      && (r.state.thermostats[i].mode == Heat || r.state.thermostats[i].mode == Off)
  {
  }

  /**
   * `setFloorHeatMode`: the floor heat takes heat or off; switching it to
   * heat also puts the main unit (when named) into heat, in a second request.
   */
  function SetFloorHeatMode(s: DeviceState, floorHeatId: string, mainId: Option<string>, mode: ThermostatMode,
                            floorReply: WriteReply, mainReply: WriteReply): (r: ClimateOutcome)
    ensures var effective := FloorHeatMode(mode);
      var s1 := UpdateThermostat(s, floorHeatId, ModePatch(effective));
      r.state == if effective == Heat && Truthy(mainId) then UpdateThermostat(s1, mainId.value, ModePatch(Heat)) else s1
    ensures |r.requests| >= 1 && r.requests[0] == ModeRequest(floorHeatId, FloorHeatMode(mode))
    ensures |r.requests| == 2 <==> mode == Heat && Truthy(mainId) && floorReply.Answered?
    ensures |r.requests| == 2 ==> r.requests[1] == ModeRequest(mainId.value, Heat)
    ensures |r.requests| <= 2
    ensures r.ok <==> Succeeded(floorReply) && (mode != Heat || !Truthy(mainId) || Succeeded(mainReply))
  {
    var effective := FloorHeatMode(mode);
    var s1 := UpdateThermostat(s, floorHeatId, ModePatch(effective));
    if effective == Heat && Truthy(mainId) then
      var s2 := UpdateThermostat(s1, mainId.value, ModePatch(Heat));
      if floorReply.Threw? then ClimateOutcome(s2, false, [ModeRequest(floorHeatId, effective)])
      else ClimateOutcome(s2, Succeeded(floorReply) && Succeeded(mainReply),
        [ModeRequest(floorHeatId, effective), ModeRequest(mainId.value, Heat)])
    else
      ClimateOutcome(s1, Succeeded(floorReply), [ModeRequest(floorHeatId, effective)])
  }

  /** Turning floor heat off never touches the main unit. */
  lemma FloorHeatOffLeavesMain(s: DeviceState, floorHeatId: string, mainId: string, mode: ThermostatMode,
                               floorReply: WriteReply, mainReply: WriteReply, i: nat)
    requires mode != Heat && i < |s.thermostats| && s.thermostats[i].id == mainId && mainId != floorHeatId
    ensures SetFloorHeatMode(s, floorHeatId, Some(mainId), mode, floorReply, mainReply).state.thermostats[i]
      == s.thermostats[i]
  {
  }

  // ---------------------------------------------------------------------------
  // Patching many units
  // ---------------------------------------------------------------------------

  /** `for (id of ids) updateThermostat(id, p)`. */
  function PatchEach(s: DeviceState, ids: seq<string>, p: ThermostatPatch): DeviceState
    decreases |ids|
  {
    if ids == [] then s else PatchEach(UpdateThermostat(s, ids[0], p), ids[1..], p)
  }

  lemma PatchTwice(t: Thermostat, p: ThermostatPatch)
    ensures PatchThermostat(PatchThermostat(t, p), p) == PatchThermostat(t, p)
  {
  }

  /** Patching each listed id in turn patches exactly the units whose id is listed, once. */
  lemma {:induction false} PatchEachSpec(s: DeviceState, ids: seq<string>, p: ThermostatPatch)
    ensures var r := PatchEach(s, ids, p);
      r.(thermostats := s.thermostats) == s && |r.thermostats| == |s.thermostats|
      && forall i :: 0 <= i < |s.thermostats| ==>
        r.thermostats[i] == if s.thermostats[i].id in ids then PatchThermostat(s.thermostats[i], p) else s.thermostats[i]
    decreases |ids|
  {
    if ids != [] {
      var s1 := UpdateThermostat(s, ids[0], p);
      PatchEachSpec(s1, ids[1..], p);
      var r := PatchEach(s, ids, p);
      forall i | 0 <= i < |s.thermostats|
        ensures r.thermostats[i] == if s.thermostats[i].id in ids then PatchThermostat(s.thermostats[i], p) else s.thermostats[i]
      {
        var t := s.thermostats[i];
        assert s1.thermostats[i].id == t.id;
        assert t.id in ids <==> t.id == ids[0] || t.id in ids[1..] by {
          assert ids == [ids[0]] + ids[1..];
        }
        if t.id == ids[0] {
          PatchTwice(t, p);
        }
      }
    }
  }

  function Ids(ts: seq<Thermostat>): (r: seq<string>)
    ensures |r| == |ts| && forall i :: 0 <= i < |ts| ==> r[i] == ts[i].id
  {
    seq(|ts|, i requires 0 <= i < |ts| => ts[i].id)
  }

  // ---------------------------------------------------------------------------
  // Whole-house set point
  // ---------------------------------------------------------------------------

  /** Which set points the second round writes: heat only, cool only, or both. */
  function SetPointPayload(mode: Option<ThermostatMode>, temperature: int): (r: (Option<int>, Option<int>))
    ensures r.0 == (if mode == Some(Cool) then None else Some(temperature))
    ensures r.1 == (if mode == Some(Heat) then None else Some(temperature))
  {
    if mode == Some(Heat) then (Some(temperature), None)
    else if mode == Some(Cool) then (None, Some(temperature))
    else (Some(temperature), Some(temperature))
  }

  function ModeRequests(ids: seq<string>, mode: ThermostatMode): (r: seq<Request>)
    ensures |r| == |ids| && forall i :: 0 <= i < |ids| ==> r[i] == ModeRequest(ids[i], mode)
  {
    seq(|ids|, i requires 0 <= i < |ids| => ModeRequest(ids[i], mode))
  }

  function SetPointRequests(ids: seq<string>, payload: (Option<int>, Option<int>)): (r: seq<Request>)
    ensures |r| == |ids| && forall i :: 0 <= i < |ids| ==> r[i] == SetPointRequest(ids[i], payload.0, payload.1)
  {
    seq(|ids|, i requires 0 <= i < |ids| => SetPointRequest(ids[i], payload.0, payload.1))
  }

  function AllAnswered(ids: seq<string>, reply: string -> WriteReply): (r: bool)
    ensures r <==> forall i :: 0 <= i < |ids| ==> reply(ids[i]).Answered?
  {
    forall i :: 0 <= i < |ids| ==> reply(ids[i]).Answered?
  }

  function AllSucceeded(ids: seq<string>, reply: string -> WriteReply): (r: bool)
    ensures r <==> forall i :: 0 <= i < |ids| ==> Succeeded(reply(ids[i]))
  {
    forall i :: 0 <= i < |ids| ==> Succeeded(reply(ids[i]))
  }

  /**
   * `setAllThermostatsTemp`: every unit takes the temperature as both set
   * points (and the mode, when given). With a mode, a round of mode
   * requests goes first; their refusals are ignored, but one that throws
   * aborts before any set point is sent. `modeReply`/`pointReply` answer
   * the request for each unit id.
   */
  function SetAllThermostatsTemp(s: DeviceState, temperature: int, mode: Option<ThermostatMode>,
                                 modeReply: string -> WriteReply, pointReply: string -> WriteReply): (r: ClimateOutcome)
    ensures |r.state.thermostats| == |s.thermostats| && r.state.(thermostats := s.thermostats) == s
    ensures forall i :: 0 <= i < |s.thermostats| ==>
      r.state.thermostats[i] == PatchThermostat(s.thermostats[i], ThermostatPatch(mode, Some(temperature), Some(temperature), None))
    ensures var ids := Ids(s.thermostats);
      var modeRound := if mode.Some? then ModeRequests(ids, mode.value) else [];
      var aborted := mode.Some? && !AllAnswered(ids, modeReply);
      r.requests == modeRound + (if aborted then [] else SetPointRequests(ids, SetPointPayload(mode, temperature)))
      && (r.ok <==> !aborted && AllSucceeded(ids, pointReply))
  {
    var ids := Ids(s.thermostats);
    var patch := ThermostatPatch(mode, Some(temperature), Some(temperature), None);
    var s1 := PatchEach(s, ids, patch);
    PatchEachSpec(s, ids, patch);
    assert forall i :: 0 <= i < |s.thermostats| ==> s.thermostats[i].id in ids by {
      forall i | 0 <= i < |s.thermostats| ensures s.thermostats[i].id in ids {
        assert ids[i] == s.thermostats[i].id;
      }
    }
    var modeRound := if mode.Some? then ModeRequests(ids, mode.value) else [];
    if mode.Some? && !AllAnswered(ids, modeReply) then
      ClimateOutcome(s1, false, modeRound)
    else
      ClimateOutcome(s1, AllSucceeded(ids, pointReply), modeRound + SetPointRequests(ids, SetPointPayload(mode, temperature)))
  }

  // ---------------------------------------------------------------------------
  // Satisfaction shut-off
  // ---------------------------------------------------------------------------

  /** A pair whose floor heat should be switched off: both units heating and the room warm enough. */
  predicate ShutsOff(p: ThermostatPair, isSatisfied: Thermostat -> bool) {
    p.floorHeat.Some? && p.main.mode == Heat && p.floorHeat.value.mode == Heat && isSatisfied(p.main)
  }

  /** The floor-heat ids to switch off, in pair order. */
  function ShutOffIds(pairs: seq<ThermostatPair>, isSatisfied: Thermostat -> bool): (r: seq<string>)
    ensures |r| <= |pairs|
    ensures forall id :: id in r <==> exists p :: p in pairs && ShutsOff(p, isSatisfied) && p.floorHeat.value.id == id
    decreases |pairs|
  {
    if pairs == [] then []
    else
      var rest := ShutOffIds(pairs[1..], isSatisfied);
      assert forall p :: p in pairs <==> p == pairs[0] || p in pairs[1..];
      if ShutsOff(pairs[0], isSatisfied) then [pairs[0].floorHeat.value.id] + rest else rest
  }

  /**
   * `checkTemperatureSatisfaction`: every floor-heat unit whose pair shuts
   * off is set to off, one mode request each; nothing else changes.
   */
  function CheckTemperatureSatisfaction(s: DeviceState, isFloorHeat: Thermostat -> bool,
                                        isSatisfied: Thermostat -> bool): (r: ClimateOutcome)
    ensures var ids := ShutOffIds(GetThermostatPairs(s, isFloorHeat), isSatisfied);
      r.requests == ModeRequests(ids, Off)
      && |r.state.thermostats| == |s.thermostats| && r.state.(thermostats := s.thermostats) == s
      && forall i :: 0 <= i < |s.thermostats| ==>
        r.state.thermostats[i] == if s.thermostats[i].id in ids then s.thermostats[i].(mode := Off) else s.thermostats[i]
    ensures r.ok
  {
    var ids := ShutOffIds(GetThermostatPairs(s, isFloorHeat), isSatisfied);
    PatchEachSpec(s, ids, ModePatch(Off));
    ClimateOutcome(PatchEach(s, ids, ModePatch(Off)), true, ModeRequests(ids, Off))
  }

  /**
   * A unit is switched off only if it is the floor heat of some pair whose
   * main unit is heating and satisfied while the floor heat is heating too.
   */
  lemma ShutOffOnlyWhenSatisfied(s: DeviceState, isFloorHeat: Thermostat -> bool, isSatisfied: Thermostat -> bool, i: nat)
    requires i < |s.thermostats|
    requires CheckTemperatureSatisfaction(s, isFloorHeat, isSatisfied).state.thermostats[i] != s.thermostats[i]
    ensures exists p :: (p in GetThermostatPairs(s, isFloorHeat) && p.floorHeat.Some?
      && p.floorHeat.value.id == s.thermostats[i].id && p.main.mode == Heat
      && p.floorHeat.value.mode == Heat && isSatisfied(p.main))
  {
  }
}

=== FILE: weather_store.dfy ===
/**
 * Outside weather and the "smart" heat/cool choice the whole-house climate
 * control offers: below 55°F always heat, above 80°F always cool, in
 * between heat only when it is colder outside than the target. Fetches are
 * cached for ten minutes; the clock reading and the reply are parameters.
 */
module WeatherStore {
  import opened Common
  import opened Devices

  datatype WeatherState = WeatherState(
    outsideTemp: Option<int>, humidity: Option<int>, windSpeed: Option<int>,
    lastFetched: Option<int>, isLoading: bool, error: Option<string>)

  const Initial: WeatherState := WeatherState(None, None, None, None, false, None)

  /** The reading the weather endpoint returns; humidity and wind may be missing. */
  datatype WeatherData = WeatherData(temperature: int, humidity: Option<int>, windSpeed: Option<int>)

  /** `setWeatherData`: store the reading, stamp it with `now`, clear the error; loading is untouched. */
  function SetWeatherData(s: WeatherState, data: WeatherData, now: int): (r: WeatherState)
    ensures r.outsideTemp == Some(data.temperature)
    ensures r.humidity == data.humidity && r.windSpeed == data.windSpeed
    ensures r.lastFetched == Some(now) && r.error == None
    ensures r.isLoading == s.isLoading
  {
    s.(outsideTemp := Some(data.temperature), humidity := data.humidity, windSpeed := data.windSpeed,
       lastFetched := Some(now), error := None)
  }

  /** `setError`: record the error and stop loading; the last reading stays. */
  function SetError(s: WeatherState, error: Option<string>): (r: WeatherState)
    ensures r.error == error && !r.isLoading
    ensures r.outsideTemp == s.outsideTemp && r.humidity == s.humidity
    ensures r.windSpeed == s.windSpeed && r.lastFetched == s.lastFetched
  {
    s.(error := error, isLoading := false)
  }

  const ColdThreshold: int := 55
  const HotThreshold: int := 80

  /** `determineMode`. */
  function DetermineMode(outsideTemp: int, targetTemp: int): (r: ThermostatMode)
    ensures r == Heat || r == Cool
    ensures outsideTemp < ColdThreshold ==> r == Heat
    ensures outsideTemp > HotThreshold ==> r == Cool
    ensures ColdThreshold <= outsideTemp <= HotThreshold ==> (r == Heat <==> outsideTemp < targetTemp)
  {
    if outsideTemp < ColdThreshold then Heat
    else if outsideTemp > HotThreshold then Cool
    else if outsideTemp < targetTemp then Heat
    else Cool
  }

  /** The `${t}°F` fragment. */
  function Degrees(t: int): string {
    IntToString(t) + "\U{00B0}F"
  }

  /** The `"<verb> recommended (<detail>)"` sentence shape. */
  function Sentence(verb: string, detail: string): string {
    verb + " recommended (" + detail + ")"
  }

  /** The in-band detail: `outside X°F <rel> target Y°F`. */
  function Versus(outsideTemp: int, rel: string, targetTemp: int): string {
    "outside " + Degrees(outsideTemp) + rel + "target " + Degrees(targetTemp)
  }

  /**
   * `getModeRecommendation`. Its wording agrees with the mode: it begins
   * with "Heating" exactly when `DetermineMode` says heat and with
   * "Cooling" exactly when it says cool; inside the band it names the
   * target.
   */
  function GetModeRecommendation(outsideTemp: int, targetTemp: int): (r: string)
    ensures IsPrefix("Heating", r) <==> DetermineMode(outsideTemp, targetTemp) == Heat
    ensures IsPrefix("Cooling", r) <==> DetermineMode(outsideTemp, targetTemp) == Cool
    ensures ColdThreshold <= outsideTemp <= HotThreshold ==> Contains(r, "target " + Degrees(targetTemp))
  {
    var mode := DetermineMode(outsideTemp, targetTemp);
    if outsideTemp < ColdThreshold then
      SentenceVerb("Heating", "Cooling", Degrees(outsideTemp) + " outside");
      Sentence("Heating", Degrees(outsideTemp) + " outside")
    else if outsideTemp > HotThreshold then
      SentenceVerb("Cooling", "Heating", Degrees(outsideTemp) + " outside");
      Sentence("Cooling", Degrees(outsideTemp) + " outside")
    else if mode == Heat then
      SentenceVerb("Heating", "Cooling", Versus(outsideTemp, " < ", targetTemp));
      SentenceNamesTarget("Heating", outsideTemp, " < ", targetTemp);
      Sentence("Heating", Versus(outsideTemp, " < ", targetTemp))
    else
      SentenceVerb("Cooling", "Heating", Versus(outsideTemp, " > ", targetTemp));
      SentenceNamesTarget("Cooling", outsideTemp, " > ", targetTemp);
      Sentence("Cooling", Versus(outsideTemp, " > ", targetTemp))
  }

  lemma SentenceVerb(verb: string, other: string, detail: string)
    requires verb != [] && other != [] && verb[0] != other[0]
    ensures IsPrefix(verb, Sentence(verb, detail)) && !IsPrefix(other, Sentence(verb, detail))
  {
    var rest := " recommended (" + detail + ")";
    assert Sentence(verb, detail) == verb + rest;
    PrefixOfConcat(verb, rest);
  }

  lemma Infix(head: string, mid: string, tail: string)
    ensures Contains(head + mid + tail, mid)
  {
    var r := head + mid + tail;
    assert r[|head|..|head| + |mid|] == mid;
    ContainsOccurrence(r, mid, |head|);
  }

  lemma Regroup(a: string, b: string, c: string, e: string)
    ensures a + (b + c) + e == (a + b) + c + e
  {
  }

  lemma SentenceNamesTarget(verb: string, outsideTemp: int, rel: string, targetTemp: int)
    ensures Contains(Sentence(verb, Versus(outsideTemp, rel, targetTemp)), "target " + Degrees(targetTemp))
  {
    var lead := verb + " recommended (";
    var before := "outside " + Degrees(outsideTemp) + rel;
    var mid := "target " + Degrees(targetTemp);
    assert Versus(outsideTemp, rel, targetTemp) == before + mid;
    assert Sentence(verb, Versus(outsideTemp, rel, targetTemp)) == lead + (before + mid) + ")";
    Regroup(lead, before, mid, ")");
    Infix(lead + before, mid, ")");
  }

  /** Ten minutes, in milliseconds. */
  const CacheDuration: int := 10 * 60 * 1000

  /** What the weather endpoint did: answered with a JSON body, or the request threw. */
  datatype WeatherReply =
    | Answered(success: bool, data: Option<WeatherData>, error: Option<string>)
    | ThrewError(message: string)
    | ThrewOther

  const FetchFailed: string := "Failed to fetch weather"

  datatype FetchOutcome = FetchOutcome(state: WeatherState, ok: bool, fetched: bool)

  /** Whether a reading from `lastFetched` is still fresh at `now`. */
  predicate Fresh(s: WeatherState, now: int) {
    s.lastFetched.Some? && now - s.lastFetched.value < CacheDuration
  }

  /**
   * `fetchWeather(force)`: an unforced call with a fresh reading answers at
   * once; otherwise the endpoint is asked, and the reading or an error is
   * stored, with loading cleared at the end.
   */
  function FetchWeather(s: WeatherState, force: bool, now: int, reply: WeatherReply): (r: FetchOutcome)
    ensures !force && Fresh(s, now) ==> r == FetchOutcome(s, true, false)
    ensures r.fetched <==> force || !Fresh(s, now)
    ensures r.fetched ==> !r.state.isLoading
    ensures r.fetched ==> (r.ok <==> reply.Answered? && reply.success && reply.data.Some?)
    ensures r.fetched && r.ok ==> r.state == SetWeatherData(s, reply.data.value, now).(isLoading := false)
    ensures r.fetched && !r.ok ==> (r.state.outsideTemp == s.outsideTemp && r.state.lastFetched == s.lastFetched
      && r.state.error == Some(match reply
           case Answered(_, _, e) => if Truthy(e) then e.value else FetchFailed
           case ThrewError(m) => m
           case ThrewOther => FetchFailed))
  {
    if !force && Fresh(s, now) then FetchOutcome(s, true, false)
    else
      var loading := s.(isLoading := true);
      match reply
      case Answered(success, data, error) =>
        if success && data.Some? then FetchOutcome(SetWeatherData(loading, data.value, now).(isLoading := false), true, true)
        else FetchOutcome(SetError(loading, Some(OrElse(error, Some(FetchFailed)).value)).(isLoading := false), false, true)
      case ThrewError(m) => FetchOutcome(SetError(loading, Some(m)).(isLoading := false), false, true)
      case ThrewOther => FetchOutcome(SetError(loading, Some(FetchFailed)).(isLoading := false), false, true)
  }

  /** Two unforced fetches within ten minutes of a stored reading: the second asks nothing and changes nothing. */
  lemma CachedFetchIsFree(s: WeatherState, now: int, later: int, reply1: WeatherReply, reply2: WeatherReply)
    requires now <= later < now + CacheDuration
    ensures var first := FetchWeather(s, false, now, reply1);
      first.ok && first.fetched ==> FetchWeather(first.state, false, later, reply2) == FetchOutcome(first.state, true, false)
  {
  }
}
